=== FILE: README.md ===
# sql-visualizer lineage core in Dafny

This project models the parser core of sql-visualizer. That core takes the
syntax tree of a SQL statement and turns it into a column-lineage graph:
one table node per source table, CTE and result table, one column node per
column, and typed edges between them. It then projects that graph onto the
diagram's nodes and edges, lays the diagram out in layers, and works out
which parts of the SQL text to highlight for each column.

The modules follow the source files:

| module | source |
|---|---|
| `GraphStore` | `src/parser/graph/GraphBuilder.ts`: the deduplicating graph store |
| `Alias` | `src/parser/alias.ts`: the scoped alias table |
| `SetOps` | `src/parser/setOps.ts`: flattening a UNION/INTERSECT/EXCEPT chain |
| `AstWalker` | `src/parser/astWalker.ts`: the recursive walk that drives the store |
| `Layering`, `Stacking`, `Layout` | `assignPositionsWithTopologicalSort` in `src/parser/graphGeneratorcopy.ts` |
| `Dialects` | `normalizeDatabaseName` in `src/parser/graphGeneratorcopy.ts` |
| `Diagram` | the diagram projections and `sqlAstToGraph` in `src/parser/graphGeneratorcopy.ts` |
| `LineIndex`, `LocTree`, `LocAliases`, `LocResolver` | `src/parser/locResolver.ts`: the highlight map |
| `LegacyGraphGenerator` | `src/parser/graphGenerator.ts`: the earlier generator |
| `LegacyParser` | `src/parser/parser.ts`: the first generator |

Shared definitions:

- `SqlAst` gives the syntax tree as the code reads it. An absent string
  field (`as`, `db`, `table`) is `""`. Optional positions are `Option`s.
- `GraphTypes` gives the graph and diagram records.
- `Dicts` gives the insertion-ordered dictionary that stands for the
  JavaScript objects and `Map`s used as indexes.
- `Filters` gives `filter` and `find`.
- `Strings` gives `replace`, `trim` and `toLowerCase`.
- `Wrappers` gives `Option` and `Result`.
- `FreshNames` gives the supply of fresh name suffixes.

Some operations change state step by step in the source. Those are
methods over classes or over values that the methods reassign:

- `GraphBuilder`, `AliasResolver`, `WalkCtx`, `Session` and `ParserSession`;
- the loops of Kahn's algorithm, of the stacking, of the highlight passes
  and of `computeLineStarts` and `toLineCol`.

Each such method is proved against a specification function or predicate.

In these places the model follows the code as written:

- The legacy generator in `graphGenerator.ts` matches table nodes by
  comparing `name`/`alias` values. `null` and `undefined` take part in
  those comparisons, so an unaliased candidate can match an unaliased node
  of a different table. This is modelled with a three-valued `JsText`.
- Edge ids in `graphGenerator.ts` are made from the handles alone. Every
  handle-less `table_TO_table` edge therefore gets the same id
  (`HandlelessEdgesShareId`).
- In `parser.ts`, all `used_in_expr` edges share one id, and so do all
  `join` edges, because their handles are fixed strings
  (`TraversalEdgesShareId`).
- In `parser.ts`, a CTE column is linked to its source only through its
  raw qualifier, with no alias resolution.
- In `astWalker.ts`, a CTE body is always walked with the CTE's own id.
  Its final "link body to CTE" step therefore never adds an edge.

## Model

| member | source | states |
|---|---|---|
| GraphStore.GraphBuilder.constructor | src/parser/graph/GraphBuilder.ts:4-6 | the store starts empty and satisfies its invariant: unique node ids, unique edge ids, no self-loop |
| GraphStore.GraphBuilder.EnsureTable | src/parser/graph/GraphBuilder.ts:8-17 | returns `table_<name>`; a known table is left unchanged, otherwise exactly one table node is added; the invariant is kept |
| GraphStore.GraphBuilder.EnsureColumn | src/parser/graph/GraphBuilder.ts:19-28 | returns `<table>_<column>`; a known column is left unchanged, otherwise one column node owned by `table_<table>` is added |
| GraphStore.GraphBuilder.LinkTables | src/parser/graph/GraphBuilder.ts:30-36 | a self-loop or an already recorded edge changes nothing; otherwise exactly one edge is appended; edge ids stay unique |
| GraphStore.GraphBuilder.LinkColumns | src/parser/graph/GraphBuilder.ts:38-45 | adds at most one column edge, from `table_<src>` to the target table, with the source and target column handles; ids stay unique |
| GraphStore.ColumnLinkHandles | src/parser/graph/GraphBuilder.ts:38-45 | a column edge's handles name its source column and its target column, and its id names its endpoints and type |
| GraphStore.GraphBuilder.GetGraph | src/parser/graph/GraphBuilder.ts:47 | the graph lists every indexed node once and no edge twice |
| GraphStore.GraphBuilder.TableIndexIds | src/parser/graph/GraphBuilder.ts:8-17 | every table-index entry is a node of the graph under its own id |
| Alias.Popped | src/parser/alias.ts:8-10 | popping drops one scope when there are several, and a lone scope is kept |
| Alias.LookupInnermost | src/parser/alias.ts:17-24 | a name resolves to `v` if and only if the innermost scope that binds the name binds it to `v` |
| Alias.LookupBelowSpec | src/parser/alias.ts:17-24 | the scan from scope `n` down finds exactly the innermost binding at or below `n` |
| Alias.LookupPushed | src/parser/alias.ts:4-6 | pushing an empty scope changes no resolution |
| Alias.LookupRegistered | src/parser/alias.ts:12-15 | after registering, the alias resolves to its table and every other name resolves as before |
| Alias.ScopeIsolation | src/parser/alias.ts:8-15 | an alias registered in an inner scope no longer resolves once that scope is popped |
| Alias.LookupShadowing | src/parser/alias.ts:17-24 | a binding in an inner scope shadows every outer binding of the same name |
| Alias.AliasResolver.constructor | src/parser/alias.ts:2 | the stack starts as one empty scope |
| Alias.AliasResolver.PushScope | src/parser/alias.ts:4-6 | the stack gains an empty innermost scope |
| Alias.AliasResolver.PopScope | src/parser/alias.ts:8-10 | the innermost scope is removed unless it is the last one |
| Alias.AliasResolver.Register | src/parser/alias.ts:12-15 | the binding is written into the innermost scope |
| Alias.AliasResolver.Resolve | src/parser/alias.ts:17-24 | returns the innermost binding of the name, or nothing |
| SetOps.ChainStep | src/parser/setOps.ts:5-12 | the chain lists a statement and then its `_next` successors, and only its last entry has no `_next` |
| SetOps.CollectSetChain | src/parser/setOps.ts:1-14 | the parts are the chain's statements in order with their `_next` links removed; the operator is the first one met; there is no operator exactly when the chain has one part |
| AstWalker.SoleSubqueryAlias | src/parser/astWalker.ts:16-18 | is the alias of the FROM list's only item exactly when that item is a subquery, and `""` otherwise |
| AstWalker.SubqueryAlias | src/parser/astWalker.ts:84 | a FROM subquery is named by its alias, or else by a non-empty `subq_` name |
| AstWalker.Collect | src/parser/astWalker.ts:131-153 | every column reference reached through binary, function, aggregate and CASE nodes is linked onto the output column whenever its table resolves |
| AstWalker.CollectRef | src/parser/astWalker.ts:133-140 | a resolved reference gets its source column and a column edge into the output column |
| AstWalker.PartColumns | src/parser/astWalker.ts:47-50 | a name is listed exactly when it is non-empty and names a column node owned by the part's table |
| AstWalker.ColumnNodesOf | src/parser/astWalker.ts:120-121 | keeps exactly the column nodes owned by the table |
| AstWalker.IncomingTableEdges | src/parser/astWalker.ts:52-53 | keeps exactly the `table_TO_table` edges into the target |
| AstWalker.ProcessAST | src/parser/astWalker.ts:11-173 | returns the caller's id when one is given, else `table_<result name>`, a node of the graph; the result name is the fixed one (caller's name, sole FROM subquery alias, `Result`) or `Result_` and a suffix; a plain SELECT ends `SelectWalked`: every FROM table feeds the result, every fixed output column exists and, when no projected item is a subquery, every traced reference whose table resolves is mapped onto its output column; a set-operation chain ends `ChainCollapsed`: every part walked and collapsed into the result; the graph only grows, and the alias table afterwards is exactly `WalkScopes` of the one before: every FROM table's alias registered, in walk order, by this statement and every statement nested in it, in the same scope (no scope is ever pushed), which is the table the lineage resolves against; each part of a chain ends with the alias table of the parts walked so far; and the whole walk is `Walked`: every statement nested in it (each CTE body under the CTE's name and id, each part of a chain, each FROM subquery under its alias and `table_<alias>`, each projected subquery under `Table_<alias>`, whose table feeds the result) is itself walked in the same sense, recursively, from the alias table the walk has reached |
| AstWalker.ResultTable | src/parser/astWalker.ts:16-21 | the result name is the fixed one when there is one, else `Result_` and a suffix; without a caller's id the table `table_<name>` is created and returned |
| AstWalker.TracedRefFeedsOutput | src/parser/astWalker.ts:131-153 | under `SelectWalked`, a reference traced in an item with a fixed output name, whose table resolves, has its column node and a `column_mapping` edge into that output column |
| AstWalker.ProcessBody | src/parser/astWalker.ts:23-173 | after the CTEs, a plain SELECT ends `SelectWalked` and a set-operation chain ends `ChainCollapsed` into the result id; the alias table afterwards is `WalkScopes` of the one before; the statement and everything nested in it is `Walked`, as for `ProcessAST` |
| AstWalker.ResultNameFor | src/parser/astWalker.ts:16-20 | the result name agrees with `FixedResultName` whenever that gives one |
| AstWalker.ProcessSelect | src/parser/astWalker.ts:79-155 | `SelectWalked`: every FROM table feeds the result, every fixed output column exists and, without projected subqueries, some output names agreeing with every fixed one carry the lineage of every traced reference, resolved against the alias table the FROM list leaves (`FromScopes`: each FROM table's alias registered, each FROM subquery's own registrations, in order), which is also the final one; every FROM subquery is `Walked` under its alias and `table_<alias>` (`FromSubsWalked`) and every projected subquery under `Table_<alias>`, its table feeding the result (`ItemSubsWalked`) |
| AstWalker.ProcessCte | src/parser/astWalker.ts:29-35 | the CTE's table node exists; its body, when present, is `Walked` (nested statements included) under the CTE's name and id from the alias table before it (`CteWalked`), and the alias table is what that walk leaves |
| AstWalker.ItemsScopesPlain | src/parser/astWalker.ts:98-155 | projected items that are not subqueries register no alias |
| AstWalker.FromScopesKeeps | src/parser/astWalker.ts:90-93 | FROM tables none of which is aliased `name` leave `name` resolving as before |
| AstWalker.FromScopesBinds | src/parser/astWalker.ts:90-93 | after the FROM tables, table `j`'s alias resolves to table `j` unless a later table takes the same alias |
| AstWalker.QualifiedRefLineage | src/parser/astWalker.ts:90-140 | for a top-level SELECT with no CTEs or subqueries, a projected `q.c` whose qualifier `q` aliases FROM table `t` (last such alias, `t` not itself an alias) gets column `t_c` and a `column_mapping` edge from it into the item's output column |
| AstWalker.WalkedGrows | src/parser/astWalker.ts:11-173 | what a walk leaves, nested walks included, stays true as the graph grows |
| AstWalker.FromScopesUnaliased | src/parser/astWalker.ts:90-93 | FROM tables without an alias register nothing |
| AstWalker.FlatWalkScopes | src/parser/astWalker.ts:79-155 | a SELECT whose FROM items are unaliased tables and whose items are not subqueries leaves the alias table its CTEs leave |
| AstWalker.CteTwoHopLineage | src/parser/astWalker.ts:24-140 | for `WITH c AS (SELECT x FROM t, ...) SELECT x FROM c, ...` with no FROM alias and no subquery: `t` feeds `c` and `c` feeds the result; `t_x`, `c_x` and the result's `x` exist, with a `column_mapping` edge from `t_x` into `c_x` and one from `c_x` into the result's `x` |
| AstWalker.SoleSubqueryCollapse | src/parser/astWalker.ts:16-86 | a statement whose FROM list is one aliased subquery, given no name by its caller, takes the alias as its name, and that subquery is `Walked` into the statement's own result table `table_<alias>`: the two collapse into one node |
| AstWalker.ProcessCtes | src/parser/astWalker.ts:24-36 | every CTE has its `cte` table node after the pass; every CTE body is `Walked` under its CTE's name and id, each from the alias table the earlier bodies leave (`CtesWalked`); the alias table is what the bodies' walks leave (`CtesScopes`) |
| AstWalker.ProcessSetChain | src/parser/astWalker.ts:39-77 | records one walk per part of the chain: the part's own walk (`SelectWalked` for its table `table_<name>`), its table feeding the union, its named columns created under the union and mapped by name, and, for a part with fewer than two incoming table edges, those edges' sources linked to the union; each recorded part is also `Walked` with its nested statements, from the alias table the earlier parts leave (`PartsWalked`) |
| AstWalker.ProcessPart | src/parser/astWalker.ts:41-74 | the part is walked as a nested statement under a fresh or fixed name and then collapsed into the union, as `PartCollapsed` states; the part, nested statements included, is `Walked` into its table |
| AstWalker.WalkPart | src/parser/astWalker.ts:41-42 | the part is walked nested: its table is `table_<name>`, named by its fixed name or `Result_` and a suffix, and it ends `SelectWalked` under the alias table its walk leaves, which is `WalkScopes` of the one before; the part, nested statements included, is `Walked` into `table_<name>` |
| AstWalker.PartCollapsedIntro | src/parser/astWalker.ts:44-74 | a walked part whose columns are mapped onto the union, whose table feeds the union and whose sources are lifted is collapsed as `PartCollapsed` states |
| AstWalker.MapColumnsByName | src/parser/astWalker.ts:59-62 | each named column exists under the union and is mapped from the same name in the part |
| AstWalker.LiftSources | src/parser/astWalker.ts:73 | the source of every incoming edge is linked to the union |
| AstWalker.ProcessFrom | src/parser/astWalker.ts:80-95 | every FROM item's table, or walked subquery, feeds the result, and the alias table is the one before with each table's alias registered and each subquery's walk applied, in order (`FromScopes`); every FROM subquery is `Walked`, nested statements included, under its alias and `table_<alias>`, from the alias table the earlier items leave (`FromSubsWalked`) |
| AstWalker.ProcessFromItem | src/parser/astWalker.ts:81-94 | a subquery is `Walked`, nested statements included, under its alias and the id `table_<alias>`, and linked to the result; a table gets its node, is linked, and has its alias registered |
| AstWalker.ProcessColumns | src/parser/astWalker.ts:98-155 | `*` is skipped; every other item gets its output column; every projected subquery is `Walked` under `Table_<alias>` and its table feeds the result (`ItemSubsWalked`); the lineage of the traced references is part of `SelectWalked` when no item is a subquery (see Left out) |
| AstWalker.ProcessItem | src/parser/astWalker.ts:101-154 | one projected item: its output column; a subquery item is `Walked` under `Table_<alias>`, that table feeds the result, and every column node of that table is mapped onto the output column (`SubqueryMapped`); any other item has its traced references linked onto the output column |
| AstWalker.ProcessItemExpr | src/parser/astWalker.ts:107-153 | a subquery item is `Walked` under `Table_<alias>`, feeds the result and has every column of its table mapped onto the output column (`SubqueryMapped`); any other item has its references linked onto the output column |
| AstWalker.OutNameFor | src/parser/astWalker.ts:103-104 | the alias, else the referenced column, else `expr_` plus a fresh suffix |
| AstWalker.ProcessItemSubquery | src/parser/astWalker.ts:107-129 | the subquery is `Walked`, nested statements included, as `Table_<alias>` with id `table_Table_<alias>`; that table feeds the result, and every column node the graph holds for it is mapped onto the output column (`SubqueryMapped`) |
| AstWalker.MapSubqueryColumns | src/parser/astWalker.ts:119-127 | each listed column is mapped onto the output column |
| AstWalker.RootOf | src/parser/astWalker.ts:178 | the first statement of an array, or the tree itself |
| AstWalker.AstToGraph | src/parser/astWalker.ts:175-182 | fails exactly on an empty statement array; otherwise a graph with unique node and edge ids holding the root's result table `table_<name>` (`Result` for a plain top-level SELECT) and the whole of `SelectWalked` or `ChainCollapsed` for the root, under the alias table `WalkScopes([{}], root)` the walk ends with; the root, with every statement nested in it, is `Walked` from `[{}]` |
| Layering.Fresh | src/parser/graphGeneratorcopy.ts:60-65 | the ids not yet layered, each once, in order of first occurrence |
| Layering.BuildAdjacency | src/parser/graphGeneratorcopy.ts:24-37 | one key per node id; each target's list holds its sources once per counted edge; each node's counter is its number of counted out-edges |
| Layering.InitialQueue | src/parser/graphGeneratorcopy.ts:42-47 | the queue starts with every node whose counter is zero, in key order, at layer 0 |
| Layering.Kahn | src/parser/graphGeneratorcopy.ts:49-58 | a node is at layer 0 exactly when it feeds nothing; every other released node sits one below the lowest node it feeds; an unreleased node feeds an unreleased node |
| Layering.Release | src/parser/graphGeneratorcopy.ts:52-57 | each feeder's counter drops by its edge count, and a feeder reaching zero is queued one layer below |
| Layering.MaxLayer | src/parser/graphGeneratorcopy.ts:62 | the largest layer so far, or 0 |
| Layering.PlaceLeftovers | src/parser/graphGeneratorcopy.ts:60-65 | Kahn's layers are kept, and the unreleased nodes get 1, 2, 3, ... in node order |
| Layering.AssignLayers | src/parser/graphGeneratorcopy.ts:24-65 | every node gets a layer; layer 0 exactly when a node feeds no node; a negative layer is one below the lowest node fed; a node at layer 0 or below feeds only nodes at layer 0 or below; positive layers are the unreleased nodes, numbered 1, 2, 3, ... in node order |
| Layering.ReleasedFeedReleased | src/parser/graphGeneratorcopy.ts:49-58 | a node Kahn's loop released feeds only released nodes: a node fed by one sits at layer 0 or below |
| Layering.KahnLayers | src/parser/graphGeneratorcopy.ts:24-58 | Kahn's loop over the counted edges with the guarantees above |
| Stacking.SortDescSorted | src/parser/graphGeneratorcopy.ts:81 | the layer's sort puts nodes with more columns first |
| Stacking.SortDescPerm | src/parser/graphGeneratorcopy.ts:81 | the sort neither loses nor adds a node |
| Stacking.SortDescStable | src/parser/graphGeneratorcopy.ts:81 | nodes with equal column counts keep their order |
| Stacking.SortDescDistinct | src/parser/graphGeneratorcopy.ts:81 | sorting keeps distinct ids distinct |
| Stacking.SpanEven | src/parser/graphGeneratorcopy.ts:20-22 | every node height plus its padding is even, so halving the total loses nothing |
| Stacking.StackSeparated | src/parser/graphGeneratorcopy.ts:96-100 | two nodes of one layer never overlap: the later starts at least the earlier's height plus a padding lower |
| Stacking.StackCentred | src/parser/graphGeneratorcopy.ts:84-100 | a stack of two or more is centred on y = 0 |
| Stacking.StackLayer | src/parser/graphGeneratorcopy.ts:80-102 | records each node's height and its stacked `y` under its id; other ids keep their `y` |
| Stacking.MeasureLayer | src/parser/graphGeneratorcopy.ts:84-92 | each height is recorded, and the total is the heights plus the paddings between them |
| Stacking.PlaceLayer | src/parser/graphGeneratorcopy.ts:93-100 | a lone node at 0, else each node at its stacked top |
| Layout.InLayerHas | src/parser/graphGeneratorcopy.ts:67-74 | every node is in the group of its own layer |
| Layout.GroupByLayer | src/parser/graphGeneratorcopy.ts:67-74 | each layer's group holds exactly that layer's nodes, in node order; there are no empty groups |
| Layout.PlaceNodes | src/parser/graphGeneratorcopy.ts:76-110 | the same nodes in the same order; `x` is 400 times the layer; `y` is the node's place in its layer's stack, whatever order the layers are visited in |
| Layout.SameLayerApart | src/parser/graphGeneratorcopy.ts:80-110 | two placed nodes of one layer are at least a padding apart vertically |
| Layout.AssignPositionsWithTopologicalSort | src/parser/graphGeneratorcopy.ts:5-111 | the output is the input placed for a layer map meeting every `AssignLayers` guarantee, the closure of the non-positive layers included |
| Dialects.NormalizeDatabaseName | src/parser/graphGeneratorcopy.ts:114-154 | empty gives none; a known spelling, trimmed and lower-cased, gives its dialect; an accepted name passes; the result is always an accepted name |
| Dialects.AllowedAreDialects | src/parser/graphGeneratorcopy.ts:146-148 | the accepted names are exactly the dialects' names |
| Dialects.DialectKeyOf | src/parser/graphGeneratorcopy.ts:116-151 | every accepted name is recognised as itself |
| Dialects.NormalizeIdempotent | src/parser/graphGeneratorcopy.ts:114-154 | normalising twice is normalising once |
| Dialects.NormalizeIgnoresLeadingSpace | src/parser/graphGeneratorcopy.ts:116 | leading white space never changes the outcome |
| Dialects.AcceptedUnpadded | src/parser/graphGeneratorcopy.ts:146-148 | no accepted name starts with white space |
| Diagram.GetFilteredEdges | src/parser/graphGeneratorcopy.ts:211-230 | exactly the `column_mapping` edges with both handles, in order, reduced to the fields the diagram reads |
| Diagram.FilteredEdgesExact | src/parser/graphGeneratorcopy.ts:211-230 | an edge is passed on if and only if it is a column mapping with both handles |
| Diagram.ColumnsOf | src/parser/graphGeneratorcopy.ts:191-196 | the columns of a table are exactly the graph nodes it owns, in graph order |
| Diagram.ToTableNode | src/parser/graphGeneratorcopy.ts:186-199 | a diagram node with the table's id, name and owned columns, at the origin |
| Diagram.FirstByIdIds | src/parser/graphGeneratorcopy.ts:181-200 | the dedup keeps every id, each once, and only nodes of the input |
| Diagram.FirstByIdKeepsFirst | src/parser/graphGeneratorcopy.ts:181-200 | the node kept for an id is its first occurrence |
| Diagram.ToTableNodes | src/parser/graphGeneratorcopy.ts:181-200 | one diagram node per input table node, in order |
| Diagram.DiagramNodesDistinct | src/parser/graphGeneratorcopy.ts:181-200 | the diagram nodes have distinct ids |
| Diagram.CollectTableNodes | src/parser/graphGeneratorcopy.ts:178-203 | the loop yields the first node of each id, in order |
| Diagram.GetAllTableNodesAsTableNodes | src/parser/graphGeneratorcopy.ts:176-210 | the deduplicated diagram nodes, placed by the layout along the diagram edges for a layer map meeting every `AssignLayers` guarantee, with the full stacking guarantee |
| Diagram.SqlAstToGraph | src/parser/graphGeneratorcopy.ts:172-175 | fails only on an empty statement array; otherwise a graph with unique node and edge ids |
| LineIndex.LineStartsShape | src/parser/locResolver.ts:108-112 | the starts increase strictly, lie within the text, and are 0 and exactly the offsets just after a line feed |
| LineIndex.ComputeLineStarts | src/parser/locResolver.ts:108-112 | the one-pass loop computes `LineStarts` |
| LineIndex.ToLineCol | src/parser/locResolver.ts:114-123 | the line is the last line start at or before the offset, and line start plus column minus one gives back the offset |
| LocTree.GetNodeRange | src/parser/locResolver.ts:33-44 | a range exactly when start and end are present; missing parts default to line 1, column 1, the start line and one past the start column |
| LocTree.CollectColumnRefs | src/parser/locResolver.ts:83-100 | exactly the column-reference nodes of the tree, in order |
| LocTree.ColumnRefsExact | src/parser/locResolver.ts:83-100 | a node is collected if and only if it is a column reference of the tree |
| LocTree.ProjectedRefCollected | src/parser/locResolver.ts:83-100 | a column projected directly by the root is collected |
| LocTree.NextRefsCollected | src/parser/locResolver.ts:83-100 | the references of a later set-operation branch are collected too |
| LocTree.LocatedRefMeansLoc | src/parser/locResolver.ts:16-31 | a located column reference means the tree has locations |
| LocAliases.SelectWrites | src/parser/locResolver.ts:49-66 | the writes for one statement's FROM items, in order |
| LocAliases.AliasWrites | src/parser/locResolver.ts:46-81 | every write of the extraction: the root's FROM items, then each CTE's name and body |
| LocAliases.AliasMapKeys | src/parser/locResolver.ts:46-81 | the map holds exactly the written keys, each with a non-empty value |
| LocAliases.CteNameMapsToItself | src/parser/locResolver.ts:69-78 | a CTE name maps to itself unless its own body or a later CTE rebinds it |
| LocAliases.TableAliasMapsToTable | src/parser/locResolver.ts:58-62 | a root table's alias maps to the table unless a later item or a CTE rebinds it |
| LocAliases.SubqueryAliasMapsToItself | src/parser/locResolver.ts:52-57 | a root subquery's alias maps to itself unless something later rebinds it |
| LocAliases.VisitSelect | src/parser/locResolver.ts:49-66 | the in-place visit performs exactly that statement's writes |
| LocAliases.ExtractAliasMap | src/parser/locResolver.ts:46-81 | the map is the result of all the writes in order |
| LocAliases.FindDefaultFrom | src/parser/locResolver.ts:102-106 | the only FROM item's alias, else its table; nothing unless there is exactly one item |
| LocResolver.Push | src/parser/locResolver.ts:152-157 | no range changes nothing; a range whose offsets are already listed changes nothing; otherwise it is appended to that column alone; nothing is lost and every listed range is old or the new one |
| LocResolver.PushAll | src/parser/locResolver.ts:197 | every range ends up listed for the column, and nothing else is added |
| LocResolver.ResolveTable | src/parser/locResolver.ts:183-184 | a qualifier goes through the alias map, falling back to itself; no qualifier gives the default table |
| LocResolver.ReverseAliases | src/parser/locResolver.ts:172-176 | each table maps to exactly the aliases that name it, whatever the entry order |
| LocResolver.HighlightRefs | src/parser/locResolver.ts:182-199 | every reference that resolves is highlighted at its own range when located, else at every textual match; conversely every new highlight comes from such a reference |
| LocResolver.OutputName | src/parser/locResolver.ts:206 | the alias, else the projected column, else none |
| LocResolver.OutputRange | src/parser/locResolver.ts:208 | the item's own range, else its expression's |
| LocResolver.PushOutputColumns | src/parser/locResolver.ts:202-212 | every non-star item with a name and a range is highlighted under `<table>_<name>`, and nothing else is added |
| LocResolver.HighlightCteOutputs | src/parser/locResolver.ts:218-226 | each CTE with a name and a body has its outputs highlighted under its name, and nothing else is added |
| LocResolver.HighlightSubqueryOutputs | src/parser/locResolver.ts:229-232 | each aliased FROM subquery has its outputs highlighted under its alias, and nothing else is added |
| LocResolver.HighlightOutputs | src/parser/locResolver.ts:214-232 | the root's outputs under `Result`, plus the CTE and subquery outputs, and nothing else |
| LocResolver.KeepGraphColumns | src/parser/locResolver.ts:234-237 | keeps exactly the columns the graph has, with their ranges unchanged |
| LocResolver.HighlightRoot | src/parser/locResolver.ts:159-169 | the input's root when it has any location, else the re-parsed root, else the input's root |
| LocResolver.BuildColumnHighlightMap | src/parser/locResolver.ts:146-239 | every list is non-empty and free of repeated offsets; only graph columns are kept; every reference and output highlight survives for the columns the graph has; and every listed highlight comes from a reference or an output of the highlighted root (`Sourced`) |
| LocResolver.FilterShows | src/parser/locResolver.ts:234-237 | the filter keeps every highlight of a column the graph has |
| LegacyGraphGenerator.CreatedMatches | src/parser/graphGenerator.ts:72-93 | a table or CTE reuses a node exactly when an indexed table node matches it, namely the first match in key order; otherwise the candidate itself is used |
| LegacyGraphGenerator.NewEdge | src/parser/graphGenerator.ts:95-109 | the edge has the given ends, type and handles, and its id names the handles and the type |
| LegacyGraphGenerator.HandlelessEdgesShareId | src/parser/graphGenerator.ts:95-109 | any two handle-less edges of one type share their id |
| LegacyGraphGenerator.OutputName | src/parser/graphGenerator.ts:127-132 | a column's output name is its alias, else the referenced column |
| LegacyGraphGenerator.ResolveQualifierMeaning | src/parser/graphGenerator.ts:133-140 | a qualifier that is some table's alias resolves to the first such table's name; any other stays as it is |
| LegacyGraphGenerator.MappingEdge | src/parser/graphGenerator.ts:159-168 | a `column_mapping` edge between the two tables whose handles name the columns, so it reaches the diagram |
| LegacyGraphGenerator.RefColumnIndexed | src/parser/graphGenerator.ts:127-169 | a `column_ref` output is indexed as `<table>_<name>` and the graph stays indexed |
| LegacyGraphGenerator.RefColumnLinked | src/parser/graphGenerator.ts:159-168 | a resolved source adds its source column, when new, and one mapping edge into the output column |
| LegacyGraphGenerator.RefColumnUnlinked | src/parser/graphGenerator.ts:159 | an unresolved source adds no edge |
| LegacyGraphGenerator.Session.constructor | src/parser/graphGenerator.ts:63-68 | the graph starts empty |
| LegacyGraphGenerator.Session.CreateNode | src/parser/graphGenerator.ts:72-93 | returns the matching node or appends the candidate, as `CreatedMatches` states |
| LegacyGraphGenerator.Session.CreateEdge | src/parser/graphGenerator.ts:95-109 | always appends the edge |
| LegacyGraphGenerator.Session.AddSourceTable | src/parser/graphGenerator.ts:112-121 | indexes the item under `as or table` and appends one edge to the current table |
| LegacyGraphGenerator.Session.ProcessSourceTables | src/parser/graphGenerator.ts:110-122 | every item is indexed, with one edge per item, in order |
| LegacyGraphGenerator.Session.ProcessColumn | src/parser/graphGenerator.ts:124-170 | a `column_ref` column leaves exactly `RefColumnAfter` of the graph before: its output indexed and, when the qualifier resolves to a truthy table, that table's column and the `column_mapping` edge into the output (`ColumnMapped`); any other gets a synthetic column and no edge; the table index is unchanged |
| LegacyGraphGenerator.Session.ProcessColumns | src/parser/graphGenerator.ts:123-171 | every `column_ref` output is indexed and has its `column_mapping` edge from the column its qualifier resolves to in the (unchanged) table index (`ColumnsLinked`); every new edge is a mapping into the table |
| LegacyGraphGenerator.Session.FindSourceTable | src/parser/graphGenerator.ts:134-140 | computes `ResolveQualifier` |
| LegacyGraphGenerator.Session.ProcessCte | src/parser/graphGenerator.ts:173-189 | the CTE is indexed under its name; its FROM items are indexed and the first new edges link them, in order, into `table_<name>`; every later new edge is a `column_mapping` edge into the CTE; its `column_ref` outputs are indexed as `<name>_<output>`; each of those outputs has its `column_mapping` edge, resolved against the table index as it stood after the CTE's FROM items (`CteWalked`) |
| LegacyGraphGenerator.Session.ProcessBody | src/parser/graphGenerator.ts:180-188 | the FROM items are indexed and the first new edges link them, in order, into the table; every later new edge is a `column_mapping` edge into the table; the `column_ref` outputs are indexed; each has its `column_mapping` edge from the column its qualifier resolves to in the table index the FROM items leave (`ColumnsLinked`) |
| LegacyGraphGenerator.BodyEdgesLinked | src/parser/graphGenerator.ts:110-122 | every FROM item's `table_TO_table` edge is in the graph, once the body's edges are in place |
| LegacyGraphGenerator.CteWalkedGrows | src/parser/graphGenerator.ts:172-190 | a walked CTE stays walked as the graph grows |
| LegacyGraphGenerator.ColumnsLinkedStep | src/parser/graphGenerator.ts:123-171 | a column mapped against an unchanged table index adds to the mapped prefix, and the earlier mappings survive the added edges |
| LegacyGraphGenerator.Session.ProcessCtes | src/parser/graphGenerator.ts:172-190 | every CTE is indexed and walked: its FROM items indexed and linked into it, its `column_ref` outputs indexed; each output with its `column_mapping` edge, resolved against the table index of that time |
| LegacyGraphGenerator.Session.IndexFromClauses | src/parser/graphGenerator.ts:192-205 | after the first pass every item of every FROM clause has its table, or its `as or table` key, in the table index; keys are only added and no edge or column entry appears |
| LegacyGraphGenerator.Session.AddFromClauseTable | src/parser/graphGenerator.ts:195-204 | a table whose name is not yet a key is indexed under `as or table`; otherwise nothing changes |
| LegacyGraphGenerator.Session.AddResultTable | src/parser/graphGenerator.ts:211-214 | the result table is indexed under `Result` |
| LegacyGraphGenerator.SqlAstToGraph | src/parser/graphGenerator.ts:62-220 | fails exactly on an array input or a missing FROM; otherwise the result table, every CTE (walked as above), every FROM key and every `column_ref` output are indexed, every main FROM item is linked into `table_Result`, and the last edges are those links followed only by `column_mapping` edges into `table_Result`; every main `column_ref` output has its `column_mapping` edge from the column its qualifier resolves to in the final table index (`ColumnsLinked`), and every CTE's outputs theirs, resolved against the index as it stood then |
| LegacyGraphGenerator.GetAllTableNodesAsTableNodes | src/parser/graphGenerator.ts:221-237 | one diagram node per table-index key, in key order and with repeats kept, at the origin, with its owned columns (the same projection as `parser.ts` lines 440-454) |
| LegacyGraphGenerator.GetFilteredEdges | src/parser/graphGenerator.ts:238-255 | exactly the column mappings with both handles, in order |
| LegacyParser.NewEdge | src/parser/parser.ts:75-89 | the edge has both handles, and its id names the handles and the type |
| LegacyParser.ArmsCaseRefsMember | src/parser/parser.ts:243-285 | a reference reached in the CASE arms is reached in one of them |
| LegacyParser.FindEqualityCondition | src/parser/parser.ts:375-394 | reports success exactly when an equality of two column references exists, and records the first one in left-first order |
| LegacyParser.ExtractJoinColumns | src/parser/parser.ts:366-398 | the first equality's sides, or all `null` |
| LegacyParser.FormatJoinCondition | src/parser/parser.ts:401-438 | the label is the join type, a space, and the rendered condition |
| LegacyParser.StringifyMentionsPairs | src/parser/parser.ts:401-438 | every equality the join search can find appears in the rendered condition |
| LegacyParser.LabelMentionsPairs | src/parser/parser.ts:288-298 | a join edge's label names every equality of its condition |
| LegacyParser.TraversalEdgesShareId | src/parser/parser.ts:243-285 | all `used_in_expr` edges share one id, and so do all `join` edges |
| LegacyParser.CteAliasesOf | src/parser/parser.ts:163-167 | every recorded alias names a CTE |
| LegacyParser.CteAliasesCover | src/parser/parser.ts:163-167 | every main FROM item naming a CTE is recorded under its key |
| LegacyParser.ParserSession.constructor | src/parser/parser.ts:47-52 | empty graph, empty CTE alias map |
| LegacyParser.ParserSession.CreateNode | src/parser/parser.ts:59-63 | always appends the node |
| LegacyParser.ParserSession.CreateEdge | src/parser/parser.ts:75-89 | always appends the edge |
| LegacyParser.ParserSession.AddRefNode | src/parser/parser.ts:215-224 | the reference's column node is appended, flagged as a CTE column exactly when its qualifier is a CTE alias |
| LegacyParser.ParserSession.AddCteSource | src/parser/parser.ts:104-116 | a CTE body's FROM item is appended and indexed under `as or table` |
| LegacyParser.ParserSession.ProcessCteColumn | src/parser/parser.ts:119-158 | the column is named by its alias, else its column, else a synthetic name, and is indexed under the CTE |
| LegacyParser.ParserSession.ProcessCte | src/parser/parser.ts:95-159 | the CTE and its FROM items are indexed; every projected item has its output column `<cte>_<name>`, named by alias or column, and an unaliased qualified reference has its `column_mapping` edge from the source column; every new edge is a `column_mapping` edge into the CTE |
| LegacyParser.ParserSession.AddCteSources | src/parser/parser.ts:104-116 | every FROM item of the CTE body is indexed under `as or table`, and no edge or column is added |
| LegacyParser.ParserSession.ProcessCteColumns | src/parser/parser.ts:119-158 | every projected item of the CTE body is done, the table index is untouched and every new edge is a `column_mapping` edge into the CTE |
| LegacyParser.ParserSession.LinkCteColumn | src/parser/parser.ts:230-235 | the `cte_reference` edge is appended exactly when the CTE column is indexed; otherwise nothing changes |
| LegacyParser.ParserSession.LinkJoinSide | src/parser/parser.ts:335-349 | a join side whose qualifier names a CTE whose column exists gets its `referenced_in_join` edge |
| LegacyParser.CteColumnEdges | src/parser/parser.ts:119-158 | one CTE column leaves the table index alone, adds only its `column_mapping` edge into the CTE, and is done |
| LegacyParser.CteDoneGrows | src/parser/parser.ts:94-160 | a done CTE stays done as the graph grows |
| LegacyParser.ParserSession.TrackCteAliases | src/parser/parser.ts:163-167 | the alias map is `CteAliasesOf` |
| LegacyParser.ParserSession.AddMainTable | src/parser/parser.ts:173-182 | the key is indexed afterwards; an existing key leaves everything unchanged |
| LegacyParser.ParserSession.RefInCase | src/parser/parser.ts:247-272 | the reference's `used_in_expr` edge is present, and so is the `referenced_in_expression` edge when its qualifier names a CTE whose column exists |
| LegacyParser.ParserSession.TraverseCase | src/parser/parser.ts:244-282 | every reference the traversal reaches has its `used_in_expr` edge |
| LegacyParser.ParserSession.ProcessResultColumn | src/parser/parser.ts:191-240 | the item's result column exists, with its select edge or its CASE edges |
| LegacyParser.ParserSession.SelectColumn | src/parser/parser.ts:210-235 | the reference's `used_in_select` edge is present, and so is the `referenced_from_main_query` edge when its qualifier names a CTE whose column exists |
| LegacyParser.ParserSession.JoinPair | src/parser/parser.ts:306-351 | the equality's `join` edge is present, and each side whose qualifier names a CTE whose column exists has its `referenced_in_join` edge |
| LegacyParser.ParserSession.TraverseJoin | src/parser/parser.ts:301-360 | every equality reached through AND/OR has its `join` edge |
| LegacyParser.ParserSession.ProcessCtes | src/parser/parser.ts:94-160 | every CTE is indexed and done as above |
| LegacyParser.ParserSession.IndexTables | src/parser/parser.ts:94-188 | the result table is indexed under `Result`, with every CTE (done as above) and every main FROM key |
| LegacyParser.ParserSession.AddMainTables | src/parser/parser.ts:173-182 | every main FROM key is indexed and no edge is added |
| LegacyParser.ParserSession.ProcessResultColumns | src/parser/parser.ts:191-240 | every projected item is done |
| LegacyParser.ParserSession.ProcessJoins | src/parser/parser.ts:288-298 | every joined item has the join edges of its condition, each labelled with the formatted condition |
| LegacyParser.SqlAstToGraph | src/parser/parser.ts:41-363 | fails exactly on an array, a missing FROM or missing columns; otherwise every CTE is done, every table, result column and join is in place and every edge has handles |
| LegacyParser.GetFilteredEdges | src/parser/parser.ts:456-470 | every edge, in order, reduced to the fields the diagram reads |
| LegacyParser.UnfilteredKeepsDiagramEdges | src/parser/parser.ts:456-470 | keeps at least every edge the filtering version keeps |

## Left out

- Parsing of SQL text (`node-sql-parser`) is left out. The model starts
  from the syntax tree, with the fields listed in `SqlAst`. GROUP BY,
  HAVING, ORDER BY, LIMIT and the other clauses of a statement are not
  part of it.
- LocTree.CollectColumnRefs: the source walks every field of the tree, so
  column references in GROUP BY, HAVING and ORDER BY (and in any other
  field outside `SqlAst`) are highlighted too. The model's tree has no
  such clauses, so their references are neither collected nor
  highlighted.
- LocTree.CollectColumnRefs: the source stops after 20000 visited objects
  (its `guard`), so a tree larger than that has its later references
  dropped. The model collects every reference of the tree.
- The re-parse with locations in `buildColumnHighlightMap` is a parameter
  (`reparsed`). The same goes for its regular-expression search
  (`regexRanges`, the parameter `regex`) and for `JSON.stringify` in
  `formatJoinCondition` (the parameter `json`).
- `parser.ts` accepts a tree given as JSON text and parses it first
  (`JSON.parse`). The model takes the parsed tree only.
- `findAllFromClauses` in `graphGenerator.ts` is a parameter: the list of
  FROM clauses it would find.
- `Math.random` name suffixes are replaced by `NameSupply`, a counter.
  FreshNames.NameSupply.Next gives the decimal digits of the counter, not
  base-36 random text.
- Console logging, the React components, the flow diagram and the
  dialect selector UI are left out.
- `hasAnyLoc`'s visited set is left out. Over the finite, acyclic tree of
  the model it cannot change the answer.
- Only statements, projected items and column references carry a
  location. `loc` and `location` are one field.
- LocTree.CollectColumnRefs: the order of the collected references is the
  model's tree order, not the source's stack order. Every use of the list
  is order-insensitive.
- LineIndex.ToLineCol: the source computes its midpoint with `>> 1`, a
  32-bit shift. The model uses exact halving. The two agree for every
  text shorter than 2^31 lines.
- The prototype keys of JavaScript objects are left out. So is the
  numeric-key ordering of `Object.keys`: the dictionaries keep plain
  insertion order.
- The `label` field that `graphGenerator.ts` attaches to edges is always
  empty in the model.
- Dialects.NormalizeDatabaseName: lower-casing covers ASCII letters only.
  JavaScript's `toLowerCase` also maps other letters (the Kelvin sign
  U+212A becomes `k`, so `SNOWFLA\u212AE` is recognised as `snowflake`
  there but not here).
- LineIndex.ComputeLineStarts and LineIndex.ToLineCol: offsets count the
  characters of the text. JavaScript counts UTF-16 code units, so the two
  differ after any character beyond U+FFFF.
- AstWalker.ProcessFromItem: a FROM item with neither a subquery nor a
  table name is entered as table `""` (id `table_`). The source writes
  `table_undefined` and indexes it under the key `undefined`.
- AstWalker.ProcessItemSubquery: a projected subquery is recognised only
  as `col.expr.ast`; the alternative `col.ast` is not modelled. The
  subquery table's `db` field (`col.db`) is always empty in the model.
- AstWalker.ProcessSelect: the column lineage (`ColumnsTraced`) is stated
  only when no projected item is a subquery. A projected subquery's walk
  registers its own aliases part-way through the columns, so the alias
  table each later item resolves against is not stated.
- AstWalker.ProcessColumns: for the same reason, the lineage of the traced
  references is stated only when no projected item is a subquery.
- AstWalker.ProcessItemSubquery: the column mapping is stated for every
  column node the graph holds for table `Table_<alias>`. That these are
  exactly the subquery's output columns is not stated: column ids
  `<table>_<column>` can collide (`a_b` with `c`, `a` with `b_c`), and the
  store then keeps the first node and its owner.
- LegacyGraphGenerator.SqlAstToGraph: the table index each CTE's columns
  were resolved against is stated to exist, to be well formed, to hold the
  CTE and its FROM keys and to have no key the final graph lacks. It is not
  given as a function of the input, because a later FROM item may put a
  different node under an existing key.
- LegacyParser.SqlAstToGraph: the `cte_reference` edges are stated per
  reference (SelectColumn, RefInCase, LinkJoinSide), not for the whole
  graph.
- LegacyParser.CaseRefs: the CASE traversal follows only column
  references, binary expressions and CASE arms. Function-call argument
  arrays are not entered.
- LegacyParser.SqlAstToGraph: when the source throws, the
  model returns a failure and discards the partial graph.
- AstWalker.SubqueryAlias: the source writes a synthetic alias back into
  the tree (`item.as = ...`). The model computes that alias instead, and
  a second walk of the same tree is not modelled.
- `src/parser/types.ts` declarations are the records in `GraphTypes` and
  `SqlAst`. Node positions and sizes of the flow diagram are not modelled
  beyond the layout.

=== FILE: alias.dfy ===
/** The scoped alias table of `src/parser/alias.ts`: a stack of scopes, each a
    map from alias to real table name, searched innermost first. */
module Alias {
  import opened Wrappers

  type Scopes = seq<map<string, string>>

  /** The stack after `pushScope`. */
  function Pushed(stack: Scopes): Scopes {
    stack + [map[]]
  }

  /** The stack after `popScope`: the outermost scope is never removed. */
  function Popped(stack: Scopes): (r: Scopes)
    ensures |stack| > 1 ==> |r| == |stack| - 1
    ensures |stack| <= 1 ==> r == stack
  {
    if |stack| > 1 then stack[..|stack| - 1] else stack
  }

  /** The stack after `register(alias, tableName)`: a binding in the innermost
      scope, unless either name is absent or empty. */
  function Registered(stack: Scopes, alias: string, tableName: string): (r: Scopes)
    requires |stack| >= 1
    ensures |r| == |stack|
  {
    if alias == "" || tableName == "" then stack
    else stack[|stack| - 1 := stack[|stack| - 1][alias := tableName]]
  }

  /** What `resolve(name)` answers: the binding of the innermost scope whose
      binding for `name` is non-empty, or nothing. */
  function Lookup(stack: Scopes, name: string): Option<string> {
    if name == "" then None else LookupBelow(stack, |stack|, name)
  }

  /** The innermost non-empty binding of `name` among scopes `0 .. n-1`. */
  function LookupBelow(stack: Scopes, n: nat, name: string): Option<string>
    requires n <= |stack|
  {
    if n == 0 then None
    else if name in stack[n - 1] && stack[n - 1][name] != "" then Some(stack[n - 1][name])
    else LookupBelow(stack, n - 1, name)
  }

  /** Scope `i` holds the innermost non-empty binding of `name` to `v`. */
  ghost predicate BindsInnermost(stack: Scopes, name: string, i: int, v: string) {
    && 0 <= i < |stack|
    && name in stack[i] && stack[i][name] == v && v != ""
    && forall j :: i < j < |stack| ==> name !in stack[j] || stack[j][name] == ""
  }

  lemma {:induction false} LookupBelowSpec(stack: Scopes, n: nat, name: string, v: string)
    requires n <= |stack|
    ensures LookupBelow(stack, n, name) == Some(v) <==>
      exists i :: BindsInnermost(stack[..n], name, i, v)
  {
    var s := stack[..n];
    if n == 0 {
    } else if name in stack[n - 1] && stack[n - 1][name] != "" {
      if LookupBelow(stack, n, name) == Some(v) {
        assert BindsInnermost(s, name, n - 1, v);
      }
      assert s[n - 1] == stack[n - 1];
    } else {
      LookupBelowSpec(stack, n - 1, name, v);
      var s' := stack[..n - 1];
      assert s[n - 1] == stack[n - 1];
      forall i | BindsInnermost(s', name, i, v) ensures BindsInnermost(s, name, i, v) {
        assert s[i] == s'[i];
        forall j | i < j < n ensures name !in s[j] || s[j][name] == "" {
          if j < n - 1 {
            assert s[j] == s'[j];
          }
        }
      }
      forall i | BindsInnermost(s, name, i, v) ensures BindsInnermost(s', name, i, v) {
        assert i < n - 1;
        assert s[i] == s'[i];
        forall j | i < j < n - 1 ensures name !in s'[j] || s'[j][name] == "" {
          assert s[j] == s'[j];
        }
      }
    }
  }

  /** `resolve` answers `v` exactly when some scope binds `name` to `v` and
      no scope nearer the top binds it to anything non-empty. */
  lemma LookupInnermost(stack: Scopes, name: string, v: string)
    ensures Lookup(stack, name) == Some(v) <==>
      name != "" && exists i :: BindsInnermost(stack, name, i, v)
  {
    if name != "" {
      LookupBelowSpec(stack, |stack|, name, v);
      assert stack[..|stack|] == stack;
    }
  }

  /** A fresh scope hides nothing. */
  lemma {:induction false} LookupPushed(stack: Scopes, name: string)
    ensures Lookup(Pushed(stack), name) == Lookup(stack, name)
  {
    if name != "" {
      LookupBelowPrefix(Pushed(stack), stack, |stack|, name);
    }
  }

  lemma {:induction false} LookupBelowPrefix(stack: Scopes, prefix: Scopes, n: nat, name: string)
    requires n <= |prefix| <= |stack| && prefix == stack[..|prefix|]
    ensures LookupBelow(stack, n, name) == LookupBelow(prefix, n, name)
  {
    if n > 0 {
      assert stack[n - 1] == prefix[n - 1];
      LookupBelowPrefix(stack, prefix, n - 1, name);
    }
  }

  /** Right after `register(alias, tableName)` the alias resolves to that
      table; every other name resolves as before. */
  lemma {:induction false} LookupRegistered(stack: Scopes, alias: string, tableName: string, name: string)
    requires |stack| >= 1
    ensures Lookup(Registered(stack, alias, tableName), name) ==
      if name == alias && alias != "" && tableName != "" then Some(tableName) else Lookup(stack, name)
  {
    var r := Registered(stack, alias, tableName);
    if name != "" && alias != "" && tableName != "" && name != alias {
      var n := |stack|;
      assert r[n - 1] == stack[n - 1][alias := tableName];
      LookupBelowPrefix(r, stack[..n - 1], n - 1, name);
      LookupBelowPrefix(stack, stack[..n - 1], n - 1, name);
    }
  }

  /** A binding made inside a pushed scope is gone once that scope is popped. */
  lemma ScopeIsolation(stack: Scopes, alias: string, tableName: string, name: string)
    requires |stack| >= 1
    ensures Lookup(Popped(Registered(Pushed(stack), alias, tableName)), name) == Lookup(stack, name)
  {
    var r := Registered(Pushed(stack), alias, tableName);
    assert Popped(r) == stack;
  }

  /** A name bound in an outer scope still resolves the same way after any
      number of scopes that do not bind it are pushed and filled. */
  lemma {:induction false} LookupShadowing(outer: Scopes, inner: Scopes, name: string)
    requires forall j :: 0 <= j < |inner| ==> name !in inner[j] || inner[j][name] == ""
    ensures Lookup(outer + inner, name) == Lookup(outer, name)
  {
    if name != "" {
      ShadowingBelow(outer, inner, |inner|, name);
      LookupBelowPrefix(outer + inner, outer, |outer|, name);
    }
  }

  lemma {:induction false} ShadowingBelow(outer: Scopes, inner: Scopes, k: nat, name: string)
    requires k <= |inner|
    requires forall j :: 0 <= j < |inner| ==> name !in inner[j] || inner[j][name] == ""
    ensures LookupBelow(outer + inner, |outer| + k, name) == LookupBelow(outer + inner, |outer|, name)
  {
    if k > 0 {
      assert (outer + inner)[|outer| + k - 1] == inner[k - 1];
      ShadowingBelow(outer, inner, k - 1, name);
    }
  }

  /** Every stored alias and table name is non-empty, and the outermost scope
      always exists. */
  ghost predicate ScopesInv(stack: Scopes) {
    && |stack| >= 1
    && forall i, k :: 0 <= i < |stack| && k in stack[i] ==> k != "" && stack[i][k] != ""
  }

  class AliasResolver {
    var stack: Scopes

    ghost predicate Valid()
      reads this
    {
      ScopesInv(stack)
    }

    constructor ()
      ensures Valid() && stack == [map[]]
    {
      stack := [map[]];
    }

    method PushScope()
      requires Valid()
      modifies this
      ensures Valid() && stack == Pushed(old(stack))
    {
      stack := stack + [map[]];
    }

    method PopScope()
      requires Valid()
      modifies this
      ensures Valid() && stack == Popped(old(stack))
    {
      if |stack| > 1 {
        stack := stack[..|stack| - 1];
      }
    }

    method Register(alias: string, tableName: string)
      requires Valid()
      modifies this
      ensures Valid() && stack == Registered(old(stack), alias, tableName)
    {
      if alias == "" || tableName == "" {
        return;
      }
      var top := |stack| - 1;
      stack := stack[top := stack[top][alias := tableName]];
    }

    /** Searches the scopes from the innermost outwards. */
    method Resolve(name: string) returns (r: Option<string>)
      requires Valid()
      ensures r == Lookup(stack, name)
      ensures r.Some? ==> r.value != ""
    {
      if name == "" {
        return None;
      }
      var i := |stack| - 1;
      while i >= 0
        invariant -1 <= i < |stack|
        invariant LookupBelow(stack, i + 1, name) == Lookup(stack, name)
      {
        if name in stack[i] {
          var bound := stack[i][name];
          if bound != "" {
            return Some(bound);
          }
        }
        i := i - 1;
      }
      return None;
    }
  }
}

=== FILE: ast_walker.dfy ===
/** `src/parser/astWalker.ts`: the recursive walk over a SELECT statement that
    drives the graph store and the alias table. */
module AstWalker {
  import opened Wrappers
  import opened Strings
  import opened SqlAst
  import opened GraphTypes
  import opened GraphStore
  import opened Alias
  import opened SetOps
  import opened FreshNames

  /** The walk's shared context; the name supply stands in for `Math.random`. */
  class WalkCtx {
    const builder: GraphBuilder
    const aliases: AliasResolver
    const names: NameSupply

    ghost predicate Valid()
      reads this, builder, aliases
    {
      builder.Valid() && aliases.Valid()
    }

    constructor (builder: GraphBuilder, aliases: AliasResolver, names: NameSupply)
      ensures this.builder == builder && this.aliases == aliases && this.names == names
    {
      this.builder := builder;
      this.aliases := aliases;
      this.names := names;
    }
  }

  // ---------------------------------------------------------------------
  // Names the walk derives from the statement.

  /** The alias of a FROM list made of exactly one aliased subquery, or "". */
  function SoleSubqueryAlias(ast: Stmt): (a: string)
    ensures a != "" ==> |FromOf(ast)| == 1 && FromOf(ast)[0].subquery.Some? && a == FromOf(ast)[0].alias
    ensures |FromOf(ast)| == 1 && FromOf(ast)[0].subquery.Some? ==> a == FromOf(ast)[0].alias
  {
    var from := FromOf(ast);
    if ast.from.FromItems? && |from| == 1 && from[0].subquery.Some? && from[0].alias != "" then from[0].alias else ""
  }

  /** The name a FROM subquery is processed under: its alias, else `subq_<idx+1>`. */
  function SubqueryAlias(item: FromItem, idx: nat): (a: string)
    ensures a != ""
    ensures item.alias != "" ==> a == item.alias
    ensures item.alias == "" ==> IsPrefix("subq_", a)
  {
    if item.alias != "" then item.alias else "subq_" + NatToString(idx + 1)
  }

  /** The id of the table node a FROM item contributes. */
  function FromTableId(item: FromItem, idx: nat): string {
    if item.subquery.Some? then TableId(SubqueryAlias(item, idx)) else TableId(item.table)
  }

  /** The raw default table of unqualified columns: `from[0].as || from[0].table`,
      where a subquery in first place already carries its computed alias. */
  function DefaultFromRaw(ast: Stmt): string {
    var from := FromOf(ast);
    if |from| == 0 then ""
    else if from[0].subquery.Some? then SubqueryAlias(from[0], 0)
    else if from[0].alias != "" then from[0].alias
    else from[0].table
  }

  /** `resolve(name) || name`. */
  function ResolveOr(stack: Scopes, name: string): (r: string)
    ensures name != "" ==> r != ""
  {
    match Lookup(stack, name)
    case Some(t) => if t != "" then t else name
    case None => name
  }

  /** A column reference `collect` meets. */
  datatype Ref = Ref(table: string, column: string)

  /** The table a reference is attributed to: a qualifier is resolved, an
      unqualified reference takes the default table, and the candidate is
      resolved once more; "" means the reference is dropped. */
  function RefTable(stack: Scopes, r: Ref, defaultFrom: string): (t: string)
    ensures r.table != "" ==> t != ""
  {
    var candidate := if r.table != "" then ResolveOr(stack, r.table) else defaultFrom;
    if candidate != "" then ResolveOr(stack, candidate) else ""
  }

  // ---------------------------------------------------------------------
  // The column references `collect` reaches.

  function TracedRefs(e: Expr): seq<Ref>
    decreases e, 1
  {
    match e
    case ColumnRef(t, c, _) => [Ref(t, c)]
    case BinaryExpr(_, l, r) =>
      (if l.Some? then TracedRefs(l.value) else []) + (if r.Some? then TracedRefs(r.value) else [])
    case FunctionCall(args) =>
      if args.None? then []
      else if args.value.ArgList? then TracedList(e, args.value.values, 0)
      else if args.value.value.Some? then TracedRefs(args.value.value.value)
      else []
    case AggrFunc(a) => if a.Some? then TracedRefs(a.value) else []
    case Case(subject, arms) =>
      (if subject.Some? then TracedRefs(subject.value) else []) + TracedArms(e, 0)
    case _ => []
  }

  function TracedList(owner: Expr, values: seq<Expr>, i: nat): seq<Ref>
    requires owner.FunctionCall? && owner.args == Some(ArgList(values))
    decreases owner, 0, |values| - i
  {
    if i >= |values| then [] else TracedRefs(values[i]) + TracedList(owner, values, i + 1)
  }

  function TracedArms(owner: Expr, i: nat): seq<Ref>
    requires owner.Case?
    decreases owner, 0, |owner.arms| - i
  {
    if i >= |owner.arms| then []
    else
      var arm := owner.arms[i];
      var here := (if arm.cond.Some? then TracedRefs(arm.cond.value) else [])
        + (if arm.result.Some? then TracedRefs(arm.result.value) else []);
      here + TracedArms(owner, i + 1)
  }

  // ---------------------------------------------------------------------
  // Facts about the graph that, once true, stay true as it grows.

  /** Reference `r`, attributed under `stack`, feeds output column `outName` of `resultId`. */
  ghost predicate RefLinked(g: Graph, stack: Scopes, r: Ref, defaultFrom: string, resultId: string, outName: string) {
    var t := RefTable(stack, r, defaultFrom);
    t != "" ==>
      && ColumnId(t, r.column) in NodeIds(g.nodes)
      && ColumnLink(t, r.column, resultId, outName, ColumnMapping).id in EdgeIds(g.edges)
  }

  /** Table `id` exists and feeds `targetId` (or is `targetId` itself). */
  ghost predicate TableFeeds(g: Graph, id: string, targetId: string) {
    id in NodeIds(g.nodes) && (id == targetId || EdgeId(id, targetId, TableToTable) in EdgeIds(g.edges))
  }

  lemma RefLinkedGrows(g0: Graph, g1: Graph, stack: Scopes, r: Ref, defaultFrom: string, resultId: string, outName: string)
    requires Grows(g0, g1) && RefLinked(g0, stack, r, defaultFrom, resultId, outName)
    ensures RefLinked(g1, stack, r, defaultFrom, resultId, outName)
  {
    GrowsIds(g0, g1);
  }

  lemma TableFeedsGrows(g0: Graph, g1: Graph, id: string, targetId: string)
    requires Grows(g0, g1) && TableFeeds(g0, id, targetId)
    ensures TableFeeds(g1, id, targetId)
  {
    GrowsIds(g0, g1);
  }

  // ---------------------------------------------------------------------
  // The walk.

  /** `collect`: every column reference reached is attributed to a table and,
      when that table is known, mapped onto the output column. */
  method Collect(e: Expr, ctx: WalkCtx, defaultFrom: string, resultId: string, outName: string)
    requires ctx.Valid()
    modifies ctx.builder
    ensures ctx.Valid()
    ensures Grows(old(ctx.builder.graph), ctx.builder.graph)
    ensures forall r :: r in TracedRefs(e) ==>
      RefLinked(ctx.builder.graph, ctx.aliases.stack, r, defaultFrom, resultId, outName)
    decreases e, 3
  {
    match e
    case ColumnRef(table, column, _) =>
      CollectRef(table, column, ctx, defaultFrom, resultId, outName);
    case BinaryExpr(_, left, right) =>
      CollectPair(e, left, right, ctx, defaultFrom, resultId, outName);
    case FunctionCall(args) =>
      if args.Some? {
        match args.value
        case ArgList(values) =>
          CollectList(e, values, ctx, defaultFrom, resultId, outName);
        case ArgValue(value) =>
          CollectOpt(e, value, ctx, defaultFrom, resultId, outName);
      }
    case AggrFunc(argExpr) =>
      CollectOpt(e, argExpr, ctx, defaultFrom, resultId, outName);
    case Case(subject, arms) =>
      CollectPair(e, subject, None, ctx, defaultFrom, resultId, outName);
      ghost var g1 := ctx.builder.graph;
      CollectArms(e, ctx, defaultFrom, resultId, outName);
      if subject.Some? {
        forall r | r in TracedRefs(subject.value)
          ensures RefLinked(ctx.builder.graph, ctx.aliases.stack, r, defaultFrom, resultId, outName)
        {
          RefLinkedGrows(g1, ctx.builder.graph, ctx.aliases.stack, r, defaultFrom, resultId, outName);
        }
      }
      GrowsTransitive(old(ctx.builder.graph), g1, ctx.builder.graph);
    case _ =>
  }

  /** The `column_ref` case of `collect`. */
  method CollectRef(table: string, column: string, ctx: WalkCtx, defaultFrom: string, resultId: string, outName: string)
    requires ctx.Valid()
    modifies ctx.builder
    ensures ctx.Valid()
    ensures Grows(old(ctx.builder.graph), ctx.builder.graph)
    ensures RefLinked(ctx.builder.graph, ctx.aliases.stack, Ref(table, column), defaultFrom, resultId, outName)
  {
    var tCandidate := defaultFrom;
    if table != "" {
      var res := ctx.aliases.Resolve(table);
      tCandidate := if res.Some? then res.value else table;
    }
    var tResolved := "";
    if tCandidate != "" {
      var res := ctx.aliases.Resolve(tCandidate);
      tResolved := if res.Some? then res.value else tCandidate;
    }
    assert tResolved == RefTable(ctx.aliases.stack, Ref(table, column), defaultFrom);
    if tResolved != "" {
      var cid := ctx.builder.EnsureColumn(tResolved, column);
      assert cid in NodeIds(ctx.builder.graph.nodes);
      ghost var g1 := ctx.builder.graph;
      ctx.builder.LinkColumns(tResolved, column, resultId, outName, ColumnMapping);
      assert ctx.builder.graph.nodes == g1.nodes;
      GrowsTransitive(old(ctx.builder.graph), g1, ctx.builder.graph);
    }
  }

  /** `collect(e.left); collect(e.right)`, also used for a CASE subject. */
  method CollectPair(owner: Expr, left: Option<Expr>, right: Option<Expr>, ctx: WalkCtx, defaultFrom: string, resultId: string, outName: string)
    requires ctx.Valid()
    requires left.Some? ==> left.value < owner
    requires right.Some? ==> right.value < owner
    modifies ctx.builder
    ensures ctx.Valid()
    ensures Grows(old(ctx.builder.graph), ctx.builder.graph)
    ensures forall r :: r in (if left.Some? then TracedRefs(left.value) else []) + (if right.Some? then TracedRefs(right.value) else []) ==>
      RefLinked(ctx.builder.graph, ctx.aliases.stack, r, defaultFrom, resultId, outName)
    decreases owner, 2
  {
    CollectOpt(owner, left, ctx, defaultFrom, resultId, outName);
    ghost var g1 := ctx.builder.graph;
    CollectOpt(owner, right, ctx, defaultFrom, resultId, outName);
    GrowsTransitive(old(ctx.builder.graph), g1, ctx.builder.graph);
    if left.Some? {
      forall r | r in TracedRefs(left.value)
        ensures RefLinked(ctx.builder.graph, ctx.aliases.stack, r, defaultFrom, resultId, outName)
      {
        RefLinkedGrows(g1, ctx.builder.graph, ctx.aliases.stack, r, defaultFrom, resultId, outName);
      }
    }
  }

  /** `if (x) collect(x)` for a sub-expression `x` of `owner`. */
  method CollectOpt(owner: Expr, x: Option<Expr>, ctx: WalkCtx, defaultFrom: string, resultId: string, outName: string)
    requires ctx.Valid()
    requires x.Some? ==> x.value < owner
    modifies ctx.builder
    ensures ctx.Valid()
    ensures Grows(old(ctx.builder.graph), ctx.builder.graph)
    ensures x.Some? ==> forall r :: r in TracedRefs(x.value) ==>
      RefLinked(ctx.builder.graph, ctx.aliases.stack, r, defaultFrom, resultId, outName)
    decreases owner, 1
  {
    if x.Some? {
      Collect(x.value, ctx, defaultFrom, resultId, outName);
    }
  }

  /** `e.args.value.forEach(collect)`. */
  method CollectList(owner: Expr, values: seq<Expr>, ctx: WalkCtx, defaultFrom: string, resultId: string, outName: string)
    requires ctx.Valid()
    requires owner.FunctionCall? && owner.args == Some(ArgList(values))
    modifies ctx.builder
    ensures ctx.Valid()
    ensures Grows(old(ctx.builder.graph), ctx.builder.graph)
    ensures forall r :: r in TracedList(owner, values, 0) ==>
      RefLinked(ctx.builder.graph, ctx.aliases.stack, r, defaultFrom, resultId, outName)
    decreases owner, 2
  {
    ghost var g0 := ctx.builder.graph;
    var i := 0;
    while i < |values|
      invariant 0 <= i <= |values|
      invariant ctx.Valid()
      invariant Grows(g0, ctx.builder.graph)
      invariant forall r :: r in TracedList(owner, values, 0) && r !in TracedList(owner, values, i) ==>
        RefLinked(ctx.builder.graph, ctx.aliases.stack, r, defaultFrom, resultId, outName)
    {
      ghost var g1 := ctx.builder.graph;
      Collect(values[i], ctx, defaultFrom, resultId, outName);
      GrowsTransitive(g0, g1, ctx.builder.graph);
      forall r | r in TracedList(owner, values, 0) && r !in TracedList(owner, values, i + 1)
        ensures RefLinked(ctx.builder.graph, ctx.aliases.stack, r, defaultFrom, resultId, outName)
      {
        if r !in TracedList(owner, values, i) {
          RefLinkedGrows(g1, ctx.builder.graph, ctx.aliases.stack, r, defaultFrom, resultId, outName);
        }
      }
      i := i + 1;
    }
  }

  /** `e.args.forEach(a => { collect(a.cond); collect(a.result) })` for a CASE. */
  method CollectArms(owner: Expr, ctx: WalkCtx, defaultFrom: string, resultId: string, outName: string)
    requires ctx.Valid()
    requires owner.Case?
    modifies ctx.builder
    ensures ctx.Valid()
    ensures Grows(old(ctx.builder.graph), ctx.builder.graph)
    ensures forall r :: r in TracedArms(owner, 0) ==>
      RefLinked(ctx.builder.graph, ctx.aliases.stack, r, defaultFrom, resultId, outName)
    decreases owner, 2
  {
    ghost var g0 := ctx.builder.graph;
    var i := 0;
    while i < |owner.arms|
      invariant 0 <= i <= |owner.arms|
      invariant ctx.Valid()
      invariant Grows(g0, ctx.builder.graph)
      invariant forall r :: r in TracedArms(owner, 0) && r !in TracedArms(owner, i) ==>
        RefLinked(ctx.builder.graph, ctx.aliases.stack, r, defaultFrom, resultId, outName)
    {
      var arm := owner.arms[i];
      ghost var g1 := ctx.builder.graph;
      CollectOpt(owner, arm.cond, ctx, defaultFrom, resultId, outName);
      ghost var g2 := ctx.builder.graph;
      CollectOpt(owner, arm.result, ctx, defaultFrom, resultId, outName);
      GrowsTransitive(g1, g2, ctx.builder.graph);
      GrowsTransitive(g0, g1, ctx.builder.graph);
      forall r | r in TracedArms(owner, 0) && r !in TracedArms(owner, i + 1)
        ensures RefLinked(ctx.builder.graph, ctx.aliases.stack, r, defaultFrom, resultId, outName)
      {
        if r !in TracedArms(owner, i) {
          RefLinkedGrows(g1, ctx.builder.graph, ctx.aliases.stack, r, defaultFrom, resultId, outName);
        } else if arm.cond.Some? && r in TracedRefs(arm.cond.value) {
          RefLinkedGrows(g2, ctx.builder.graph, ctx.aliases.stack, r, defaultFrom, resultId, outName);
        }
      }
      i := i + 1;
    }
  }

  // ---------------------------------------------------------------------
  // Projections of the graph the walk reads back.

  /** `nodes.filter(column of tableId).map(name).filter(non-empty)`. */
  function PartColumns(nodes: seq<GraphNode>, tableId: string): (cols: seq<string>)
    ensures forall c :: c in cols <==>
      c != "" && exists n :: n in nodes && n.nodeType == ColumnType && n.tableId == tableId && n.name == c
  {
    if |nodes| == 0 then []
    else
      var n := nodes[|nodes| - 1];
      var rest := PartColumns(nodes[..|nodes| - 1], tableId);
      assert forall m :: m in nodes <==> m in nodes[..|nodes| - 1] || m == n;
      if n.nodeType == ColumnType && n.tableId == tableId && n.name != "" then rest + [n.name] else rest
  }

  /** `nodes.filter(n => n.type === 'column' && n.tableId === tableId)`. */
  function ColumnNodesOf(nodes: seq<GraphNode>, tableId: string): (cols: seq<GraphNode>)
    ensures forall n :: n in cols <==> n in nodes && n.nodeType == ColumnType && n.tableId == tableId
  {
    if |nodes| == 0 then []
    else
      var n := nodes[|nodes| - 1];
      var rest := ColumnNodesOf(nodes[..|nodes| - 1], tableId);
      assert forall m :: m in nodes <==> m in nodes[..|nodes| - 1] || m == n;
      if n.nodeType == ColumnType && n.tableId == tableId then rest + [n] else rest
  }

  /** `edges.filter(e => e.type === 'table_TO_table' && e.target === target)`. */
  function IncomingTableEdges(edges: seq<GraphEdge>, target: string): (es: seq<GraphEdge>)
    ensures forall e :: e in es <==> e in edges && e.edgeType == TableToTable && e.target == target
    ensures |es| <= |edges|
  {
    if |edges| == 0 then []
    else
      var e := edges[|edges| - 1];
      var rest := IncomingTableEdges(edges[..|edges| - 1], target);
      assert forall x :: x in edges <==> x in edges[..|edges| - 1] || x == e;
      if e.edgeType == TableToTable && e.target == target then rest + [e] else rest
  }

  /** How a template literal writes a possibly absent name. */
  function Interpolated(s: string): (r: string)
    ensures r != "" && (s != "" ==> r == s)
  {
    if s != "" then s else "undefined"
  }

  /** The output column name of a SELECT item when it does not need a fresh
      name: its alias, else the referenced column's name. */
  function FixedOutName(item: SelectItem): Option<string> {
    if item.alias != "" then Some(item.alias)
    else if item.expr.ColumnRef? then Some(item.expr.column)
    else None
  }

  /** The result name of a statement when it does not need a fresh name. */
  function FixedResultName(ast: Stmt, isNested: bool, providedName: string): (n: Option<string>)
    ensures n.Some? ==> n.value != ""
  {
    if providedName != "" then Some(providedName)
    else if SoleSubqueryAlias(ast) != "" then Some(SoleSubqueryAlias(ast))
    else if ast.next.None? && !isNested then Some("Result")
    else None
  }

  /** `defaultFrom`: the default table of unqualified columns, resolved once. */
  function DefaultFrom(stack: Scopes, ast: Stmt): string {
    var raw := DefaultFromRaw(ast);
    if raw != "" then ResolveOr(stack, raw) else ""
  }

  /** No projected item is a subquery, so the columns step registers no alias. */
  predicate NoItemSubqueries(ast: Stmt) {
    forall i :: 0 <= i < |ColumnsOf(ast)| ==> !ColumnsOf(ast)[i].expr.Subquery?
  }

  /** Every output column with a fixed name exists under `resultName`. */
  ghost predicate ColumnsCreated(g: Graph, ast: Stmt, resultName: string) {
    forall i :: 0 <= i < |ColumnsOf(ast)| && !ColumnsOf(ast)[i].expr.Star? && FixedOutName(ColumnsOf(ast)[i]).Some? ==>
      ColumnId(resultName, FixedOutName(ColumnsOf(ast)[i]).value) in NodeIds(g.nodes)
  }

  /** Every FROM item's table feeds `resultId`. */
  ghost predicate FromLinked(g: Graph, ast: Stmt, resultId: string) {
    FromLinkedUpTo(g, ast, |FromOf(ast)|, resultId)
  }

  /** The first `n` FROM items' tables feed `resultId`. */
  ghost predicate FromLinkedUpTo(g: Graph, ast: Stmt, n: int, resultId: string) {
    forall i :: 0 <= i < n && i < |FromOf(ast)| ==> TableFeeds(g, FromTableId(FromOf(ast)[i], i), resultId)
  }

  lemma FromLinkedUpToGrows(g0: Graph, g1: Graph, ast: Stmt, n: int, resultId: string)
    requires Grows(g0, g1) && FromLinkedUpTo(g0, ast, n, resultId)
    ensures FromLinkedUpTo(g1, ast, n, resultId)
  {
    GrowsIds(g0, g1);
  }

  lemma ColumnsCreatedGrows(g0: Graph, g1: Graph, ast: Stmt, resultName: string)
    requires Grows(g0, g1) && ColumnsCreated(g0, ast, resultName)
    ensures ColumnsCreated(g1, ast, resultName)
  {
    GrowsIds(g0, g1);
  }


  /** Some output names, agreeing with every fixed one, under which every
      reference traced in every projected item feeds that item's output column. */
  ghost predicate ColumnsTraced(g: Graph, stack: Scopes, ast: Stmt, resultId: string) {
    exists outNames ::
      && |outNames| == |ColumnsOf(ast)|
      && OutNamesFixed(ast, |outNames|, outNames)
      && RefsLinkedUpTo(g, stack, ast, |outNames|, DefaultFrom(stack, ast), resultId, outNames)
  }

  /** What walking a statement that is not a set-operation chain leaves in `g`:
      every FROM table feeds the result, every fixed output column exists and,
      when no projected item is a subquery, the column lineage of every item is
      in place under the alias table `stack` the walk ended with. */
  ghost predicate SelectWalked(g: Graph, stack: Scopes, ast: Stmt, resultName: string, resultId: string) {
    && FromLinked(g, ast, resultId)
    && ColumnsCreated(g, ast, resultName)
    && (NoItemSubqueries(ast) ==> ColumnsTraced(g, stack, ast, resultId))
  }

  lemma ColumnsTracedGrows(g0: Graph, g1: Graph, stack: Scopes, ast: Stmt, resultId: string)
    requires Grows(g0, g1) && ColumnsTraced(g0, stack, ast, resultId)
    ensures ColumnsTraced(g1, stack, ast, resultId)
  {
    var outNames :| && |outNames| == |ColumnsOf(ast)|
      && OutNamesFixed(ast, |outNames|, outNames)
      && RefsLinkedUpTo(g0, stack, ast, |outNames|, DefaultFrom(stack, ast), resultId, outNames);
    RefsLinkedUpToGrows(g0, g1, stack, ast, |outNames|, DefaultFrom(stack, ast), resultId, outNames);
  }

  lemma SelectWalkedGrows(g0: Graph, g1: Graph, stack: Scopes, ast: Stmt, resultName: string, resultId: string)
    requires Grows(g0, g1) && SelectWalked(g0, stack, ast, resultName, resultId)
    ensures SelectWalked(g1, stack, ast, resultName, resultId)
  {
    FromLinkedUpToGrows(g0, g1, ast, |FromOf(ast)|, resultId);
    ColumnsCreatedGrows(g0, g1, ast, resultName);
    if NoItemSubqueries(ast) {
      ColumnsTracedGrows(g0, g1, stack, ast, resultId);
    }
  }

  /** The lineage `ColumnsTraced` promises, item by item: a reference traced in
      an item with a fixed output name, whose table resolves, has its column
      node and a `column_mapping` edge into that output column. */
  lemma TracedRefFeedsOutput(g: Graph, stack: Scopes, ast: Stmt, resultId: string, j: int, r: Ref)
    requires ColumnsTraced(g, stack, ast, resultId)
    requires 0 <= j < |ColumnsOf(ast)| && !ColumnsOf(ast)[j].expr.Star? && FixedOutName(ColumnsOf(ast)[j]).Some?
    requires r in TracedRefs(ColumnsOf(ast)[j].expr)
    ensures var t := RefTable(stack, r, DefaultFrom(stack, ast));
      t != "" ==>
        && ColumnId(t, r.column) in NodeIds(g.nodes)
        && ColumnLink(t, r.column, resultId, FixedOutName(ColumnsOf(ast)[j]).value, ColumnMapping).id in EdgeIds(g.edges)
  {
    var outNames :| && |outNames| == |ColumnsOf(ast)|
      && OutNamesFixed(ast, |outNames|, outNames)
      && RefsLinkedUpTo(g, stack, ast, |outNames|, DefaultFrom(stack, ast), resultId, outNames);
    assert outNames[j] == FixedOutName(ColumnsOf(ast)[j]).value;
    assert RefLinked(g, stack, r, DefaultFrom(stack, ast), resultId, outNames[j]);
  }

  /** One walked part of a set-operation chain: its result table `id` (named
      `name`), the graph `snap` and alias table `stack` right after its walk. */
  datatype PartWalk = PartWalk(id: string, name: string, snap: Graph, stack: Scopes)

  /** What walking part `part` and collapsing it into the union leaves in `g`:
      the part's own walk, its table feeding the union, its named columns mapped
      by name onto the union's columns and, when it has fewer than two incoming
      table edges, their sources linked to the union. */
  ghost predicate PartCollapsed(g: Graph, part: Stmt, p: PartWalk, unionName: string, unionId: string) {
    var incoming := IncomingTableEdges(p.snap.edges, p.id);
    && Grows(p.snap, g)
    && p.id == TableId(p.name) && p.id in NodeIds(p.snap.nodes)
    && (FixedResultName(part, true, "").Some? ==> p.name == FixedResultName(part, true, "").value)
    && (FixedResultName(part, true, "").None? ==> |p.name| > 7 && p.name[..7] == "Result_")
    && SelectWalked(g, p.stack, part, p.name, p.id)
    && TableFeeds(g, p.id, unionId)
    && ColumnsMapped(g, PartColumns(p.snap.nodes, p.id), unionName, p.name, unionId)
    && (|incoming| < 2 ==> SourcesLifted(g, incoming, unionId))
  }

  /** The first `|walks|` parts are walked and collapsed. */
  ghost predicate PartsCollapsedUpTo(g: Graph, parts: seq<Stmt>, walks: seq<PartWalk>, unionName: string, unionId: string) {
    && |walks| <= |parts|
    && forall j :: 0 <= j < |walks| ==> PartCollapsed(g, parts[j], walks[j], unionName, unionId)
  }

  lemma PartsCollapsedStep(g: Graph, parts: seq<Stmt>, walks: seq<PartWalk>, w: PartWalk, unionName: string, unionId: string)
    requires PartsCollapsedUpTo(g, parts, walks, unionName, unionId) && |walks| < |parts|
    requires PartCollapsed(g, parts[|walks|], w, unionName, unionId)
    ensures PartsCollapsedUpTo(g, parts, walks + [w], unionName, unionId)
  {
  }

  /** Once every part is collapsed, the walks record the whole chain. */
  lemma ChainWalksFrom(g: Graph, ast: Stmt, parts: seq<Stmt>, walks: seq<PartWalk>, unionName: string, unionId: string)
    requires |parts| == |Chain(ast)| && |walks| == |parts|
    requires forall i :: 0 <= i < |parts| ==> parts[i] == StripNext(Chain(ast)[i])
    requires PartsCollapsedUpTo(g, parts, walks, unionName, unionId)
    ensures ChainWalks(g, ast, walks, unionName, unionId)
  {
  }

  /** Every part of the chain headed by `ast` is walked and collapsed. */
  ghost predicate ChainCollapsed(g: Graph, ast: Stmt, unionName: string, unionId: string, s: Scopes) {
    exists walks :: ChainWalks(g, ast, walks, unionName, unionId) && PartStacks(walks, s, ast)
  }

  /** `walks` records the walk of every part of the chain headed by `ast`. */
  ghost predicate ChainWalks(g: Graph, ast: Stmt, walks: seq<PartWalk>, unionName: string, unionId: string) {
    && |walks| == |Chain(ast)|
    && forall j :: 0 <= j < |walks| ==> PartCollapsed(g, StripNext(Chain(ast)[j]), walks[j], unionName, unionId)
  }

  lemma PartCollapsedGrows(g0: Graph, g1: Graph, part: Stmt, p: PartWalk, unionName: string, unionId: string)
    requires Grows(g0, g1) && PartCollapsed(g0, part, p, unionName, unionId)
    ensures PartCollapsed(g1, part, p, unionName, unionId)
  {
    GrowsTransitive(p.snap, g0, g1);
    SelectWalkedGrows(g0, g1, p.stack, part, p.name, p.id);
    TableFeedsGrows(g0, g1, p.id, unionId);
    ColumnsMappedGrows(g0, g1, PartColumns(p.snap.nodes, p.id), unionName, p.name, unionId);
    if |IncomingTableEdges(p.snap.edges, p.id)| < 2 {
      SourcesLiftedGrows(g0, g1, IncomingTableEdges(p.snap.edges, p.id), unionId);
    }
  }

  lemma PartsCollapsedGrows(g0: Graph, g1: Graph, parts: seq<Stmt>, walks: seq<PartWalk>, unionName: string, unionId: string)
    requires Grows(g0, g1) && PartsCollapsedUpTo(g0, parts, walks, unionName, unionId)
    ensures PartsCollapsedUpTo(g1, parts, walks, unionName, unionId)
  {
    forall j | 0 <= j < |walks|
      ensures PartCollapsed(g1, parts[j], walks[j], unionName, unionId)
    {
      PartCollapsedGrows(g0, g1, parts[j], walks[j], unionName, unionId);
    }
  }

  // ---------------------------------------------------------------------
  // The alias table a walk leaves. The walk never pushes a scope, so every
  // alias a FROM table registers anywhere in it (in a CTE body, a part of a
  // set-operation chain, a FROM or a projected subquery) stays in the scope
  // it was written to, in walk order.

  /** The alias table after walking `ast` from `s`. */
  ghost function WalkScopes(s: Scopes, ast: Stmt): (r: Scopes)
    requires |s| >= 1
    ensures |r| == |s|
    decreases SizeStmt(ast), 3, 0
  {
    var s1 := CtesScopes(s, ast, |ast.ctes|);
    if ast.next.Some? then PartsScopes(s1, ast, |Chain(ast)|)
    else ItemsScopes(FromScopes(s1, ast, |FromOf(ast)|), ast, |ColumnsOf(ast)|)
  }

  /** After the bodies of the first `k` CTEs. */
  ghost function CtesScopes(s: Scopes, ast: Stmt, k: nat): (r: Scopes)
    requires |s| >= 1 && k <= |ast.ctes|
    ensures |r| == |s|
    decreases SizeStmt(ast), 2, k
  {
    if k == 0 then s else CteScopes(CtesScopes(s, ast, k - 1), ast, k - 1)
  }

  /** After the body, if any, of CTE `i`. */
  ghost function CteScopes(s: Scopes, ast: Stmt, i: nat): (r: Scopes)
    requires |s| >= 1 && i < |ast.ctes|
    ensures |r| == |s|
    decreases SizeStmt(ast), 1, 0
  {
    if ast.ctes[i].stmt.None? then s
    else
      SizeCteBound(ast, 0, i);
      WalkScopes(s, ast.ctes[i].stmt.value)
  }

  /** After the first `k` parts of the chain headed by `ast`. */
  ghost function PartsScopes(s: Scopes, ast: Stmt, k: nat): (r: Scopes)
    requires |s| >= 1 && ast.next.Some? && k <= |Chain(ast)|
    ensures |r| == |s|
    decreases SizeStmt(ast), 2, k
  {
    if k == 0 then s
    else
      SizeChainBound(ast, k - 1);
      WalkScopes(PartsScopes(s, ast, k - 1), StripNext(Chain(ast)[k - 1]))
  }

  /** After the first `k` FROM items. */
  ghost function FromScopes(s: Scopes, ast: Stmt, k: nat): (r: Scopes)
    requires |s| >= 1 && k <= |FromOf(ast)|
    ensures |r| == |s|
    decreases SizeStmt(ast), 2, k
  {
    if k == 0 then s else FromItemScopes(FromScopes(s, ast, k - 1), ast, k - 1)
  }

  /** After FROM item `i`: a subquery's walk, or the table's alias registered. */
  ghost function FromItemScopes(s: Scopes, ast: Stmt, i: nat): (r: Scopes)
    requires |s| >= 1 && i < |FromOf(ast)|
    ensures |r| == |s|
    decreases SizeStmt(ast), 1, 0
  {
    var item := FromOf(ast)[i];
    if item.subquery.Some? then
      SizeFromBound(ast, 0, i);
      WalkScopes(s, item.subquery.value)
    else Registered(s, item.alias, item.table)
  }

  /** After the first `k` projected items. */
  ghost function ItemsScopes(s: Scopes, ast: Stmt, k: nat): (r: Scopes)
    requires |s| >= 1 && k <= |ColumnsOf(ast)|
    ensures |r| == |s|
    decreases SizeStmt(ast), 2, k
  {
    if k == 0 then s else ItemScopes(ItemsScopes(s, ast, k - 1), ast, k - 1)
  }

  /** After projected item `i`: only a subquery item registers anything. */
  ghost function ItemScopes(s: Scopes, ast: Stmt, i: nat): (r: Scopes)
    requires |s| >= 1 && i < |ColumnsOf(ast)|
    ensures |r| == |s|
    decreases SizeStmt(ast), 1, 0
  {
    var e := ColumnsOf(ast)[i].expr;
    if e.Subquery? then
      SizeItemBound(ast, 0, i);
      WalkScopes(s, e.ast)
    else s
  }

  /** Walk `j` of a chain ends with the alias table the first `j + 1` parts leave. */
  ghost predicate PartStacks(walks: seq<PartWalk>, s: Scopes, ast: Stmt) {
    && |s| >= 1 && ast.next.Some? && |walks| <= |Chain(ast)|
    && forall j :: 0 <= j < |walks| ==> walks[j].stack == PartsScopes(s, ast, j + 1)
  }

  lemma PartStacksStep(walks: seq<PartWalk>, w: PartWalk, s: Scopes, s0: Scopes, ast: Stmt, part: Stmt)
    requires PartStacks(walks, s, ast) && |walks| < |Chain(ast)|
    requires part == StripNext(Chain(ast)[|walks|]) && s0 == PartsScopes(s, ast, |walks|)
    requires w.stack == WalkScopes(s0, part)
    ensures PartStacks(walks + [w], s, ast)
    ensures w.stack == PartsScopes(s, ast, |walks| + 1)
  {
  }

  lemma PartsWalkedStep(g0: Graph, g1: Graph, s: Scopes, ast: Stmt, walks: seq<PartWalk>, w: PartWalk)
    requires |s| >= 1 && Grows(g0, g1) && PartsWalked(g0, s, ast, walks) && |walks| < |Chain(ast)|
    requires Walked(g1, PartsScopes(s, ast, |walks|), StripNext(Chain(ast)[|walks|]), w.name, w.id)
    ensures PartsWalked(g1, s, ast, walks + [w])
  {
    PartsWalkedGrows(g0, g1, s, ast, walks);
    forall j | 0 <= j < |walks| + 1
      ensures PartWalked(g1, s, ast, j, (walks + [w])[j])
    {
      if j < |walks| {
        assert (walks + [w])[j] == walks[j];
      } else {
        SizeChainBound(ast, j);
      }
    }
  }

  /** Projected items that are not subqueries register nothing. */
  lemma {:induction false} ItemsScopesPlain(s: Scopes, ast: Stmt, k: nat)
    requires |s| >= 1 && k <= |ColumnsOf(ast)| && NoItemSubqueries(ast)
    ensures ItemsScopes(s, ast, k) == s
  {
    if k > 0 {
      ItemsScopesPlain(s, ast, k - 1);
    }
  }

  /** FROM tables none of which is aliased `name` leave `name` resolving as before. */
  lemma {:induction false} FromScopesKeeps(s: Scopes, ast: Stmt, k: nat, name: string)
    requires |s| >= 1 && k <= |FromOf(ast)|
    requires forall i :: 0 <= i < k ==> FromOf(ast)[i].subquery.None?
    requires forall i :: 0 <= i < k ==> FromOf(ast)[i].alias != name || FromOf(ast)[i].table == ""
    ensures Lookup(FromScopes(s, ast, k), name) == Lookup(s, name)
  {
    if k > 0 {
      FromScopesKeeps(s, ast, k - 1, name);
      var item := FromOf(ast)[k - 1];
      LookupRegistered(FromScopes(s, ast, k - 1), item.alias, item.table, name);
    }
  }

  /** After the FROM tables, the alias of table `j` resolves to that table,
      unless a later table takes the same alias. */
  lemma {:induction false} FromScopesBinds(s: Scopes, ast: Stmt, j: nat, k: nat)
    requires |s| >= 1 && j < k <= |FromOf(ast)|
    requires forall i :: 0 <= i < k ==> FromOf(ast)[i].subquery.None?
    requires FromOf(ast)[j].alias != "" && FromOf(ast)[j].table != ""
    requires forall i :: j < i < k ==> FromOf(ast)[i].alias != FromOf(ast)[j].alias
    ensures Lookup(FromScopes(s, ast, k), FromOf(ast)[j].alias) == Some(FromOf(ast)[j].table)
  {
    var a := FromOf(ast)[j].alias;
    var item := FromOf(ast)[k - 1];
    if k == j + 1 {
      LookupRegistered(FromScopes(s, ast, j), a, FromOf(ast)[j].table, a);
    } else {
      FromScopesBinds(s, ast, j, k - 1);
      LookupRegistered(FromScopes(s, ast, k - 1), item.alias, item.table, a);
    }
  }

  /** The lineage of a top-level `SELECT q.c ... FROM ..., t AS q, ...` as
      `astToGraph` leaves it: with no CTEs and no subqueries, the reference is
      attributed to `t` (the table aliased `q`, which is not itself an alias),
      so `t`'s column `c` exists and feeds the item's output column. */
  lemma QualifiedRefLineage(g: Graph, ast: Stmt, resultName: string, resultId: string, j: nat, k: nat)
    requires ast.ctes == [] && ast.next.None? && NoItemSubqueries(ast)
    requires forall i :: 0 <= i < |FromOf(ast)| ==> FromOf(ast)[i].subquery.None?
    requires j < |FromOf(ast)| && FromOf(ast)[j].alias != "" && FromOf(ast)[j].table != ""
    requires forall i :: j < i < |FromOf(ast)| ==> FromOf(ast)[i].alias != FromOf(ast)[j].alias
    requires forall i :: 0 <= i < |FromOf(ast)| ==> FromOf(ast)[i].alias != FromOf(ast)[j].table
    requires k < |ColumnsOf(ast)| && ColumnsOf(ast)[k].expr.ColumnRef?
    requires ColumnsOf(ast)[k].expr.table == FromOf(ast)[j].alias
    requires SelectWalked(g, WalkScopes([map[]], ast), ast, resultName, resultId)
    ensures var t := FromOf(ast)[j].table;
      var c := ColumnsOf(ast)[k].expr.column;
      && ColumnId(t, c) in NodeIds(g.nodes)
      && ColumnLink(t, c, resultId, FixedOutName(ColumnsOf(ast)[k]).value, ColumnMapping).id in EdgeIds(g.edges)
  {
    var s: Scopes := [map[]];
    var n := |FromOf(ast)|;
    var t := FromOf(ast)[j].table;
    var st := WalkScopes(s, ast);
    assert CtesScopes(s, ast, |ast.ctes|) == s;
    ItemsScopesPlain(FromScopes(s, ast, n), ast, |ColumnsOf(ast)|);
    assert st == FromScopes(s, ast, n);
    FromScopesBinds(s, ast, j, n);
    FromScopesKeeps(s, ast, n, t);
    assert t !in s[0] && LookupBelow(s, 0, t) == None;
    assert Lookup(s, t) == None;
    var r := Ref(FromOf(ast)[j].alias, ColumnsOf(ast)[k].expr.column);
    assert RefTable(st, r, DefaultFrom(st, ast)) == t;
    assert r in TracedRefs(ColumnsOf(ast)[k].expr);
    TracedRefFeedsOutput(g, st, ast, resultId, k, r);
  }

  // ---------------------------------------------------------------------
  // The whole walk, nested statements included.

  /** `name` is a result name `processAST` may choose for `ast` when called
      with `isNested` and `providedName`. */
  predicate NameFits(ast: Stmt, isNested: bool, providedName: string, name: string) {
    && (FixedResultName(ast, isNested, providedName).Some? ==> name == FixedResultName(ast, isNested, providedName).value)
    && (FixedResultName(ast, isNested, providedName).None? ==> |name| > 7 && name[..7] == "Result_")
  }

  /** What walking `ast` from alias table `s` into result table `id`, named
      `name`, leaves in `g`, together with the walk of every statement nested
      in it: each CTE body under the CTE's name and id; for a set-operation
      chain, every part walked and collapsed; otherwise the statement's own
      `SelectWalked` under the alias table the walk ends with, every FROM
      subquery under its alias and `table_<alias>`, and every projected
      subquery under `Table_<alias>`, whose table feeds `id`. Each nested walk
      starts from the alias table its predecessors leave. */
  ghost predicate Walked(g: Graph, s: Scopes, ast: Stmt, name: string, id: string)
    requires |s| >= 1
    decreases SizeStmt(ast), 3
  {
    var s1 := CtesScopes(s, ast, |ast.ctes|);
    && CtesWalked(g, s, ast, |ast.ctes|)
    && (if ast.next.Some? then
          exists walks :: ChainWalks(g, ast, walks, name, id) && PartStacks(walks, s1, ast) && PartsWalked(g, s1, ast, walks)
        else
          && SelectWalked(g, WalkScopes(s, ast), ast, name, id)
          && FromSubsWalked(g, s1, ast, |FromOf(ast)|)
          && ItemSubsWalked(g, FromScopes(s1, ast, |FromOf(ast)|), ast, |ColumnsOf(ast)|, id))
  }

  /** The bodies of the first `k` CTEs are walked. */
  ghost predicate CtesWalked(g: Graph, s: Scopes, ast: Stmt, k: nat)
    requires |s| >= 1 && k <= |ast.ctes|
    decreases SizeStmt(ast), 2
  {
    forall i :: 0 <= i < k ==> CteWalked(g, CtesScopes(s, ast, i), ast, i)
  }

  /** The body of CTE `i`, if any, is walked from `s` into the CTE's table. */
  ghost predicate CteWalked(g: Graph, s: Scopes, ast: Stmt, i: nat)
    requires |s| >= 1 && i < |ast.ctes|
    decreases SizeStmt(ast), 1
  {
    var cte := ast.ctes[i];
    if cte.stmt.None? then true
    else
      SizeCteBound(ast, 0, i);
      exists name :: NameFits(cte.stmt.value, true, cte.name, name) && Walked(g, s, cte.stmt.value, name, TableId(cte.name))
  }

  /** Every walk recorded for a part of the chain covers the part's nested statements too. */
  ghost predicate PartsWalked(g: Graph, s: Scopes, ast: Stmt, walks: seq<PartWalk>)
    requires |s| >= 1
    decreases SizeStmt(ast), 2
  {
    && ast.next.Some? && |walks| <= |Chain(ast)|
    && forall j :: 0 <= j < |walks| ==> PartWalked(g, s, ast, j, walks[j])
  }

  /** Part `j` is walked from the alias table the parts before it leave. */
  ghost predicate PartWalked(g: Graph, s: Scopes, ast: Stmt, j: nat, w: PartWalk)
    requires |s| >= 1 && ast.next.Some? && j < |Chain(ast)|
    decreases SizeStmt(ast), 1
  {
    SizeChainBound(ast, j);
    Walked(g, PartsScopes(s, ast, j), StripNext(Chain(ast)[j]), w.name, w.id)
  }

  /** The subqueries among the first `k` FROM items are walked. */
  ghost predicate FromSubsWalked(g: Graph, s: Scopes, ast: Stmt, k: nat)
    requires |s| >= 1 && k <= |FromOf(ast)|
    decreases SizeStmt(ast), 2
  {
    forall i :: 0 <= i < k ==> FromSubWalked(g, FromScopes(s, ast, i), ast, i)
  }

  /** A subquery at FROM item `i` is walked from `s` under its alias. */
  ghost predicate FromSubWalked(g: Graph, s: Scopes, ast: Stmt, i: nat)
    requires |s| >= 1 && i < |FromOf(ast)|
    decreases SizeStmt(ast), 1
  {
    var item := FromOf(ast)[i];
    if item.subquery.None? then true
    else
      SizeFromBound(ast, 0, i);
      Walked(g, s, item.subquery.value, SubqueryAlias(item, i), TableId(SubqueryAlias(item, i)))
  }

  /** The subqueries among the first `k` projected items are walked. */
  ghost predicate ItemSubsWalked(g: Graph, s: Scopes, ast: Stmt, k: nat, id: string)
    requires |s| >= 1 && k <= |ColumnsOf(ast)|
    decreases SizeStmt(ast), 2
  {
    forall i :: 0 <= i < k ==> ItemSubWalked(g, ItemsScopes(s, ast, i), ast, i, id)
  }

  /** A subquery at projected item `i` is walked from `s` as `Table_<alias>`,
      and that table feeds `id`. */
  ghost predicate ItemSubWalked(g: Graph, s: Scopes, ast: Stmt, i: nat, id: string)
    requires |s| >= 1 && i < |ColumnsOf(ast)|
    decreases SizeStmt(ast), 1
  {
    var item := ColumnsOf(ast)[i];
    if !item.expr.Subquery? then true
    else
      var name := "Table_" + Interpolated(item.alias);
      SizeItemBound(ast, 0, i);
      && TableFeeds(g, TableId(name), id)
      && Walked(g, s, item.expr.ast, name, TableId(name))
  }

  lemma ChainWalksGrows(g0: Graph, g1: Graph, ast: Stmt, walks: seq<PartWalk>, name: string, id: string)
    requires Grows(g0, g1) && ChainWalks(g0, ast, walks, name, id)
    ensures ChainWalks(g1, ast, walks, name, id)
  {
    forall j | 0 <= j < |walks|
      ensures PartCollapsed(g1, StripNext(Chain(ast)[j]), walks[j], name, id)
    {
      PartCollapsedGrows(g0, g1, StripNext(Chain(ast)[j]), walks[j], name, id);
    }
  }

  /** A walk, nested statements included, stays done as the graph grows. */
  lemma WalkedGrows(g0: Graph, g1: Graph, s: Scopes, ast: Stmt, name: string, id: string)
    requires |s| >= 1 && Grows(g0, g1) && Walked(g0, s, ast, name, id)
    ensures Walked(g1, s, ast, name, id)
    decreases SizeStmt(ast), 3
  {
    var s1 := CtesScopes(s, ast, |ast.ctes|);
    CtesWalkedGrows(g0, g1, s, ast, |ast.ctes|);
    if ast.next.Some? {
      var walks :| ChainWalks(g0, ast, walks, name, id) && PartStacks(walks, s1, ast) && PartsWalked(g0, s1, ast, walks);
      ChainWalksGrows(g0, g1, ast, walks, name, id);
      PartsWalkedGrows(g0, g1, s1, ast, walks);
      assert ChainWalks(g1, ast, walks, name, id) && PartStacks(walks, s1, ast) && PartsWalked(g1, s1, ast, walks);
    } else {
      SelectWalkedGrows(g0, g1, WalkScopes(s, ast), ast, name, id);
      FromSubsWalkedGrows(g0, g1, s1, ast, |FromOf(ast)|);
      ItemSubsWalkedGrows(g0, g1, FromScopes(s1, ast, |FromOf(ast)|), ast, |ColumnsOf(ast)|, id);
    }
  }

  lemma CtesWalkedGrows(g0: Graph, g1: Graph, s: Scopes, ast: Stmt, k: nat)
    requires |s| >= 1 && k <= |ast.ctes| && Grows(g0, g1) && CtesWalked(g0, s, ast, k)
    ensures CtesWalked(g1, s, ast, k)
    decreases SizeStmt(ast), 2
  {
    forall i | 0 <= i < k
      ensures CteWalked(g1, CtesScopes(s, ast, i), ast, i)
    {
      CteWalkedGrows(g0, g1, CtesScopes(s, ast, i), ast, i);
    }
  }

  /** One more CTE created and walked. */
  /** The first `k` CTEs are done: their tables exist, their bodies are
      walked, and `st` is the alias table they leave. */
  ghost predicate CtesDone(g: Graph, s: Scopes, st: Scopes, ast: Stmt, k: nat)
    requires |s| >= 1 && k <= |ast.ctes|
  {
    && st == CtesScopes(s, ast, k)
    && CtesCreatedUpTo(g, ast, k)
    && CtesWalked(g, s, ast, k)
  }

  lemma CtesStep(g0: Graph, g1: Graph, s: Scopes, st0: Scopes, st1: Scopes, ast: Stmt, k: nat)
    requires |s| >= 1 && |st0| == |s| && k < |ast.ctes| && Grows(g0, g1)
    requires CtesDone(g0, s, st0, ast, k)
    requires st1 == CteScopes(st0, ast, k)
    requires TableId(ast.ctes[k].name) in NodeIds(g1.nodes)
    requires CteWalked(g1, st0, ast, k)
    ensures CtesDone(g1, s, st1, ast, k + 1)
  {
    CtesCreatedGrows(g0, g1, ast, k);
    CtesWalkedGrows(g0, g1, s, ast, k);
  }

  lemma CteWalkedGrows(g0: Graph, g1: Graph, s: Scopes, ast: Stmt, i: nat)
    requires |s| >= 1 && i < |ast.ctes| && Grows(g0, g1) && CteWalked(g0, s, ast, i)
    ensures CteWalked(g1, s, ast, i)
    decreases SizeStmt(ast), 1
  {
    var cte := ast.ctes[i];
    if cte.stmt.Some? {
      SizeCteBound(ast, 0, i);
      var name :| NameFits(cte.stmt.value, true, cte.name, name) && Walked(g0, s, cte.stmt.value, name, TableId(cte.name));
      WalkedGrows(g0, g1, s, cte.stmt.value, name, TableId(cte.name));
    }
  }

  lemma PartsWalkedGrows(g0: Graph, g1: Graph, s: Scopes, ast: Stmt, walks: seq<PartWalk>)
    requires |s| >= 1 && Grows(g0, g1) && PartsWalked(g0, s, ast, walks)
    ensures PartsWalked(g1, s, ast, walks)
    decreases SizeStmt(ast), 2
  {
    forall j | 0 <= j < |walks|
      ensures PartWalked(g1, s, ast, j, walks[j])
    {
      SizeChainBound(ast, j);
      WalkedGrows(g0, g1, PartsScopes(s, ast, j), StripNext(Chain(ast)[j]), walks[j].name, walks[j].id);
    }
  }

  lemma FromSubsWalkedGrows(g0: Graph, g1: Graph, s: Scopes, ast: Stmt, k: nat)
    requires |s| >= 1 && k <= |FromOf(ast)| && Grows(g0, g1) && FromSubsWalked(g0, s, ast, k)
    ensures FromSubsWalked(g1, s, ast, k)
    decreases SizeStmt(ast), 2
  {
    forall i | 0 <= i < k
      ensures FromSubWalked(g1, FromScopes(s, ast, i), ast, i)
    {
      var item := FromOf(ast)[i];
      if item.subquery.Some? {
        SizeFromBound(ast, 0, i);
        WalkedGrows(g0, g1, FromScopes(s, ast, i), item.subquery.value, SubqueryAlias(item, i), TableId(SubqueryAlias(item, i)));
      }
    }
  }

  /** The first `k` FROM items are done: their tables feed `resultId`, their
      subqueries are walked, and `st` is the alias table they leave. */
  ghost predicate FromDone(g: Graph, s: Scopes, st: Scopes, ast: Stmt, k: nat, resultId: string)
    requires |s| >= 1 && k <= |FromOf(ast)|
  {
    && st == FromScopes(s, ast, k)
    && FromLinkedUpTo(g, ast, k, resultId)
    && FromSubsWalked(g, s, ast, k)
  }

  lemma FromStep(g0: Graph, g1: Graph, s: Scopes, st0: Scopes, st1: Scopes, ast: Stmt, k: nat, resultId: string)
    requires |s| >= 1 && |st0| == |s| && k < |FromOf(ast)| && Grows(g0, g1)
    requires FromDone(g0, s, st0, ast, k, resultId)
    requires st1 == FromItemScopes(st0, ast, k)
    requires TableFeeds(g1, FromTableId(FromOf(ast)[k], k), resultId)
    requires FromSubWalked(g1, st0, ast, k)
    ensures FromDone(g1, s, st1, ast, k + 1, resultId)
  {
    FromSubsWalkedGrows(g0, g1, s, ast, k);
    FromLinkedUpToGrows(g0, g1, ast, k, resultId);
  }

  lemma ItemSubsWalkedGrows(g0: Graph, g1: Graph, s: Scopes, ast: Stmt, k: nat, id: string)
    requires |s| >= 1 && k <= |ColumnsOf(ast)| && Grows(g0, g1) && ItemSubsWalked(g0, s, ast, k, id)
    ensures ItemSubsWalked(g1, s, ast, k, id)
    decreases SizeStmt(ast), 2
  {
    forall i | 0 <= i < k
      ensures ItemSubWalked(g1, ItemsScopes(s, ast, i), ast, i, id)
    {
      ItemSubWalkedGrows(g0, g1, ItemsScopes(s, ast, i), ast, i, id);
    }
  }

  lemma ItemSubWalkedGrows(g0: Graph, g1: Graph, s: Scopes, ast: Stmt, i: nat, id: string)
    requires |s| >= 1 && i < |ColumnsOf(ast)| && Grows(g0, g1) && ItemSubWalked(g0, s, ast, i, id)
    ensures ItemSubWalked(g1, s, ast, i, id)
    decreases SizeStmt(ast), 1
  {
    var item := ColumnsOf(ast)[i];
    if item.expr.Subquery? {
      var name := "Table_" + Interpolated(item.alias);
      SizeItemBound(ast, 0, i);
      TableFeedsGrows(g0, g1, TableId(name), id);
      WalkedGrows(g0, g1, s, item.expr.ast, name, TableId(name));
    }
  }

  /** A SELECT without a set-operation chain or projected subquery whose FROM
      items are all unaliased tables: its own FROM and columns register nothing. */
  predicate FlatSelect(ast: Stmt) {
    && ast.next.None? && NoItemSubqueries(ast)
    && forall i :: 0 <= i < |FromOf(ast)| ==> FromOf(ast)[i].subquery.None? && FromOf(ast)[i].alias == ""
  }

  /** A projected bare column `x`, without qualifier or alias. */
  predicate BareColumn(item: SelectItem) {
    item.expr.ColumnRef? && item.expr.table == "" && item.alias == ""
  }

  /** Unaliased FROM tables register nothing. */
  lemma {:induction false} FromScopesUnaliased(s: Scopes, ast: Stmt, k: nat)
    requires |s| >= 1 && k <= |FromOf(ast)|
    requires forall i :: 0 <= i < k ==> FromOf(ast)[i].subquery.None? && FromOf(ast)[i].alias == ""
    ensures FromScopes(s, ast, k) == s
  {
    if k > 0 {
      FromScopesUnaliased(s, ast, k - 1);
    }
  }

  /** Walking a flat SELECT leaves the alias table its CTEs leave. */
  lemma FlatWalkScopes(s: Scopes, ast: Stmt)
    requires |s| >= 1 && FlatSelect(ast)
    ensures WalkScopes(s, ast) == CtesScopes(s, ast, |ast.ctes|)
  {
    var s1 := CtesScopes(s, ast, |ast.ctes|);
    FromScopesUnaliased(s1, ast, |FromOf(ast)|);
    ItemsScopesPlain(s1, ast, |ColumnsOf(ast)|);
  }

  /** Two-hop lineage through a CTE, as `astToGraph` leaves it for
      `WITH c AS (SELECT x FROM t, ...) SELECT x FROM c, ...` where no FROM
      item is aliased and no statement holds a subquery: `t` feeds `c` and `c`
      feeds the result; `t_x` exists and feeds `c_x`, which exists and feeds
      the result's column `x`. */
  lemma CteTwoHopLineage(g: Graph, ast: Stmt, resultName: string, resultId: string, kb: nat, ko: nat)
    requires |ast.ctes| == 1 && ast.ctes[0].name != "" && ast.ctes[0].stmt.Some?
    requires ast.ctes[0].stmt.value.ctes == [] && FlatSelect(ast.ctes[0].stmt.value) && FlatSelect(ast)
    requires |FromOf(ast.ctes[0].stmt.value)| >= 1 && FromOf(ast.ctes[0].stmt.value)[0].table != ""
    requires |FromOf(ast)| >= 1 && FromOf(ast)[0].table == ast.ctes[0].name
    requires kb < |ColumnsOf(ast.ctes[0].stmt.value)| && BareColumn(ColumnsOf(ast.ctes[0].stmt.value)[kb])
    requires ko < |ColumnsOf(ast)| && BareColumn(ColumnsOf(ast)[ko])
    requires ColumnsOf(ast)[ko].expr.column == ColumnsOf(ast.ctes[0].stmt.value)[kb].expr.column
    requires Walked(g, [map[]], ast, resultName, resultId)
    ensures var t := FromOf(ast.ctes[0].stmt.value)[0].table;
      var c := ast.ctes[0].name;
      var x := ColumnsOf(ast)[ko].expr.column;
      && TableFeeds(g, TableId(t), TableId(c))
      && TableFeeds(g, TableId(c), resultId)
      && ColumnId(t, x) in NodeIds(g.nodes)
      && ColumnId(c, x) in NodeIds(g.nodes)
      && ColumnId(resultName, x) in NodeIds(g.nodes)
      && ColumnLink(t, x, TableId(c), x, ColumnMapping).id in EdgeIds(g.edges)
      && ColumnLink(c, x, resultId, x, ColumnMapping).id in EdgeIds(g.edges)
  {
    var s: Scopes := [map[]];
    var body := ast.ctes[0].stmt.value;
    var t := FromOf(body)[0].table;
    var c := ast.ctes[0].name;
    var x := ColumnsOf(ast)[ko].expr.column;
    FlatWalkScopes(s, body);
    assert CtesScopes(s, ast, 1) == s;
    FlatWalkScopes(s, ast);
    // The CTE body, walked under the CTE's name.
    assert CteWalked(g, CtesScopes(s, ast, 0), ast, 0);
    SizeCteBound(ast, 0, 0);
    var name :| NameFits(body, true, c, name) && Walked(g, s, body, name, TableId(c));
    assert name == c;
    assert SelectWalked(g, s, body, c, TableId(c));
    assert FromTableId(FromOf(body)[0], 0) == TableId(t);
    assert t !in s[0] && LookupBelow(s, 0, t) == None;
    assert DefaultFrom(s, body) == t;
    var r := Ref("", x);
    assert r in TracedRefs(ColumnsOf(body)[kb].expr);
    assert RefTable(s, r, t) == t;
    TracedRefFeedsOutput(g, s, body, TableId(c), kb, r);
    // The outer statement, reading the CTE.
    assert SelectWalked(g, s, ast, resultName, resultId);
    assert FromTableId(FromOf(ast)[0], 0) == TableId(c);
    assert c !in s[0] && LookupBelow(s, 0, c) == None;
    assert DefaultFrom(s, ast) == c;
    assert r in TracedRefs(ColumnsOf(ast)[ko].expr);
    assert RefTable(s, r, c) == c;
    TracedRefFeedsOutput(g, s, ast, resultId, ko, r);
  }

  /** The collapse of `SELECT ... FROM (subquery) q`: a statement named by
      its sole aliased FROM subquery walks that subquery into its own result
      table, under the same name. */
  lemma SoleSubqueryCollapse(g: Graph, s: Scopes, ast: Stmt, isNested: bool, name: string)
    requires |s| >= 1 && ast.next.None? && SoleSubqueryAlias(ast) != ""
    requires NameFits(ast, isNested, "", name)
    requires Walked(g, s, ast, name, TableId(name))
    ensures name == FromOf(ast)[0].alias
    ensures Walked(g, CtesScopes(s, ast, |ast.ctes|), FromOf(ast)[0].subquery.value, name, TableId(name))
  {
    var s1 := CtesScopes(s, ast, |ast.ctes|);
    assert FromSubWalked(g, FromScopes(s1, ast, 0), ast, 0);
  }

  // ---------------------------------------------------------------------
  // processAST

  /** Walks one statement and returns the id of the table node holding its
      result: `providedId` when one is given, else `table_<result name>`. The
      result name is the caller's, a sole FROM subquery's alias, `Result`, or
      `Result_` and a fresh suffix. */
  method ProcessAST(ast: Stmt, ctx: WalkCtx, isNested: bool, providedName: string, providedId: string)
    returns (r: string, ghost resultName: string)
    requires ctx.Valid()
    modifies ctx.builder, ctx.aliases, ctx.names
    ensures ctx.Valid()
    ensures Grows(old(ctx.builder.graph), ctx.builder.graph)
    ensures |ctx.aliases.stack| == |old(ctx.aliases.stack)|
    ensures FixedResultName(ast, isNested, providedName).Some? ==>
      resultName == FixedResultName(ast, isNested, providedName).value
    ensures FixedResultName(ast, isNested, providedName).None? ==>
      |resultName| > 7 && resultName[..7] == "Result_"
    ensures providedId != "" ==> r == providedId
    ensures providedId == "" ==> r == TableId(resultName) && r in NodeIds(ctx.builder.graph.nodes)
    ensures ctx.aliases.stack == WalkScopes(old(ctx.aliases.stack), ast)
    ensures ast.next.None? ==> SelectWalked(ctx.builder.graph, ctx.aliases.stack, ast, resultName, r)
    ensures ast.next.Some? ==>
      ChainCollapsed(ctx.builder.graph, ast, resultName, r, CtesScopes(old(ctx.aliases.stack), ast, |ast.ctes|))
    ensures Walked(ctx.builder.graph, old(ctx.aliases.stack), ast, resultName, r)
    decreases SizeStmt(ast), 8
  {
    var name, resultId := ResultTable(ast, ctx, isNested, providedName, providedId);
    resultName := name;
    ghost var g1 := ctx.builder.graph;
    ProcessBody(ast, ctx, name, resultId);
    GrowsTransitive(old(ctx.builder.graph), g1, ctx.builder.graph);
    GrowsIds(g1, ctx.builder.graph);
    r := resultId;
  }

  /** The result name of a statement and, unless the caller gives one, its
      result table node (carrying the statement's set operator). */
  method ResultTable(ast: Stmt, ctx: WalkCtx, isNested: bool, providedName: string, providedId: string)
    returns (name: string, id: string)
    requires ctx.Valid()
    modifies ctx.builder, ctx.names
    ensures ctx.Valid()
    ensures Grows(old(ctx.builder.graph), ctx.builder.graph)
    ensures FixedResultName(ast, isNested, providedName).Some? ==>
      name == FixedResultName(ast, isNested, providedName).value
    ensures FixedResultName(ast, isNested, providedName).None? ==>
      |name| > 7 && name[..7] == "Result_"
    ensures providedId != "" ==> id == providedId
    ensures providedId == "" ==> id == TableId(name) && id in NodeIds(ctx.builder.graph.nodes)
  {
    name := ResultNameFor(ast, isNested, providedName, ctx.names);
    id := providedId;
    if providedId == "" {
      id := ctx.builder.EnsureTable(name, PlainTable, TableExtras("", "", ast.setOp, false));
      assert id in NodeIds(ctx.builder.graph.nodes);
    } else {
      GrowsTransitive(old(ctx.builder.graph), old(ctx.builder.graph), ctx.builder.graph);
    }
  }

  /** The CTEs of a statement, then either its set-operation chain or its
      FROM list and projection, all feeding the result table `resultId`. */
  method ProcessBody(ast: Stmt, ctx: WalkCtx, resultName: string, resultId: string)
    requires ctx.Valid()
    modifies ctx.builder, ctx.aliases, ctx.names
    ensures ctx.Valid()
    ensures Grows(old(ctx.builder.graph), ctx.builder.graph)
    ensures |ctx.aliases.stack| == |old(ctx.aliases.stack)|
    ensures ctx.aliases.stack == WalkScopes(old(ctx.aliases.stack), ast)
    ensures ast.next.None? ==> SelectWalked(ctx.builder.graph, ctx.aliases.stack, ast, resultName, resultId)
    ensures ast.next.Some? ==>
      ChainCollapsed(ctx.builder.graph, ast, resultName, resultId, CtesScopes(old(ctx.aliases.stack), ast, |ast.ctes|))
    ensures Walked(ctx.builder.graph, old(ctx.aliases.stack), ast, resultName, resultId)
    decreases SizeStmt(ast), 7
  {
    ProcessCtes(ast, ctx);
    ghost var g1 := ctx.builder.graph;
    ghost var s1 := ctx.aliases.stack;
    if ast.next.Some? {
      ghost var walks := ProcessSetChain(ast, ctx, resultName, resultId);
      assert ChainWalks(ctx.builder.graph, ast, walks, resultName, resultId);
      assert PartStacks(walks, s1, ast) && PartsWalked(ctx.builder.graph, s1, ast, walks);
    } else {
      ProcessSelect(ast, ctx, resultName, resultId);
    }
    GrowsTransitive(old(ctx.builder.graph), g1, ctx.builder.graph);
    CtesWalkedGrows(g1, ctx.builder.graph, old(ctx.aliases.stack), ast, |ast.ctes|);
  }

  /** The name of a statement's result table: the name given by the caller, the
      alias of a sole FROM subquery, `Result` for the top-level statement, and
      otherwise `Result_` followed by a fresh suffix. */
  method ResultNameFor(ast: Stmt, isNested: bool, providedName: string, names: NameSupply)
    returns (name: string)
    modifies names
    ensures FixedResultName(ast, isNested, providedName).Some? ==>
      name == FixedResultName(ast, isNested, providedName).value && names.drawn == old(names.drawn)
    ensures FixedResultName(ast, isNested, providedName).None? ==>
      |name| > 7 && name[..7] == "Result_" && names.drawn == old(names.drawn) + 1
  {
    var sole := SoleSubqueryAlias(ast);
    if providedName != "" {
      name := providedName;
    } else if sole != "" {
      name := sole;
    } else if ast.next.None? && !isNested {
      name := "Result";
    } else {
      var suffix := names.Next();
      name := "Result_" + suffix;
      assert name[..7] == "Result_";
    }
  }

  /** The FROM list, then the projected items, of a statement that is not a
      set-operation chain. */
  method ProcessSelect(ast: Stmt, ctx: WalkCtx, resultName: string, resultId: string)
    requires ctx.Valid()
    modifies ctx.builder, ctx.aliases, ctx.names
    ensures ctx.Valid()
    ensures Grows(old(ctx.builder.graph), ctx.builder.graph)
    ensures |ctx.aliases.stack| == |old(ctx.aliases.stack)|
    ensures ctx.aliases.stack == ItemsScopes(FromScopes(old(ctx.aliases.stack), ast, |FromOf(ast)|), ast, |ColumnsOf(ast)|)
    ensures SelectWalked(ctx.builder.graph, ctx.aliases.stack, ast, resultName, resultId)
    ensures FromSubsWalked(ctx.builder.graph, old(ctx.aliases.stack), ast, |FromOf(ast)|)
    ensures ItemSubsWalked(ctx.builder.graph, FromScopes(old(ctx.aliases.stack), ast, |FromOf(ast)|), ast, |ColumnsOf(ast)|, resultId)
    decreases SizeStmt(ast), 6
  {
    if ast.from.FromItems? {
      ProcessFrom(ast, ctx, resultId);
    }
    ghost var g1 := ctx.builder.graph;
    assert FromSubsWalked(g1, old(ctx.aliases.stack), ast, |FromOf(ast)|);
    assert FromLinked(g1, ast, resultId);
    if ast.columns.Columns? {
      ghost var outNames := ProcessColumns(ast, ctx, resultName, resultId);
      FromLinkedUpToGrows(g1, ctx.builder.graph, ast, |FromOf(ast)|, resultId);
      FromSubsWalkedGrows(g1, ctx.builder.graph, old(ctx.aliases.stack), ast, |FromOf(ast)|);
      if NoItemSubqueries(ast) {
        assert RefsLinkedUpTo(ctx.builder.graph, ctx.aliases.stack, ast, |outNames|, DefaultFrom(ctx.aliases.stack, ast), resultId, outNames);
      }
    } else {
      ghost var none: seq<string> := [];
      assert RefsLinkedUpTo(ctx.builder.graph, ctx.aliases.stack, ast, |none|, DefaultFrom(ctx.aliases.stack, ast), resultId, none);
      assert OutNamesFixed(ast, |none|, none);
    }
    GrowsTransitive(old(ctx.builder.graph), g1, ctx.builder.graph);
  }

  /** The WITH list: each CTE gets its `cte` node and its body is walked under
      the CTE's own name and id. The body's id is always the CTE's id (see
      `ProcessAST`'s first `ensures`), so the source's link from the body to the
      CTE never fires and is not modelled. */
  method ProcessCtes(ast: Stmt, ctx: WalkCtx)
    requires ctx.Valid()
    modifies ctx.builder, ctx.aliases, ctx.names
    ensures ctx.Valid()
    ensures Grows(old(ctx.builder.graph), ctx.builder.graph)
    ensures |ctx.aliases.stack| == |old(ctx.aliases.stack)|
    ensures ctx.aliases.stack == CtesScopes(old(ctx.aliases.stack), ast, |ast.ctes|)
    ensures CtesCreatedUpTo(ctx.builder.graph, ast, |ast.ctes|)
    ensures CtesWalked(ctx.builder.graph, old(ctx.aliases.stack), ast, |ast.ctes|)
    decreases SizeStmt(ast), 3
  {
    ghost var s := ctx.aliases.stack;
    var k := 0;
    while k < |ast.ctes|
      invariant 0 <= k <= |ast.ctes|
      invariant ctx.Valid()
      invariant Grows(old(ctx.builder.graph), ctx.builder.graph)
      invariant |ctx.aliases.stack| == |s|
      invariant CtesDone(ctx.builder.graph, s, ctx.aliases.stack, ast, k)
    {
      ghost var g0 := ctx.builder.graph;
      ProcessNextCte(ast, k, ctx, s);
      GrowsTransitive(old(ctx.builder.graph), g0, ctx.builder.graph);
      k := k + 1;
    }
  }

  /** CTE `k` after the first `k` are done: afterwards the first `k + 1` are. */
  method ProcessNextCte(ast: Stmt, k: nat, ctx: WalkCtx, ghost s: Scopes)
    requires ctx.Valid()
    requires |s| >= 1 && |ctx.aliases.stack| == |s| && k < |ast.ctes|
    requires CtesDone(ctx.builder.graph, s, ctx.aliases.stack, ast, k)
    modifies ctx.builder, ctx.aliases, ctx.names
    ensures ctx.Valid()
    ensures Grows(old(ctx.builder.graph), ctx.builder.graph)
    ensures |ctx.aliases.stack| == |s|
    ensures CtesDone(ctx.builder.graph, s, ctx.aliases.stack, ast, k + 1)
    decreases SizeStmt(ast), 2, 1
  {
    ghost var g0 := ctx.builder.graph;
    ghost var st0 := ctx.aliases.stack;
    ProcessCte(ast, k, ctx);
    CtesStep(g0, ctx.builder.graph, s, st0, ctx.aliases.stack, ast, k);
  }

  /** One CTE: its `cte` table node, then its body walked under the CTE's own
      name and id. */
  method ProcessCte(ast: Stmt, k: nat, ctx: WalkCtx)
    requires ctx.Valid()
    requires k < |ast.ctes|
    modifies ctx.builder, ctx.aliases, ctx.names
    ensures ctx.Valid()
    ensures Grows(old(ctx.builder.graph), ctx.builder.graph)
    ensures ctx.aliases.stack == CteScopes(old(ctx.aliases.stack), ast, k)
    ensures TableId(ast.ctes[k].name) in NodeIds(ctx.builder.graph.nodes)
    ensures CteWalked(ctx.builder.graph, old(ctx.aliases.stack), ast, k)
    decreases SizeStmt(ast), 2, 0
  {
    var cte := ast.ctes[k];
    var cteId := ctx.builder.EnsureTable(cte.name, CteTable, TableExtras("", "", "", true));
    assert cteId in NodeIds(ctx.builder.graph.nodes);
    if cte.stmt.Some? {
      SizeCteBound(ast, 0, k);
      ghost var g1 := ctx.builder.graph;
      ghost var nestedName: string;
      var nestedId: string;
      nestedId, nestedName := ProcessAST(cte.stmt.value, ctx, true, cte.name, cteId);
      GrowsTransitive(old(ctx.builder.graph), g1, ctx.builder.graph);
      GrowsIds(g1, ctx.builder.graph);
      assert NameFits(cte.stmt.value, true, cte.name, nestedName);
    }
  }

  /** A UNION/INTERSECT/EXCEPT chain: every part is walked as a nested
      statement and collapsed into the head's result node. */
  method ProcessSetChain(ast: Stmt, ctx: WalkCtx, unionName: string, unionId: string)
    returns (ghost walks: seq<PartWalk>)
    requires ctx.Valid()
    requires ast.next.Some?
    modifies ctx.builder, ctx.aliases, ctx.names
    ensures ctx.Valid()
    ensures Grows(old(ctx.builder.graph), ctx.builder.graph)
    ensures |ctx.aliases.stack| == |old(ctx.aliases.stack)|
    ensures ctx.aliases.stack == PartsScopes(old(ctx.aliases.stack), ast, |Chain(ast)|)
    ensures ChainWalks(ctx.builder.graph, ast, walks, unionName, unionId)
    ensures PartStacks(walks, old(ctx.aliases.stack), ast)
    ensures PartsWalked(ctx.builder.graph, old(ctx.aliases.stack), ast, walks)
    decreases SizeStmt(ast), 4
  {
    var op, parts := CollectSetChain(ast);
    walks := ProcessParts(ast, parts, ctx, unionName, unionId);
  }

  /** The loop over the parts of the chain, each collapsed into the union. */
  method ProcessParts(ast: Stmt, parts: seq<Stmt>, ctx: WalkCtx, unionName: string, unionId: string)
    returns (ghost walks: seq<PartWalk>)
    requires ctx.Valid()
    requires ast.next.Some? && |parts| == |Chain(ast)|
    requires forall i :: 0 <= i < |parts| ==> parts[i] == StripNext(Chain(ast)[i])
    modifies ctx.builder, ctx.aliases, ctx.names
    ensures ctx.Valid()
    ensures Grows(old(ctx.builder.graph), ctx.builder.graph)
    ensures |ctx.aliases.stack| == |old(ctx.aliases.stack)|
    ensures ctx.aliases.stack == PartsScopes(old(ctx.aliases.stack), ast, |Chain(ast)|)
    ensures ChainWalks(ctx.builder.graph, ast, walks, unionName, unionId)
    ensures PartStacks(walks, old(ctx.aliases.stack), ast)
    ensures PartsWalked(ctx.builder.graph, old(ctx.aliases.stack), ast, walks)
    decreases SizeStmt(ast), 3
  {
    walks := [];
    var i := 0;
    while i < |parts|
      invariant 0 <= i <= |parts|
      invariant ctx.Valid()
      invariant Grows(old(ctx.builder.graph), ctx.builder.graph)
      invariant |ctx.aliases.stack| == |old(ctx.aliases.stack)|
      invariant |walks| == i
      invariant PartsCollapsedUpTo(ctx.builder.graph, parts, walks, unionName, unionId)
      invariant ctx.aliases.stack == PartsScopes(old(ctx.aliases.stack), ast, i)
      invariant PartStacks(walks, old(ctx.aliases.stack), ast)
      invariant PartsWalked(ctx.builder.graph, old(ctx.aliases.stack), ast, walks)
    {
      ghost var g0 := ctx.builder.graph;
      ghost var s0 := ctx.aliases.stack;
      ghost var w: PartWalk;
      var partId: string;
      partId, w := ProcessPart(ast, i, parts[i], ctx, unionName, unionId);
      GrowsTransitive(old(ctx.builder.graph), g0, ctx.builder.graph);
      PartsCollapsedGrows(g0, ctx.builder.graph, parts, walks, unionName, unionId);
      PartsCollapsedStep(ctx.builder.graph, parts, walks, w, unionName, unionId);
      PartStacksStep(walks, w, old(ctx.aliases.stack), s0, ast, parts[i]);
      PartsWalkedStep(g0, ctx.builder.graph, old(ctx.aliases.stack), ast, walks, w);
      walks := walks + [w];
      i := i + 1;
    }
    ChainWalksFrom(ctx.builder.graph, ast, parts, walks, unionName, unionId);
  }

  /** The first `n` CTEs have their table nodes. */
  ghost predicate CtesCreatedUpTo(g: Graph, ast: Stmt, n: int) {
    forall j :: 0 <= j < n && j < |ast.ctes| ==> TableId(ast.ctes[j].name) in NodeIds(g.nodes)
  }

  lemma CtesCreatedGrows(g0: Graph, g1: Graph, ast: Stmt, n: int)
    requires Grows(g0, g1) && CtesCreatedUpTo(g0, ast, n)
    ensures CtesCreatedUpTo(g1, ast, n)
  {
    GrowsIds(g0, g1);
  }

  /** Table `s` is linked to `t` (or is `t`). */
  ghost predicate EdgeInto(g: Graph, s: string, t: string) {
    s == t || EdgeId(s, t, TableToTable) in EdgeIds(g.edges)
  }

  /** Each named column in `cols` exists under `unionName` and is mapped from
      the same name in `srcTable`. */
  ghost predicate ColumnsMapped(g: Graph, cols: seq<string>, unionName: string, srcTable: string, unionId: string) {
    forall cn :: cn in cols ==>
      && ColumnId(unionName, cn) in NodeIds(g.nodes)
      && ColumnLink(srcTable, cn, unionId, cn, ColumnMapping).id in EdgeIds(g.edges)
  }

  /** The source of every edge in `incoming` is linked to `unionId`. */
  ghost predicate SourcesLifted(g: Graph, incoming: seq<GraphEdge>, unionId: string) {
    forall e :: e in incoming ==> EdgeInto(g, e.source, unionId)
  }

  lemma ColumnsMappedGrows(g0: Graph, g1: Graph, cols: seq<string>, unionName: string, srcTable: string, unionId: string)
    requires Grows(g0, g1) && ColumnsMapped(g0, cols, unionName, srcTable, unionId)
    ensures ColumnsMapped(g1, cols, unionName, srcTable, unionId)
  {
    GrowsIds(g0, g1);
  }

  lemma ColumnsMappedStep(g: Graph, cols: seq<string>, k: int, unionName: string, srcTable: string, unionId: string)
    requires 0 <= k < |cols| && ColumnsMapped(g, cols[..k], unionName, srcTable, unionId)
    requires ColumnId(unionName, cols[k]) in NodeIds(g.nodes)
    requires ColumnLink(srcTable, cols[k], unionId, cols[k], ColumnMapping).id in EdgeIds(g.edges)
    ensures ColumnsMapped(g, cols[..k + 1], unionName, srcTable, unionId)
  {
    assert cols[..k + 1] == cols[..k] + [cols[k]];
  }

  lemma SourcesLiftedStep(g: Graph, incoming: seq<GraphEdge>, k: int, unionId: string)
    requires 0 <= k < |incoming| && SourcesLifted(g, incoming[..k], unionId)
    requires EdgeInto(g, incoming[k].source, unionId)
    ensures SourcesLifted(g, incoming[..k + 1], unionId)
  {
    assert incoming[..k + 1] == incoming[..k] + [incoming[k]];
  }

  lemma SourcesLiftedGrows(g0: Graph, g1: Graph, incoming: seq<GraphEdge>, unionId: string)
    requires Grows(g0, g1) && SourcesLifted(g0, incoming, unionId)
    ensures SourcesLifted(g1, incoming, unionId)
  {
    GrowsIds(g0, g1);
  }

  /** One part of a set-operation chain, walked as a nested statement under a
      name of its own and then collapsed into the union. */
  method ProcessPart(ast: Stmt, i: nat, part: Stmt, ctx: WalkCtx, unionName: string, unionId: string)
    returns (partId: string, ghost w: PartWalk)
    requires ctx.Valid()
    requires ast.next.Some? && i < |Chain(ast)| && part == StripNext(Chain(ast)[i])
    modifies ctx.builder, ctx.aliases, ctx.names
    ensures ctx.Valid()
    ensures Grows(old(ctx.builder.graph), ctx.builder.graph)
    ensures |ctx.aliases.stack| == |old(ctx.aliases.stack)|
    ensures w.id == partId
    ensures ctx.aliases.stack == w.stack == WalkScopes(old(ctx.aliases.stack), part)
    ensures PartCollapsed(ctx.builder.graph, part, w, unionName, unionId)
    ensures Walked(ctx.builder.graph, old(ctx.aliases.stack), part, w.name, w.id)
    decreases SizeStmt(ast), 2
  {
    partId, w := WalkPart(ast, i, part, ctx);
    CollapsePart(partId, ctx, unionName, unionId);
    GrowsTransitive(old(ctx.builder.graph), w.snap, ctx.builder.graph);
    PartCollapsedIntro(ctx.builder.graph, part, w, unionName, unionId);
    WalkedGrows(w.snap, ctx.builder.graph, old(ctx.aliases.stack), part, w.name, w.id);
  }

  /** The walk of one part of a chain, as a nested statement without a name of
      its own: `w` records its result table and the graph and alias table the
      walk leaves. */
  method WalkPart(ast: Stmt, i: nat, part: Stmt, ctx: WalkCtx) returns (partId: string, ghost w: PartWalk)
    requires ctx.Valid()
    requires ast.next.Some? && i < |Chain(ast)| && part == StripNext(Chain(ast)[i])
    modifies ctx.builder, ctx.aliases, ctx.names
    ensures ctx.Valid()
    ensures Grows(old(ctx.builder.graph), ctx.builder.graph)
    ensures |ctx.aliases.stack| == |old(ctx.aliases.stack)|
    ensures w.id == partId && w.snap == ctx.builder.graph && w.stack == ctx.aliases.stack
    ensures w.stack == WalkScopes(old(ctx.aliases.stack), part)
    ensures w.id == TableId(w.name) && w.id in NodeIds(w.snap.nodes)
    ensures FixedResultName(part, true, "").Some? ==> w.name == FixedResultName(part, true, "").value
    ensures FixedResultName(part, true, "").None? ==> |w.name| > 7 && w.name[..7] == "Result_"
    ensures SelectWalked(w.snap, w.stack, part, w.name, w.id)
    ensures Walked(w.snap, old(ctx.aliases.stack), part, w.name, w.id)
    decreases SizeStmt(ast), 1
  {
    SizeChainBound(ast, i);
    ghost var name: string;
    partId, name := ProcessAST(part, ctx, true, "", "");
    w := PartWalk(partId, name, ctx.builder.graph, ctx.aliases.stack);
  }

  /** `ProcessAST`'s and `CollapsePart`'s promises, put together. */
  lemma PartCollapsedIntro(g: Graph, part: Stmt, w: PartWalk, unionName: string, unionId: string)
    requires part.next.None?
    requires Grows(w.snap, g)
    requires w.id == TableId(w.name) && w.id in NodeIds(w.snap.nodes)
    requires FixedResultName(part, true, "").Some? ==> w.name == FixedResultName(part, true, "").value
    requires FixedResultName(part, true, "").None? ==> |w.name| > 7 && w.name[..7] == "Result_"
    requires SelectWalked(w.snap, w.stack, part, w.name, w.id)
    requires TableFeeds(g, w.id, unionId)
    requires |IncomingTableEdges(w.snap.edges, w.id)| >= 2 || RemoveFirst(w.id, "table_") != "" ==>
      ColumnsMapped(g, PartColumns(w.snap.nodes, w.id), unionName, RemoveFirst(w.id, "table_"), unionId)
    requires |IncomingTableEdges(w.snap.edges, w.id)| < 2 ==>
      SourcesLifted(g, IncomingTableEdges(w.snap.edges, w.id), unionId)
    ensures PartCollapsed(g, part, w, unionName, unionId)
  {
    RemoveFirstOfPrefixed("table_", w.name);
    SelectWalkedGrows(w.snap, g, w.stack, part, w.name, w.id);
  }

  /** The collapse of a walked part into the union: its named columns mapped
      by name, and its table linked to the union, with the sources of its
      incoming table edges lifted when it has fewer than two. */
  method CollapsePart(partId: string, ctx: WalkCtx, unionName: string, unionId: string)
    requires ctx.Valid()
    requires partId in NodeIds(ctx.builder.graph.nodes)
    modifies ctx.builder
    ensures ctx.Valid()
    ensures Grows(old(ctx.builder.graph), ctx.builder.graph)
    ensures TableFeeds(ctx.builder.graph, partId, unionId)
    ensures |IncomingTableEdges(old(ctx.builder.graph).edges, partId)| >= 2 || RemoveFirst(partId, "table_") != "" ==>
      ColumnsMapped(ctx.builder.graph, PartColumns(old(ctx.builder.graph).nodes, partId), unionName, RemoveFirst(partId, "table_"), unionId)
    ensures |IncomingTableEdges(old(ctx.builder.graph).edges, partId)| < 2 ==>
      SourcesLifted(ctx.builder.graph, IncomingTableEdges(old(ctx.builder.graph).edges, partId), unionId)
  {
    var g := ctx.builder.graph;
    ghost var snap := g;
    var partCols := PartColumns(g.nodes, partId);
    var incoming := IncomingTableEdges(g.edges, partId);
    var srcTable := RemoveFirst(partId, "table_");
    if |incoming| >= 2 {
      ctx.builder.LinkTables(partId, unionId, TableToTable, "");
      ghost var g1 := ctx.builder.graph;
      assert TableFeeds(g1, partId, unionId) by { GrowsIds(snap, g1); }
      MapColumnsByName(partCols, ctx, srcTable, unionName, unionId);
      GrowsTransitive(snap, g1, ctx.builder.graph);
      TableFeedsGrows(g1, ctx.builder.graph, partId, unionId);
    } else {
      if srcTable != "" {
        MapColumnsByName(partCols, ctx, srcTable, unionName, unionId);
      }
      ghost var g1 := ctx.builder.graph;
      ctx.builder.LinkTables(partId, unionId, TableToTable, "");
      ghost var g2 := ctx.builder.graph;
      assert TableFeeds(g2, partId, unionId) by { GrowsTransitive(snap, g1, g2); GrowsIds(snap, g2); }
      if srcTable != "" {
        ColumnsMappedGrows(g1, g2, partCols, unionName, srcTable, unionId);
      }
      LiftSources(incoming, ctx, unionId);
      GrowsTransitive(snap, g1, g2);
      GrowsTransitive(snap, g2, ctx.builder.graph);
      TableFeedsGrows(g2, ctx.builder.graph, partId, unionId);
      if srcTable != "" {
        ColumnsMappedGrows(g2, ctx.builder.graph, partCols, unionName, srcTable, unionId);
      }
    }
  }

  /** `partCols.forEach(cn => { ensureColumn(unionName, cn); linkColumns(srcTable, cn, unionId, cn) })`. */
  method MapColumnsByName(cols: seq<string>, ctx: WalkCtx, srcTable: string, unionName: string, unionId: string)
    requires ctx.Valid()
    modifies ctx.builder
    ensures ctx.Valid()
    ensures Grows(old(ctx.builder.graph), ctx.builder.graph)
    ensures ColumnsMapped(ctx.builder.graph, cols, unionName, srcTable, unionId)
  {
    var k := 0;
    while k < |cols|
      invariant 0 <= k <= |cols|
      invariant ctx.Valid()
      invariant Grows(old(ctx.builder.graph), ctx.builder.graph)
      invariant ColumnsMapped(ctx.builder.graph, cols[..k], unionName, srcTable, unionId)
    {
      ghost var g0 := ctx.builder.graph;
      var cid := ctx.builder.EnsureColumn(unionName, cols[k]);
      ghost var g1 := ctx.builder.graph;
      assert cid in NodeIds(g1.nodes);
      ctx.builder.LinkColumns(srcTable, cols[k], unionId, cols[k], ColumnMapping);
      GrowsTransitive(g0, g1, ctx.builder.graph);
      GrowsTransitive(old(ctx.builder.graph), g0, ctx.builder.graph);
      ColumnsMappedGrows(g0, ctx.builder.graph, cols[..k], unionName, srcTable, unionId);
      assert ctx.builder.graph.nodes == g1.nodes;
      ColumnsMappedStep(ctx.builder.graph, cols, k, unionName, srcTable, unionId);
      k := k + 1;
    }
    assert cols[..k] == cols;
  }

  /** `incoming.forEach(e => linkTables(e.source, unionId))`. */
  method LiftSources(incoming: seq<GraphEdge>, ctx: WalkCtx, unionId: string)
    requires ctx.Valid()
    modifies ctx.builder
    ensures ctx.Valid()
    ensures Grows(old(ctx.builder.graph), ctx.builder.graph)
    ensures SourcesLifted(ctx.builder.graph, incoming, unionId)
  {
    var k := 0;
    while k < |incoming|
      invariant 0 <= k <= |incoming|
      invariant ctx.Valid()
      invariant Grows(old(ctx.builder.graph), ctx.builder.graph)
      invariant SourcesLifted(ctx.builder.graph, incoming[..k], unionId)
    {
      ghost var g0 := ctx.builder.graph;
      ctx.builder.LinkTables(incoming[k].source, unionId, TableToTable, "");
      GrowsTransitive(old(ctx.builder.graph), g0, ctx.builder.graph);
      SourcesLiftedGrows(g0, ctx.builder.graph, incoming[..k], unionId);
      SourcesLiftedStep(ctx.builder.graph, incoming, k, unionId);
      k := k + 1;
    }
    assert incoming[..k] == incoming;
  }

  /** The FROM list: each item's table (or walked subquery) feeds the result. */
  method ProcessFrom(ast: Stmt, ctx: WalkCtx, resultId: string)
    requires ctx.Valid()
    requires ast.from.FromItems?
    modifies ctx.builder, ctx.aliases, ctx.names
    ensures ctx.Valid()
    ensures Grows(old(ctx.builder.graph), ctx.builder.graph)
    ensures |ctx.aliases.stack| == |old(ctx.aliases.stack)|
    ensures ctx.aliases.stack == FromScopes(old(ctx.aliases.stack), ast, |FromOf(ast)|)
    ensures FromLinked(ctx.builder.graph, ast, resultId)
    ensures FromSubsWalked(ctx.builder.graph, old(ctx.aliases.stack), ast, |FromOf(ast)|)
    decreases SizeStmt(ast), 3
  {
    ghost var s := ctx.aliases.stack;
    var items := ast.from.items;
    var idx := 0;
    while idx < |items|
      invariant 0 <= idx <= |items|
      invariant ctx.Valid()
      invariant Grows(old(ctx.builder.graph), ctx.builder.graph)
      invariant |ctx.aliases.stack| == |s|
      invariant FromDone(ctx.builder.graph, s, ctx.aliases.stack, ast, idx, resultId)
    {
      ghost var g0 := ctx.builder.graph;
      ghost var st0 := ctx.aliases.stack;
      ProcessFromItem(ast, idx, ctx, resultId);
      GrowsTransitive(old(ctx.builder.graph), g0, ctx.builder.graph);
      FromStep(g0, ctx.builder.graph, s, st0, ctx.aliases.stack, ast, idx, resultId);
      idx := idx + 1;
    }
  }

  /** One FROM item. A subquery is walked under its (possibly synthesized)
      alias; a table gets its node with alias and database, and its alias is
      registered in the innermost scope. */
  method ProcessFromItem(ast: Stmt, idx: nat, ctx: WalkCtx, resultId: string)
    requires ctx.Valid()
    requires idx < |FromOf(ast)|
    modifies ctx.builder, ctx.aliases, ctx.names
    ensures ctx.Valid()
    ensures Grows(old(ctx.builder.graph), ctx.builder.graph)
    ensures |ctx.aliases.stack| == |old(ctx.aliases.stack)|
    ensures TableFeeds(ctx.builder.graph, FromTableId(FromOf(ast)[idx], idx), resultId)
    ensures FromOf(ast)[idx].subquery.None? ==>
      ctx.aliases.stack == Registered(old(ctx.aliases.stack), FromOf(ast)[idx].alias, FromOf(ast)[idx].table)
    ensures ctx.aliases.stack == FromItemScopes(old(ctx.aliases.stack), ast, idx)
    ensures FromSubWalked(ctx.builder.graph, old(ctx.aliases.stack), ast, idx)
    decreases SizeStmt(ast), 2
  {
    var item := FromOf(ast)[idx];
    if item.subquery.Some? {
      ProcessFromSubquery(ast, idx, ctx, resultId);
    } else {
      var id := ctx.builder.EnsureTable(item.table, PlainTable, TableExtras(item.alias, item.db, "", false));
      ctx.aliases.Register(item.alias, item.table);
      ghost var g1 := ctx.builder.graph;
      ctx.builder.LinkTables(id, resultId, TableToTable, "");
      GrowsTransitive(old(ctx.builder.graph), g1, ctx.builder.graph);
      GrowsIds(g1, ctx.builder.graph);
    }
  }

  /** A FROM subquery: its table `table_<alias>`, then its walk under its
      alias into that table, then the link from that table to the result. */
  method ProcessFromSubquery(ast: Stmt, idx: nat, ctx: WalkCtx, resultId: string)
    requires ctx.Valid()
    requires idx < |FromOf(ast)| && FromOf(ast)[idx].subquery.Some?
    modifies ctx.builder, ctx.aliases, ctx.names
    ensures ctx.Valid()
    ensures Grows(old(ctx.builder.graph), ctx.builder.graph)
    ensures |ctx.aliases.stack| == |old(ctx.aliases.stack)|
    ensures TableFeeds(ctx.builder.graph, TableId(SubqueryAlias(FromOf(ast)[idx], idx)), resultId)
    ensures ctx.aliases.stack == WalkScopes(old(ctx.aliases.stack), FromOf(ast)[idx].subquery.value)
    ensures Walked(ctx.builder.graph, old(ctx.aliases.stack), FromOf(ast)[idx].subquery.value,
                   SubqueryAlias(FromOf(ast)[idx], idx), TableId(SubqueryAlias(FromOf(ast)[idx], idx)))
    decreases SizeStmt(ast), 1
  {
    var item := FromOf(ast)[idx];
    var alias := SubqueryAlias(item, idx);
    var _ := ctx.builder.EnsureTable(alias, PlainTable, NoExtras);
    ghost var g1 := ctx.builder.graph;
    SizeFromBound(ast, 0, idx);
    ghost var subName: string;
    var subId: string;
    subId, subName := ProcessAST(item.subquery.value, ctx, true, alias, TableId(alias));
    ghost var g2 := ctx.builder.graph;
    ctx.builder.LinkTables(subId, resultId, TableToTable, "");
    GrowsTransitive(old(ctx.builder.graph), g1, g2);
    GrowsTransitive(old(ctx.builder.graph), g2, ctx.builder.graph);
    GrowsIds(g1, ctx.builder.graph);
    WalkedGrows(g2, ctx.builder.graph, old(ctx.aliases.stack), item.subquery.value, alias, TableId(alias));
  }

  /** The first `n` non-`*` items have their output column `outNames[j]`. */
  ghost predicate OutColumnsUpTo(g: Graph, ast: Stmt, n: int, resultName: string, outNames: seq<string>) {
    forall j :: 0 <= j < n && j < |ColumnsOf(ast)| && j < |outNames| && !ColumnsOf(ast)[j].expr.Star? ==>
      ColumnId(resultName, outNames[j]) in NodeIds(g.nodes)
  }

  /** The references traced in the first `n` items feed their output columns. */
  ghost predicate RefsLinkedUpTo(g: Graph, stack: Scopes, ast: Stmt, n: int, defaultFrom: string, resultId: string, outNames: seq<string>) {
    forall j, r :: 0 <= j < n && j < |ColumnsOf(ast)| && j < |outNames| && r in TracedRefs(ColumnsOf(ast)[j].expr) ==>
      RefLinked(g, stack, r, defaultFrom, resultId, outNames[j])
  }

  /** `outNames` agrees with every fixed output name among the first `n` items. */
  predicate OutNamesFixed(ast: Stmt, n: int, outNames: seq<string>) {
    forall j :: 0 <= j < n && j < |ColumnsOf(ast)| && j < |outNames| && !ColumnsOf(ast)[j].expr.Star? && FixedOutName(ColumnsOf(ast)[j]).Some? ==>
      outNames[j] == FixedOutName(ColumnsOf(ast)[j]).value
  }

  lemma OutColumnsUpToGrows(g0: Graph, g1: Graph, ast: Stmt, n: int, resultName: string, outNames: seq<string>)
    requires Grows(g0, g1) && OutColumnsUpTo(g0, ast, n, resultName, outNames)
    ensures OutColumnsUpTo(g1, ast, n, resultName, outNames)
  {
    GrowsIds(g0, g1);
  }

  lemma RefsLinkedUpToGrows(g0: Graph, g1: Graph, stack: Scopes, ast: Stmt, n: int, defaultFrom: string, resultId: string, outNames: seq<string>)
    requires Grows(g0, g1) && RefsLinkedUpTo(g0, stack, ast, n, defaultFrom, resultId, outNames)
    ensures RefsLinkedUpTo(g1, stack, ast, n, defaultFrom, resultId, outNames)
  {
    GrowsIds(g0, g1);
  }

  lemma ColumnsStep(g: Graph, ast: Stmt, i: int, resultName: string, outNames: seq<string>, outName: string)
    requires 0 <= i < |ColumnsOf(ast)| && |outNames| == i
    requires OutNamesFixed(ast, i, outNames) && OutColumnsUpTo(g, ast, i, resultName, outNames)
    requires !ColumnsOf(ast)[i].expr.Star? && FixedOutName(ColumnsOf(ast)[i]).Some? ==>
      outName == FixedOutName(ColumnsOf(ast)[i]).value
    requires !ColumnsOf(ast)[i].expr.Star? ==> ColumnId(resultName, outName) in NodeIds(g.nodes)
    ensures OutNamesFixed(ast, i + 1, outNames + [outName])
    ensures OutColumnsUpTo(g, ast, i + 1, resultName, outNames + [outName])
  {
  }

  lemma RefsLinkedStep(g: Graph, stack: Scopes, ast: Stmt, i: int, defaultFrom: string, resultId: string, outNames: seq<string>, outName: string)
    requires 0 <= i < |ColumnsOf(ast)| && |outNames| == i
    requires RefsLinkedUpTo(g, stack, ast, i, defaultFrom, resultId, outNames)
    requires forall r :: r in TracedRefs(ColumnsOf(ast)[i].expr) ==> RefLinked(g, stack, r, defaultFrom, resultId, outName)
    ensures RefsLinkedUpTo(g, stack, ast, i + 1, defaultFrom, resultId, outNames + [outName])
  {
  }

  /** The first `i` projected items are done under output names `outNames`:
      the fixed names are kept, the columns exist, `st` is the alias table the
      items leave, their subqueries are walked and, without projected
      subqueries, their references are linked. */
  ghost predicate ItemsDone(g: Graph, s: Scopes, st: Scopes, ast: Stmt, i: nat, resultName: string, resultId: string,
                            defaultFrom: string, outNames: seq<string>)
    requires |s| >= 1 && i <= |ColumnsOf(ast)|
  {
    && |outNames| == i
    && OutNamesFixed(ast, i, outNames)
    && OutColumnsUpTo(g, ast, i, resultName, outNames)
    && st == ItemsScopes(s, ast, i)
    && (NoItemSubqueries(ast) ==> st == s && RefsLinkedUpTo(g, st, ast, i, defaultFrom, resultId, outNames))
    && ItemSubsWalked(g, s, ast, i, resultId)
  }

  lemma ItemsStep(g0: Graph, g1: Graph, s: Scopes, st0: Scopes, st1: Scopes, ast: Stmt, i: nat, resultName: string,
                  resultId: string, defaultFrom: string, outNames: seq<string>, outName: string)
    requires |s| >= 1 && |st0| == |s| && i < |ColumnsOf(ast)| && Grows(g0, g1)
    requires ItemsDone(g0, s, st0, ast, i, resultName, resultId, defaultFrom, outNames)
    requires st1 == ItemScopes(st0, ast, i)
    requires !ColumnsOf(ast)[i].expr.Star? && FixedOutName(ColumnsOf(ast)[i]).Some? ==>
      outName == FixedOutName(ColumnsOf(ast)[i]).value
    requires !ColumnsOf(ast)[i].expr.Star? ==> ColumnId(resultName, outName) in NodeIds(g1.nodes)
    requires !ColumnsOf(ast)[i].expr.Subquery? ==> st1 == st0
    requires forall r :: r in TracedRefs(ColumnsOf(ast)[i].expr) ==> RefLinked(g1, st1, r, defaultFrom, resultId, outName)
    requires ItemSubWalked(g1, st0, ast, i, resultId)
    ensures ItemsDone(g1, s, st1, ast, i + 1, resultName, resultId, defaultFrom, outNames + [outName])
  {
    ItemSubsWalkedGrows(g0, g1, s, ast, i, resultId);
    OutColumnsUpToGrows(g0, g1, ast, i, resultName, outNames);
    ColumnsStep(g1, ast, i, resultName, outNames, outName);
    if NoItemSubqueries(ast) {
      RefsLinkedUpToGrows(g0, g1, st0, ast, i, defaultFrom, resultId, outNames);
      RefsLinkedStep(g1, st0, ast, i, defaultFrom, resultId, outNames, outName);
    }
  }

  /** Fixed output names and the created columns give `ColumnsCreated`. */
  lemma ColumnsCreatedFrom(g: Graph, ast: Stmt, resultName: string, outNames: seq<string>)
    requires |outNames| == |ColumnsOf(ast)|
    requires OutNamesFixed(ast, |outNames|, outNames)
    requires OutColumnsUpTo(g, ast, |outNames|, resultName, outNames)
    ensures ColumnsCreated(g, ast, resultName)
  {
  }

  /** The projected items: `*` is skipped; every other item gets its output
      column under the result name, then either its subquery is walked or its
      expression is traced. `outNames` are the output column names used. */
  method ProcessColumns(ast: Stmt, ctx: WalkCtx, resultName: string, resultId: string)
    returns (ghost outNames: seq<string>)
    requires ctx.Valid()
    requires ast.columns.Columns?
    modifies ctx.builder, ctx.aliases, ctx.names
    ensures ctx.Valid()
    ensures Grows(old(ctx.builder.graph), ctx.builder.graph)
    ensures |ctx.aliases.stack| == |old(ctx.aliases.stack)|
    ensures |outNames| == |ColumnsOf(ast)|
    ensures OutNamesFixed(ast, |outNames|, outNames)
    ensures OutColumnsUpTo(ctx.builder.graph, ast, |outNames|, resultName, outNames)
    ensures ColumnsCreated(ctx.builder.graph, ast, resultName)
    ensures ctx.aliases.stack == ItemsScopes(old(ctx.aliases.stack), ast, |ColumnsOf(ast)|)
    ensures NoItemSubqueries(ast) ==> ctx.aliases.stack == old(ctx.aliases.stack)
    ensures NoItemSubqueries(ast) ==>
      RefsLinkedUpTo(ctx.builder.graph, ctx.aliases.stack, ast, |outNames|, DefaultFrom(ctx.aliases.stack, ast), resultId, outNames)
    ensures ItemSubsWalked(ctx.builder.graph, old(ctx.aliases.stack), ast, |ColumnsOf(ast)|, resultId)
    decreases SizeStmt(ast), 5
  {
    var raw := DefaultFromRaw(ast);
    var defaultFrom := "";
    if raw != "" {
      var res := ctx.aliases.Resolve(raw);
      defaultFrom := if res.Some? then res.value else raw;
    }
    assert defaultFrom == DefaultFrom(ctx.aliases.stack, ast);
    outNames := ProcessItems(ast, ctx, resultName, resultId, defaultFrom);
    ColumnsCreatedFrom(ctx.builder.graph, ast, resultName, outNames);
  }

  /** The loop over the projected items, with the resolved default table. */
  method ProcessItems(ast: Stmt, ctx: WalkCtx, resultName: string, resultId: string, defaultFrom: string)
    returns (ghost outNames: seq<string>)
    requires ctx.Valid()
    requires ast.columns.Columns?
    modifies ctx.builder, ctx.aliases, ctx.names
    ensures ctx.Valid()
    ensures Grows(old(ctx.builder.graph), ctx.builder.graph)
    ensures |ctx.aliases.stack| == |old(ctx.aliases.stack)|
    ensures |outNames| == |ColumnsOf(ast)|
    ensures ItemsDone(ctx.builder.graph, old(ctx.aliases.stack), ctx.aliases.stack, ast, |ColumnsOf(ast)|,
                      resultName, resultId, defaultFrom, outNames)
    decreases SizeStmt(ast), 4
  {
    ghost var s := ctx.aliases.stack;
    var items := ast.columns.items;
    outNames := [];
    var i := 0;
    while i < |items|
      invariant 0 <= i <= |items|
      invariant ctx.Valid()
      invariant Grows(old(ctx.builder.graph), ctx.builder.graph)
      invariant |ctx.aliases.stack| == |s|
      invariant ItemsDone(ctx.builder.graph, s, ctx.aliases.stack, ast, i, resultName, resultId, defaultFrom, outNames)
    {
      var outName := ProcessNextItem(ast, i, ctx, resultName, resultId, defaultFrom, s, outNames, old(ctx.builder.graph));
      outNames := outNames + [outName];
      i := i + 1;
    }
  }

  /** Item `i` after the first `i` are done: afterwards the first `i + 1` are. */
  method ProcessNextItem(ast: Stmt, i: nat, ctx: WalkCtx, resultName: string, resultId: string, defaultFrom: string,
                         ghost s: Scopes, ghost outNames: seq<string>, ghost start: Graph)
    returns (ghost outName: string)
    requires ctx.Valid()
    requires |s| >= 1 && |ctx.aliases.stack| == |s| && i < |ColumnsOf(ast)|
    requires Grows(start, ctx.builder.graph)
    requires ItemsDone(ctx.builder.graph, s, ctx.aliases.stack, ast, i, resultName, resultId, defaultFrom, outNames)
    modifies ctx.builder, ctx.aliases, ctx.names
    ensures ctx.Valid()
    ensures Grows(start, ctx.builder.graph)
    ensures |ctx.aliases.stack| == |s|
    ensures ItemsDone(ctx.builder.graph, s, ctx.aliases.stack, ast, i + 1, resultName, resultId, defaultFrom, outNames + [outName])
    decreases SizeStmt(ast), 3, 1
  {
    ghost var g0 := ctx.builder.graph;
    ghost var s0 := ctx.aliases.stack;
    outName := ProcessItem(ast, i, ctx, resultName, resultId, defaultFrom);
    ItemsStep(g0, ctx.builder.graph, s, s0, ctx.aliases.stack, ast, i, resultName, resultId, defaultFrom, outNames, outName);
    GrowsTransitive(start, g0, ctx.builder.graph);
  }

  /** One projected item. */
  method ProcessItem(ast: Stmt, i: nat, ctx: WalkCtx, resultName: string, resultId: string, defaultFrom: string)
    returns (ghost outName: string)
    requires ctx.Valid()
    requires i < |ColumnsOf(ast)|
    modifies ctx.builder, ctx.aliases, ctx.names
    ensures ctx.Valid()
    ensures Grows(old(ctx.builder.graph), ctx.builder.graph)
    ensures |ctx.aliases.stack| == |old(ctx.aliases.stack)|
    ensures !ColumnsOf(ast)[i].expr.Star? && FixedOutName(ColumnsOf(ast)[i]).Some? ==>
      outName == FixedOutName(ColumnsOf(ast)[i]).value
    ensures !ColumnsOf(ast)[i].expr.Star? ==> ColumnId(resultName, outName) in NodeIds(ctx.builder.graph.nodes)
    ensures !ColumnsOf(ast)[i].expr.Subquery? ==> ctx.aliases.stack == old(ctx.aliases.stack)
    ensures ctx.aliases.stack == ItemScopes(old(ctx.aliases.stack), ast, i)
    ensures forall r :: r in TracedRefs(ColumnsOf(ast)[i].expr) ==>
      RefLinked(ctx.builder.graph, ctx.aliases.stack, r, defaultFrom, resultId, outName)
    ensures ItemSubWalked(ctx.builder.graph, old(ctx.aliases.stack), ast, i, resultId)
    ensures ColumnsOf(ast)[i].expr.Subquery? ==> SubqueryMapped(ctx.builder.graph, ColumnsOf(ast)[i], resultId, outName)
    decreases SizeStmt(ast), 3, 0
  {
    var item := ColumnsOf(ast)[i];
    if item.expr.Star? {
      return "";
    }
    var name := OutNameFor(item, ctx.names);
    outName := name;
    var cid := ctx.builder.EnsureColumn(resultName, name);
    ghost var g1 := ctx.builder.graph;
    assert cid in NodeIds(g1.nodes);
    ProcessItemExpr(ast, i, ctx, resultId, defaultFrom, name);
    GrowsTransitive(old(ctx.builder.graph), g1, ctx.builder.graph);
    GrowsIds(g1, ctx.builder.graph);
  }

  /** The expression of a projected item: a subquery is walked on its own,
      anything else has its column references traced onto `outName`. */
  method ProcessItemExpr(ast: Stmt, i: nat, ctx: WalkCtx, resultId: string, defaultFrom: string, outName: string)
    requires ctx.Valid()
    requires i < |ColumnsOf(ast)|
    modifies ctx.builder, ctx.aliases, ctx.names
    ensures ctx.Valid()
    ensures Grows(old(ctx.builder.graph), ctx.builder.graph)
    ensures |ctx.aliases.stack| == |old(ctx.aliases.stack)|
    ensures !ColumnsOf(ast)[i].expr.Subquery? ==> ctx.aliases.stack == old(ctx.aliases.stack)
    ensures ctx.aliases.stack == ItemScopes(old(ctx.aliases.stack), ast, i)
    ensures forall r :: r in TracedRefs(ColumnsOf(ast)[i].expr) ==>
      RefLinked(ctx.builder.graph, ctx.aliases.stack, r, defaultFrom, resultId, outName)
    ensures ItemSubWalked(ctx.builder.graph, old(ctx.aliases.stack), ast, i, resultId)
    ensures ColumnsOf(ast)[i].expr.Subquery? ==> SubqueryMapped(ctx.builder.graph, ColumnsOf(ast)[i], resultId, outName)
    decreases SizeStmt(ast), 2
  {
    var e := ColumnsOf(ast)[i].expr;
    if e.Subquery? {
      assert TracedRefs(e) == [];
      ProcessItemSubquery(ast, i, ctx, resultId, outName);
    } else {
      ghost var st := ctx.aliases.stack;
      Collect(e, ctx, defaultFrom, resultId, outName);
      assert ctx.aliases.stack == st;
      assert ItemSubWalked(ctx.builder.graph, old(ctx.aliases.stack), ast, i, resultId);
    }
  }

  /** The output column name of a projected item: its alias, else the referenced
      column's name, else `expr_` followed by a fresh suffix. */
  method OutNameFor(item: SelectItem, names: NameSupply) returns (name: string)
    modifies names
    ensures FixedOutName(item).Some? ==> name == FixedOutName(item).value && names.drawn == old(names.drawn)
    ensures FixedOutName(item).None? ==>
      |name| > 5 && name[..5] == "expr_" && names.drawn == old(names.drawn) + 1
  {
    if item.alias != "" {
      name := item.alias;
    } else if item.expr.ColumnRef? {
      name := item.expr.column;
    } else {
      var suffix := names.Next();
      name := "expr_" + suffix;
      assert name[..5] == "expr_";
    }
  }

  /** Projected subquery `item` feeds output column `outName` of `resultId`:
      its table `Table_<alias>` feeds the result, and every column node of that
      table in `g` is mapped onto the output column. */
  ghost predicate SubqueryMapped(g: Graph, item: SelectItem, resultId: string, outName: string) {
    var name := "Table_" + Interpolated(item.alias);
    && TableFeeds(g, TableId(name), resultId)
    && forall n :: n in ColumnNodesOf(g.nodes, TableId(name)) ==>
         ColumnLink(name, n.name, resultId, outName, ColumnMapping).id in EdgeIds(g.edges)
  }

  /** A projected subquery: walked as `Table_<alias>`, linked to the result, and
      every column of its result mapped onto the single output column. */
  method ProcessItemSubquery(ast: Stmt, i: nat, ctx: WalkCtx, resultId: string, outName: string)
    requires ctx.Valid()
    requires i < |ColumnsOf(ast)| && ColumnsOf(ast)[i].expr.Subquery?
    modifies ctx.builder, ctx.aliases, ctx.names
    ensures ctx.Valid()
    ensures Grows(old(ctx.builder.graph), ctx.builder.graph)
    ensures |ctx.aliases.stack| == |old(ctx.aliases.stack)|
    ensures ctx.aliases.stack == WalkScopes(old(ctx.aliases.stack), ColumnsOf(ast)[i].expr.ast)
    ensures SubqueryMapped(ctx.builder.graph, ColumnsOf(ast)[i], resultId, outName)
    ensures ItemSubWalked(ctx.builder.graph, old(ctx.aliases.stack), ast, i, resultId)
    decreases SizeStmt(ast), 1
  {
    var item := ColumnsOf(ast)[i];
    var providedName := "Table_" + Interpolated(item.alias);
    var providedId := TableId(providedName);
    SizeItemBound(ast, 0, i);
    ghost var subName: string;
    var subId: string;
    subId, subName := ProcessAST(item.expr.ast, ctx, true, providedName, providedId);
    ghost var g1 := ctx.builder.graph;
    var _ := ctx.builder.EnsureTable(providedName, PlainTable, TableExtras(providedName, "", "", false));
    ghost var g2 := ctx.builder.graph;
    ctx.builder.LinkTables(subId, resultId, TableToTable, "");
    ghost var g3 := ctx.builder.graph;
    GrowsTransitive(g1, g2, g3);
    GrowsTransitive(old(ctx.builder.graph), g1, g3);
    GrowsIds(g2, g3);
    var cols := ColumnNodesOf(ctx.builder.graph.nodes, subId);
    RemoveFirstOfPrefixed("table_", providedName);
    MapSubqueryColumns(cols, ctx, RemoveFirst(subId, "table_"), resultId, outName);
    GrowsTransitive(old(ctx.builder.graph), g3, ctx.builder.graph);
    TableFeedsGrows(g3, ctx.builder.graph, providedId, resultId);
    GrowsTransitive(g1, g3, ctx.builder.graph);
    WalkedGrows(g1, ctx.builder.graph, old(ctx.aliases.stack), item.expr.ast, providedName, providedId);
  }

  /** `forEach(srcCol => linkColumns(srcTableName, srcCol.name, resultId, outName))`. */
  method MapSubqueryColumns(cols: seq<GraphNode>, ctx: WalkCtx, srcTable: string, resultId: string, outName: string)
    requires ctx.Valid()
    modifies ctx.builder
    ensures ctx.Valid()
    ensures Grows(old(ctx.builder.graph), ctx.builder.graph)
    ensures ctx.builder.graph.nodes == old(ctx.builder.graph.nodes)
    ensures forall n :: n in cols ==>
      ColumnLink(srcTable, n.name, resultId, outName, ColumnMapping).id in EdgeIds(ctx.builder.graph.edges)
  {
    var k := 0;
    while k < |cols|
      invariant 0 <= k <= |cols|
      invariant ctx.Valid()
      invariant Grows(old(ctx.builder.graph), ctx.builder.graph)
      invariant ctx.builder.graph.nodes == old(ctx.builder.graph.nodes)
      invariant forall n :: n in cols[..k] ==>
        ColumnLink(srcTable, n.name, resultId, outName, ColumnMapping).id in EdgeIds(ctx.builder.graph.edges)
    {
      ghost var g0 := ctx.builder.graph;
      ctx.builder.LinkColumns(srcTable, cols[k].name, resultId, outName, ColumnMapping);
      GrowsTransitive(old(ctx.builder.graph), g0, ctx.builder.graph);
      GrowsIds(g0, ctx.builder.graph);
      assert cols[..k + 1] == cols[..k] + [cols[k]];
      k := k + 1;
    }
    assert cols[..k] == cols;
  }

  // ---------------------------------------------------------------------
  // Entry point.

  /** The statement `astToGraph` walks: the first of an array, else the tree itself. */
  function RootOf(input: Input): (r: Option<Stmt>)
    ensures r.None? <==> input.Many? && |input.stmts| == 0
    ensures input.Many? && |input.stmts| > 0 ==> r == Some(input.stmts[0])
  {
    match input
    case Single(stmt) => Some(stmt)
    case Many(stmts) => if |stmts| == 0 then None else Some(stmts[0])
  }

  /** A fresh graph store, alias table and name supply, the root statement
      walked as the top-level statement, and the resulting graph. An empty
      array has no root; walking it fails (the source dereferences `undefined`).
      `resultName` is the root's result table and `scopes` the alias table the
      walk ended with. */
  method AstToGraph(input: Input) returns (r: Result<Graph>, ghost resultName: string, ghost scopes: Scopes)
    ensures r.Failure? <==> RootOf(input).None?
    ensures r.Success? ==>
      UniqueNodeIds(r.value.nodes) && UniqueEdgeIds(r.value.edges) && NoTableSelfLoops(r.value.edges)
    ensures r.Success? ==> TableId(resultName) in NodeIds(r.value.nodes)
    ensures r.Success? && FixedResultName(RootOf(input).value, false, "").Some? ==>
      resultName == FixedResultName(RootOf(input).value, false, "").value
    ensures r.Success? && FixedResultName(RootOf(input).value, false, "").None? ==>
      |resultName| > 7 && resultName[..7] == "Result_"
    ensures r.Success? ==> scopes == WalkScopes([map[]], RootOf(input).value)
    ensures r.Success? && RootOf(input).value.next.None? ==>
      SelectWalked(r.value, scopes, RootOf(input).value, resultName, TableId(resultName))
    ensures r.Success? && RootOf(input).value.next.Some? ==>
      ChainCollapsed(r.value, RootOf(input).value, resultName, TableId(resultName),
                     CtesScopes([map[]], RootOf(input).value, |RootOf(input).value.ctes|))
    ensures r.Success? ==> Walked(r.value, [map[]], RootOf(input).value, resultName, TableId(resultName))
  {
    var root := RootOf(input);
    if root.None? {
      return Failure("no statement to walk"), "", [];
    }
    var builder := new GraphBuilder();
    var aliases := new AliasResolver();
    var names := new NameSupply();
    var ctx := new WalkCtx(builder, aliases, names);
    var resultId: string;
    resultId, resultName := ProcessAST(root.value, ctx, false, "", "");
    scopes := aliases.stack;
    var g := builder.GetGraph();
    r := Success(g);
  }
}

=== FILE: diagram.dfy ===
/** The diagram-facing part of `src/parser/graphGeneratorcopy.ts`: the
    projections of a lineage graph onto the diagram's table nodes and edges,
    and their composition with the layout. */
module Diagram {
  import opened Wrappers
  import opened Filters
  import opened GraphTypes
  import opened Layering
  import opened Stacking
  import opened Layout
  import opened SqlAst
  import opened AstWalker
  import Alias

  // ---------------------------------------------------------------------
  // `getFilteredEdges`

  /** A column-mapping edge with both handles present. */
  predicate DiagramEdge(e: GraphEdge) {
    e.edgeType == ColumnMapping && HasHandle(e.sourceHandle) && HasHandle(e.targetHandle)
  }

  function ToFlowEdge(e: GraphEdge): FlowEdge
    requires DiagramEdge(e)
  {
    FlowEdge(e.id, e.source, e.target, e.sourceHandle.value, e.targetHandle.value)
  }

  /** The diagram edges of `edges`, in order, each projected onto the five
      fields the diagram reads. */
  function GetFilteredEdges(edges: seq<GraphEdge>): (r: seq<FlowEdge>)
    ensures var ix := KeptIndices(edges, DiagramEdge);
      |r| == |ix| && forall k :: 0 <= k < |r| ==> r[k] == ToFlowEdge(edges[ix[k]])
  {
    if |edges| == 0 then []
    else
      var last := edges[|edges| - 1];
      KeptIndicesStep(edges[..|edges| - 1], last, DiagramEdge);
      assert edges[..|edges| - 1] + [last] == edges;
      GetFilteredEdges(edges[..|edges| - 1]) + (if DiagramEdge(last) then [ToFlowEdge(last)] else [])
  }

  /** Every diagram edge of the graph is passed on, and nothing else is. */
  lemma FilteredEdgesExact(edges: seq<GraphEdge>, i: int)
    requires 0 <= i < |edges|
    ensures DiagramEdge(edges[i]) ==> ToFlowEdge(edges[i]) in GetFilteredEdges(edges)
    ensures forall k :: 0 <= k < |GetFilteredEdges(edges)| ==>
      exists j :: 0 <= j < |edges| && DiagramEdge(edges[j]) && GetFilteredEdges(edges)[k] == ToFlowEdge(edges[j])
  {
    var ix := KeptIndices(edges, DiagramEdge);
    var r := GetFilteredEdges(edges);
    if DiagramEdge(edges[i]) {
      var k :| 0 <= k < |ix| && ix[k] == i;
      assert r[k] == ToFlowEdge(edges[i]);
    }
    forall k | 0 <= k < |r|
      ensures exists j :: 0 <= j < |edges| && DiagramEdge(edges[j]) && r[k] == ToFlowEdge(edges[j])
    {
      assert DiagramEdge(edges[ix[k]]);
    }
  }

  // ---------------------------------------------------------------------
  // `getAllTableNodesAsTableNodes`

  /** `colNode => colNode.tableId === id` */
  function OwnedBy(id: string): GraphNode -> bool {
    (n: GraphNode) => n.tableId == id
  }

  /** The columns of table `id`: the graph nodes it owns, in graph order. */
  function ColumnsOf(nodes: seq<GraphNode>, id: string): (cs: seq<ColumnInfo>)
    ensures var ix := KeptIndices(nodes, OwnedBy(id));
      |cs| == |ix| && forall k :: 0 <= k < |cs| ==>
        cs[k] == ColumnInfo(nodes[ix[k]].name, nodes[ix[k]].id) && nodes[ix[k]].tableId == id
  {
    if |nodes| == 0 then []
    else
      var last := nodes[|nodes| - 1];
      KeptIndicesStep(nodes[..|nodes| - 1], last, OwnedBy(id));
      assert nodes[..|nodes| - 1] + [last] == nodes;
      ColumnsOf(nodes[..|nodes| - 1], id) + (if last.tableId == id then [ColumnInfo(last.name, last.id)] else [])
  }

  /** The diagram node made from table node `n`, at the origin. */
  function ToTableNode(nodes: seq<GraphNode>, n: GraphNode): (t: TableNode)
    ensures t.id == n.id && t.kind == "customTable" && t.position == Position(0, 0)
    ensures t.data == TableData(n.name, ColumnsOf(nodes, n.id))
  {
    TableNode(n.id, "customTable", TableData(n.name, ColumnsOf(nodes, n.id)), Position(0, 0))
  }

  /** The first node of `s` for each id, in order of first appearance. */
  function FirstById(s: seq<GraphNode>): seq<GraphNode> {
    if |s| == 0 then []
    else
      var d := FirstById(s[..|s| - 1]);
      if s[|s| - 1].id in NodeIds(d) then d else d + [s[|s| - 1]]
  }

  /** `FirstById` keeps exactly the ids of `s`, each once, and only nodes of `s`. */
  lemma {:induction false} FirstByIdIds(s: seq<GraphNode>)
    ensures NodeIds(FirstById(s)) == NodeIds(s)
    ensures UniqueNodeIds(FirstById(s))
    ensures forall k :: 0 <= k < |FirstById(s)| ==> FirstById(s)[k] in s
  {
    if |s| > 0 {
      var p := s[..|s| - 1];
      var x := s[|s| - 1];
      FirstByIdIds(p);
      assert s == p + [x];
      NodeIdsAppend(p, x);
      var d := FirstById(p);
      if x.id !in NodeIds(d) {
        NodeIdsAppend(d, x);
      }
    }
  }

  /** The node kept for an id is its first occurrence: a node with no earlier
      node of the same id is kept. */
  lemma {:induction false} FirstByIdKeepsFirst(s: seq<GraphNode>, i: int)
    requires 0 <= i < |s|
    requires forall j :: 0 <= j < i ==> s[j].id != s[i].id
    ensures s[i] in FirstById(s)
  {
    var p := s[..|s| - 1];
    var x := s[|s| - 1];
    FirstByIdIds(p);
    if i < |s| - 1 {
      FirstByIdKeepsFirst(p, i);
    } else {
      assert forall j :: 0 <= j < |p| ==> p[j].id != x.id;
      assert x.id !in NodeIds(p);
    }
  }

  lemma FirstByIdStep(s: seq<GraphNode>, x: GraphNode)
    ensures FirstById(s + [x]) ==
      if x.id in NodeIds(FirstById(s)) then FirstById(s) else FirstById(s) + [x]
  {
    assert (s + [x])[..|s|] == s;
  }

  /** The diagram nodes for a sequence of table nodes. */
  function ToTableNodes(nodes: seq<GraphNode>, s: seq<GraphNode>): (r: seq<TableNode>)
    ensures |r| == |s| && forall k :: 0 <= k < |s| ==> r[k] == ToTableNode(nodes, s[k])
  {
    if |s| == 0 then [] else ToTableNodes(nodes, s[..|s| - 1]) + [ToTableNode(nodes, s[|s| - 1])]
  }

  lemma ToTableNodesStep(nodes: seq<GraphNode>, s: seq<GraphNode>, x: GraphNode)
    ensures ToTableNodes(nodes, s + [x]) == ToTableNodes(nodes, s) + [ToTableNode(nodes, x)]
  {
    assert (s + [x])[..|s|] == s;
  }

  /** The table nodes of `g` the diagram shows: one per distinct id. */
  function DiagramNodes(g: Graph): seq<TableNode>
    requires g.tableNodes.Valid()
  {
    ToTableNodes(g.nodes, FirstById(g.tableNodes.Values()))
  }

  lemma DiagramNodesDistinct(g: Graph)
    requires g.tableNodes.Valid()
    ensures DistinctIds(DiagramNodes(g))
  {
    FirstByIdIds(g.tableNodes.Values());
  }

  /** The `uniqueNodes` loop over `Object.values(graph.tableNodes)`. */
  method CollectTableNodes(g: Graph) returns (out: seq<TableNode>)
    requires g.tableNodes.Valid()
    ensures out == DiagramNodes(g)
    ensures DistinctIds(out)
  {
    out := UniqueNodes(g.nodes, g.tableNodes.Values());
    DiagramNodesDistinct(g);
  }

  /** Walks `vals`, skipping a node whose id is already in the map. */
  method UniqueNodes(nodes: seq<GraphNode>, vals: seq<GraphNode>) returns (out: seq<TableNode>)
    ensures out == ToTableNodes(nodes, FirstById(vals))
  {
    var seen: set<string> := {};
    ghost var kept: seq<GraphNode> := [];
    out := [];
    var i := 0;
    while i < |vals|
      invariant 0 <= i <= |vals|
      invariant kept == FirstById(vals[..i])
      invariant seen == NodeIds(kept)
      invariant out == ToTableNodes(nodes, kept)
    {
      FirstByIdPrefix(vals, i);
      seen, out, kept := KeepIfNew(nodes, vals[i], seen, out, kept);
      i := i + 1;
    }
    assert vals[..|vals|] == vals;
  }

  lemma FirstByIdPrefix(vals: seq<GraphNode>, i: int)
    requires 0 <= i < |vals|
    ensures FirstById(vals[..i + 1]) ==
      if vals[i].id in NodeIds(FirstById(vals[..i])) then FirstById(vals[..i]) else FirstById(vals[..i]) + [vals[i]]
  {
    assert vals[..i + 1] == vals[..i] + [vals[i]];
    FirstByIdStep(vals[..i], vals[i]);
  }

  /** One step of the `uniqueNodes` loop: a node whose id is new is added. */
  method KeepIfNew(nodes: seq<GraphNode>, node: GraphNode, seen: set<string>, out: seq<TableNode>, ghost kept: seq<GraphNode>)
    returns (seen': set<string>, out': seq<TableNode>, ghost kept': seq<GraphNode>)
    requires seen == NodeIds(kept) && out == ToTableNodes(nodes, kept)
    ensures kept' == if node.id in NodeIds(kept) then kept else kept + [node]
    ensures seen' == NodeIds(kept') && out' == ToTableNodes(nodes, kept')
  {
    seen', out', kept' := seen, out, kept;
    if node.id !in seen {
      NodeIdsAppend(kept, node);
      ToTableNodesStep(nodes, kept, node);
      seen', out', kept' := seen + {node.id}, out + [ToTableNode(nodes, node)], kept + [node];
    }
  }

  /** `getAllTableNodesAsTableNodes`: the diagram nodes, laid out along the
      diagram edges. The layout's full vertical guarantee applies because the
      ids are distinct. */
  method GetAllTableNodesAsTableNodes(g: Graph) returns (out: seq<TableNode>)
    requires g.tableNodes.Valid()
    ensures DistinctIds(DiagramNodes(g))
    ensures exists layer ::
      LayerSpec(DiagramNodes(g), GetFilteredEdges(g.edges), layer) && Placed(DiagramNodes(g), layer, out)
  {
    var nodes := CollectTableNodes(g);
    var edges := GetFilteredEdges(g.edges);
    out := AssignPositionsWithTopologicalSort(nodes, edges);
  }

  // ---------------------------------------------------------------------
  // `sqlAstToGraph`

  /** The first statement of a list (or the single statement), walked by
      `astToGraph`; an empty list has no statement to walk. */
  method SqlAstToGraph(input: Input) returns (r: Result<Graph>)
    ensures r.Failure? <==> input.Many? && |input.stmts| == 0
    ensures r.Success? ==> UniqueNodeIds(r.value.nodes) && UniqueEdgeIds(r.value.edges)
  {
    ghost var resultName: string;
    ghost var scopes: Alias.Scopes;
    r, resultName, scopes := AstToGraph(input);
  }
}

=== FILE: dialects.dfy ===
/** `normalizeDatabaseName` (`src/parser/graphGeneratorcopy.ts`): maps a
    user-supplied dialect name onto one of the names the SQL parser accepts. */
module Dialects {
  import opened Wrappers
  import opened Strings

  /** The dialects the parser accepts, one constructor per accepted name. */
  datatype Dialect =
    MySQL
    | MariaDB
    | PostgresQL
    | Sqlite
    | Redshift
    | TransactSQL
    | Hive
    | DB2
    | BigQuery
    | Athena
    | FlinkSQL
    | Snowflake
    | Noql
  {
    function Name(): string {
      match this
      case MySQL => "MySQL"
      case MariaDB => "MariaDB"
      case PostgresQL => "PostgresQL"
      case Sqlite => "Sqlite"
      case Redshift => "Redshift"
      case TransactSQL => "TransactSQL"
      case Hive => "Hive"
      case DB2 => "DB2"
      case BigQuery => "BigQuery"
      case Athena => "Athena"
      case FlinkSQL => "FlinkSQL"
      case Snowflake => "Snowflake"
      case Noql => "Noql"
    }

    /** The name in lower case. */
    function Key(): string {
      match this
      case MySQL => "mysql"
      case MariaDB => "mariadb"
      case PostgresQL => "postgresql"
      case Sqlite => "sqlite"
      case Redshift => "redshift"
      case TransactSQL => "transactsql"
      case Hive => "hive"
      case DB2 => "db2"
      case BigQuery => "bigquery"
      case Athena => "athena"
      case FlinkSQL => "flinksql"
      case Snowflake => "snowflake"
      case Noql => "noql"
    }
  }

  /** The accepted names, as the normaliser lists them. */
  const AllowedDialects: set<string> := {
    "MySQL", "MariaDB", "PostgresQL", "Sqlite", "Redshift", "TransactSQL",
    "Hive", "DB2", "BigQuery", "Athena", "FlinkSQL", "Snowflake", "Noql"}

  /** Lower-case spellings the normaliser recognises, with their accepted name. */
  const DialectAliases: map<string, string> := map[
    "mysql" := "MySQL", "mariadb" := "MariaDB",
    "postgres" := "PostgresQL", "postgresql" := "PostgresQL",
    "postgresql (pgsql)" := "PostgresQL", "pg" := "PostgresQL",
    "sqlite" := "Sqlite", "redshift" := "Redshift",
    "mssql" := "TransactSQL", "sqlserver" := "TransactSQL",
    "tsql" := "TransactSQL", "transactsql" := "TransactSQL",
    "hive" := "Hive", "db2" := "DB2", "bigquery" := "BigQuery",
    "athena" := "Athena", "flink" := "FlinkSQL", "flinksql" := "FlinkSQL",
    "snowflake" := "Snowflake", "noql" := "Noql"]

  /** The lookup key: trimmed, then lower-cased. */
  function DialectKey(db: string): string {
    Lower(Trim(db))
  }

  /** An empty name gives none; a recognised spelling (after trimming and
      lower-casing) gives its accepted name; an accepted name passes through
      unchanged; anything else gives none. */
  function NormalizeDatabaseName(db: string): (r: Option<string>)
    ensures db == "" ==> r == None
    ensures r.Some? ==> r.value in AllowedDialects
    ensures db != "" && DialectKey(db) in DialectAliases ==> r == Some(DialectAliases[DialectKey(db)])
    ensures db != "" && DialectKey(db) !in DialectAliases ==> r == (if db in AllowedDialects then Some(db) else None)
  {
    if db == "" then None
    else
      var key := DialectKey(db);
      if key in DialectAliases then Some(DialectAliases[key])
      else if db in AllowedDialects then Some(db)
      else None
  }

  /** The accepted names are exactly the names of the dialects. */
  lemma AllowedAreDialects(c: string)
    ensures c in AllowedDialects <==> exists d: Dialect :: d.Name() == c
  {
    if c in AllowedDialects {
      assert MySQL.Name() == c || MariaDB.Name() == c || PostgresQL.Name() == c || Sqlite.Name() == c || Redshift.Name() == c || TransactSQL.Name() == c || Hive.Name() == c || DB2.Name() == c || BigQuery.Name() == c || Athena.Name() == c || FlinkSQL.Name() == c || Snowflake.Name() == c || Noql.Name() == c;
    }
  }

  /** The alias table sends each accepted name's lower-case spelling back to it. */
  lemma AliasesOfAccepted0()
    ensures "mysql" in DialectAliases && DialectAliases["mysql"] == "MySQL"
    ensures "mariadb" in DialectAliases && DialectAliases["mariadb"] == "MariaDB"
    ensures "postgresql" in DialectAliases && DialectAliases["postgresql"] == "PostgresQL"
    ensures "sqlite" in DialectAliases && DialectAliases["sqlite"] == "Sqlite"
  {
  }

  lemma AliasesOfAccepted1()
    ensures "redshift" in DialectAliases && DialectAliases["redshift"] == "Redshift"
    ensures "transactsql" in DialectAliases && DialectAliases["transactsql"] == "TransactSQL"
    ensures "hive" in DialectAliases && DialectAliases["hive"] == "Hive"
    ensures "db2" in DialectAliases && DialectAliases["db2"] == "DB2"
  {
  }

  lemma AliasesOfAccepted2()
    ensures "bigquery" in DialectAliases && DialectAliases["bigquery"] == "BigQuery"
    ensures "athena" in DialectAliases && DialectAliases["athena"] == "Athena"
    ensures "flinksql" in DialectAliases && DialectAliases["flinksql"] == "FlinkSQL"
    ensures "snowflake" in DialectAliases && DialectAliases["snowflake"] == "Snowflake"
    ensures "noql" in DialectAliases && DialectAliases["noql"] == "Noql"
  {
  }

  /** The key of a name without surrounding white space is its lower-case form `k`. */
  lemma KeyIs(c: string, k: string)
    requires c != [] && !IsSpace(c[0]) && !IsSpace(c[|c| - 1])
    requires |c| == |k| && forall i :: 0 <= i < |c| ==> LowerChar(c[i]) == k[i]
    ensures DialectKey(c) == k
  {
    TrimNone(c);
  }

  /** The lookup key of an accepted name is its lower-case form. */
  lemma DialectKeyIs(d: Dialect)
    ensures DialectKey(d.Name()) == d.Key()
  {
    match d
    case MySQL | MariaDB | PostgresQL | Sqlite => DialectKeyIsA(d);
    case Redshift | TransactSQL | Hive => DialectKeyIsB(d);
    case DB2 | BigQuery | Athena => DialectKeyIsC(d);
    case FlinkSQL | Snowflake | Noql => DialectKeyIsD(d);
  }

  lemma DialectKeyIsA(d: Dialect)
    requires d.MySQL? || d.MariaDB? || d.PostgresQL? || d.Sqlite?
    ensures DialectKey(d.Name()) == d.Key()
  {
    match d
    case MySQL => KeyIs(d.Name(), d.Key());
    case MariaDB => KeyIs(d.Name(), d.Key());
    case PostgresQL => KeyIs(d.Name(), d.Key());
    case Sqlite => KeyIs(d.Name(), d.Key());
  }

  lemma DialectKeyIsB(d: Dialect)
    requires d.Redshift? || d.TransactSQL? || d.Hive?
    ensures DialectKey(d.Name()) == d.Key()
  {
    match d
    case Redshift => KeyIs(d.Name(), d.Key());
    case TransactSQL => KeyIs(d.Name(), d.Key());
    case Hive => KeyIs(d.Name(), d.Key());
  }

  lemma DialectKeyIsC(d: Dialect)
    requires d.DB2? || d.BigQuery? || d.Athena?
    ensures DialectKey(d.Name()) == d.Key()
  {
    match d
    case DB2 => KeyIs(d.Name(), d.Key());
    case BigQuery => KeyIs(d.Name(), d.Key());
    case Athena => KeyIs(d.Name(), d.Key());
  }

  lemma DialectKeyIsD(d: Dialect)
    requires d.FlinkSQL? || d.Snowflake? || d.Noql?
    ensures DialectKey(d.Name()) == d.Key()
  {
    match d
    case FlinkSQL => KeyIs(d.Name(), d.Key());
    case Snowflake => KeyIs(d.Name(), d.Key());
    case Noql => KeyIs(d.Name(), d.Key());
  }

  /** Every accepted name is recognised, as itself. */
  lemma DialectKeyOf(d: Dialect)
    ensures DialectKey(d.Name()) in DialectAliases && DialectAliases[DialectKey(d.Name())] == d.Name()
  {
    DialectKeyIs(d);
    AliasesOfAccepted0();
    AliasesOfAccepted1();
    AliasesOfAccepted2();
  }

  /** Normalising twice changes nothing. */
  lemma NormalizeIdempotent(db: string)
    requires NormalizeDatabaseName(db).Some?
    ensures NormalizeDatabaseName(NormalizeDatabaseName(db).value) == NormalizeDatabaseName(db)
  {
    var c := NormalizeDatabaseName(db).value;
    AllowedAreDialects(c);
    var d: Dialect :| d.Name() == c;
    DialectKeyOf(d);
  }

  /** An accepted name never starts with white space. */
  lemma AcceptedUnpadded(c: char, db: string)
    requires IsSpace(c)
    ensures [c] + db !in AllowedDialects
  {
    assert forall a | a in AllowedDialects :: !IsSpace(a[0]);
  }

  /** An accepted name is its own recognised spelling. */
  lemma AcceptedIsKeyed(db: string)
    requires db in AllowedDialects
    ensures DialectKey(db) in DialectAliases && DialectAliases[DialectKey(db)] == db
  {
    AllowedAreDialects(db);
    var d: Dialect :| d.Name() == db;
    DialectKeyOf(d);
  }

  /** Leading white space is trimmed off the lookup key. */
  lemma KeyIgnoresLeadingSpace(c: char, db: string)
    requires IsSpace(c)
    ensures DialectKey([c] + db) == DialectKey(db)
  {
    assert ([c] + db)[1..] == db;
  }

  /** Leading white space never changes the outcome. */
  lemma NormalizeIgnoresLeadingSpace(c: char, db: string)
    requires IsSpace(c)
    ensures NormalizeDatabaseName([c] + db) == NormalizeDatabaseName(db)
  {
    KeyIgnoresLeadingSpace(c, db);
    AcceptedUnpadded(c, db);
    if db in AllowedDialects {
      AcceptedIsKeyed(db);
    }
  }
}

=== FILE: dicts.dfy ===
/** An insertion-ordered dictionary from strings: the JavaScript objects and
    `Map`s the source uses as lookup tables (`tableNodes`, `columnNodes`,
    the alias map). Assigning an existing key replaces its value and keeps
    its place; a new key goes last. */
module Dicts {

  datatype Dict<V> = Dict(keys: seq<string>, entries: map<string, V>) {

    ghost predicate Valid() {
      && Distinct(keys)
      && (forall k :: k in entries <==> k in keys)
    }

    predicate Has(k: string) {
      k in entries
    }

    /** `obj[k] = v` */
    function Put(k: string, v: V): (d: Dict<V>)
      requires Valid()
      ensures d.Valid()
      ensures d.entries == entries[k := v]
      ensures d.keys == if k in entries then keys else keys + [k]
    {
      if k in entries then Dict(keys, entries[k := v]) else Dict(keys + [k], entries[k := v])
    }

    /** `delete obj[k]`: the key leaves the order, the others keep theirs. */
    function Remove(k: string): (d: Dict<V>)
      requires Valid()
      ensures d.Valid()
      ensures d.entries == entries - {k}
      ensures d.keys == Without(keys, k)
    {
      Dict(Without(keys, k), entries - {k})
    }

    /** `Object.values(obj)`, in key order. */
    function Values(): (vs: seq<V>)
      requires Valid()
      ensures |vs| == |keys|
      ensures forall i :: 0 <= i < |keys| ==> vs[i] == entries[keys[i]]
    {
      seq(|keys|, i requires 0 <= i < |keys| => entries[keys[i]])
    }
  }

  /** `s` with every occurrence of `k` removed, in order. */
  function Without(s: seq<string>, k: string): (r: seq<string>)
    ensures forall x :: x in r <==> x in s && x != k
    ensures Distinct(s) ==> Distinct(r)
  {
    if |s| == 0 then []
    else
      var p, x := s[..|s| - 1], s[|s| - 1];
      assert Distinct(s) ==> Distinct(p) && x !in p by {
        if Distinct(s) {
          assert forall i :: 0 <= i < |p| ==> p[i] == s[i] != s[|s| - 1];
        }
      }
      Without(p, k) + (if x == k then [] else [x])
  }

  ghost predicate Distinct(s: seq<string>) {
    forall i, j :: 0 <= i < j < |s| ==> s[i] != s[j]
  }

  function Empty<V>(): (d: Dict<V>)
    ensures d.Valid() && d.keys == [] && d.entries == map[]
  {
    Dict([], map[])
  }

  /** Putting a key never removes or reorders the keys already there. */
  lemma PutKeepsOrder<V>(d: Dict<V>, k: string, v: V)
    requires d.Valid()
    ensures IsKeyPrefix(d.keys, d.Put(k, v).keys)
  {
  }

  predicate IsKeyPrefix(a: seq<string>, b: seq<string>) {
    |a| <= |b| && b[..|a|] == a
  }
}

=== FILE: filters.dfy ===
/** `Array.prototype.filter` described by the indices it keeps: the positions,
    in increasing order, of exactly the elements the predicate accepts. The
    projections in the graph generators are specified against it. */
module Filters {

  function KeptIndices<T>(s: seq<T>, keep: T -> bool): (ix: seq<nat>)
    ensures forall k :: 0 <= k < |ix| ==> ix[k] < |s| && keep(s[ix[k]])
    ensures forall k1, k2 :: 0 <= k1 < k2 < |ix| ==> ix[k1] < ix[k2]
    ensures forall i :: 0 <= i < |s| && keep(s[i]) ==> i in ix
  {
    if |s| == 0 then []
    else
      var p := KeptIndices(s[..|s| - 1], keep);
      assert forall k :: 0 <= k < |p| ==> s[..|s| - 1][p[k]] == s[p[k]];
      p + (if keep(s[|s| - 1]) then [|s| - 1] else [])
  }

  /** Unfolding `KeptIndices` once at the end of a sequence. */
  lemma KeptIndicesStep<T>(s: seq<T>, x: T, keep: T -> bool)
    ensures KeptIndices(s + [x], keep) == KeptIndices(s, keep) + (if keep(x) then [|s|] else [])
  {
    assert (s + [x])[..|s|] == s;
  }

  /** `Array.prototype.findIndex`: the position of the first element the
      predicate accepts, or -1 when it accepts none. `find` returns the
      element at that position, `undefined` for -1. */
  function FirstIndex<T>(s: seq<T>, p: T -> bool): (r: int)
    ensures -1 <= r < |s|
    ensures r >= 0 ==> p(s[r]) && forall j :: 0 <= j < r ==> !p(s[j])
    ensures r < 0 ==> forall j :: 0 <= j < |s| ==> !p(s[j])
  {
    if |s| == 0 then -1
    else if p(s[0]) then 0
    else
      var k := FirstIndex(s[1..], p);
      if k < 0 then -1 else k + 1
  }

  /** The `find` loop: the first accepted position, as `FirstIndex` describes it. */
  method Find<T>(s: seq<T>, p: T -> bool) returns (r: int)
    ensures r == FirstIndex(s, p)
  {
    var i := 0;
    while i < |s| && !p(s[i])
      invariant 0 <= i <= |s|
      invariant forall j :: 0 <= j < i ==> !p(s[j])
    {
      i := i + 1;
    }
    r := if i < |s| then i else -1;
  }
}

=== FILE: fresh_names.dfy ===
/** The synthetic-name supply standing in for the `Math.random().toString(36)`
    slices. Each draw gives the decimal digits of the number of earlier
    draws, a non-empty string of digits. The source's
    suffixes are random base-36 text instead. */
module FreshNames {
  import Strings

  class NameSupply {
    var drawn: nat

    constructor ()
      ensures drawn == 0
    {
      drawn := 0;
    }

    method Next() returns (name: string)
      modifies this
      ensures drawn == old(drawn) + 1
      ensures |name| >= 1 && forall i :: 0 <= i < |name| ==> '0' <= name[i] <= '9'
    {
      name := Strings.NatToString(drawn);
      drawn := drawn + 1;
    }
  }
}

=== FILE: graph_builder.dfy ===
/** The graph store of `src/parser/graph/GraphBuilder.ts`: a session-owned
    object that creates table, CTE and column nodes and the edges between
    them, deduplicating both by their derived ids. */
module GraphStore {
  import opened Wrappers
  import opened Dicts
  import opened Strings
  import opened GraphTypes

  /** The `kind` argument of `ensureTable`; only `cte` changes the node type. */
  datatype TableKind = PlainTable | CteTable | UnionTable | TempTable

  /** The `extra` fields merged into a table node when it is created. */
  datatype TableExtras = TableExtras(alias: string, db: string, setOperation: string, isCte: bool)

  const NoExtras := TableExtras("", "", "", false)

  function ColumnId(tableName: string, column: string): string {
    tableName + "_" + column
  }

  /** The node `ensureTable` creates for a new name. */
  function NewTableNode(name: string, kind: TableKind, extra: TableExtras): GraphNode {
    GraphNode(TableId(name), if kind == CteTable then CteType else TableType, name, "",
              extra.alias, extra.db, extra.setOperation, extra.isCte, false)
  }

  /** The node `ensureColumn` creates for a new (table, column) pair. */
  function NewColumnNode(tableName: string, column: string): GraphNode {
    GraphNode(ColumnId(tableName, column), ColumnType, column, TableId(tableName), "", "", "", false, false)
  }

  function EdgeId(source: string, target: string, edgeType: EdgeType): string {
    "edge_" + source + "_to_" + target + "_" + edgeType.Name()
  }

  /** The edge `linkTables` creates. */
  function TableLink(sourceId: string, targetId: string, edgeType: EdgeType, caption: string): GraphEdge {
    GraphEdge(EdgeId(sourceId, targetId, edgeType), sourceId, targetId, edgeType, None, None, caption)
  }

  function SourceHandle(srcTable: string, srcCol: string): string {
    "source-" + srcTable + "_" + srcCol
  }

  function TargetHandle(dstTableId: string, dstColName: string): string {
    "target-" + RemoveFirst(dstTableId, "table_") + "_" + dstColName
  }

  /** The edge `linkColumns` creates. */
  function ColumnLink(srcTable: string, srcCol: string, dstTableId: string, dstColName: string, edgeType: EdgeType): GraphEdge {
    var sh := SourceHandle(srcTable, srcCol);
    var th := TargetHandle(dstTableId, dstColName);
    GraphEdge(EdgeId(sh, th, edgeType), TableId(srcTable), dstTableId, edgeType, Some(sh), Some(th), "")
  }

  /** `linkColumns` aimed at a table id of the usual `table_<name>` form names the
      target handle after `<name>`; the source side is named after the source table. */
  lemma ColumnLinkHandles(srcTable: string, srcCol: string, dstTable: string, dstCol: string, edgeType: EdgeType)
    ensures var e := ColumnLink(srcTable, srcCol, TableId(dstTable), dstCol, edgeType);
      && e.source == TableId(srcTable) && e.target == TableId(dstTable)
      && e.sourceHandle == Some("source-" + srcTable + "_" + srcCol)
      && e.targetHandle == Some("target-" + dstTable + "_" + dstCol)
      && e.id == EdgeId("source-" + srcTable + "_" + srcCol, "target-" + dstTable + "_" + dstCol, edgeType)
  {
    RemoveFirstOfPrefixed("table_", dstTable);
  }

  /** The store's invariant: the id map and id set mirror the graph's node and
      edge lists, ids are unique, no `table_TO_table` edge is a self-loop, and
      every index entry is the node stored under its id. */
  ghost predicate StoreInv(nodes: map<string, GraphNode>, edges: set<string>, graph: Graph) {
    && graph.tableNodes.Valid()
    && graph.columnNodes.Valid()
    && UniqueNodeIds(graph.nodes)
    && nodes.Keys == NodeIds(graph.nodes)
    && (forall i :: 0 <= i < |graph.nodes| ==> nodes[graph.nodes[i].id] == graph.nodes[i])
    && UniqueEdgeIds(graph.edges)
    && edges == EdgeIds(graph.edges)
    && NoTableSelfLoops(graph.edges)
    && (forall k :: k in graph.tableNodes.entries ==>
          TableId(k) in nodes && graph.tableNodes.entries[k] == nodes[TableId(k)])
    && (forall k :: k in graph.columnNodes.entries ==>
          k in nodes && graph.columnNodes.entries[k] == nodes[k])
  }

  /** Adding a new table node keeps the store invariant. */
  lemma AddTableKeeps(nodes: map<string, GraphNode>, edges: set<string>, graph: Graph, name: string, node: GraphNode)
    requires StoreInv(nodes, edges, graph) && node.id == TableId(name) && node.id !in nodes
    ensures NodeIds(graph.nodes + [node]) == NodeIds(graph.nodes) + {node.id}
    ensures StoreInv(nodes[node.id := node], edges,
                     graph.(nodes := graph.nodes + [node], tableNodes := graph.tableNodes.Put(name, node)))
  {
    NodeIdsAppend(graph.nodes, node);
  }

  /** Adding a new column node keeps the store invariant. */
  lemma AddColumnKeeps(nodes: map<string, GraphNode>, edges: set<string>, graph: Graph, node: GraphNode)
    requires StoreInv(nodes, edges, graph) && node.id !in nodes
    ensures NodeIds(graph.nodes + [node]) == NodeIds(graph.nodes) + {node.id}
    ensures StoreInv(nodes[node.id := node], edges,
                     graph.(nodes := graph.nodes + [node], columnNodes := graph.columnNodes.Put(node.id, node)))
  {
    NodeIdsAppend(graph.nodes, node);
  }

  class GraphBuilder {
    /** The private `nodes` map, the private `edges` id set and the public graph. */
    var nodes: map<string, GraphNode>
    var edges: set<string>
    var graph: Graph

    ghost predicate Valid()
      reads this
    {
      StoreInv(nodes, edges, graph)
    }

    constructor ()
      ensures Valid()
      ensures nodes == map[] && edges == {} && graph == EmptyGraph()
    {
      nodes := map[];
      edges := {};
      graph := EmptyGraph();
    }

    /** Creates the node `table_<name>` on first use; later calls change nothing. */
    method EnsureTable(name: string, kind: TableKind, extra: TableExtras) returns (id: string)
      requires Valid()
      modifies this
      ensures Valid()
      ensures id == TableId(name)
      ensures id in nodes
      ensures old(id in nodes) ==> nodes == old(nodes) && edges == old(edges) && graph == old(graph)
      ensures old(id !in nodes) ==>
        var node := NewTableNode(name, kind, extra);
        && nodes == old(nodes)[id := node]
        && edges == old(edges)
        && graph == old(graph).(nodes := old(graph.nodes) + [node],
                                tableNodes := old(graph.tableNodes).Put(name, node))
      ensures Grows(old(graph), graph)
    {
      id := TableId(name);
      if id !in nodes {
        var node := NewTableNode(name, kind, extra);
        AddTableKeeps(nodes, edges, graph, name, node);
        nodes := nodes[id := node];
        graph := graph.(nodes := graph.nodes + [node], tableNodes := graph.tableNodes.Put(name, node));
      }
    }

    /** Creates the column node `<tableName>_<column>` on first use. */
    method EnsureColumn(tableName: string, column: string) returns (id: string)
      requires Valid()
      modifies this
      ensures Valid()
      ensures id == ColumnId(tableName, column)
      ensures id in nodes
      ensures old(id in nodes) ==> nodes == old(nodes) && edges == old(edges) && graph == old(graph)
      ensures old(id !in nodes) ==>
        var node := NewColumnNode(tableName, column);
        && nodes == old(nodes)[id := node]
        && edges == old(edges)
        && graph == old(graph).(nodes := old(graph.nodes) + [node],
                                columnNodes := old(graph.columnNodes).Put(id, node))
      ensures Grows(old(graph), graph)
    {
      id := ColumnId(tableName, column);
      if id !in nodes {
        var node := NewColumnNode(tableName, column);
        AddColumnKeeps(nodes, edges, graph, node);
        nodes := nodes[id := node];
        graph := graph.(nodes := graph.nodes + [node], columnNodes := graph.columnNodes.Put(id, node));
      }
    }

    /** Adds a table-level edge unless it is a `table_TO_table` self-loop or its id exists. */
    method LinkTables(sourceId: string, targetId: string, edgeType: EdgeType, caption: string)
      requires Valid()
      modifies this
      ensures Valid()
      ensures nodes == old(nodes)
      ensures graph.nodes == old(graph.nodes) && graph.tableNodes == old(graph.tableNodes)
      ensures graph.columnNodes == old(graph.columnNodes)
      ensures var e := TableLink(sourceId, targetId, edgeType, caption);
        if (edgeType == TableToTable && sourceId == targetId) || e.id in old(edges)
        then edges == old(edges) && graph.edges == old(graph.edges)
        else edges == old(edges) + {e.id} && graph.edges == old(graph.edges) + [e]
      ensures !(edgeType == TableToTable && sourceId == targetId) ==> EdgeId(sourceId, targetId, edgeType) in edges
      ensures Grows(old(graph), graph)
    {
      if edgeType == TableToTable && sourceId == targetId {
        return;
      }
      var e := TableLink(sourceId, targetId, edgeType, caption);
      if e.id in edges {
        return;
      }
      graph := graph.(edges := graph.edges + [e]);
      edges := edges + {e.id};
      EdgeIdsAppend(old(graph.edges), e);
    }

    /** Adds a column-level edge between two column handles unless its id exists. */
    method LinkColumns(srcTable: string, srcCol: string, dstTableId: string, dstColName: string, edgeType: EdgeType)
      requires Valid()
      requires edgeType == ColumnMapping || edgeType == Condition
      modifies this
      ensures Valid()
      ensures nodes == old(nodes)
      ensures graph.nodes == old(graph.nodes) && graph.tableNodes == old(graph.tableNodes)
      ensures graph.columnNodes == old(graph.columnNodes)
      ensures var e := ColumnLink(srcTable, srcCol, dstTableId, dstColName, edgeType);
        && e.id in edges
        && if e.id in old(edges)
           then edges == old(edges) && graph.edges == old(graph.edges)
           else edges == old(edges) + {e.id} && graph.edges == old(graph.edges) + [e]
      ensures Grows(old(graph), graph)
    {
      var e := ColumnLink(srcTable, srcCol, dstTableId, dstColName, edgeType);
      if e.id in edges {
        return;
      }
      graph := graph.(edges := graph.edges + [e]);
      edges := edges + {e.id};
      EdgeIdsAppend(old(graph.edges), e);
    }

    /** The accumulated graph: node ids and edge ids are unique, no
        `table_TO_table` edge is a self-loop, and every index entry is a node
        of the graph. */
    function GetGraph(): (g: Graph)
      reads this
      requires Valid()
      ensures UniqueNodeIds(g.nodes) && UniqueEdgeIds(g.edges) && NoTableSelfLoops(g.edges)
      ensures forall k :: k in g.tableNodes.entries ==> g.tableNodes.entries[k].id == TableId(k)
      ensures forall k :: k in g.columnNodes.entries ==> g.columnNodes.entries[k].id == k
    {
      TableIndexIds();
      graph
    }

    /** Every node's id is the key it is stored under in the private map. */
    lemma TableIndexIds()
      requires Valid()
      ensures forall id :: id in nodes ==> nodes[id].id == id
      ensures forall k :: k in graph.tableNodes.entries ==> graph.tableNodes.entries[k].id == TableId(k)
      ensures forall k :: k in graph.columnNodes.entries ==> graph.columnNodes.entries[k].id == k
    {
      forall id | id in nodes ensures nodes[id].id == id {
        var i :| 0 <= i < |graph.nodes| && graph.nodes[i].id == id;
      }
    }
  }
}

=== FILE: graph_generator.dfy ===
/** The earlier graph builder of `src/parser/graphGenerator.ts`. Its nodes are
    property bags compared with `===`, so the JavaScript difference between
    `null` (what the parser stores for a missing alias, database or
    qualifier) and `undefined` (a property never set) is kept. Table and CTE
    nodes are deduplicated by name and alias; column nodes and edges are
    always appended. */
module LegacyGraphGenerator {
  import opened Wrappers
  import opened Dicts
  import opened Filters
  import opened SqlAst
  import opened GraphTypes
  import opened FreshNames
  import Diagram

  /** A property that holds a string, `null` or `undefined`. */
  datatype JsText = Undefined | Null | Text(s: string) {
    predicate Truthy() {
      Text? && s != ""
    }

    /** `this || other` */
    function Or(other: JsText): JsText {
      if Truthy() then this else other
    }

    /** The value inside a template literal, or used as an object key. */
    function Render(): string {
      match this
      case Undefined => "undefined"
      case Null => "null"
      case Text(s) => s
    }
  }

  /** A parser field that is `null` when absent. */
  function Nullable(s: string): JsText {
    if s == "" then Null else Text(s)
  }

  /** A node: `{ id, type, ...props }` with the properties this builder sets. */
  datatype LegacyNode = LegacyNode(
    id: string,
    nodeType: NodeType,
    name: JsText,
    alias: JsText,
    db: JsText,
    tableId: JsText,
    isCte: bool,
    isCteColumn: bool)

  datatype LegacyGraph = LegacyGraph(
    nodes: seq<LegacyNode>,
    edges: seq<GraphEdge>,
    tableNodes: Dict<LegacyNode>,
    columnNodes: Dict<LegacyNode>)

  /** Both indices are well formed and hold only nodes of the graph. */
  ghost predicate Indexed(g: LegacyGraph) {
    && g.tableNodes.Valid() && g.columnNodes.Valid()
    && (forall k :: k in g.tableNodes.entries ==> g.tableNodes.entries[k] in g.nodes)
    && (forall k :: k in g.columnNodes.entries ==> g.columnNodes.entries[k] in g.nodes)
  }

  /** Nodes and edges only appended, index keys only added. */
  ghost predicate LegacyGrows(g0: LegacyGraph, g1: LegacyGraph) {
    && Extends(g0.nodes, g1.nodes)
    && Extends(g0.edges, g1.edges)
    && g0.tableNodes.entries.Keys <= g1.tableNodes.entries.Keys
    && g0.columnNodes.entries.Keys <= g1.columnNodes.entries.Keys
  }

  lemma LegacyGrowsTransitive(g0: LegacyGraph, g1: LegacyGraph, g2: LegacyGraph)
    requires LegacyGrows(g0, g1) && LegacyGrows(g1, g2)
    ensures LegacyGrows(g0, g2)
  {
    assert g2.nodes[..|g0.nodes|] == g2.nodes[..|g1.nodes|][..|g0.nodes|];
    assert g2.edges[..|g0.edges|] == g2.edges[..|g1.edges|][..|g0.edges|];
  }

  // ---------------------------------------------------------------------
  // `createNode` and `createEdge`

  /** The `find` predicate of `createNode`: the same name, the same truthy
      alias, an aliased node whose alias is the new name, or a node named by
      the new alias. */
  function SameTable(name: JsText, alias: JsText): LegacyNode -> bool {
    (n: LegacyNode) =>
      || n.name == name
      || (alias.Truthy() && n.alias == alias)
      || (n.alias.Truthy() && n.alias == name)
      || (alias.Truthy() && n.name == alias)
  }

  /** Whether `createNode(cand)` hands back an existing table node. */
  function Reuses(g: LegacyGraph, cand: LegacyNode): bool
    requires g.tableNodes.Valid()
  {
    cand.nodeType != ColumnType && FirstIndex(g.tableNodes.Values(), SameTable(cand.name, cand.alias)) >= 0
  }

  /** The node `createNode(cand)` returns: for a table or CTE, the first
      indexed table node that matches it, if any; otherwise the candidate. */
  function Created(g: LegacyGraph, cand: LegacyNode): LegacyNode
    requires g.tableNodes.Valid()
  {
    var vals := g.tableNodes.Values();
    var i := FirstIndex(vals, SameTable(cand.name, cand.alias));
    if cand.nodeType != ColumnType && i >= 0 then vals[i] else cand
  }

  /** `createNode` reuses a node exactly when the candidate is a table or CTE
      and some indexed table node matches it; the node reused is the first
      match in key order, and otherwise the candidate itself is the node. */
  lemma CreatedMatches(g: LegacyGraph, cand: LegacyNode)
    requires g.tableNodes.Valid()
    ensures Reuses(g, cand) <==>
      cand.nodeType != ColumnType && exists k :: k in g.tableNodes.entries && SameTable(cand.name, cand.alias)(g.tableNodes.entries[k])
    ensures Reuses(g, cand) ==> exists i :: (0 <= i < |g.tableNodes.keys| &&
      Created(g, cand) == g.tableNodes.entries[g.tableNodes.keys[i]] && SameTable(cand.name, cand.alias)(Created(g, cand)) &&
      forall j :: 0 <= j < i ==> !SameTable(cand.name, cand.alias)(g.tableNodes.entries[g.tableNodes.keys[j]]))
    ensures !Reuses(g, cand) ==> Created(g, cand) == cand
  {
    var vals := g.tableNodes.Values();
    var i := FirstIndex(vals, SameTable(cand.name, cand.alias));
    if cand.nodeType != ColumnType && i >= 0 {
      assert vals[i] == g.tableNodes.entries[g.tableNodes.keys[i]];
    } else if cand.nodeType != ColumnType {
      forall k | k in g.tableNodes.entries
        ensures !SameTable(cand.name, cand.alias)(g.tableNodes.entries[k])
      {
        var j :| 0 <= j < |g.tableNodes.keys| && g.tableNodes.keys[j] == k;
        assert vals[j] == g.tableNodes.entries[k];
      }
    }
  }

  /** The nodes after `createNode(cand)`: one more exactly when nothing is reused. */
  function NodesAfter(g: LegacyGraph, cand: LegacyNode): seq<LegacyNode>
    requires g.tableNodes.Valid()
  {
    if Reuses(g, cand) then g.nodes else g.nodes + [cand]
  }

  function EdgeId(sourceHandle: Option<string>, targetHandle: Option<string>, edgeType: EdgeType): string {
    "edge_" + HandleText(sourceHandle) + "_to_" + HandleText(targetHandle) + "_" + edgeType.Name()
  }

  /** The edge `createEdge` records. Its id names the handles, not the
      endpoints, so every edge without handles of one type has the same id. */
  function NewEdge(source: string, target: string, edgeType: EdgeType, sourceHandle: Option<string>, targetHandle: Option<string>): (e: GraphEdge)
    ensures e.source == source && e.target == target && e.edgeType == edgeType
    ensures e.sourceHandle == sourceHandle && e.targetHandle == targetHandle
    ensures e.id == EdgeId(sourceHandle, targetHandle, edgeType)
  {
    GraphEdge(EdgeId(sourceHandle, targetHandle, edgeType), source, target, edgeType, sourceHandle, targetHandle, "")
  }

  /** Edges without handles collide: any two of the same type have the same
      id, whatever their endpoints. */
  lemma HandlelessEdgesShareId(s1: string, t1: string, s2: string, t2: string, edgeType: EdgeType)
    ensures NewEdge(s1, t1, edgeType, None, None).id == NewEdge(s2, t2, edgeType, None, None).id
  {
  }

  // ---------------------------------------------------------------------
  // Reading the syntax tree the way this builder does.

  /** `tableItem.table`: `undefined` on a subquery item. */
  function TableOf(item: FromItem): JsText {
    if item.subquery.Some? then Undefined else Text(item.table)
  }

  /** `tableItem.as` */
  function AliasOf(item: FromItem): JsText {
    Nullable(item.alias)
  }

  /** `tableItem.db`: `undefined` on a subquery item. */
  function DbOf(item: FromItem): JsText {
    if item.subquery.Some? then Undefined else Nullable(item.db)
  }

  /** `tableItem.as || tableItem.table` */
  function KeyOf(item: FromItem): JsText {
    AliasOf(item).Or(TableOf(item))
  }

  /** The node proposed for a FROM item. */
  function FromTableNode(id: string, item: FromItem): LegacyNode {
    LegacyNode(id, TableType, TableOf(item), AliasOf(item), DbOf(item), Undefined, false, false)
  }

  /** The node proposed for a column. */
  function ColumnNode(id: string, name: string, tableId: string, isCteColumn: bool): LegacyNode {
    LegacyNode(id, ColumnType, Text(name), Undefined, Undefined, Text(tableId), false, isCteColumn)
  }

  /** The output name of a `column_ref` item: its alias, else the column. */
  function OutputName(item: SelectItem): (name: string)
    requires item.expr.ColumnRef?
    ensures item.alias != "" ==> name == item.alias
    ensures item.alias == "" ==> name == item.expr.column
  {
    if item.alias != "" then item.alias else item.expr.column
  }

  /** `node.alias === sourceTable` */
  function AliasIs(qualifier: JsText): LegacyNode -> bool {
    (n: LegacyNode) => n.alias == qualifier
  }

  /** The source table of a column reference: the name of the first table
      node whose alias is the qualifier, else the qualifier itself. */
  function ResolveQualifier(g: LegacyGraph, qualifier: JsText): JsText
    requires g.tableNodes.Valid()
  {
    var vals := g.tableNodes.Values();
    var i := FirstIndex(vals, AliasIs(qualifier));
    if i >= 0 then vals[i].name else qualifier
  }

  /** A qualifier that is some table node's alias resolves to the name of the
      first such node in key order; any other qualifier stays as it is. An
      unqualified reference has qualifier `null` and so resolves to the
      first node made from a FROM item without alias. */
  lemma ResolveQualifierMeaning(g: LegacyGraph, qualifier: JsText)
    requires g.tableNodes.Valid()
    ensures (exists k :: k in g.tableNodes.entries && g.tableNodes.entries[k].alias == qualifier) ==>
      exists i :: (0 <= i < |g.tableNodes.keys| &&
        g.tableNodes.entries[g.tableNodes.keys[i]].alias == qualifier &&
        ResolveQualifier(g, qualifier) == g.tableNodes.entries[g.tableNodes.keys[i]].name &&
        forall j :: 0 <= j < i ==> g.tableNodes.entries[g.tableNodes.keys[j]].alias != qualifier)
    ensures (forall k :: k in g.tableNodes.entries ==> g.tableNodes.entries[k].alias != qualifier) ==>
      ResolveQualifier(g, qualifier) == qualifier
  {
    var vals := g.tableNodes.Values();
    var i := FirstIndex(vals, AliasIs(qualifier));
    if i >= 0 {
      assert vals[i] == g.tableNodes.entries[g.tableNodes.keys[i]];
    } else {
      forall k | k in g.tableNodes.entries ensures g.tableNodes.entries[k].alias != qualifier {
        var j :| 0 <= j < |g.tableNodes.keys| && g.tableNodes.keys[j] == k;
        assert vals[j] == g.tableNodes.entries[k];
      }
    }
  }

  /** The `column_mapping` edge from a source column to an output column. */
  function MappingEdge(srcTable: string, column: string, tableName: string, columnId: string): (e: GraphEdge)
    ensures e.source == TableId(srcTable) && e.target == TableId(tableName) && e.edgeType == ColumnMapping
    ensures e.sourceHandle == Some("source-" + (srcTable + "_" + column))
    ensures e.targetHandle == Some("target-" + columnId)
    ensures Diagram.DiagramEdge(e)
  {
    NewEdge(TableId(srcTable), TableId(tableName), ColumnMapping,
            Some("source-" + (srcTable + "_" + column)), Some("target-" + columnId))
  }

  /** The edges from position `base` on are the `table_TO_table` edges of
      the first `n` items, in order. */
  ghost predicate SourceEdgesAt(edges: seq<GraphEdge>, base: nat, items: seq<FromItem>, n: nat, currentId: string) {
    && n <= |items| && |edges| == base + n
    && forall i :: 0 <= i < n ==> edges[base + i] == NewEdge(TableId(KeyOf(items[i]).Render()), currentId, TableToTable, None, None)
  }

  /** The first `n` items are indexed under their keys. */
  /** After the first pass, a FROM item's table is an index key, or its
      `as || table` key is. */
  ghost predicate FromItemSeen(g: LegacyGraph, item: FromItem) {
    TableOf(item).Render() in g.tableNodes.entries || KeyOf(item).Render() in g.tableNodes.entries
  }

  ghost predicate KeysIndexed(g: LegacyGraph, items: seq<FromItem>, n: nat) {
    forall i :: 0 <= i < n && i < |items| ==> KeyOf(items[i]).Render() in g.tableNodes.entries
  }

  lemma KeysIndexedStep(g0: LegacyGraph, g1: LegacyGraph, items: seq<FromItem>, n: nat)
    requires n < |items| && KeysIndexed(g0, items, n)
    requires g0.tableNodes.entries.Keys <= g1.tableNodes.entries.Keys && KeyOf(items[n]).Render() in g1.tableNodes.entries
    ensures KeysIndexed(g1, items, n + 1)
  {
  }

  lemma SourceStep(g0: LegacyGraph, g1: LegacyGraph, base: nat, items: seq<FromItem>, n: nat, currentId: string)
    requires n < |items|
    requires SourceEdgesAt(g0.edges, base, items, n, currentId) && KeysIndexed(g0, items, n)
    requires g1.edges == g0.edges + [NewEdge(TableId(KeyOf(items[n]).Render()), currentId, TableToTable, None, None)]
    requires g0.tableNodes.entries.Keys + {KeyOf(items[n]).Render()} <= g1.tableNodes.entries.Keys
    ensures SourceEdgesAt(g1.edges, base, items, n + 1, currentId) && KeysIndexed(g1, items, n + 1)
  {
    assert forall i :: 0 <= i < |g0.edges| ==> g1.edges[i] == g0.edges[i];
  }

  /** Every edge from position `base` on is a `column_mapping` edge into
      table `tableName` with both handles. */
  ghost predicate MappingEdgesFrom(edges: seq<GraphEdge>, base: nat, tableName: string) {
    && base <= |edges|
    && forall j :: base <= j < |edges| ==>
         edges[j].edgeType == ColumnMapping && edges[j].target == TableId(tableName) && Diagram.DiagramEdge(edges[j])
  }

  /** The `column_ref` outputs among the first `n` columns are indexed. */
  ghost predicate OutputsIndexed(g: LegacyGraph, columns: seq<SelectItem>, n: nat, tableName: string) {
    forall i :: 0 <= i < n && i < |columns| && columns[i].expr.ColumnRef? ==>
      tableName + "_" + OutputName(columns[i]) in g.columnNodes.entries
  }

  lemma ColumnStep(g: LegacyGraph, g0: LegacyGraph, g1: LegacyGraph, columns: seq<SelectItem>, n: nat, tableName: string)
    requires n < |columns|
    requires MappingEdgesFrom(g0.edges, |g.edges|, tableName) && OutputsIndexed(g0, columns, n, tableName)
    requires MappingEdgesFrom(g1.edges, |g0.edges|, tableName) && Extends(g0.edges, g1.edges)
    requires g0.columnNodes.entries.Keys <= g1.columnNodes.entries.Keys
    requires columns[n].expr.ColumnRef? ==> tableName + "_" + OutputName(columns[n]) in g1.columnNodes.entries
    ensures MappingEdgesFrom(g1.edges, |g.edges|, tableName) && OutputsIndexed(g1, columns, n + 1, tableName)
  {
    assert forall j :: 0 <= j < |g0.edges| ==> g1.edges[j] == g0.edges[j];
  }

  // ---------------------------------------------------------------------
  // One column of `processColumns`, as a function of the graph.

  /** The graph after the output column node `columnId` is created and indexed. */
  function WithOutputColumn(g: LegacyGraph, columnId: string, name: string, tableId: string): LegacyGraph
    requires g.columnNodes.Valid()
  {
    var node := ColumnNode(columnId, name, tableId, true);
    g.(nodes := g.nodes + [node], columnNodes := g.columnNodes.Put(columnId, node))
  }

  /** The graph after the source side of a column reference: the source
      column node if its id is not indexed, then the mapping edge. */
  function WithSource(g: LegacyGraph, srcTable: string, column: string, tableName: string, columnId: string): LegacyGraph
    requires g.columnNodes.Valid()
  {
    var srcId := srcTable + "_" + column;
    var node := ColumnNode(srcId, column, TableId(srcTable), false);
    var g1 := if srcId in g.columnNodes.entries then g else g.(nodes := g.nodes + [node], columnNodes := g.columnNodes.Put(srcId, node));
    g1.(edges := g1.edges + [MappingEdge(srcTable, column, tableName, columnId)])
  }

  /** The graph after a `column_ref` column: the output column, then, when
      the resolved source table is truthy, its source side. */
  function RefColumnAfter(g: LegacyGraph, item: SelectItem, tableId: string, tableName: string): LegacyGraph
    requires g.tableNodes.Valid() && g.columnNodes.Valid() && item.expr.ColumnRef?
  {
    var src := ResolveQualifier(g, Nullable(item.expr.table));
    var g1 := WithOutputColumn(g, tableName + "_" + OutputName(item), OutputName(item), tableId);
    if src.Truthy() then WithSource(g1, src.s, item.expr.column, tableName, tableName + "_" + OutputName(item)) else g1
  }

  /** A `column_ref` column keeps the indices well formed and only grows the graph. */
  lemma RefColumnIndexed(g: LegacyGraph, item: SelectItem, tableId: string, tableName: string)
    requires Indexed(g) && item.expr.ColumnRef?
    ensures Indexed(RefColumnAfter(g, item, tableId, tableName))
    ensures LegacyGrows(g, RefColumnAfter(g, item, tableId, tableName))
    ensures RefColumnAfter(g, item, tableId, tableName).tableNodes == g.tableNodes
  {
    var src := ResolveQualifier(g, Nullable(item.expr.table));
    var columnId := tableName + "_" + OutputName(item);
    var g1 := WithOutputColumn(g, columnId, OutputName(item), tableId);
    OutputColumnIndexed(g, columnId, OutputName(item), tableId);
    if src.Truthy() {
      SourceIndexed(g1, src.s, item.expr.column, tableName, columnId);
      LegacyGrowsTransitive(g, g1, WithSource(g1, src.s, item.expr.column, tableName, columnId));
    }
  }

  lemma OutputColumnIndexed(g: LegacyGraph, columnId: string, name: string, tableId: string)
    requires Indexed(g)
    ensures Indexed(WithOutputColumn(g, columnId, name, tableId))
    ensures LegacyGrows(g, WithOutputColumn(g, columnId, name, tableId))
    ensures WithOutputColumn(g, columnId, name, tableId).tableNodes == g.tableNodes
  {
  }

  lemma SourceIndexed(g: LegacyGraph, srcTable: string, column: string, tableName: string, columnId: string)
    requires Indexed(g)
    ensures Indexed(WithSource(g, srcTable, column, tableName, columnId))
    ensures LegacyGrows(g, WithSource(g, srcTable, column, tableName, columnId))
    ensures WithSource(g, srcTable, column, tableName, columnId).tableNodes == g.tableNodes
  {
  }

  /** What a `column_ref` column adds: the output column `<tableName>_<name>`
      is always created and indexed. When the qualifier does not resolve to
      a truthy table name, nothing else happens. */
  lemma RefColumnUnlinked(g: LegacyGraph, item: SelectItem, tableId: string, tableName: string)
    requires Indexed(g) && item.expr.ColumnRef?
    requires !ResolveQualifier(g, Nullable(item.expr.table)).Truthy()
    ensures var g' := RefColumnAfter(g, item, tableId, tableName);
      && tableName + "_" + OutputName(item) in g'.columnNodes.entries
      && g'.edges == g.edges
      && g'.nodes == g.nodes + [ColumnNode(tableName + "_" + OutputName(item), OutputName(item), tableId, true)]
  {
  }

  /** When the qualifier resolves to a table, the source column
      `<srcTable>_<column>` is indexed too, created only when its id was not
      indexed before (an existing entry keeps its node), and exactly one
      `column_mapping` edge from `source-<srcTable>_<column>` to
      `target-<tableName>_<name>` is added. */
  lemma RefColumnLinked(g: LegacyGraph, item: SelectItem, tableId: string, tableName: string)
    requires Indexed(g) && item.expr.ColumnRef?
    requires ResolveQualifier(g, Nullable(item.expr.table)).Truthy()
    ensures var g' := RefColumnAfter(g, item, tableId, tableName);
      var src := ResolveQualifier(g, Nullable(item.expr.table)).s;
      var columnId := tableName + "_" + OutputName(item);
      var srcId := src + "_" + item.expr.column;
      && columnId in g'.columnNodes.entries
      && srcId in g'.columnNodes.entries
      && g'.edges == g.edges + [MappingEdge(src, item.expr.column, tableName, columnId)]
      && (srcId == columnId || srcId in g.columnNodes.entries ==>
            g'.nodes == g.nodes + [ColumnNode(columnId, OutputName(item), tableId, true)])
      && (srcId != columnId && srcId !in g.columnNodes.entries ==>
            g'.nodes == g.nodes + [ColumnNode(columnId, OutputName(item), tableId, true)]
                                + [ColumnNode(srcId, item.expr.column, TableId(src), false)])
      && (srcId != columnId && srcId in g.columnNodes.entries ==>
            g'.columnNodes.entries[srcId] == g.columnNodes.entries[srcId])
  {
    var src := ResolveQualifier(g, Nullable(item.expr.table)).s;
    var columnId := tableName + "_" + OutputName(item);
    var g1 := WithOutputColumn(g, columnId, OutputName(item), tableId);
    var srcId := src + "_" + item.expr.column;
    assert srcId in g1.columnNodes.entries <==> srcId == columnId || srcId in g.columnNodes.entries;
  }

  /** Every edge a `column_ref` column adds is a diagram edge into its table. */
  lemma RefColumnEdges(g: LegacyGraph, item: SelectItem, tableId: string, tableName: string)
    requires Indexed(g) && item.expr.ColumnRef?
    ensures MappingEdgesFrom(RefColumnAfter(g, item, tableId, tableName).edges, |g.edges|, tableName)
    ensures tableName + "_" + OutputName(item) in RefColumnAfter(g, item, tableId, tableName).columnNodes.entries
    ensures RefColumnAfter(g, item, tableId, tableName).tableNodes == g.tableNodes
    ensures ColumnMapped(RefColumnAfter(g, item, tableId, tableName).edges, RefColumnAfter(g, item, tableId, tableName), item, tableName)
  {
    RefColumnIndexed(g, item, tableId, tableName);
    if ResolveQualifier(g, Nullable(item.expr.table)).Truthy() {
      RefColumnLinked(g, item, tableId, tableName);
    } else {
      RefColumnUnlinked(g, item, tableId, tableName);
    }
  }

  /** A `column_ref` column whose qualifier resolves, against the table index
      of `index`, to a truthy table `src` has its `column_mapping` edge from
      `source-<src>_<column>` to `target-<tableName>_<output>` in `edges`. */
  ghost predicate ColumnMapped(edges: seq<GraphEdge>, index: LegacyGraph, item: SelectItem, tableName: string)
    requires index.tableNodes.Valid()
  {
    item.expr.ColumnRef? ==>
      var src := ResolveQualifier(index, Nullable(item.expr.table));
      src.Truthy() ==> MappingEdge(src.s, item.expr.column, tableName, tableName + "_" + OutputName(item)) in edges
  }

  /** The first `n` columns are mapped against the table index of `index`. */
  ghost predicate ColumnsLinked(edges: seq<GraphEdge>, index: LegacyGraph, columns: seq<SelectItem>, n: nat, tableName: string)
    requires index.tableNodes.Valid()
  {
    forall i :: 0 <= i < n && i < |columns| ==> ColumnMapped(edges, index, columns[i], tableName)
  }

  lemma ColumnsLinkedGrows(e0: seq<GraphEdge>, e1: seq<GraphEdge>, index: LegacyGraph, columns: seq<SelectItem>, tableName: string)
    requires index.tableNodes.Valid() && Extends(e0, e1)
    requires ColumnsLinked(e0, index, columns, |columns|, tableName)
    ensures ColumnsLinked(e1, index, columns, |columns|, tableName)
  {
    forall e | e in e0
      ensures e in e1
    {
      var j :| 0 <= j < |e0| && e0[j] == e;
      assert e1[..|e0|][j] == e;
    }
  }

  /** One more column mapped, the table index unchanged. */
  lemma ColumnsLinkedStep(g0: LegacyGraph, g1: LegacyGraph, columns: seq<SelectItem>, n: nat, tableName: string)
    requires n < |columns| && g0.tableNodes.Valid() && g1.tableNodes == g0.tableNodes
    requires Extends(g0.edges, g1.edges)
    requires ColumnsLinked(g0.edges, g0, columns, n, tableName)
    requires ColumnMapped(g1.edges, g1, columns[n], tableName)
    ensures ColumnsLinked(g1.edges, g1, columns, n + 1, tableName)
  {
    forall i | 0 <= i < n
      ensures ColumnMapped(g1.edges, g1, columns[i], tableName)
    {
      if columns[i].expr.ColumnRef? {
        var src := ResolveQualifier(g0, Nullable(columns[i].expr.table));
        assert ResolveQualifier(g1, Nullable(columns[i].expr.table)) == src;
        if src.Truthy() {
          GrowsKeepsEdge(g0, g1, MappingEdge(src.s, columns[i].expr.column, tableName, tableName + "_" + OutputName(columns[i])));
        }
      }
    }
  }

  /** The first `n` CTEs are indexed under their names. */
  ghost predicate CtesIndexed(g: LegacyGraph, ctes: seq<Cte>, n: nat) {
    forall i :: 0 <= i < n && i < |ctes| ==> ctes[i].name in g.tableNodes.entries
  }

  lemma GrowsKeepsEdge(g0: LegacyGraph, g1: LegacyGraph, e: GraphEdge)
    requires Extends(g0.edges, g1.edges) && e in g0.edges
    ensures e in g1.edges
  {
    var i :| 0 <= i < |g0.edges| && g0.edges[i] == e;
    assert g1.edges[..|g0.edges|][i] == e;
  }

  /** The `table_TO_table` edge of every item into `currentId` is present. */
  ghost predicate SourcesLinked(edges: seq<GraphEdge>, items: seq<FromItem>, currentId: string) {
    forall i :: 0 <= i < |items| ==> NewEdge(TableId(KeyOf(items[i]).Render()), currentId, TableToTable, None, None) in edges
  }

  /** The edges one SELECT body adds from position `base` on: first the
      `table_TO_table` edges of its FROM items into `currentId`, in order,
      then only `column_mapping` edges into table `tableName`. */
  ghost predicate BodyEdgesFrom(edges: seq<GraphEdge>, base: nat, items: seq<FromItem>, currentId: string, tableName: string) {
    && base + |items| <= |edges|
    && SourceEdgesAt(edges[..base + |items|], base, items, |items|, currentId)
    && MappingEdgesFrom(edges, base + |items|, tableName)
  }

  /** Positional source edges are also present as members. */
  lemma {:induction false} BodyEdgesLinked(edges: seq<GraphEdge>, base: nat, items: seq<FromItem>, currentId: string, tableName: string)
    requires BodyEdgesFrom(edges, base, items, currentId, tableName)
    ensures SourcesLinked(edges, items, currentId)
  {
    forall i | 0 <= i < |items|
      ensures NewEdge(TableId(KeyOf(items[i]).Render()), currentId, TableToTable, None, None) in edges
    {
      assert edges[base + i] == edges[..base + |items|][base + i];
    }
  }

  /** The FROM items of an optional statement, `[]` without one. */
  function BodyFrom(stmt: Option<Stmt>): seq<FromItem> {
    if stmt.Some? then FromOf(stmt.value) else []
  }

  /** The projected items of an optional statement, `[]` without one. */
  function BodyColumns(stmt: Option<Stmt>): seq<SelectItem> {
    if stmt.Some? then ColumnsOf(stmt.value) else []
  }

  /** `index` may be the table index a CTE's columns were resolved
      against: a well-formed index, with no key `g` lacks, that already held
      the CTE and the keys of its FROM items. */
  ghost predicate CteIndex(index: LegacyGraph, g: LegacyGraph, cte: Cte) {
    && index.tableNodes.Valid()
    && index.tableNodes.entries.Keys <= g.tableNodes.entries.Keys
    && cte.name in index.tableNodes.entries
    && KeysIndexed(index, BodyFrom(cte.stmt), |BodyFrom(cte.stmt)|)
  }

  /** CTE `cte` has been walked into `g`: its node is indexed under its
      name, its FROM items are indexed and linked into `table_<name>`, its
      `column_ref` outputs are indexed as `<name>_<output>`, and each of them
      has its `column_mapping` edge, resolved against the table index as it
      stood when the CTE's columns were processed. */
  ghost predicate CteWalked(g: LegacyGraph, cte: Cte) {
    && cte.name in g.tableNodes.entries
    && SourcesLinked(g.edges, BodyFrom(cte.stmt), TableId(cte.name))
    && KeysIndexed(g, BodyFrom(cte.stmt), |BodyFrom(cte.stmt)|)
    && OutputsIndexed(g, BodyColumns(cte.stmt), |BodyColumns(cte.stmt)|, cte.name)
    && exists index :: CteIndex(index, g, cte) && ColumnsLinked(g.edges, index, BodyColumns(cte.stmt), |BodyColumns(cte.stmt)|, cte.name)
  }

  lemma CteWalkedGrows(g0: LegacyGraph, g1: LegacyGraph, cte: Cte)
    requires LegacyGrows(g0, g1) && CteWalked(g0, cte)
    ensures CteWalked(g1, cte)
  {
    forall i | 0 <= i < |BodyFrom(cte.stmt)|
      ensures NewEdge(TableId(KeyOf(BodyFrom(cte.stmt)[i]).Render()), TableId(cte.name), TableToTable, None, None) in g1.edges
    {
      GrowsKeepsEdge(g0, g1, NewEdge(TableId(KeyOf(BodyFrom(cte.stmt)[i]).Render()), TableId(cte.name), TableToTable, None, None));
    }
    var index :| CteIndex(index, g0, cte) && ColumnsLinked(g0.edges, index, BodyColumns(cte.stmt), |BodyColumns(cte.stmt)|, cte.name);
    ColumnsLinkedGrows(g0.edges, g1.edges, index, BodyColumns(cte.stmt), cte.name);
    assert CteIndex(index, g1, cte);
  }

  /** The first `n` CTEs have been walked. */
  ghost predicate CtesWalked(g: LegacyGraph, ctes: seq<Cte>, n: nat) {
    forall i :: 0 <= i < n && i < |ctes| ==> CteWalked(g, ctes[i])
  }

  lemma CtesWalkedGrows(g0: LegacyGraph, g1: LegacyGraph, ctes: seq<Cte>)
    requires LegacyGrows(g0, g1) && CtesWalked(g0, ctes, |ctes|)
    ensures CtesWalked(g1, ctes, |ctes|)
  {
    forall i | 0 <= i < |ctes|
      ensures CteWalked(g1, ctes[i])
    {
      CteWalkedGrows(g0, g1, ctes[i]);
    }
  }

  lemma CtesWalkedStep(g0: LegacyGraph, g1: LegacyGraph, ctes: seq<Cte>, n: nat)
    requires n < |ctes| && LegacyGrows(g0, g1) && CtesWalked(g0, ctes, n) && CteWalked(g1, ctes[n])
    ensures CtesWalked(g1, ctes, n + 1)
  {
    forall i | 0 <= i < n
      ensures CteWalked(g1, ctes[i])
    {
      CteWalkedGrows(g0, g1, ctes[i]);
    }
  }

  lemma CteStep(g0: LegacyGraph, g1: LegacyGraph, ctes: seq<Cte>, n: nat)
    requires n < |ctes| && CtesIndexed(g0, ctes, n)
    requires g0.tableNodes.entries.Keys <= g1.tableNodes.entries.Keys && ctes[n].name in g1.tableNodes.entries
    ensures CtesIndexed(g1, ctes, n + 1)
  {
  }

  // ---------------------------------------------------------------------
  // The builder state.

  class Session {
    var graph: LegacyGraph

    ghost predicate Valid()
      reads this
    {
      Indexed(graph)
    }

    constructor ()
      ensures Valid()
      ensures graph == LegacyGraph([], [], Empty(), Empty())
    {
      graph := LegacyGraph([], [], Empty(), Empty());
    }

    /** `createNode`: a table or CTE matching an indexed table node is that
        node and adds nothing; anything else is appended, even when its id
        is already taken. */
    method CreateNode(cand: LegacyNode) returns (node: LegacyNode)
      requires Valid()
      modifies this
      ensures Valid()
      ensures node == Created(old(graph), cand) && node in graph.nodes
      ensures graph == old(graph).(nodes := NodesAfter(old(graph), cand))
    {
      if cand.nodeType != ColumnType {
        var vals := graph.tableNodes.Values();
        var i := Find(vals, SameTable(cand.name, cand.alias));
        if i >= 0 {
          node := vals[i];
          return;
        }
      }
      node := cand;
      graph := graph.(nodes := graph.nodes + [cand]);
    }

    /** `createEdge`: always appends. */
    method CreateEdge(source: string, target: string, edgeType: EdgeType, sourceHandle: Option<string>, targetHandle: Option<string>)
      returns (edge: GraphEdge)
      requires Valid()
      modifies this
      ensures Valid()
      ensures edge == NewEdge(source, target, edgeType, sourceHandle, targetHandle)
      ensures graph == old(graph).(edges := old(graph.edges) + [edge])
    {
      edge := NewEdge(source, target, edgeType, sourceHandle, targetHandle);
      graph := graph.(edges := graph.edges + [edge]);
    }

    /** One item of `processSourceTables`: the table is indexed under
        `as || table` and linked to the current table by a handle-less
        `table_TO_table` edge. */
    method AddSourceTable(item: FromItem, currentId: string)
      requires Valid()
      modifies this
      ensures Valid()
      ensures var cand := FromTableNode(TableId(KeyOf(item).Render()), item);
        && graph.nodes == NodesAfter(old(graph), cand)
        && graph.tableNodes == old(graph.tableNodes).Put(KeyOf(item).Render(), Created(old(graph), cand))
      ensures graph.edges == old(graph.edges) + [NewEdge(TableId(KeyOf(item).Render()), currentId, TableToTable, None, None)]
      ensures graph.columnNodes == old(graph.columnNodes)
      ensures LegacyGrows(old(graph), graph)
    {
      var key := KeyOf(item).Render();
      var tableId := TableId(key);
      var node := CreateNode(FromTableNode(tableId, item));
      graph := graph.(tableNodes := graph.tableNodes.Put(key, node));
      var _ := CreateEdge(tableId, currentId, TableToTable, None, None);
    }

    /** `processSourceTables`: every item is indexed under its key, and one
        edge per item, in order, runs from `table_<key>` to the current table. */
    method ProcessSourceTables(items: seq<FromItem>, currentId: string)
      requires Valid()
      modifies this
      ensures Valid()
      ensures SourceEdgesAt(graph.edges, |old(graph.edges)|, items, |items|, currentId)
      ensures KeysIndexed(graph, items, |items|)
      ensures graph.columnNodes == old(graph.columnNodes)
      ensures LegacyGrows(old(graph), graph)
    {
      var n := 0;
      while n < |items|
        invariant 0 <= n <= |items|
        invariant Valid()
        invariant SourceEdgesAt(graph.edges, |old(graph.edges)|, items, n, currentId)
        invariant KeysIndexed(graph, items, n)
        invariant graph.columnNodes == old(graph.columnNodes)
        invariant LegacyGrows(old(graph), graph)
      {
        ghost var g0 := graph;
        AddSourceTable(items[n], currentId);
        SourceStep(g0, graph, |old(graph.edges)|, items, n, currentId);
        LegacyGrowsTransitive(old(graph), g0, graph);
        n := n + 1;
      }
    }

    /** One column of `processColumns`: a `column_ref` item as
        `ProcessRefColumn` handles it, any other item as an output column with
        a synthetic `expr_` name and no edge. */
    method ProcessColumn(item: SelectItem, tableId: string, tableName: string, names: NameSupply)
      requires Valid()
      modifies this, names
      ensures Valid()
      ensures graph.tableNodes == old(graph.tableNodes)
      ensures LegacyGrows(old(graph), graph)
      ensures !item.expr.ColumnRef? ==> graph.edges == old(graph.edges) && |graph.nodes| == |old(graph.nodes)| + 1
      ensures item.expr.ColumnRef? ==> tableName + "_" + OutputName(item) in graph.columnNodes.entries
      ensures item.expr.ColumnRef? ==> graph == RefColumnAfter(old(graph), item, tableId, tableName)
      ensures MappingEdgesFrom(graph.edges, |old(graph.edges)|, tableName)
      ensures ColumnMapped(graph.edges, graph, item, tableName)
    {
      if item.expr.ColumnRef? {
        ProcessRefColumn(item, tableId, tableName);
        RefColumnIndexed(old(graph), item, tableId, tableName);
        RefColumnEdges(old(graph), item, tableId, tableName);
      } else {
        ProcessExprColumn(tableId, tableName, names);
      }
    }

    /** A column that is not a `column_ref`: an output column with a
        synthetic `expr_` name and no edge. */
    method ProcessExprColumn(tableId: string, tableName: string, names: NameSupply)
      requires Valid()
      modifies this, names
      ensures Valid()
      ensures graph.tableNodes == old(graph.tableNodes)
      ensures LegacyGrows(old(graph), graph)
      ensures graph.edges == old(graph.edges) && |graph.nodes| == |old(graph.nodes)| + 1
    {
      var suffix := names.Next();
      var name := "expr_" + suffix;
      AddOutputColumn(tableName + "_" + name, name, tableId);
    }

    /** The output column node of `processColumns`, indexed under its id. */
    method AddOutputColumn(columnId: string, name: string, tableId: string)
      requires Valid()
      modifies this
      ensures Valid()
      ensures graph == WithOutputColumn(old(graph), columnId, name, tableId)
    {
      var node := CreateNode(ColumnNode(columnId, name, tableId, true));
      graph := graph.(columnNodes := graph.columnNodes.Put(columnId, node));
    }

    /** A `column_ref` column: see `RefColumnAfter`. */
    method ProcessRefColumn(item: SelectItem, tableId: string, tableName: string)
      requires Valid() && item.expr.ColumnRef?
      modifies this
      ensures Valid()
      ensures graph == RefColumnAfter(old(graph), item, tableId, tableName)
    {
      var name := if item.alias != "" then item.alias else item.expr.column;
      var src := FindSourceTable(Nullable(item.expr.table));
      var columnId := tableName + "_" + name;
      AddOutputColumn(columnId, name, tableId);
      if src.Truthy() {
        LinkSource(src.s, item.expr.column, tableName, columnId);
      }
      RefColumnIndexed(old(graph), item, tableId, tableName);
    }

    /** The source side of a `column_ref` column. */
    method LinkSource(srcTable: string, column: string, tableName: string, columnId: string)
      requires Valid()
      modifies this
      ensures graph == WithSource(old(graph), srcTable, column, tableName, columnId)
      ensures Valid()
    {
      var sourceColumnId := srcTable + "_" + column;
      if sourceColumnId !in graph.columnNodes.entries {
        var source := CreateNode(ColumnNode(sourceColumnId, column, TableId(srcTable), false));
        graph := graph.(columnNodes := graph.columnNodes.Put(sourceColumnId, source));
      }
      var _ := CreateEdge(TableId(srcTable), TableId(tableName), ColumnMapping,
                          Some("source-" + sourceColumnId), Some("target-" + columnId));
    }

    /** The `find` over the table index by alias. */
    method FindSourceTable(qualifier: JsText) returns (t: JsText)
      requires Valid()
      ensures t == ResolveQualifier(graph, qualifier)
    {
      var vals := graph.tableNodes.Values();
      var i := Find(vals, AliasIs(qualifier));
      t := if i >= 0 then vals[i].name else qualifier;
    }

    /** `processColumns`: every `column_ref` output is indexed as
        `<tableName>_<name>` and has its `column_mapping` edge from the column
        its qualifier resolves to, and every edge added is a `column_mapping`
        edge into the table, with both handles. */
    method ProcessColumns(columns: seq<SelectItem>, tableId: string, tableName: string, names: NameSupply)
      requires Valid()
      modifies this, names
      ensures Valid()
      ensures graph.tableNodes == old(graph.tableNodes)
      ensures LegacyGrows(old(graph), graph)
      ensures OutputsIndexed(graph, columns, |columns|, tableName)
      ensures MappingEdgesFrom(graph.edges, |old(graph.edges)|, tableName)
      ensures ColumnsLinked(graph.edges, graph, columns, |columns|, tableName)
    {
      var n := 0;
      while n < |columns|
        invariant 0 <= n <= |columns|
        invariant Valid()
        invariant graph.tableNodes == old(graph.tableNodes)
        invariant LegacyGrows(old(graph), graph)
        invariant OutputsIndexed(graph, columns, n, tableName)
        invariant MappingEdgesFrom(graph.edges, |old(graph.edges)|, tableName)
        invariant ColumnsLinked(graph.edges, graph, columns, n, tableName)
      {
        ghost var g0 := graph;
        ProcessColumn(columns[n], tableId, tableName, names);
        ColumnStep(old(graph), g0, graph, columns, n, tableName);
        ColumnsLinkedStep(g0, graph, columns, n, tableName);
        LegacyGrowsTransitive(old(graph), g0, graph);
        n := n + 1;
      }
    }

    /** One CTE of `processCTE`: its node is indexed under its name, then its
        FROM items and columns are processed against `table_<name>`. */
    method ProcessCte(cte: Cte, names: NameSupply)
      requires Valid()
      modifies this, names
      ensures Valid()
      ensures LegacyGrows(old(graph), graph)
      ensures CteWalked(graph, cte)
      ensures BodyEdgesFrom(graph.edges, |old(graph.edges)|, BodyFrom(cte.stmt), TableId(cte.name), cte.name)
    {
      var cteId := TableId(cte.name);
      AddCteNode(cte.name);
      ghost var g0 := graph;
      ProcessBody(cte.stmt, cteId, cte.name, names);
      LegacyGrowsTransitive(old(graph), g0, graph);
      BodyEdgesLinked(graph.edges, |g0.edges|, BodyFrom(cte.stmt), cteId, cte.name);
      assert CteIndex(graph, graph, cte);
    }

    /** The node of a CTE, indexed under the CTE's name. */
    method AddCteNode(name: string)
      requires Valid()
      modifies this
      ensures Valid()
      ensures LegacyGrows(old(graph), graph)
      ensures name in graph.tableNodes.entries
      ensures graph.edges == old(graph.edges)
    {
      var node := CreateNode(LegacyNode(TableId(name), CteType, Text(name), Undefined, Undefined, Undefined, true, false));
      graph := graph.(tableNodes := graph.tableNodes.Put(name, node));
    }

    /** The FROM items and the columns of a statement, against table
        `tableId` named `tableName`: the FROM items are indexed and linked
        into `tableId` by the first new edges, every later new edge is a
        `column_mapping` edge into the table, and the `column_ref` outputs
        are indexed as `<tableName>_<output>`, each with its `column_mapping`
        edge resolved against the table index the FROM items leave. */
    method ProcessBody(stmt: Option<Stmt>, tableId: string, tableName: string, names: NameSupply)
      requires Valid()
      modifies this, names
      ensures Valid()
      ensures LegacyGrows(old(graph), graph)
      ensures BodyEdgesFrom(graph.edges, |old(graph.edges)|, BodyFrom(stmt), tableId, tableName)
      ensures KeysIndexed(graph, BodyFrom(stmt), |BodyFrom(stmt)|)
      ensures OutputsIndexed(graph, BodyColumns(stmt), |BodyColumns(stmt)|, tableName)
      ensures ColumnsLinked(graph.edges, graph, BodyColumns(stmt), |BodyColumns(stmt)|, tableName)
    {
      if stmt.Some? && stmt.value.from.FromItems? {
        ProcessSourceTables(stmt.value.from.items, tableId);
      }
      ghost var g1 := graph;
      assert SourceEdgesAt(g1.edges, |old(graph.edges)|, BodyFrom(stmt), |BodyFrom(stmt)|, tableId);
      if stmt.Some? && stmt.value.columns.Columns? {
        ProcessColumns(stmt.value.columns.items, tableId, tableName, names);
      }
      LegacyGrowsTransitive(old(graph), g1, graph);
      assert graph.edges[..|g1.edges|] == g1.edges;
    }

    /** The first pass: every item of every FROM clause, in order. Afterwards
        each item's table is a key of the table index, or its `as || table`
        key is (an item whose table was already a key writes nothing); no
        edge and no column entry is added. */
    method IndexFromClauses(fromClauses: seq<seq<FromItem>>)
      requires Valid()
      modifies this
      ensures Valid()
      ensures LegacyGrows(old(graph), graph)
      ensures graph.edges == old(graph.edges) && graph.columnNodes == old(graph.columnNodes)
      ensures forall c, k :: 0 <= c < |fromClauses| && 0 <= k < |fromClauses[c]| ==> FromItemSeen(graph, fromClauses[c][k])
    {
      var c := 0;
      while c < |fromClauses|
        invariant 0 <= c <= |fromClauses|
        invariant Valid()
        invariant LegacyGrows(old(graph), graph)
        invariant graph.edges == old(graph.edges) && graph.columnNodes == old(graph.columnNodes)
        invariant forall c', k :: 0 <= c' < c && 0 <= k < |fromClauses[c']| ==> FromItemSeen(graph, fromClauses[c'][k])
      {
        var k := 0;
        while k < |fromClauses[c]|
          invariant 0 <= k <= |fromClauses[c]|
          invariant Valid()
          invariant LegacyGrows(old(graph), graph)
          invariant graph.edges == old(graph.edges) && graph.columnNodes == old(graph.columnNodes)
          invariant forall c', k' :: 0 <= c' < c && 0 <= k' < |fromClauses[c']| ==> FromItemSeen(graph, fromClauses[c'][k'])
          invariant forall k' :: 0 <= k' < k ==> FromItemSeen(graph, fromClauses[c][k'])
        {
          ghost var g0 := graph;
          AddFromClauseTable(fromClauses[c][k]);
          LegacyGrowsTransitive(old(graph), g0, graph);
          k := k + 1;
        }
        c := c + 1;
      }
    }

    /** `processCTE`: every CTE is indexed under its name and its body walked. */
    method ProcessCtes(ctes: seq<Cte>, names: NameSupply)
      requires Valid()
      modifies this, names
      ensures Valid()
      ensures LegacyGrows(old(graph), graph)
      ensures CtesIndexed(graph, ctes, |ctes|)
      ensures CtesWalked(graph, ctes, |ctes|)
    {
      var j := 0;
      while j < |ctes|
        invariant 0 <= j <= |ctes|
        invariant Valid()
        invariant LegacyGrows(old(graph), graph)
        invariant CtesIndexed(graph, ctes, j)
        invariant CtesWalked(graph, ctes, j)
      {
        ghost var g1 := graph;
        ProcessCte(ctes[j], names);
        CteStep(g1, graph, ctes, j);
        CtesWalkedStep(g1, graph, ctes, j);
        LegacyGrowsTransitive(old(graph), g1, graph);
        j := j + 1;
      }
    }

    /** The result table node, indexed under `Result`. */
    method AddResultTable()
      requires Valid()
      modifies this
      ensures Valid()
      ensures LegacyGrows(old(graph), graph)
      ensures graph.tableNodes == old(graph.tableNodes).Put("Result", Created(old(graph), ResultNode()))
    {
      var result := CreateNode(ResultNode());
      graph := graph.(tableNodes := graph.tableNodes.Put("Result", result));
    }

    /** One item of the first pass over the FROM clauses: a table whose name
        is not yet a key is indexed under `as || table`. */
    method AddFromClauseTable(item: FromItem)
      requires Valid()
      modifies this
      ensures Valid()
      ensures LegacyGrows(old(graph), graph)
      ensures graph.edges == old(graph.edges) && graph.columnNodes == old(graph.columnNodes)
      ensures TableOf(item).Render() in old(graph.tableNodes.entries) ==> graph == old(graph)
      ensures TableOf(item).Render() !in old(graph.tableNodes.entries) ==>
        var cand := FromTableNode(TableId(TableOf(item).Render()), item);
        graph == old(graph).(nodes := NodesAfter(old(graph), cand),
                             tableNodes := old(graph.tableNodes).Put(KeyOf(item).Render(), Created(old(graph), cand)))
    {
      if TableOf(item).Render() !in graph.tableNodes.entries {
        var node := CreateNode(FromTableNode(TableId(TableOf(item).Render()), item));
        graph := graph.(tableNodes := graph.tableNodes.Put(KeyOf(item).Render(), node));
      }
    }
  }

  /** `sqlAstToGraph`. The FROM clauses found anywhere in the tree are given
      (the generic walk that finds them is not modelled). An input with no
      top-level FROM array (an array of statements, or a statement without
      FROM) makes `processSourceTables` throw. Otherwise the result table,
      every CTE and every top-level FROM item is indexed, and every
      `column_ref` output is indexed as `Result_<name>`, with its
      `column_mapping` edge from the column its qualifier resolves to in the
      final table index. */
  method SqlAstToGraph(input: Input, fromClauses: seq<seq<FromItem>>) returns (r: Result<LegacyGraph>)
    ensures r.Failure? <==> input.Many? || input.stmt.from.NoFrom?
    ensures r.Success? ==> Indexed(r.value)
    ensures r.Success? ==>
      var ast := input.stmt;
      && "Result" in r.value.tableNodes.entries
      && CtesIndexed(r.value, ast.ctes, |ast.ctes|)
      && KeysIndexed(r.value, FromOf(ast), |FromOf(ast)|)
      && OutputsIndexed(r.value, ColumnsOf(ast), |ColumnsOf(ast)|, "Result")
      && ColumnsLinked(r.value.edges, r.value, ColumnsOf(ast), |ColumnsOf(ast)|, "Result")
      && CtesWalked(r.value, ast.ctes, |ast.ctes|)
      && SourcesLinked(r.value.edges, FromOf(ast), "table_Result")
      && exists base :: BodyEdgesFrom(r.value.edges, base, FromOf(ast), "table_Result", "Result")
  {
    var session := new Session();
    var names := new NameSupply();
    session.IndexFromClauses(fromClauses);
    if input.Many? {
      return Failure("TypeError: cannot read properties of undefined (reading 'forEach')");
    }
    var ast := input.stmt;
    session.ProcessCtes(ast.ctes, names);
    ghost var gc := session.graph;
    session.AddResultTable();
    if ast.from.NoFrom? {
      return Failure("TypeError: cannot read properties of null (reading 'forEach')");
    }
    ghost var g0 := session.graph;
    session.ProcessBody(Some(ast), "table_Result", "Result", names);
    BodyEdgesLinked(session.graph.edges, |g0.edges|, FromOf(ast), "table_Result", "Result");
    LegacyGrowsTransitive(gc, g0, session.graph);
    CtesWalkedGrows(gc, session.graph, ast.ctes);
    r := Success(session.graph);
  }

  /** `createNode('table_Result', 'table', { name: 'Result' })` */
  function ResultNode(): LegacyNode {
    LegacyNode("table_Result", TableType, Text("Result"), Undefined, Undefined, Undefined, false, false)
  }

  // ---------------------------------------------------------------------
  // `getAllTableNodesAsTableNodes` and `getFilteredEdges`

  /** A node as the diagram projection reads it: `name || ''`, and a missing
      `tableId` that no table id equals. */
  function Plain(n: LegacyNode): GraphNode {
    GraphNode(n.id, n.nodeType, if n.name.Truthy() then n.name.s else "",
              if n.tableId.Text? then n.tableId.s else "", "", "", "", n.isCte, n.isCteColumn)
  }

  function PlainAll(ns: seq<LegacyNode>): (ps: seq<GraphNode>)
    ensures |ps| == |ns| && forall i :: 0 <= i < |ns| ==> ps[i] == Plain(ns[i])
  {
    seq(|ns|, i requires 0 <= i < |ns| => Plain(ns[i]))
  }

  /** `getAllTableNodesAsTableNodes`: one diagram node per key of the table
      index, in key order and without removing repeats, each at the origin,
      named `name || ''`, with the graph nodes whose `tableId` is its id as
      columns. */
  function GetAllTableNodesAsTableNodes(g: LegacyGraph): (r: seq<TableNode>)
    requires g.tableNodes.Valid()
    ensures |r| == |g.tableNodes.keys|
    ensures forall i :: 0 <= i < |r| ==>
      var n := g.tableNodes.entries[g.tableNodes.keys[i]];
      && r[i].id == n.id && r[i].kind == "customTable" && r[i].position == Position(0, 0)
      && r[i].data.tableName == (if n.name.Truthy() then n.name.s else "")
      && r[i].data.columns == Diagram.ColumnsOf(PlainAll(g.nodes), n.id)
  {
    Diagram.ToTableNodes(PlainAll(g.nodes), PlainAll(g.tableNodes.Values()))
  }

  /** `getFilteredEdges`: exactly the `column_mapping` edges with both
      handles, in order. */
  function GetFilteredEdges(g: LegacyGraph): (r: seq<FlowEdge>)
    ensures var ix := KeptIndices(g.edges, Diagram.DiagramEdge);
      |r| == |ix| && forall k :: 0 <= k < |r| ==> r[k] == Diagram.ToFlowEdge(g.edges[ix[k]])
  {
    Diagram.GetFilteredEdges(g.edges)
  }
}

=== FILE: graph_types.dfy ===
/** The node, edge and graph records of `src/parser/types.ts`, shared by the
    graph store and the two earlier graph builders. */
module GraphTypes {
  import opened Wrappers
  import opened Dicts

  datatype NodeType = TableType | CteType | ColumnType

  /** The id of table `name`'s node, in every builder: `table_<name>`. */
  function TableId(name: string): string {
    "table_" + name
  }

  /** A graph node. Table and CTE nodes carry `alias`, `db`, `setOperation`
      and `isCTE`; column nodes carry `tableId` and `isCteColumn`. A field the
      source leaves out is "" (or false). */
  datatype GraphNode = GraphNode(
    id: string,
    nodeType: NodeType,
    name: string,
    tableId: string,
    alias: string,
    db: string,
    setOperation: string,
    isCte: bool,
    isCteColumn: bool)

  /** `EdgeType` of types.ts, plus the edge kinds only the earlier builders create. */
  datatype EdgeType = TableToTable | ColumnMapping | Condition | CteReference | UsedInExpr | Join {
    function Name(): string {
      match this
      case TableToTable => "table_TO_table"
      case ColumnMapping => "column_mapping"
      case Condition => "condition"
      case CteReference => "cte_reference"
      case UsedInExpr => "used_in_expr"
      case Join => "join"
    }
  }

  datatype GraphEdge = GraphEdge(
    id: string,
    source: string,
    target: string,
    edgeType: EdgeType,
    sourceHandle: Option<string>,
    targetHandle: Option<string>,
    caption: string)

  /** `nodes` and `edges` in creation order, plus the two lookup indices. */
  datatype Graph = Graph(
    nodes: seq<GraphNode>,
    edges: seq<GraphEdge>,
    tableNodes: Dict<GraphNode>,
    columnNodes: Dict<GraphNode>)

  function EmptyGraph(): (g: Graph)
    ensures g.nodes == [] && g.edges == [] && g.tableNodes.Valid() && g.columnNodes.Valid()
  {
    Graph([], [], Empty(), Empty())
  }

  /** The diagram's view of a table: `TableNode` of types.ts. */
  datatype ColumnInfo = ColumnInfo(name: string, columnId: string)
  datatype TableData = TableData(tableName: string, columns: seq<ColumnInfo>)
  datatype Position = Position(x: int, y: int)
  datatype TableNode = TableNode(id: string, kind: string, data: TableData, position: Position)

  /** The diagram's view of an edge, as `getFilteredEdges` returns it. */
  datatype FlowEdge = FlowEdge(id: string, source: string, target: string, sourceHandle: string, targetHandle: string)

  /** A handle is present when it is a non-empty string (JS truthiness). */
  predicate HasHandle(h: Option<string>) {
    h.Some? && h.value != ""
  }

  /** The template-literal rendering of a possibly absent handle. */
  function HandleText(h: Option<string>): string {
    if h.Some? then h.value else "undefined"
  }

  // ---------------------------------------------------------------------
  // Well-formedness of a graph, as the graph store maintains it.

  ghost predicate UniqueNodeIds(nodes: seq<GraphNode>) {
    forall i, j :: 0 <= i < j < |nodes| ==> nodes[i].id != nodes[j].id
  }

  ghost predicate UniqueEdgeIds(edges: seq<GraphEdge>) {
    forall i, j :: 0 <= i < j < |edges| ==> edges[i].id != edges[j].id
  }

  ghost predicate NoTableSelfLoops(edges: seq<GraphEdge>) {
    forall i :: 0 <= i < |edges| && edges[i].edgeType == TableToTable ==> edges[i].source != edges[i].target
  }

  function NodeIds(nodes: seq<GraphNode>): set<string> {
    set i | 0 <= i < |nodes| :: nodes[i].id
  }

  function EdgeIds(edges: seq<GraphEdge>): set<string> {
    set i | 0 <= i < |edges| :: edges[i].id
  }

  lemma NodeIdsAppend(ns: seq<GraphNode>, n: GraphNode)
    ensures NodeIds(ns + [n]) == NodeIds(ns) + {n.id}
  {
    var ns' := ns + [n];
    assert ns'[|ns|] == n;
    forall x | x in NodeIds(ns) ensures x in NodeIds(ns') {
      var i :| 0 <= i < |ns| && ns[i].id == x;
      assert ns'[i] == ns[i];
    }
  }

  lemma EdgeIdsAppend(es: seq<GraphEdge>, e: GraphEdge)
    ensures EdgeIds(es + [e]) == EdgeIds(es) + {e.id}
  {
    var es' := es + [e];
    assert es'[|es|] == e;
    forall x | x in EdgeIds(es) ensures x in EdgeIds(es') {
      var i :| 0 <= i < |es| && es[i].id == x;
      assert es'[i] == es[i];
    }
  }

  /** `before` is a prefix of `after`: nothing removed, nothing reordered. */
  predicate Extends<T(==)>(before: seq<T>, after: seq<T>) {
    |before| <= |after| && after[..|before|] == before
  }

  /** The graph only grew from `g0` to `g1`. */
  ghost predicate Grows(g0: Graph, g1: Graph) {
    && Extends(g0.nodes, g1.nodes)
    && Extends(g0.edges, g1.edges)
    && Extends(g0.tableNodes.keys, g1.tableNodes.keys)
    && Extends(g0.columnNodes.keys, g1.columnNodes.keys)
  }

  lemma GrowsTransitive(g0: Graph, g1: Graph, g2: Graph)
    requires Grows(g0, g1) && Grows(g1, g2)
    ensures Grows(g0, g2)
  {
    assert g2.nodes[..|g0.nodes|] == g2.nodes[..|g1.nodes|][..|g0.nodes|];
    assert g2.edges[..|g0.edges|] == g2.edges[..|g1.edges|][..|g0.edges|];
    assert g2.tableNodes.keys[..|g0.tableNodes.keys|] == g2.tableNodes.keys[..|g1.tableNodes.keys|][..|g0.tableNodes.keys|];
    assert g2.columnNodes.keys[..|g0.columnNodes.keys|] == g2.columnNodes.keys[..|g1.columnNodes.keys|][..|g0.columnNodes.keys|];
  }

  /** Growth never loses a node id or an edge id. */
  lemma GrowsIds(g0: Graph, g1: Graph)
    requires Grows(g0, g1)
    ensures NodeIds(g0.nodes) <= NodeIds(g1.nodes)
    ensures EdgeIds(g0.edges) <= EdgeIds(g1.edges)
  {
    forall x | x in NodeIds(g0.nodes) ensures x in NodeIds(g1.nodes) {
      var i :| 0 <= i < |g0.nodes| && g0.nodes[i].id == x;
      assert g1.nodes[..|g0.nodes|][i] == g1.nodes[i];
    }
    forall x | x in EdgeIds(g0.edges) ensures x in EdgeIds(g1.edges) {
      var i :| 0 <= i < |g0.edges| && g0.edges[i].id == x;
      assert g1.edges[..|g0.edges|][i] == g1.edges[i];
    }
  }
}

=== FILE: layering.dfy ===
/** The layer assignment of `assignPositionsWithTopologicalSort`
    (`src/parser/graphGeneratorcopy.ts`): Kahn's algorithm run over the
    reversed edges, so that a node's layer is one less than the lowest layer
    of the nodes it feeds, then the nodes Kahn's loop never releases (those
    that feed a cycle) placed one past the running maximum. */
module Layering {
  import opened GraphTypes

  // ---------------------------------------------------------------------
  // The counted edges and the counts the algorithm keeps.

  /** The ids of a node list. */
  function Ids(nodes: seq<TableNode>): (s: set<string>)
    ensures forall i :: 0 <= i < |nodes| ==> nodes[i].id in s
    ensures forall id :: id in s ==> exists i :: 0 <= i < |nodes| && nodes[i].id == id
  {
    set i | 0 <= i < |nodes| :: nodes[i].id
  }

  /** The edges whose source and target are both node ids, in edge order:
      only these enter the adjacency lists and the counters. */
  function Counted(edges: seq<FlowEdge>, ids: set<string>): (es: seq<FlowEdge>)
    ensures |es| <= |edges|
    ensures forall i :: 0 <= i < |es| ==> es[i].source in ids && es[i].target in ids
  {
    if |edges| == 0 then []
    else
      var e := edges[|edges| - 1];
      Counted(edges[..|edges| - 1], ids) + (if e.source in ids && e.target in ids then [e] else [])
  }

  /** The sources of the edges into `t`, in edge order: the list `graph[t]`. */
  function Sources(es: seq<FlowEdge>, t: string): seq<string> {
    if |es| == 0 then []
    else
      var e := es[|es| - 1];
      Sources(es[..|es| - 1], t) + (if e.target == t then [e.source] else [])
  }

  /** How often `m` occurs in `s`. */
  function Occ(s: seq<string>, m: string): nat {
    if |s| == 0 then 0 else Occ(s[..|s| - 1], m) + (if s[|s| - 1] == m then 1 else 0)
  }

  /** The number of edges from `n` to `t`. */
  function EdgeCount(es: seq<FlowEdge>, n: string, t: string): nat {
    if |es| == 0 then 0
    else
      var e := es[|es| - 1];
      EdgeCount(es[..|es| - 1], n, t) + (if e.source == n && e.target == t then 1 else 0)
  }

  /** The number of edges out of `n` whose target is not in `done`: the value
      of `inDegree[n]` once the nodes of `done` have been dequeued. */
  function OutCount(es: seq<FlowEdge>, n: string, done: set<string>): nat {
    if |es| == 0 then 0
    else
      var e := es[|es| - 1];
      OutCount(es[..|es| - 1], n, done) + (if e.source == n && e.target !in done then 1 else 0)
  }

  /** `n` feeds no node. */
  ghost predicate NoOutEdge(es: seq<FlowEdge>, n: string) {
    forall i :: 0 <= i < |es| ==> es[i].source != n
  }

  /** Every node `n` feeds has a layer, and a higher one than `n`. */
  ghost predicate BelowTargets(es: seq<FlowEdge>, layer: map<string, int>, n: string)
    requires n in layer
  {
    forall i :: 0 <= i < |es| && es[i].source == n ==>
      es[i].target in layer && layer[es[i].target] >= layer[n] + 1
  }

  /** Some node `n` feeds sits exactly one layer above `n`. */
  ghost predicate TightTarget(es: seq<FlowEdge>, layer: map<string, int>, n: string)
    requires n in layer
  {
    exists i :: 0 <= i < |es| && es[i].source == n && es[i].target in layer && layer[es[i].target] == layer[n] + 1
  }

  /** A node with a negative layer sits one below the lowest node it feeds. */
  ghost predicate Settled(es: seq<FlowEdge>, layer: map<string, int>, n: string) {
    n in layer && layer[n] < 0 ==> BelowTargets(es, layer, n) && TightTarget(es, layer, n)
  }

  lemma {:induction false} OccAppend(a: seq<string>, b: seq<string>, m: string)
    ensures Occ(a + b, m) == Occ(a, m) + Occ(b, m)
    decreases |b|
  {
    if |b| == 0 {
      assert a + b == a;
    } else {
      assert (a + b)[..|a + b| - 1] == a + b[..|b| - 1];
      OccAppend(a, b[..|b| - 1], m);
    }
  }

  lemma {:induction false} OccPrefix(s: seq<string>, j: nat, m: string)
    requires j < |s|
    ensures Occ(s[..j + 1], m) == Occ(s[..j], m) + (if s[j] == m then 1 else 0)
    ensures Occ(s[..j + 1], m) <= Occ(s, m)
  {
    assert s[..j + 1][..j] == s[..j];
    assert s == s[..j + 1] + s[j + 1..];
    OccAppend(s[..j + 1], s[j + 1..], m);
  }

  /** `graph[t]` holds each source once per edge into `t`. */
  lemma {:induction false} SourcesOcc(es: seq<FlowEdge>, t: string, m: string)
    ensures Occ(Sources(es, t), m) == EdgeCount(es, m, t)
    decreases |es|
  {
    if |es| > 0 {
      var e := es[|es| - 1];
      SourcesOcc(es[..|es| - 1], t, m);
      OccAppend(Sources(es[..|es| - 1], t), if e.target == t then [e.source] else [], m);
      if e.target == t {
        assert Occ([e.source], m) == Occ([], m) + (if e.source == m then 1 else 0);
      }
    }
  }

  /** Dequeuing `t` lowers each counter by the number of edges into `t`. */
  lemma {:induction false} OutCountRelease(es: seq<FlowEdge>, n: string, done: set<string>, t: string)
    requires t !in done
    ensures OutCount(es, n, done + {t}) + EdgeCount(es, n, t) == OutCount(es, n, done)
    decreases |es|
  {
    if |es| > 0 {
      OutCountRelease(es[..|es| - 1], n, done, t);
    }
  }

  /** A counter is zero exactly when every edge out of the node ends in `done`. */
  lemma {:induction false} OutCountZero(es: seq<FlowEdge>, n: string, done: set<string>)
    ensures OutCount(es, n, done) == 0 <==>
      forall i :: 0 <= i < |es| && es[i].source == n ==> es[i].target in done
    decreases |es|
  {
    if |es| > 0 {
      var k := |es| - 1;
      OutCountZero(es[..k], n, done);
      if OutCount(es, n, done) == 0 {
        forall i | 0 <= i < |es| && es[i].source == n
          ensures es[i].target in done
        {
          if i < k {
            assert es[..k][i] == es[i];
          }
        }
      } else if OutCount(es[..k], n, done) > 0 {
        var i :| 0 <= i < k && es[..k][i].source == n && es[..k][i].target !in done;
        assert es[i] == es[..k][i];
      }
    }
  }

  /** Edges from `n` to `t` exist exactly when their count is positive. */
  lemma {:induction false} EdgeCountPositive(es: seq<FlowEdge>, n: string, t: string)
    requires EdgeCount(es, n, t) > 0
    ensures exists i :: 0 <= i < |es| && es[i].source == n && es[i].target == t
    decreases |es|
  {
    var k := |es| - 1;
    if !(es[k].source == n && es[k].target == t) {
      EdgeCountPositive(es[..k], n, t);
      var i :| 0 <= i < k && es[..k][i].source == n && es[..k][i].target == t;
      assert es[i] == es[..k][i];
    }
  }

  /** The edges into `t` are among the edges not yet released. */
  lemma {:induction false} EdgeCountBound(es: seq<FlowEdge>, n: string, t: string, done: set<string>)
    requires t !in done
    ensures EdgeCount(es, n, t) <= OutCount(es, n, done)
    decreases |es|
  {
    if |es| > 0 {
      EdgeCountBound(es[..|es| - 1], n, t, done);
    }
  }

  lemma {:induction false} NoOutEdgeCount(es: seq<FlowEdge>, n: string)
    ensures OutCount(es, n, {}) == 0 <==> NoOutEdge(es, n)
  {
    OutCountZero(es, n, {});
  }

  // ---------------------------------------------------------------------
  // Building `graph` and `inDegree`.

  /** Keys listed once each. */
  predicate Distinct(s: seq<string>) {
    forall i, j :: 0 <= i < j < |s| ==> s[i] != s[j]
  }

  /** The adjacency lists and counters as `graph`/`inDegree` hold them once
      the counted edges `es` have been read. */
  ghost predicate AdjacencyOf(es: seq<FlowEdge>, keys: seq<string>, adj: map<string, seq<string>>, deg: map<string, int>) {
    && adj.Keys == KeySet(keys)
    && deg.Keys == KeySet(keys)
    && (forall t :: t in adj ==> adj[t] == Sources(es, t))
    && (forall n :: n in deg ==> deg[n] == OutCount(es, n, {}))
  }

  /** The node loop and the edge loop: an empty list and a zero counter per
      node id, then, for every edge whose two ends are nodes, the source
      appended to the target's list and the source's counter raised. */
  method BuildAdjacency(nodes: seq<TableNode>, edges: seq<FlowEdge>)
    returns (keys: seq<string>, adj: map<string, seq<string>>, deg: map<string, int>)
    ensures Distinct(keys) && KeySet(keys) == Ids(nodes)
    ensures AdjacencyOf(Counted(edges, Ids(nodes)), keys, adj, deg)
  {
    keys, adj, deg := NodeEntries(nodes);
    ghost var ids := Ids(nodes);
    var k := 0;
    while k < |edges|
      invariant 0 <= k <= |edges|
      invariant AdjacencyOf(Counted(edges[..k], ids), keys, adj, deg)
    {
      CountedPrefix(edges, k, ids);
      adj, deg := ReadEdge(Counted(edges[..k], ids), edges[k], ids, keys, adj, deg);
      k := k + 1;
    }
    assert edges[..k] == edges;
  }

  lemma CountedPrefix(edges: seq<FlowEdge>, k: int, ids: set<string>)
    requires 0 <= k < |edges|
    ensures Counted(edges[..k + 1], ids) ==
      Counted(edges[..k], ids) + (if edges[k].source in ids && edges[k].target in ids then [edges[k]] else [])
  {
    assert edges[..k + 1][..k] == edges[..k];
  }

  /** One turn of the edge loop: an edge whose two ends are nodes appends
      its source to the target's list and raises the source's counter. */
  method ReadEdge(ghost es: seq<FlowEdge>, e: FlowEdge, ghost ids: set<string>, keys: seq<string>,
                  adj: map<string, seq<string>>, deg: map<string, int>)
    returns (adj': map<string, seq<string>>, deg': map<string, int>)
    requires AdjacencyOf(es, keys, adj, deg) && KeySet(keys) == ids
    ensures AdjacencyOf(es + (if e.source in ids && e.target in ids then [e] else []), keys, adj', deg')
  {
    if e.source in adj && e.target in adj {
      adj' := adj[e.target := adj[e.target] + [e.source]];
      deg' := deg[e.source := deg[e.source] + 1];
      AdjacencyStep(es, e, keys, adj', deg');
    } else {
      adj', deg' := adj, deg;
      AdjacencySkip(es, e, ids, keys, adj, deg);
    }
  }

  /** The node loop: an empty list and a zero counter per node id, keys in
      order of first appearance. */
  method NodeEntries(nodes: seq<TableNode>)
    returns (keys: seq<string>, adj: map<string, seq<string>>, deg: map<string, int>)
    ensures Distinct(keys) && KeySet(keys) == Ids(nodes)
    ensures AdjacencyOf([], keys, adj, deg)
  {
    keys := [];
    adj := map[];
    deg := map[];
    var i := 0;
    while i < |nodes|
      invariant 0 <= i <= |nodes|
      invariant Distinct(keys) && KeySet(keys) == Ids(nodes[..i])
      invariant AdjacencyOf([], keys, adj, deg)
    {
      IdsStep(nodes, i);
      keys, adj, deg := NodeEntry(nodes[i].id, keys, adj, deg);
      i := i + 1;
    }
    assert nodes[..i] == nodes;
  }

  /** One turn of the node loop: the id gets an empty list and a zero
      counter, and is listed if it is new. */
  method NodeEntry(id: string, keys: seq<string>, adj: map<string, seq<string>>, deg: map<string, int>)
    returns (keys': seq<string>, adj': map<string, seq<string>>, deg': map<string, int>)
    requires Distinct(keys) && AdjacencyOf([], keys, adj, deg)
    ensures Distinct(keys') && KeySet(keys') == KeySet(keys) + {id}
    ensures AdjacencyOf([], keys', adj', deg')
  {
    keys' := keys;
    if id !in deg {
      KeySetAppend(keys, id);
      keys' := keys + [id];
    }
    adj' := adj[id := []];
    deg' := deg[id := 0];
  }

  /** The set of a key list. */
  function KeySet(s: seq<string>): set<string> {
    set k | k in s
  }

  lemma KeySetAppend(s: seq<string>, k: string)
    requires Distinct(s) && k !in KeySet(s)
    ensures KeySet(s + [k]) == KeySet(s) + {k} && Distinct(s + [k])
  {
    KeySetPush(s, k);
  }

  lemma IdsStep(nodes: seq<TableNode>, i: int)
    requires 0 <= i < |nodes|
    ensures Ids(nodes[..i + 1]) == Ids(nodes[..i]) + {nodes[i].id}
  {
    assert nodes[..i + 1] == nodes[..i] + [nodes[i]];
    forall x | x in Ids(nodes[..i + 1])
      ensures x in Ids(nodes[..i]) + {nodes[i].id}
    {
      var j :| 0 <= j < i + 1 && nodes[..i + 1][j].id == x;
      if j < i {
        assert nodes[..i][j].id == x;
      }
    }
  }

  /** Reading a counted edge appends its source to its target's list and
      raises its source's counter. */
  lemma AdjacencyStep(es: seq<FlowEdge>, e: FlowEdge, keys: seq<string>,
                      adj: map<string, seq<string>>, deg: map<string, int>)
    requires e.source in deg && e.target in adj
    requires adj.Keys == KeySet(keys) && deg.Keys == KeySet(keys)
    requires adj[e.target] == Sources(es, e.target) + [e.source]
    requires forall t :: t in adj && t != e.target ==> adj[t] == Sources(es, t)
    requires deg[e.source] == OutCount(es, e.source, {}) + 1
    requires forall n :: n in deg && n != e.source ==> deg[n] == OutCount(es, n, {})
    ensures AdjacencyOf(es + [e], keys, adj, deg)
  {
    assert (es + [e])[..|es|] == es;
  }

  /** An edge with an end outside the node list changes nothing. */
  lemma AdjacencySkip(es: seq<FlowEdge>, e: FlowEdge, ids: set<string>, keys: seq<string>,
                      adj: map<string, seq<string>>, deg: map<string, int>)
    requires AdjacencyOf(es, keys, adj, deg) && KeySet(keys) == ids
    requires !(e.source in ids && e.target in ids)
    ensures AdjacencyOf(es + [], keys, adj, deg)
  {
    assert es + [] == es;
  }

  // ---------------------------------------------------------------------
  // Kahn's loop.

  /** The state of Kahn's loop once the nodes of `done` have been dequeued:
      a node has a layer exactly when its counter is zero, the layered nodes
      are the dequeued ones and the queue, a layer-0 node feeds nothing, any
      other layered node sits one below the lowest node it feeds, and the
      queue is in breadth-first order (`lo` is the layer last dequeued). */
  ghost predicate KahnInv(es: seq<FlowEdge>, keys: seq<string>, deg: map<string, int>,
                          layer: map<string, int>, queue: seq<string>, done: set<string>, lo: int)
  {
    && deg.Keys == KeySet(keys)
    && (forall n :: n in deg ==> deg[n] == OutCount(es, n, done))
    && (forall n :: n in deg ==> (n in layer <==> deg[n] == 0))
    && layer.Keys <= deg.Keys
    && layer.Keys == done + KeySet(queue)
    && (forall q :: q in queue ==> q !in done)
    && Distinct(queue)
    && (forall n :: n in layer ==> layer[n] <= 0 && (layer[n] == 0 ==> NoOutEdge(es, n)))
    && (forall n :: Settled(es, layer, n))
    && (forall n :: n in done ==> layer[n] >= lo)
    && (forall i :: 0 <= i < |queue| ==> lo - 1 <= layer[queue[i]] <= lo)
    && (forall i, j :: 0 <= i < j < |queue| ==> layer[queue[i]] >= layer[queue[j]])
  }

  /** The initial queue: every key whose counter is zero, in key order, at layer 0. */
  method InitialQueue(ghost es: seq<FlowEdge>, keys: seq<string>, deg: map<string, int>)
    returns (queue: seq<string>, layer: map<string, int>)
    requires Distinct(keys) && deg.Keys == KeySet(keys)
    requires forall n :: n in deg ==> deg[n] == OutCount(es, n, {})
    ensures KahnInv(es, keys, deg, layer, queue, {}, 0)
  {
    queue := [];
    layer := map[];
    var i := 0;
    while i < |keys|
      invariant 0 <= i <= |keys|
      invariant Distinct(queue) && layer.Keys == KeySet(queue) && layer.Keys <= deg.Keys
      invariant forall n :: n in layer ==> layer[n] == 0 && deg[n] == 0
      invariant forall j :: 0 <= j < i && deg[keys[j]] == 0 ==> keys[j] in layer
      invariant forall n :: n in layer ==> exists j :: 0 <= j < i && keys[j] == n
    {
      var k := keys[i];
      if deg[k] == 0 {
        assert k !in layer;
        KeySetAppend(queue, k);
        queue := queue + [k];
        layer := layer[k := 0];
      }
      i := i + 1;
    }
    forall n | n in layer
      ensures NoOutEdge(es, n)
    {
      NoOutEdgeCount(es, n);
    }
  }

  /** The counters inside the `forEach` over `graph[current]`, after its
      first `j` entries. */
  ghost predicate CountsInv(es: seq<FlowEdge>, srcs: seq<string>, j: int, deg0: map<string, int>,
                            deg: map<string, int>, done: set<string>)
    requires 0 <= j <= |srcs|
  {
    && deg.Keys == deg0.Keys
    && (forall n :: n in deg ==> deg[n] + Occ(srcs[..j], n) == OutCount(es, n, done))
  }

  /** The layers inside the same `forEach`: `news` are the nodes released so
      far, in release order, each one layer below `current`. */
  ghost predicate NewsInv(current: string, layer0: map<string, int>, deg: map<string, int>,
                          layer: map<string, int>, news: seq<string>)
  {
    && current in layer0
    && (forall n :: n in deg ==> (n in layer <==> deg[n] == 0))
    && layer.Keys <= deg.Keys
    && layer.Keys == layer0.Keys + KeySet(news)
    && (forall n :: n in layer0 ==> layer[n] == layer0[n])
    && (forall q :: q in news ==> q in layer && q !in layer0 && layer[q] == layer0[current] - 1)
    && Distinct(news)
  }

  /** One pass of the `forEach` over `graph[current]`: each source's counter
      drops by one, and a source whose counter reaches zero is queued at
      `layer[current] - 1`. */
  method Release(ghost es: seq<FlowEdge>, ghost keys: seq<string>, current: string, srcs: seq<string>,
                 deg0: map<string, int>, layer0: map<string, int>, queue0: seq<string>, ghost done: set<string>)
    returns (deg: map<string, int>, layer: map<string, int>, queue: seq<string>, ghost news: seq<string>)
    requires deg0.Keys == KeySet(keys) && layer0.Keys <= deg0.Keys && current in layer0 && current !in done
    requires forall n :: n in deg0 ==> deg0[n] == OutCount(es, n, done)
    requires forall n :: n in deg0 ==> (n in layer0 <==> deg0[n] == 0)
    requires srcs == Sources(es, current)
    requires forall i :: 0 <= i < |es| ==> es[i].source in KeySet(keys)
    ensures forall m :: Occ(srcs, m) == EdgeCount(es, m, current)
    ensures queue == queue0 + news
    ensures CountsInv(es, srcs, |srcs|, deg0, deg, done)
    ensures NewsInv(current, layer0, deg, layer, news)
  {
    forall m
      ensures Occ(srcs, m) == EdgeCount(es, m, current)
    {
      SourcesOcc(es, current, m);
    }
    SourcesIn(es, current, KeySet(keys));
    deg, layer, queue, news := deg0, layer0, queue0, [];
    var j := 0;
    while j < |srcs|
      invariant 0 <= j <= |srcs|
      invariant queue == queue0 + news
      invariant CountsInv(es, srcs, j, deg0, deg, done)
      invariant NewsInv(current, layer0, deg, layer, news)
    {
      EdgeCountBound(es, srcs[j], current, done);
      deg, layer, queue, news := ReleaseOne(es, srcs, j, current, deg0, layer0, deg, layer, queue, queue0, news, done);
      j := j + 1;
    }
    assert srcs[..j] == srcs;
  }

  /** The body of the `forEach` for the source `srcs[j]`. */
  method ReleaseOne(ghost es: seq<FlowEdge>, srcs: seq<string>, j: int, current: string,
                    ghost deg0: map<string, int>, ghost layer0: map<string, int>,
                    deg: map<string, int>, layer: map<string, int>, queue: seq<string>,
                    ghost queue0: seq<string>, ghost news: seq<string>, ghost done: set<string>)
    returns (deg': map<string, int>, layer': map<string, int>, queue': seq<string>, ghost news': seq<string>)
    requires 0 <= j < |srcs| && srcs[j] in deg && Occ(srcs, srcs[j]) <= OutCount(es, srcs[j], done)
    requires queue == queue0 + news
    requires CountsInv(es, srcs, j, deg0, deg, done)
    requires NewsInv(current, layer0, deg, layer, news)
    ensures queue' == queue0 + news'
    ensures CountsInv(es, srcs, j + 1, deg0, deg', done)
    ensures NewsInv(current, layer0, deg', layer', news')
  {
    var m := srcs[j];
    OccPrefix(srcs, j, m);
    ReleaseStep(es, srcs, j, m, deg, done);
    deg' := deg[m := deg[m] - 1];
    CountsStep(es, srcs, j, deg0, deg, deg', done);
    if deg'[m] == 0 {
      queue' := queue + [m];
      news' := news + [m];
      assert queue' == queue0 + news';
      layer' := layer[m := layer[current] - 1];
    } else {
      queue', news', layer' := queue, news, layer;
    }
    NewsStep(current, layer0, m, deg, layer, news, deg', layer', news');
  }

  /** The facts about the dequeued node and the rest of the queue that the
      release loop starts from. */
  lemma QueueFront(queue: seq<string>, layer: map<string, int>, done: set<string>)
    requires |queue| > 0 && Distinct(queue) && layer.Keys == done + KeySet(queue)
    requires forall q :: q in queue ==> q !in done
    ensures queue[0] in layer && queue[0] !in done && queue[0] !in queue[1..] && Distinct(queue[1..])
    ensures forall q :: q in queue[1..] ==> q in layer
  {
    var current, rest := queue[0], queue[1..];
    assert current in queue;
    forall i | 0 <= i < |rest|
      ensures rest[i] != current && rest[i] in layer
    {
      assert queue[i + 1] == rest[i];
      assert rest[i] in queue;
    }
    forall i, j | 0 <= i < j < |rest|
      ensures rest[i] != rest[j]
    {
      assert queue[i + 1] == rest[i] && queue[j + 1] == rest[j];
    }
  }

  /** Before a source's counter is lowered it is positive. */
  lemma ReleaseStep(es: seq<FlowEdge>, srcs: seq<string>, j: int, m: string, deg: map<string, int>, done: set<string>)
    requires 0 <= j < |srcs| && srcs[j] == m && m in deg
    requires deg[m] + Occ(srcs[..j], m) == OutCount(es, m, done)
    requires Occ(srcs[..j + 1], m) == Occ(srcs[..j], m) + 1
    requires Occ(srcs[..j + 1], m) <= Occ(srcs, m) && Occ(srcs, m) <= OutCount(es, m, done)
    ensures deg[m] >= 1
  {
  }

  lemma CountsStep(es: seq<FlowEdge>, srcs: seq<string>, j: int, deg0: map<string, int>,
                   deg: map<string, int>, deg': map<string, int>, done: set<string>)
    requires 0 <= j < |srcs| && srcs[j] in deg
    requires CountsInv(es, srcs, j, deg0, deg, done)
    requires deg' == deg[srcs[j] := deg[srcs[j]] - 1]
    ensures CountsInv(es, srcs, j + 1, deg0, deg', done)
  {
    forall n | n in deg'
      ensures deg'[n] + Occ(srcs[..j + 1], n) == OutCount(es, n, done)
    {
      OccPrefix(srcs, j, n);
    }
  }

  lemma NewsStep(current: string, layer0: map<string, int>, m: string,
                 deg: map<string, int>, layer: map<string, int>, news: seq<string>,
                 deg': map<string, int>, layer': map<string, int>, news': seq<string>)
    requires NewsInv(current, layer0, deg, layer, news)
    requires m in deg && deg[m] >= 1 && deg' == deg[m := deg[m] - 1]
    requires deg'[m] == 0 ==> news' == news + [m] && layer' == layer[m := layer[current] - 1]
    requires deg'[m] != 0 ==> news' == news && layer' == layer
    ensures NewsInv(current, layer0, deg', layer', news')
  {
    if deg'[m] == 0 {
      assert m !in layer;
      KeySetAppend(news, m);
    }
  }

  lemma KeySetPush(s: seq<string>, k: string)
    ensures KeySet(s + [k]) == KeySet(s) + {k}
  {
    assert forall x :: x in s + [k] <==> x in s || x == k;
  }

  /** The `while (queue.length > 0)` loop: dequeue the front node and release
      the nodes that feed it. */
  method Kahn(ghost es: seq<FlowEdge>, keys: seq<string>, adj: map<string, seq<string>>,
              deg0: map<string, int>, queue0: seq<string>, layer0: map<string, int>)
    returns (layer: map<string, int>)
    requires forall i :: 0 <= i < |es| ==> es[i].source in KeySet(keys) && es[i].target in KeySet(keys)
    requires adj.Keys == KeySet(keys) && forall t :: t in adj ==> adj[t] == Sources(es, t)
    requires KahnInv(es, keys, deg0, layer0, queue0, {}, 0)
    ensures layer.Keys <= KeySet(keys)
    ensures forall n :: n in layer ==> layer[n] <= 0
    ensures forall n :: n in KeySet(keys) ==> (NoOutEdge(es, n) <==> n in layer && layer[n] == 0)
    ensures forall n :: Settled(es, layer, n)
    ensures forall n :: n in KeySet(keys) && n !in layer ==> FeedsOutside(es, layer, n)
  {
    var deg, queue := deg0, queue0;
    layer := layer0;
    ghost var done: set<string> := {};
    ghost var lo := 0;
    while |queue| > 0
      invariant KahnInv(es, keys, deg, layer, queue, done, lo)
      invariant done <= KeySet(keys)
      decreases |KeySet(keys) - done|
    {
      var current := queue[0];
      QueueFront(queue, layer, done);
      var deg', layer', queue', news := Release(es, keys, current, adj[current], deg, layer, queue[1..], done);
      KahnStep(es, keys, current, adj[current], deg, layer, queue, done, lo, deg', layer', news);
      DoneGrows(keys, deg, done, current);
      deg, layer, queue, done, lo := deg', layer', queue', done + {current}, layer[current];
    }
    KahnEnd(es, keys, deg, layer, done, lo);
  }

  lemma DoneGrows(keys: seq<string>, deg: map<string, int>, done: set<string>, current: string)
    requires deg.Keys == KeySet(keys) && current in deg && current !in done && done <= KeySet(keys)
    ensures done + {current} <= KeySet(keys)
    ensures |KeySet(keys) - (done + {current})| < |KeySet(keys) - done|
  {
    var x := KeySet(keys) - done;
    assert KeySet(keys) - (done + {current}) == x - {current};
    assert (x - {current}) + {current} == x;
  }

  lemma SourcesIn(es: seq<FlowEdge>, t: string, ids: set<string>)
    requires forall i :: 0 <= i < |es| ==> es[i].source in ids
    ensures forall n :: n in Sources(es, t) ==> n in ids
  {
    if |es| > 0 {
      SourcesIn(es[..|es| - 1], t, ids);
    }
  }

  /** Dequeuing `current` and releasing its feeders keeps `KahnInv`, with
      `current` now dequeued and `lo` its layer. */
  lemma KahnStep(es: seq<FlowEdge>, keys: seq<string>, current: string, srcs: seq<string>,
                 deg: map<string, int>, layer: map<string, int>, queue: seq<string>, done: set<string>, lo: int,
                 deg': map<string, int>, layer': map<string, int>, news: seq<string>)
    requires KahnInv(es, keys, deg, layer, queue, done, lo)
    requires |queue| > 0 && current == queue[0]
    requires forall m :: Occ(srcs, m) == EdgeCount(es, m, current)
    requires CountsInv(es, srcs, |srcs|, deg, deg', done)
    requires NewsInv(current, layer, deg', layer', news)
    ensures KahnInv(es, keys, deg', layer', queue[1..] + news, done + {current}, layer[current])
  {
    assert srcs[..|srcs|] == srcs;
    var done' := done + {current};
    QueueFront(queue, layer, done);
    forall n | n in deg'
      ensures deg'[n] == OutCount(es, n, done')
    {
      OutCountRelease(es, n, done, current);
    }
    KahnStepKeys(current, layer, queue, done, layer', news);
    forall n | n in layer' && n !in layer
      ensures layer'[n] == layer[current] - 1 && OutCount(es, n, done') == 0 && EdgeCount(es, n, current) > 0
    {
      assert n in KeySet(news);
    }
    KahnStepLayers(es, current, layer, done, layer');
    KahnStepOrder(current, layer, queue, done, lo, layer', news);
  }

  lemma KahnStepKeys(current: string, layer: map<string, int>, queue: seq<string>, done: set<string>,
                     layer': map<string, int>, news: seq<string>)
    requires |queue| > 0 && current == queue[0] && Distinct(queue)
    requires layer.Keys == done + KeySet(queue) && forall q :: q in queue ==> q !in done
    requires layer'.Keys == layer.Keys + KeySet(news) && Distinct(news)
    requires forall q :: q in news ==> q !in layer
    ensures layer'.Keys == (done + {current}) + KeySet(queue[1..] + news)
    ensures forall q :: q in queue[1..] + news ==> q !in done + {current}
    ensures Distinct(queue[1..] + news)
  {
    var rest := queue[1..];
    assert queue == [current] + rest;
    KeySetConcat([current], rest);
    KeySetConcat(rest, news);
    assert KeySet([current]) == {current};
    QueueFront(queue, layer, done);
    forall q | q in rest + news
      ensures q !in done + {current}
    {
      if q in rest {
        var i :| 0 <= i < |rest| && rest[i] == q;
        assert queue[i + 1] == q;
      } else {
        assert q in news;
      }
    }
    forall i, j | 0 <= i < j < |rest + news|
      ensures (rest + news)[i] != (rest + news)[j]
    {
      if j >= |rest| && i < |rest| {
        assert (rest + news)[i] in rest;
        assert (rest + news)[j] in news;
      }
    }
  }

  lemma KeySetConcat(a: seq<string>, b: seq<string>)
    ensures KeySet(a + b) == KeySet(a) + KeySet(b)
  {
    assert forall x :: x in a + b <==> x in a || x in b;
  }

  lemma KahnStepLayers(es: seq<FlowEdge>, current: string, layer: map<string, int>, done: set<string>,
                       layer': map<string, int>)
    requires current in layer && done <= layer.Keys && layer.Keys <= layer'.Keys
    requires forall n :: n in layer ==> layer'[n] == layer[n]
    requires forall n :: n in layer ==> layer[n] <= 0 && (layer[n] == 0 ==> NoOutEdge(es, n))
    requires forall n :: Settled(es, layer, n)
    requires forall n :: n in done ==> layer[n] >= layer[current]
    requires forall n :: n in layer' && n !in layer ==>
      layer'[n] == layer[current] - 1 && OutCount(es, n, done + {current}) == 0 && EdgeCount(es, n, current) > 0
    ensures forall n :: n in layer' ==> layer'[n] <= 0 && (layer'[n] == 0 ==> NoOutEdge(es, n))
    ensures forall n :: Settled(es, layer', n)
  {
    forall n
      ensures Settled(es, layer', n)
    {
      if n in layer {
        assert Settled(es, layer, n);
        if layer[n] < 0 {
          var i :| 0 <= i < |es| && es[i].source == n && es[i].target in layer && layer[es[i].target] == layer[n] + 1;
          assert es[i].target in layer';
        }
      } else if n in layer' {
        OutCountZero(es, n, done + {current});
        EdgeCountPositive(es, n, current);
      }
    }
  }

  lemma KahnStepOrder(current: string, layer: map<string, int>, queue: seq<string>, done: set<string>, lo: int,
                      layer': map<string, int>, news: seq<string>)
    requires |queue| > 0 && current == queue[0]
    requires forall q :: q in queue ==> q in layer
    requires done <= layer.Keys && layer.Keys <= layer'.Keys
    requires forall n :: n in layer ==> layer'[n] == layer[n]
    requires forall n :: n in done ==> layer[n] >= lo
    requires forall i :: 0 <= i < |queue| ==> lo - 1 <= layer[queue[i]] <= lo
    requires forall i, j :: 0 <= i < j < |queue| ==> layer[queue[i]] >= layer[queue[j]]
    requires forall q :: q in news ==> q in layer' && layer'[q] == layer[current] - 1
    ensures forall n :: n in done + {current} ==> layer'[n] >= layer[current]
    ensures forall i :: 0 <= i < |queue[1..] + news| ==>
      layer[current] - 1 <= layer'[(queue[1..] + news)[i]] <= layer[current]
    ensures forall i, j :: 0 <= i < j < |queue[1..] + news| ==>
      layer'[(queue[1..] + news)[i]] >= layer'[(queue[1..] + news)[j]]
  {
    var q' := queue[1..] + news;
    var k := |queue| - 1;
    assert current in queue;
    forall i | 0 <= i < |q'|
      ensures layer[current] - 1 <= layer'[q'[i]] <= layer[current]
    {
      if i < k {
        assert q'[i] == queue[i + 1];
      } else {
        assert q'[i] == news[i - k];
      }
    }
    forall i, j | 0 <= i < j < |q'|
      ensures layer'[q'[i]] >= layer'[q'[j]]
    {
      if j < k {
        assert q'[i] == queue[i + 1] && q'[j] == queue[j + 1];
      } else {
        assert q'[j] == news[j - k];
        if i >= k {
          assert q'[i] == news[i - k];
        } else {
          assert q'[i] == queue[i + 1];
        }
      }
    }
  }

  /** With the queue empty, the counters describe the unreleased nodes. */
  lemma KahnEnd(es: seq<FlowEdge>, keys: seq<string>, deg: map<string, int>, layer: map<string, int>, done: set<string>, lo: int)
    requires KahnInv(es, keys, deg, layer, [], done, lo)
    ensures layer.Keys <= KeySet(keys)
    ensures forall n :: n in KeySet(keys) ==> (NoOutEdge(es, n) <==> n in layer && layer[n] == 0)
    ensures forall n :: n in KeySet(keys) && n !in layer ==> FeedsOutside(es, layer, n)
  {
    assert KeySet([]) == {};
    forall n | n in KeySet(keys)
      ensures NoOutEdge(es, n) <==> n in layer && layer[n] == 0
      ensures n !in layer ==> FeedsOutside(es, layer, n)
    {
      OutCountZero(es, n, done);
      assert Settled(es, layer, n);
    }
  }

  // ---------------------------------------------------------------------
  // The nodes Kahn's loop never releases.

  /** The ids of `nodes` outside `known`, each once, in order of first
      occurrence. */
  function Fresh(nodes: seq<TableNode>, known: set<string>): (f: seq<string>)
    ensures Distinct(f) && KeySet(f) == Ids(nodes) - known
  {
    if |nodes| == 0 then []
    else
      var p := Fresh(nodes[..|nodes| - 1], known);
      var id := nodes[|nodes| - 1].id;
      IdsLast(nodes);
      if id in known || id in KeySet(p) then p
      else
        KeySetAppend(p, id);
        p + [id]
  }

  lemma IdsLast(nodes: seq<TableNode>)
    requires |nodes| > 0
    ensures Ids(nodes) == Ids(nodes[..|nodes| - 1]) + {nodes[|nodes| - 1].id}
  {
    IdsStep(nodes, |nodes| - 1);
    assert nodes[..|nodes|] == nodes;
  }

  /** The largest layer assigned so far, and 0 when there is none or all
      are negative: `Math.max(...Object.values(layerMap), 0)`. */
  method MaxLayer(layer: map<string, int>) returns (r: int)
    ensures r >= 0 && forall n :: n in layer ==> layer[n] <= r
    ensures r == 0 || exists n :: n in layer && layer[n] == r
  {
    r := 0;
    var rest := layer.Keys;
    while rest != {}
      invariant rest <= layer.Keys
      invariant r >= 0 && forall n :: n in layer && n !in rest ==> layer[n] <= r
      invariant r == 0 || exists n :: n in layer && layer[n] == r
      decreases |rest|
    {
      var n :| n in rest;
      if layer[n] > r {
        r := layer[n];
      }
      rest := rest - {n};
    }
  }

  /** The layers once the leftovers `f` have been placed: the Kahn layers
      are kept and `f` holds 1, 2, 3, .... */
  ghost predicate LeftoverInv(f: seq<string>, layer0: map<string, int>, layer: map<string, int>) {
    && layer.Keys == layer0.Keys + KeySet(f)
    && (forall n :: n in layer0 ==> layer[n] == layer0[n])
    && Numbered(f, layer)
  }

  /** The ids of `f` hold 1, 2, 3, ... in order. */
  ghost predicate Numbered(f: seq<string>, layer: map<string, int>) {
    forall k :: 0 <= k < |f| ==> f[k] in layer && layer[f[k]] == k + 1
  }

  /** The `nodes.forEach` after the queue empties: a node without a layer
      is put one past the largest layer so far, so that the leftovers
      get 1, 2, 3, ... in the order their ids first occur. */
  method PlaceLeftovers(nodes: seq<TableNode>, layer0: map<string, int>) returns (layer: map<string, int>)
    requires forall n :: n in layer0 ==> layer0[n] <= 0
    ensures layer.Keys == layer0.Keys + Ids(nodes)
    ensures forall n :: n in layer0 ==> layer[n] == layer0[n]
    ensures Numbered(Fresh(nodes, layer0.Keys), layer)
  {
    layer := layer0;
    var i := 0;
    assert KeySet([]) == {};
    while i < |nodes|
      invariant 0 <= i <= |nodes|
      invariant LeftoverInv(Fresh(nodes[..i], layer0.Keys), layer0, layer)
    {
      FreshStep(nodes, i, layer0.Keys);
      layer := PlaceOne(nodes[i].id, Fresh(nodes[..i], layer0.Keys), layer0, layer);
      i := i + 1;
    }
    assert nodes[..i] == nodes;
    LeftoverDone(nodes, layer0, layer);
  }

  /** Once every node is read, the leftovers are exactly the new ids. */
  lemma LeftoverDone(nodes: seq<TableNode>, layer0: map<string, int>, layer: map<string, int>)
    requires LeftoverInv(Fresh(nodes, layer0.Keys), layer0, layer)
    ensures layer.Keys == layer0.Keys + Ids(nodes)
    ensures forall n :: n in layer0 ==> layer[n] == layer0[n]
    ensures Numbered(Fresh(nodes, layer0.Keys), layer)
  {
  }

  /** Reading one more node extends the leftovers by its id when that id is
      new. */
  lemma FreshStep(nodes: seq<TableNode>, i: int, known: set<string>)
    requires 0 <= i < |nodes|
    ensures var f, id := Fresh(nodes[..i], known), nodes[i].id;
      Fresh(nodes[..i + 1], known) == if id in known || id in KeySet(f) then f else f + [id]
  {
    assert nodes[..i + 1][..i] == nodes[..i];
  }

  /** The body of the leftover loop for a node with id `id`. */
  method PlaceOne(id: string, ghost f: seq<string>, ghost layer0: map<string, int>, layer: map<string, int>)
    returns (layer': map<string, int>)
    requires forall n :: n in layer0 ==> layer0[n] <= 0
    requires Distinct(f) && LeftoverInv(f, layer0, layer)
    ensures LeftoverInv(if id in layer0 || id in KeySet(f) then f else f + [id], layer0, layer')
  {
    if id !in layer {
      var m := MaxLayer(layer);
      LeftoverMax(f, layer0, layer, m);
      LeftoverPlace(id, f, layer0, layer, m);
      layer' := layer[id := m + 1];
    } else {
      layer' := layer;
    }
  }

  /** The running maximum equals the number of leftovers placed so far. */
  lemma LeftoverMax(f: seq<string>, layer0: map<string, int>, layer: map<string, int>, m: int)
    requires forall n :: n in layer0 ==> layer0[n] <= 0
    requires LeftoverInv(f, layer0, layer)
    requires m >= 0 && forall n :: n in layer ==> layer[n] <= m
    requires m == 0 || exists n :: n in layer && layer[n] == m
    ensures m == |f|
  {
    if |f| > 0 {
      assert f[|f| - 1] in KeySet(f);
      assert layer[f[|f| - 1]] == |f|;
    }
    forall n | n in layer
      ensures layer[n] <= |f|
    {
      if n !in layer0 {
        assert n in KeySet(f);
        var k :| 0 <= k < |f| && f[k] == n;
      }
    }
  }

  lemma LeftoverPlace(id: string, f: seq<string>, layer0: map<string, int>, layer: map<string, int>, m: int)
    requires id !in layer && m == |f|
    requires LeftoverInv(f, layer0, layer)
    ensures LeftoverInv(f + [id], layer0, layer[id := m + 1])
  {
    var layer' := layer[id := m + 1];
    KeySetPush(f, id);
    forall k | 0 <= k < |f| + 1
      ensures (f + [id])[k] in layer' && layer'[(f + [id])[k]] == k + 1
    {
      if k < |f| {
        assert (f + [id])[k] == f[k] && f[k] in layer;
      }
    }
  }

  /** The nodes whose final layer is positive, in order of first occurrence. */
  ghost function Leftovers(nodes: seq<TableNode>, layer: map<string, int>): seq<string> {
    Fresh(nodes, set n | n in layer && layer[n] <= 0)
  }

  /** The layer of every node id, over the counted edges `E` (those whose
      two ends are nodes): a node feeding nothing is at layer 0; a node with
      a negative layer sits one below the lowest node it feeds; a node with
      a positive layer feeds another such node (it feeds a cycle), and those
      nodes hold 1, 2, 3, ... in the order their ids first occur. */
  method AssignLayers(nodes: seq<TableNode>, edges: seq<FlowEdge>) returns (layer: map<string, int>)
    ensures layer.Keys == Ids(nodes)
    ensures forall n :: n in layer ==> (layer[n] == 0 <==> NoOutEdge(Counted(edges, Ids(nodes)), n))
    ensures forall n :: Settled(Counted(edges, Ids(nodes)), layer, n)
    ensures forall n :: n in layer && layer[n] > 0 ==> FeedsLeftover(Counted(edges, Ids(nodes)), layer, n)
    ensures Numbered(Leftovers(nodes, layer), layer)
    ensures ReleasedClosed(Counted(edges, Ids(nodes)), layer)
  {
    ghost var es := Counted(edges, Ids(nodes));
    var layerK := KahnLayers(nodes, edges);
    layer := PlaceLeftovers(nodes, layerK);
    SubsetUnion(layerK.Keys, Ids(nodes));
    ghost var f := Fresh(nodes, layerK.Keys);
    LeftoversPositive(f, Ids(nodes), layerK, layer);
    LeftoversKnown(layerK, layer);
    assert Leftovers(nodes, layer) == f;
    LeftoversSettled(es, layerK, layer);
    LeftoversFeed(Ids(nodes), es, layerK, layer);
    ReleasedFeedReleased(Ids(nodes), es, layerK, layer);
  }

  /** A node at layer 0 or below feeds only nodes at layer 0 or below: the
      nodes Kahn's loop released never feed a node caught in a cycle. */
  ghost predicate ReleasedClosed(es: seq<FlowEdge>, layer: map<string, int>) {
    forall i :: 0 <= i < |es| && es[i].source in layer && layer[es[i].source] <= 0 ==>
      es[i].target in layer && layer[es[i].target] <= 0
  }

  /** The released nodes keep their Kahn layers and the leftovers are
      positive, so an edge out of a released node ends at a released node. */
  lemma ReleasedFeedReleased(ids: set<string>, es: seq<FlowEdge>, layerK: map<string, int>, layer: map<string, int>)
    requires forall i :: 0 <= i < |es| ==> es[i].source in ids
    requires layerK.Keys <= ids && layerK.Keys <= layer.Keys
    requires forall n :: n in layerK ==> layer[n] == layerK[n] && layerK[n] <= 0
    requires forall n :: n in layer && n !in layerK ==> layer[n] > 0
    requires forall n :: n in ids ==> (NoOutEdge(es, n) <==> n in layerK && layerK[n] == 0)
    requires forall n :: Settled(es, layerK, n)
    ensures ReleasedClosed(es, layer)
  {
    forall i | 0 <= i < |es| && es[i].source in layer && layer[es[i].source] <= 0
      ensures es[i].target in layer && layer[es[i].target] <= 0
    {
      var n := es[i].source;
      assert n in layerK;
      if layerK[n] == 0 {
        assert false;
      }
      assert Settled(es, layerK, n);
      assert BelowTargets(es, layerK, n);
      assert es[i].target in layerK;
    }
  }

  /** The adjacency, the initial queue and Kahn's loop, over the counted
      edges. */
  method KahnLayers(nodes: seq<TableNode>, edges: seq<FlowEdge>) returns (layer: map<string, int>)
    ensures layer.Keys <= Ids(nodes)
    ensures forall n :: n in layer ==> layer[n] <= 0
    ensures forall n :: n in Ids(nodes) ==> (NoOutEdge(Counted(edges, Ids(nodes)), n) <==> n in layer && layer[n] == 0)
    ensures forall n :: Settled(Counted(edges, Ids(nodes)), layer, n)
    ensures forall n :: n in Ids(nodes) && n !in layer ==> FeedsOutside(Counted(edges, Ids(nodes)), layer, n)
  {
    ghost var es := Counted(edges, Ids(nodes));
    var keys, adj, deg := BuildAdjacency(nodes, edges);
    var queue, layer0 := InitialQueue(es, keys, deg);
    layer := Kahn(es, keys, adj, deg, queue, layer0);
  }

  lemma SubsetUnion(a: set<string>, b: set<string>)
    requires a <= b
    ensures a + b == b
  {
  }

  /** Some node `n` feeds has a positive layer. */
  ghost predicate FeedsLeftover(es: seq<FlowEdge>, layer: map<string, int>, n: string) {
    exists i :: 0 <= i < |es| && es[i].source == n && es[i].target in layer && layer[es[i].target] > 0
  }

  /** The ids with a layer of at most 0 are those Kahn's loop released. */
  lemma LeftoversKnown(layerK: map<string, int>, layer: map<string, int>)
    requires layerK.Keys <= layer.Keys
    requires forall n :: n in layerK ==> layer[n] == layerK[n] && layerK[n] <= 0
    requires forall n :: n in layer && n !in layerK ==> layer[n] > 0
    ensures (set n | n in layer && layer[n] <= 0) == layerK.Keys
  {
  }

  /** The leftovers are exactly the ids with a positive layer. */
  lemma LeftoversPositive(f: seq<string>, ids: set<string>, layerK: map<string, int>, layer: map<string, int>)
    requires KeySet(f) == ids - layerK.Keys && layer.Keys == layerK.Keys + ids
    requires Numbered(f, layer)
    ensures forall n :: n in layer && n !in layerK ==> layer[n] > 0
  {
    forall n | n in layer && n !in layerK
      ensures layer[n] > 0
    {
      assert n in KeySet(f);
      var k :| 0 <= k < |f| && f[k] == n;
    }
  }

  /** Adding positive layers keeps every negative node settled. */
  lemma LeftoversSettled(es: seq<FlowEdge>, layerK: map<string, int>, layer: map<string, int>)
    requires layerK.Keys <= layer.Keys
    requires forall n :: n in layerK ==> layer[n] == layerK[n]
    requires forall n :: n in layer && n !in layerK ==> layer[n] > 0
    requires forall n :: Settled(es, layerK, n)
    ensures forall n :: Settled(es, layer, n)
  {
    forall n | n in layer && layer[n] < 0
      ensures BelowTargets(es, layer, n) && TightTarget(es, layer, n)
    {
      assert Settled(es, layerK, n);
      var i :| 0 <= i < |es| && es[i].source == n && es[i].target in layerK && layerK[es[i].target] == layerK[n] + 1;
      assert es[i].target in layer && layer[es[i].target] == layer[n] + 1;
    }
  }

  /** A leftover feeds a leftover. */
  lemma LeftoversFeed(ids: set<string>, es: seq<FlowEdge>, layerK: map<string, int>, layer: map<string, int>)
    requires forall i :: 0 <= i < |es| ==> es[i].target in ids
    requires layer.Keys == layerK.Keys + ids
    requires forall n :: n in layer && n !in layerK ==> layer[n] > 0
    requires forall n :: n in layerK ==> layer[n] <= 0
    requires forall n :: n in ids && n !in layerK ==> FeedsOutside(es, layerK, n)
    ensures forall n :: n in layer && layer[n] > 0 ==> FeedsLeftover(es, layer, n)
  {
    forall n | n in layer && layer[n] > 0
      ensures FeedsLeftover(es, layer, n)
    {
      assert FeedsOutside(es, layerK, n);
      var i :| 0 <= i < |es| && es[i].source == n && es[i].target !in layerK;
      assert es[i].target in layer;
    }
  }

  /** Some node `n` feeds has no layer in `layer`. */
  ghost predicate FeedsOutside(es: seq<FlowEdge>, layer: map<string, int>, n: string) {
    exists i :: 0 <= i < |es| && es[i].source == n && es[i].target !in layer
  }
}

=== FILE: layout.dfy ===
/** `assignPositionsWithTopologicalSort` (`src/parser/graphGeneratorcopy.ts`)
    end to end: the layers, the grouping of nodes by layer, the stack of
    each group, and the positions written back into the nodes. */
module Layout {
  import opened GraphTypes
  import opened Layering
  import opened Stacking

  /** The nodes of layer `L`, in node order: `layerGroups[L]`. */
  function InLayer(nodes: seq<TableNode>, layer: map<string, int>, L: int): (r: seq<TableNode>)
    requires forall i :: 0 <= i < |nodes| ==> nodes[i].id in layer
    ensures forall k :: 0 <= k < |r| ==> r[k] in nodes && layer[r[k].id] == L
  {
    if |nodes| == 0 then []
    else
      var last := nodes[|nodes| - 1];
      var p := InLayer(nodes[..|nodes| - 1], layer, L);
      assert forall k :: 0 <= k < |p| ==> p[k] in nodes[..|nodes| - 1];
      p + (if layer[last.id] == L then [last] else [])
  }

  /** Every node is in the group of its own layer. */
  lemma {:induction false} InLayerHas(nodes: seq<TableNode>, layer: map<string, int>, i: int)
    requires forall j :: 0 <= j < |nodes| ==> nodes[j].id in layer
    requires 0 <= i < |nodes|
    ensures nodes[i] in InLayer(nodes, layer, layer[nodes[i].id])
    decreases |nodes|
  {
    var n := |nodes|;
    if i < n - 1 {
      var front := nodes[..n - 1];
      assert front[i] == nodes[i];
      InLayerHas(front, layer, i);
    }
  }

  /** A group of a list with distinct ids has distinct ids. */
  lemma {:induction false} InLayerDistinct(nodes: seq<TableNode>, layer: map<string, int>, L: int)
    requires forall j :: 0 <= j < |nodes| ==> nodes[j].id in layer
    requires DistinctIds(nodes)
    ensures DistinctIds(InLayer(nodes, layer, L))
    decreases |nodes|
  {
    var n := |nodes|;
    if n > 0 {
      var front := nodes[..n - 1];
      var last := nodes[n - 1];
      assert DistinctIds(front) by {
        forall i, j | 0 <= i < j < |front|
          ensures front[i].id != front[j].id
        {
          assert front[i] == nodes[i] && front[j] == nodes[j];
        }
      }
      InLayerDistinct(front, layer, L);
      var p := InLayer(front, layer, L);
      var r := p + (if layer[last.id] == L then [last] else []);
      forall i, j | 0 <= i < j < |r|
        ensures r[i].id != r[j].id
      {
        if j >= |p| {
          assert r[i] == p[i] && p[i] in front;
          var m :| 0 <= m < |front| && front[m] == p[i];
          assert nodes[m] == p[i] && r[j] == nodes[n - 1];
        } else {
          assert r[i] == p[i] && r[j] == p[j];
        }
      }
    }
  }

  /** The `nodes.forEach` that fills `layerGroups`. */
  method GroupByLayer(nodes: seq<TableNode>, layer: map<string, int>) returns (groups: map<int, seq<TableNode>>)
    requires forall i :: 0 <= i < |nodes| ==> nodes[i].id in layer
    ensures forall L :: L in groups <==> InLayer(nodes, layer, L) != []
    ensures forall L :: L in groups ==> groups[L] == InLayer(nodes, layer, L)
  {
    groups := map[];
    var i := 0;
    while i < |nodes|
      invariant 0 <= i <= |nodes|
      invariant Grouped(nodes[..i], layer, groups)
    {
      var node := nodes[i];
      var L := layer[node.id];
      GroupStep(nodes, i, layer, groups);
      if L !in groups {
        groups := groups[L := []];
      }
      groups := groups[L := groups[L] + [node]];
      i := i + 1;
    }
    assert nodes[..i] == nodes;
  }

  /** `layerGroups` after the nodes of `prefix`. */
  ghost predicate Grouped(prefix: seq<TableNode>, layer: map<string, int>, groups: map<int, seq<TableNode>>)
    requires forall i :: 0 <= i < |prefix| ==> prefix[i].id in layer
  {
    && (forall L :: L in groups <==> InLayer(prefix, layer, L) != [])
    && (forall L :: L in groups ==> groups[L] == InLayer(prefix, layer, L))
  }

  lemma GroupStep(nodes: seq<TableNode>, i: int, layer: map<string, int>, groups: map<int, seq<TableNode>>)
    requires forall j :: 0 <= j < |nodes| ==> nodes[j].id in layer
    requires 0 <= i < |nodes| && Grouped(nodes[..i], layer, groups)
    ensures var L := layer[nodes[i].id];
      var g := if L in groups then groups[L] else [];
      Grouped(nodes[..i + 1], layer, groups[L := g + [nodes[i]]])
  {
    assert nodes[..i + 1][..i] == nodes[..i];
    assert nodes[..i + 1][i] == nodes[i];
  }

  /** `y` is the `y` that the stack of `g` gives the node with id `id`. */
  ghost predicate StackedAt(g: seq<TableNode>, id: string, y: int) {
    exists k :: 0 <= k < |g| && g[k].id == id && StackYs(g)[k] == y
  }

  /** The `y` the stack of its layer gives each node (with distinct ids). */
  ghost predicate LayerY(nodes: seq<TableNode>, layer: map<string, int>, i: int, y: int)
    requires forall j :: 0 <= j < |nodes| ==> nodes[j].id in layer
    requires 0 <= i < |nodes|
  {
    StackedAt(SortDesc(InLayer(nodes, layer, layer[nodes[i].id])), nodes[i].id, y)
  }

  /** The positions given a complete layer map: every layer group stacked
      (in any order of the groups), then `nodes.map` writing `x = 400 *
      layer` and the recorded `y` into each node. */
  method PlaceNodes(nodes: seq<TableNode>, layer: map<string, int>) returns (out: seq<TableNode>)
    requires forall i :: 0 <= i < |nodes| ==> nodes[i].id in layer
    ensures Placed(nodes, layer, out)
  {
    var groups := GroupByLayer(nodes, layer);
    var ys := StackLayers(nodes, layer, groups);
    forall i | 0 <= i < |nodes|
      ensures layer[nodes[i].id] in groups.Keys
    {
      InLayerHas(nodes, layer, i);
    }
    YsComplete(nodes, layer, groups.Keys, ys);
    out := seq(|nodes|, i requires 0 <= i < |nodes| =>
      nodes[i].(position := Position(layer[nodes[i].id] * HorizontalSpacing, ys[nodes[i].id])));
  }

  /** Every layer group stacked, in any order of the groups. */
  method StackLayers(nodes: seq<TableNode>, layer: map<string, int>, groups: map<int, seq<TableNode>>)
    returns (ys: map<string, int>)
    requires forall i :: 0 <= i < |nodes| ==> nodes[i].id in layer
    requires forall L :: L in groups ==> groups[L] == InLayer(nodes, layer, L)
    ensures YsSoFar(nodes, layer, groups.Keys, ys)
  {
    var heights: map<string, int> := map[];
    ys := map[];
    var rest := groups.Keys;
    while rest != {}
      invariant rest <= groups.Keys
      invariant YsSoFar(nodes, layer, groups.Keys - rest, ys)
      decreases |rest|
    {
      NonEmpty(rest);
      var L :| L in rest;
      var heights', ys' := StackLayer(groups[L], heights, ys);
      YsStep(nodes, layer, groups.Keys - rest, L, ys, ys');
      heights, ys := heights', ys';
      rest := rest - {L};
    }
  }

  /** Once every node's layer is stacked, every node has its `y`. */
  lemma YsComplete(nodes: seq<TableNode>, layer: map<string, int>, done: set<int>, ys: map<string, int>)
    requires forall i :: 0 <= i < |nodes| ==> nodes[i].id in layer
    requires YsSoFar(nodes, layer, done, ys)
    requires forall i :: 0 <= i < |nodes| ==> layer[nodes[i].id] in done
    ensures forall i :: 0 <= i < |nodes| ==>
      nodes[i].id in ys && (DistinctIds(nodes) ==> LayerY(nodes, layer, i, ys[nodes[i].id]))
  {
  }

  lemma NonEmpty(s: set<int>)
    requires s != {}
    ensures exists x :: x in s
  {
    if forall x :: x !in s {
      assert false;
    }
  }

  /** `verticalPositions` once the layers in `done` have been stacked. */
  ghost predicate YsSoFar(nodes: seq<TableNode>, layer: map<string, int>, done: set<int>, ys: map<string, int>)
    requires forall i :: 0 <= i < |nodes| ==> nodes[i].id in layer
  {
    && (forall id :: id in ys ==> id in layer && layer[id] in done)
    && (forall i :: 0 <= i < |nodes| && layer[nodes[i].id] in done ==> nodes[i].id in ys)
    && (DistinctIds(nodes) ==>
          forall i :: 0 <= i < |nodes| && layer[nodes[i].id] in done ==> LayerY(nodes, layer, i, ys[nodes[i].id]))
  }

  lemma YsStep(nodes: seq<TableNode>, layer: map<string, int>, done: set<int>, L: int,
               ys: map<string, int>, ys': map<string, int>)
    requires forall i :: 0 <= i < |nodes| ==> nodes[i].id in layer
    requires L !in done && YsSoFar(nodes, layer, done, ys)
    requires var group := InLayer(nodes, layer, L);
      && ys'.Keys == ys.Keys + Ids(group)
      && (forall id :: id in ys && id !in Ids(group) ==> ys'[id] == ys[id])
      && (DistinctIds(group) ==>
            var sorted := SortDesc(group);
            forall k :: 0 <= k < |sorted| ==> sorted[k].id in ys' && ys'[sorted[k].id] == StackYs(sorted)[k])
    ensures YsSoFar(nodes, layer, done + {L}, ys')
  {
    GroupIdsInLayer(nodes, layer, L);
    forall i | 0 <= i < |nodes| && layer[nodes[i].id] == L
      ensures nodes[i].id in ys'
      ensures DistinctIds(nodes) ==> LayerY(nodes, layer, i, ys'[nodes[i].id])
    {
      GroupHasNode(nodes, layer, i);
      if DistinctIds(nodes) {
        StackedNode(nodes, layer, i, ys');
      }
    }
  }

  /** The ids of a layer group all lie in that layer. */
  lemma GroupIdsInLayer(nodes: seq<TableNode>, layer: map<string, int>, L: int)
    requires forall i :: 0 <= i < |nodes| ==> nodes[i].id in layer
    ensures forall id :: id in Ids(InLayer(nodes, layer, L)) ==> id in layer && layer[id] == L
  {
    var group := InLayer(nodes, layer, L);
    forall id | id in Ids(group)
      ensures id in layer && layer[id] == L
    {
      var k :| 0 <= k < |group| && group[k].id == id;
    }
  }

  /** Every node's id is among the ids of its layer's group. */
  lemma GroupHasNode(nodes: seq<TableNode>, layer: map<string, int>, i: int)
    requires forall j :: 0 <= j < |nodes| ==> nodes[j].id in layer
    requires 0 <= i < |nodes|
    ensures nodes[i].id in Ids(InLayer(nodes, layer, layer[nodes[i].id]))
  {
    var group := InLayer(nodes, layer, layer[nodes[i].id]);
    InLayerHas(nodes, layer, i);
    var k :| 0 <= k < |group| && group[k] == nodes[i];
  }

  /** A node's entry in the stacked positions of its layer is its `y`. */
  lemma StackedNode(nodes: seq<TableNode>, layer: map<string, int>, i: int, ys': map<string, int>)
    requires forall j :: 0 <= j < |nodes| ==> nodes[j].id in layer
    requires 0 <= i < |nodes| && DistinctIds(nodes)
    requires var sorted := SortDesc(InLayer(nodes, layer, layer[nodes[i].id]));
      DistinctIds(InLayer(nodes, layer, layer[nodes[i].id])) ==>
        forall k :: 0 <= k < |sorted| ==> sorted[k].id in ys' && ys'[sorted[k].id] == StackYs(sorted)[k]
    ensures nodes[i].id in ys' && LayerY(nodes, layer, i, ys'[nodes[i].id])
  {
    var group := InLayer(nodes, layer, layer[nodes[i].id]);
    var sorted := SortDesc(group);
    InLayerHas(nodes, layer, i);
    InLayerDistinct(nodes, layer, layer[nodes[i].id]);
    SortDescPerm(group);
    assert nodes[i] in multiset(sorted);
    var m :| 0 <= m < |sorted| && sorted[m] == nodes[i];
    assert StackYs(sorted)[m] == ys'[nodes[i].id];
  }

  /** What `assignPositionsWithTopologicalSort` returns for a layer map:
      the same nodes in the same order, only their positions changed, `x`
      the layer times 400 and, when the ids are distinct, `y` the node's
      place in the stack of its layer. */
  ghost predicate Placed(nodes: seq<TableNode>, layer: map<string, int>, out: seq<TableNode>) {
    && (forall i :: 0 <= i < |nodes| ==> nodes[i].id in layer)
    && |out| == |nodes|
    && (forall i :: 0 <= i < |nodes| ==> out[i].(position := nodes[i].position) == nodes[i])
    && (forall i :: 0 <= i < |nodes| ==> out[i].position.x == layer[nodes[i].id] * HorizontalSpacing)
    && (DistinctIds(nodes) ==> forall i :: 0 <= i < |nodes| ==> LayerY(nodes, layer, i, out[i].position.y))
  }

  /** Two nodes of one layer never overlap: one ends at least a padding
      above the other's top. */
  lemma SameLayerApart(nodes: seq<TableNode>, layer: map<string, int>, out: seq<TableNode>, i: int, j: int)
    requires Placed(nodes, layer, out) && DistinctIds(nodes)
    requires 0 <= i < |nodes| && 0 <= j < |nodes| && i != j
    requires layer[nodes[i].id] == layer[nodes[j].id]
    ensures out[i].position.x == out[j].position.x
    ensures out[j].position.y >= out[i].position.y + NodeHeight(nodes[i]) + VerticalPadding
         || out[i].position.y >= out[j].position.y + NodeHeight(nodes[j]) + VerticalPadding
  {
    LayerYsApart(nodes, layer, i, j, out[i].position.y, out[j].position.y);
  }

  /** The stacked `y`s of two nodes of one layer are a node and a padding apart. */
  lemma LayerYsApart(nodes: seq<TableNode>, layer: map<string, int>, i: int, j: int, yi: int, yj: int)
    requires forall k :: 0 <= k < |nodes| ==> nodes[k].id in layer
    requires DistinctIds(nodes)
    requires 0 <= i < |nodes| && 0 <= j < |nodes| && i != j
    requires layer[nodes[i].id] == layer[nodes[j].id]
    requires LayerY(nodes, layer, i, yi) && LayerY(nodes, layer, j, yj)
    ensures yj >= yi + NodeHeight(nodes[i]) + VerticalPadding || yi >= yj + NodeHeight(nodes[j]) + VerticalPadding
  {
    var L := layer[nodes[i].id];
    var g := SortDesc(InLayer(nodes, layer, L));
    var a :| 0 <= a < |g| && g[a].id == nodes[i].id && StackYs(g)[a] == yi;
    var b :| 0 <= b < |g| && g[b].id == nodes[j].id && StackYs(g)[b] == yj;
    StackMember(nodes, layer, L, a, i);
    StackMember(nodes, layer, L, b, j);
    if a < b {
      StackSeparated(g, a, b);
    } else {
      StackSeparated(g, b, a);
    }
  }

  /** With distinct ids, the node at a place of a sorted group is the node
      of that id. */
  lemma StackMember(nodes: seq<TableNode>, layer: map<string, int>, L: int, a: int, i: int)
    requires forall j :: 0 <= j < |nodes| ==> nodes[j].id in layer
    requires DistinctIds(nodes)
    requires 0 <= a < |SortDesc(InLayer(nodes, layer, L))| && 0 <= i < |nodes|
    requires nodes[i].id == SortDesc(InLayer(nodes, layer, L))[a].id
    ensures SortDesc(InLayer(nodes, layer, L))[a] == nodes[i]
  {
    var group := InLayer(nodes, layer, L);
    var g := SortDesc(group);
    SortDescPerm(group);
    assert g[a] in multiset(group);
    var m :| 0 <= m < |group| && group[m] == g[a];
    assert group[m] in nodes;
  }

  /** The layer map `assignPositionsWithTopologicalSort` computes, as
      `AssignLayers` characterises it. */
  ghost predicate LayerSpec(nodes: seq<TableNode>, edges: seq<FlowEdge>, layer: map<string, int>) {
    var es := Counted(edges, Ids(nodes));
    && layer.Keys == Ids(nodes)
    && (forall n :: n in layer ==> (layer[n] == 0 <==> NoOutEdge(es, n)))
    && (forall n :: Settled(es, layer, n))
    && (forall n :: n in layer && layer[n] > 0 ==> FeedsLeftover(es, layer, n))
    && Numbered(Leftovers(nodes, layer), layer)
    && ReleasedClosed(es, layer)
  }

  /** `assignPositionsWithTopologicalSort`: the layers, then the positions
      for them. */
  method AssignPositionsWithTopologicalSort(nodes: seq<TableNode>, edges: seq<FlowEdge>) returns (out: seq<TableNode>)
    ensures exists layer :: LayerSpec(nodes, edges, layer) && Placed(nodes, layer, out)
  {
    var layer := AssignLayers(nodes, edges);
    out := PlaceNodes(nodes, layer);
    assert LayerSpec(nodes, edges, layer);
  }
}

=== FILE: legacy_parser.dfy ===
/** The first graph builder, `src/parser/parser.ts`: append-only node and
    edge creation, CTE wiring, the result table and its columns, CASE and
    join traversal, plus the stand-alone join-condition search and joinLabel
    formatting. Nodes are the same property bags as in the other earlier
    builder; every edge here has string handles. */
module LegacyParser {
  import opened Wrappers
  import opened Dicts
  import opened Filters
  import opened Strings
  import opened SqlAst
  import opened GraphTypes
  import opened FreshNames
  import G = LegacyGraphGenerator
  import Diagram

  // ---------------------------------------------------------------------
  // Edges with string handles.

  /** What `createEdge` records: the id names the two handles and the type. */
  ghost predicate Shaped(e: GraphEdge) {
    e.sourceHandle.Some? && e.targetHandle.Some? && e.id == G.EdgeId(e.sourceHandle, e.targetHandle, e.edgeType)
  }

  ghost predicate AllShaped(edges: seq<GraphEdge>) {
    forall i :: 0 <= i < |edges| ==> Shaped(edges[i])
  }

  /** The edge `createEdge(source, target, type, sourceHandle, targetHandle, label)` records. */
  function NewEdge(source: string, target: string, edgeType: EdgeType, sourceHandle: string, targetHandle: string, caption: string): (e: GraphEdge)
    ensures Shaped(e)
    ensures e.source == source && e.target == target && e.edgeType == edgeType && e.caption == caption
    ensures e.sourceHandle == Some(sourceHandle) && e.targetHandle == Some(targetHandle)
  {
    G.NewEdge(source, target, edgeType, Some(sourceHandle), Some(targetHandle)).(caption := caption)
  }

  // ---------------------------------------------------------------------
  // Column references and the two tree searches.

  /** A `column_ref`'s qualifier (`null` when unqualified) and column. */
  datatype ColRef = ColRef(table: G.JsText, column: string)

  function RefOf(e: Expr): ColRef
    requires e.ColumnRef?
  {
    ColRef(G.Nullable(e.table), e.column)
  }

  /** `${table}_${column}` */
  function RefId(r: ColRef): string {
    r.table.Render() + "_" + r.column
  }

  /** `${table}.${column}` */
  function RefText(r: ColRef): string {
    r.table.Render() + "." + r.column
  }

  /** An `=` between two column references. */
  datatype EqPair = EqPair(left: ColRef, right: ColRef)

  /** The `=` comparisons between two `column_ref`s that a join search
      reaches: only `AND`/`OR` nodes are descended into, left before right,
      and an `=` with a side that is not a column reference yields nothing. */
  function JoinPairs(e: Expr): seq<EqPair> {
    match e
    case BinaryExpr(op, l, r) =>
      if op == "=" then
        if l.Some? && r.Some? && l.value.ColumnRef? && r.value.ColumnRef? then [EqPair(RefOf(l.value), RefOf(r.value))] else []
      else if op == "AND" || op == "OR" then OptJoinPairs(l) + OptJoinPairs(r)
      else []
    case _ => []
  }

  function OptJoinPairs(e: Option<Expr>): seq<EqPair> {
    if e.Some? then JoinPairs(e.value) else []
  }

  /** The column references the CASE traversal of `sqlAstToGraph` reaches:
      both sides of a `binary_expr` and the `cond`/`result` of each CASE arm;
      other nodes (function arguments, aggregates, the CASE subject) are not
      entered. */
  function CaseRefs(e: Expr): seq<ColRef> {
    match e
    case ColumnRef(_, _, _) => [RefOf(e)]
    case BinaryExpr(_, l, r) => OptCaseRefs(l) + OptCaseRefs(r)
    case Case(_, arms) => ArmsCaseRefs(arms)
    case _ => []
  }

  function OptCaseRefs(e: Option<Expr>): seq<ColRef> {
    if e.Some? then CaseRefs(e.value) else []
  }

  function ArmsCaseRefs(arms: seq<CaseArm>): seq<ColRef> {
    if |arms| == 0 then [] else ArmsCaseRefs(arms[..|arms| - 1]) + ArmCaseRefs(arms[|arms| - 1])
  }

  function ArmCaseRefs(arm: CaseArm): seq<ColRef> {
    OptCaseRefs(arm.cond) + OptCaseRefs(arm.result)
  }

  /** A reference of the arms is a reference of one of them. */
  lemma {:induction false} ArmsCaseRefsMember(arms: seq<CaseArm>, r: ColRef)
    requires r in ArmsCaseRefs(arms)
    ensures exists i :: 0 <= i < |arms| && r in ArmCaseRefs(arms[i])
  {
    var p := arms[..|arms| - 1];
    if r in ArmsCaseRefs(p) {
      ArmsCaseRefsMember(p, r);
      var i :| 0 <= i < |p| && r in ArmCaseRefs(p[i]);
      assert arms[i] == p[i];
    }
  }

  // ---------------------------------------------------------------------
  // The module-level `extractJoinColumns`.

  /** `{ leftTable, leftColumn, rightTable, rightColumn }`, all `null` at first. */
  datatype JoinColumns = JoinColumns(leftTable: G.JsText, leftColumn: G.JsText, rightTable: G.JsText, rightColumn: G.JsText)

  const NoJoinColumns := JoinColumns(G.Null, G.Null, G.Null, G.Null)

  function PairColumns(p: EqPair): JoinColumns {
    JoinColumns(p.left.table, G.Text(p.left.column), p.right.table, G.Text(p.right.column))
  }

  /** `findEqualityCondition`: true once an `=` between two column references
      is found, having written its sides into the record; `AND`/`OR` search
      the left branch, then the right one only if the left found nothing. */
  method FindEqualityCondition(node: Option<Expr>, result: JoinColumns) returns (found: bool, result': JoinColumns)
    ensures found <==> |OptJoinPairs(node)| > 0
    ensures found ==> result' == PairColumns(OptJoinPairs(node)[0])
    ensures !found ==> result' == result
    decreases node
  {
    found, result' := false, result;
    if node.None? {
      return;
    }
    match node.value
    case BinaryExpr(op, l, r) =>
      if op == "=" {
        if l.Some? && r.Some? && l.value.ColumnRef? && r.value.ColumnRef? {
          result' := PairColumns(EqPair(RefOf(l.value), RefOf(r.value)));
          found := true;
        }
      } else if op == "AND" || op == "OR" {
        found, result' := FindEqualityCondition(l, result);
        if !found {
          found, result' := FindEqualityCondition(r, result);
        }
      }
    case _ =>
  }

  /** `extractJoinColumns`: the sides of the first `=` between two column
      references in search order, or all `null` when there is none. */
  method ExtractJoinColumns(joinCondition: Option<Expr>) returns (result: JoinColumns)
    ensures |OptJoinPairs(joinCondition)| > 0 ==> result == PairColumns(OptJoinPairs(joinCondition)[0])
    ensures |OptJoinPairs(joinCondition)| == 0 ==> result == NoJoinColumns
  {
    var _, r := FindEqualityCondition(joinCondition, NoJoinColumns);
    result := r;
  }

  // ---------------------------------------------------------------------
  // `formatJoinCondition`

  /** `stringifyCondition`. `AND`/`OR` join the rendered branches around the
      operator; another binary operator renders a column side as
      `table.column`, a single-quoted string on the right as `'value'` and
      anything else with `json` (`JSON.stringify`); a node that is not a
      binary expression is rendered with `json`, an absent one as "". */
  function Stringify(node: Option<Expr>, json: Option<Expr> -> string): string {
    if node.None? then ""
    else match node.value
      case BinaryExpr(op, l, r) =>
        if op == "AND" || op == "OR" then
          (if l.Some? then Stringify(l, json) else "") + " " + op + " " + (if r.Some? then Stringify(r, json) else "")
        else
          var left := if l.Some? && l.value.ColumnRef? then RefText(RefOf(l.value)) else json(l);
          var right :=
            if r.Some? && r.value.ColumnRef? then RefText(RefOf(r.value))
            else if r.Some? && r.value.SingleQuoteString? then "'" + r.value.value + "'"
            else json(r);
          left + " " + op + " " + right
      case _ => json(node)
  }

  /** `formatJoinCondition`: the join type (or nothing), a space, the condition. */
  function FormatJoinCondition(joinType: string, joinCondition: Option<Expr>, json: Option<Expr> -> string): (joinLabel: string)
    ensures IsPrefix(joinType + " ", joinLabel)
    ensures joinLabel[|joinType| + 1..] == Stringify(joinCondition, json)
  {
    var joinLabel := (if joinType != "" then joinType else "") + " " + Stringify(joinCondition, json);
    assert joinLabel == (joinType + " ") + Stringify(joinCondition, json);
    joinLabel
  }

  /** How a found equality reads in a joinLabel. */
  function PairText(p: EqPair): string {
    RefText(p.left) + " " + "=" + " " + RefText(p.right)
  }

  predicate Contains(s: string, pat: string) {
    exists i :: 0 <= i <= |s| && OccursAt(s, pat, i)
  }

  lemma ContainsLeft(a: string, b: string, pat: string)
    requires Contains(a, pat)
    ensures Contains(a + b, pat)
  {
    var i :| 0 <= i <= |a| && OccursAt(a, pat, i);
    assert (a + b)[i..i + |pat|] == a[i..i + |pat|];
    assert OccursAt(a + b, pat, i);
  }

  lemma ContainsRight(a: string, b: string, pat: string)
    requires Contains(b, pat)
    ensures Contains(a + b, pat)
  {
    var i :| 0 <= i <= |b| && OccursAt(b, pat, i);
    assert (a + b)[|a| + i..|a| + i + |pat|] == b[i..i + |pat|];
    assert OccursAt(a + b, pat, |a| + i);
  }

  /** Every equality the join search can report appears, as
      `table.column = table.column`, in the rendered condition. */
  lemma {:induction false} StringifyMentionsPairs(e: Expr, json: Option<Expr> -> string, p: EqPair)
    requires p in JoinPairs(e)
    ensures Contains(Stringify(Some(e), json), PairText(p))
    decreases e
  {
    match e
    case BinaryExpr(op, l, r) =>
      if op == "=" {
        assert OccursAt(Stringify(Some(e), json), PairText(p), 0);
      } else {
        var sl := if l.Some? then Stringify(l, json) else "";
        var sr := if r.Some? then Stringify(r, json) else "";
        assert Stringify(Some(e), json) == sl + " " + op + " " + sr;
        if p in OptJoinPairs(l) {
          StringifyMentionsPairs(l.value, json, p);
          ContainsLeft(sl, " ", PairText(p));
          ContainsLeft(sl + " ", op, PairText(p));
          ContainsLeft(sl + " " + op, " ", PairText(p));
          ContainsLeft(sl + " " + op + " ", sr, PairText(p));
        } else {
          StringifyMentionsPairs(r.value, json, p);
          ContainsRight(sl + " " + op + " ", sr, PairText(p));
        }
      }
  }

  /** The join joinLabel names every equality of its condition, in particular
      the one `extractJoinColumns` reports. */
  lemma LabelMentionsPairs(joinType: string, joinCondition: Option<Expr>, json: Option<Expr> -> string, p: EqPair)
    requires p in OptJoinPairs(joinCondition)
    ensures Contains(FormatJoinCondition(joinType, joinCondition, json), PairText(p))
  {
    StringifyMentionsPairs(joinCondition.value, json, p);
    var joinLabel := FormatJoinCondition(joinType, joinCondition, json);
    assert joinLabel == (joinType + " ") + Stringify(joinCondition, json);
    ContainsRight(joinType + " ", Stringify(joinCondition, json), PairText(p));
  }

  // ---------------------------------------------------------------------
  // The nodes and edges `sqlAstToGraph` creates.

  /** `createNode('Result_<name>', 'column', { name, tableId: 'table_Result' })` */
  function ResultColumnNode(name: string): G.LegacyNode {
    G.LegacyNode("Result_" + name, ColumnType, G.Text(name), G.Undefined, G.Undefined, G.Text("table_Result"), false, false)
  }

  /** A referenced column: `<table>_<column>` owned by `table_<table>`. */
  function RefNode(r: ColRef, isCteColumn: bool): G.LegacyNode {
    G.LegacyNode(RefId(r), ColumnType, G.Text(r.column), G.Undefined, G.Undefined, G.Text("table_" + r.table.Render()), false, isCteColumn)
  }

  /** The `used_in_select` edge of a projected column reference. */
  function SelectEdge(r: ColRef, resultColumnId: string): GraphEdge {
    NewEdge("table_" + r.table.Render(), "table_Result", ColumnMapping, "source-" + RefId(r), "target-" + resultColumnId, "used_in_select")
  }

  /** The `used_in_expr` edge of a reference inside a CASE. */
  function CaseEdge(r: ColRef, resultColumnId: string): GraphEdge {
    NewEdge(RefId(r), resultColumnId, UsedInExpr, "source_handle", "target_handle", "used_in_case")
  }

  /** The `join` edge of an equality in an ON condition. */
  function JoinEdge(p: EqPair, joinLabel: string): GraphEdge {
    NewEdge(RefId(p.left), RefId(p.right), Join, "source_handle", "target_handle", joinLabel)
  }

  /** Edges created by the CASE and join traversals carry fixed handles, so
      all such edges of one type share one id. */
  lemma TraversalEdgesShareId(r1: ColRef, r2: ColRef, id1: string, id2: string, p1: EqPair, p2: EqPair, l1: string, l2: string)
    ensures CaseEdge(r1, id1).id == CaseEdge(r2, id2).id
    ensures JoinEdge(p1, l1).id == JoinEdge(p2, l2).id
  {
  }

  /** The output name of a projected item when it is not synthetic. */
  ghost predicate NamedAs(item: SelectItem, name: string) {
    && (item.alias != "" ==> name == item.alias)
    && (item.alias == "" && item.expr.ColumnRef? ==> name == item.expr.column)
  }

  /** What `sqlAstToGraph` guarantees for one projected item: its result
      column node exists; a column reference has its `used_in_select`
      edge; every reference a CASE reaches has its `used_in_expr` edge. */
  ghost predicate ColumnDone(g: G.LegacyGraph, item: SelectItem) {
    exists name :: NamedAs(item, name) && ColumnDoneAs(g, item, name)
  }

  ghost predicate ColumnDoneAs(g: G.LegacyGraph, item: SelectItem, name: string) {
    && ResultColumnNode(name) in g.nodes
    && (item.expr.ColumnRef? ==> SelectEdge(RefOf(item.expr), "Result_" + name) in g.edges)
    && (item.expr.Case? ==> CaseLinked(g, item.expr, "Result_" + name))
  }

  ghost predicate CaseLinked(g: G.LegacyGraph, e: Expr, resultColumnId: string) {
    forall r :: r in CaseRefs(e) ==> CaseEdge(r, resultColumnId) in g.edges
  }

  ghost predicate ColumnsDone(g: G.LegacyGraph, items: seq<SelectItem>, n: nat) {
    forall i :: 0 <= i < n && i < |items| ==> ColumnDone(g, items[i])
  }

  /** Every join edge of every joined FROM item (not the first) is present. */
  ghost predicate JoinsLinked(g: G.LegacyGraph, items: seq<FromItem>, n: nat, json: Option<Expr> -> string) {
    forall i, p :: 1 <= i < n && i < |items| && items[i].join != "" && items[i].on.Some? && p in JoinPairs(items[i].on.value) ==>
      JoinEdge(p, FormatJoinCondition(items[i].join, items[i].on, json)) in g.edges
  }

  lemma GrowsKeepsNode(g0: G.LegacyGraph, g1: G.LegacyGraph, n: G.LegacyNode)
    requires Extends(g0.nodes, g1.nodes) && n in g0.nodes
    ensures n in g1.nodes
  {
    var i :| 0 <= i < |g0.nodes| && g0.nodes[i] == n;
    assert g1.nodes[..|g0.nodes|][i] == n;
  }

  lemma CaseLinkedGrows(g0: G.LegacyGraph, g1: G.LegacyGraph, e: Expr, resultColumnId: string)
    requires Extends(g0.edges, g1.edges) && CaseLinked(g0, e, resultColumnId)
    ensures CaseLinked(g1, e, resultColumnId)
  {
    forall r | r in CaseRefs(e) ensures CaseEdge(r, resultColumnId) in g1.edges {
      G.GrowsKeepsEdge(g0, g1, CaseEdge(r, resultColumnId));
    }
  }

  lemma ColumnDoneGrows(g0: G.LegacyGraph, g1: G.LegacyGraph, item: SelectItem)
    requires G.LegacyGrows(g0, g1) && ColumnDone(g0, item)
    ensures ColumnDone(g1, item)
  {
    var name :| NamedAs(item, name) && ColumnDoneAs(g0, item, name);
    GrowsKeepsNode(g0, g1, ResultColumnNode(name));
    if item.expr.ColumnRef? {
      G.GrowsKeepsEdge(g0, g1, SelectEdge(RefOf(item.expr), "Result_" + name));
    }
    if item.expr.Case? {
      CaseLinkedGrows(g0, g1, item.expr, "Result_" + name);
    }
    assert ColumnDoneAs(g1, item, name);
  }

  lemma ColumnsDoneGrows(g0: G.LegacyGraph, g1: G.LegacyGraph, items: seq<SelectItem>, n: nat)
    requires G.LegacyGrows(g0, g1) && ColumnsDone(g0, items, n)
    ensures ColumnsDone(g1, items, n)
  {
    forall i | 0 <= i < n && i < |items| ensures ColumnDone(g1, items[i]) {
      ColumnDoneGrows(g0, g1, items[i]);
    }
  }

  lemma JoinsLinkedGrows(g0: G.LegacyGraph, g1: G.LegacyGraph, items: seq<FromItem>, n: nat, json: Option<Expr> -> string)
    requires Extends(g0.edges, g1.edges) && JoinsLinked(g0, items, n, json)
    ensures JoinsLinked(g1, items, n, json)
  {
    forall i, p | 1 <= i < n && i < |items| && items[i].join != "" && items[i].on.Some? && p in JoinPairs(items[i].on.value)
      ensures JoinEdge(p, FormatJoinCondition(items[i].join, items[i].on, json)) in g1.edges
    {
      G.GrowsKeepsEdge(g0, g1, JoinEdge(p, FormatJoinCondition(items[i].join, items[i].on, json)));
    }
  }

  /** `cteAliases` after the main FROM pass: the key `as || table` of every
      item whose table is the name of a CTE maps to that table, later items
      overwriting earlier ones. */
  function CteAliasesOf(ctes: seq<Cte>, items: seq<FromItem>): (m: map<string, string>)
    ensures forall k :: k in m ==> exists j :: 0 <= j < |ctes| && ctes[j].name == m[k]
  {
    if |items| == 0 then map[]
    else
      var m := CteAliasesOf(ctes, items[..|items| - 1]);
      var item := items[|items| - 1];
      var j := FirstIndex(ctes, NamesTable(item));
      if j >= 0 then m[G.KeyOf(item).Render() := item.table] else m
  }

  /** `cte.name.value === tableItem.table` */
  function NamesTable(item: FromItem): Cte -> bool {
    (c: Cte) => G.Text(c.name) == G.TableOf(item)
  }

  /** An item that names a CTE is registered under its key. */
  lemma {:induction false} CteAliasesCover(ctes: seq<Cte>, items: seq<FromItem>, i: int)
    requires 0 <= i < |items| && exists j :: 0 <= j < |ctes| && NamesTable(items[i])(ctes[j])
    ensures G.KeyOf(items[i]).Render() in CteAliasesOf(ctes, items)
  {
    var p := items[..|items| - 1];
    if i < |items| - 1 {
      CteAliasesCover(ctes, p, i);
      assert p[i] == items[i];
    }
  }

  /** `cteAliases.get(alias)`: a qualifier is looked up only when it is a string. */
  function CteOf(aliases: map<string, string>, table: G.JsText): Option<string> {
    if table.Text? && table.s in aliases then Some(aliases[table.s]) else None
  }

  // ---------------------------------------------------------------------
  // The builder state.

  class ParserSession {
    var graph: G.LegacyGraph
    var cteAliases: map<string, string>

    ghost predicate Valid()
      reads this
    {
      G.Indexed(graph) && AllShaped(graph.edges)
    }

    constructor ()
      ensures Valid()
      ensures graph == G.LegacyGraph([], [], Empty(), Empty()) && cteAliases == map[]
    {
      graph := G.LegacyGraph([], [], Empty(), Empty());
      cteAliases := map[];
    }

    /** `createNode`: always appends. */
    method CreateNode(node: G.LegacyNode) returns (created: G.LegacyNode)
      requires Valid()
      modifies this
      ensures Valid() && TraversalStep(old(graph), graph)
      ensures created == node
      ensures graph == old(graph).(nodes := old(graph.nodes) + [node]) && cteAliases == old(cteAliases)
    {
      graph := graph.(nodes := graph.nodes + [node]);
      created := node;
    }

    /** `createEdge`: always appends. */
    method CreateEdge(source: string, target: string, edgeType: EdgeType, sourceHandle: string, targetHandle: string, caption: string)
      requires Valid()
      modifies this
      ensures Valid() && TraversalStep(old(graph), graph)
      ensures graph == old(graph).(edges := old(graph.edges) + [NewEdge(source, target, edgeType, sourceHandle, targetHandle, caption)])
      ensures cteAliases == old(cteAliases)
    {
      graph := graph.(edges := graph.edges + [NewEdge(source, target, edgeType, sourceHandle, targetHandle, caption)]);
    }

    /** The column node of a reference, `isCteColumn` when its qualifier is a
        CTE alias; returns the CTE name the qualifier stands for. */
    method AddRefNode(r: ColRef) returns (cteName: Option<string>)
      requires Valid()
      modifies this
      ensures Valid() && TraversalStep(old(graph), graph) && cteAliases == old(cteAliases)
      ensures cteName == CteOf(cteAliases, r.table)
      ensures graph.nodes == old(graph.nodes) + [RefNode(r, cteName.Some?)]
      ensures graph.edges == old(graph.edges)
    {
      cteName := CteOf(cteAliases, r.table);
      var _ := CreateNode(RefNode(r, cteName.Some?));
    }

    /** A `cte_reference` edge, created only when the CTE column it starts
        from is indexed. */
    method LinkCteColumn(cteColumnId: string, source: string, target: string, sourceHandle: string, targetHandle: string, caption: string)
      requires Valid()
      modifies this
      ensures Valid() && TraversalStep(old(graph), graph) && cteAliases == old(cteAliases)
      ensures cteColumnId in old(graph.columnNodes.entries) ==>
        graph == old(graph).(edges := old(graph.edges) + [NewEdge(source, target, CteReference, sourceHandle, targetHandle, caption)])
      ensures cteColumnId !in old(graph.columnNodes.entries) ==> graph == old(graph)
    {
      if cteColumnId in graph.columnNodes.entries {
        CreateEdge(source, target, CteReference, sourceHandle, targetHandle, caption);
      }
    }

    /** A FROM item of a CTE body: a new node, indexed under `as || table`. */
    method AddCteSource(item: FromItem)
      requires Valid()
      modifies this
      ensures Valid()
      ensures var key := G.KeyOf(item).Render();
        var node := G.FromTableNode(TableId(key), item);
        graph == old(graph).(nodes := old(graph.nodes) + [node], tableNodes := old(graph.tableNodes).Put(key, node))
      ensures G.LegacyGrows(old(graph), graph) && G.KeyOf(item).Render() in graph.tableNodes.entries
      ensures cteAliases == old(cteAliases)
    {
      var key := G.KeyOf(item).Render();
      var node := CreateNode(G.FromTableNode(TableId(key), item));
      graph := graph.(tableNodes := graph.tableNodes.Put(key, node));
    }

    /** A projected item of a CTE body. Its name is the alias, else the
        referenced column, else synthetic; only an unaliased column
        reference with a qualifier is linked to its source column. */
    method ProcessCteColumn(item: SelectItem, cteId: string, cteName: string, names: NameSupply) returns (name: string)
      requires Valid()
      modifies this, names
      ensures Valid()
      ensures NamedAs(item, name)
      ensures graph == CteColumnAfter(old(graph), item, cteId, cteName, name)
      ensures cteAliases == old(cteAliases)
    {
      if item.alias != "" {
        name := item.alias;
      } else if item.expr.ColumnRef? {
        name := item.expr.column;
      } else {
        var suffix := names.Next();
        name := "expr_" + suffix;
      }
      var columnId := cteName + "_" + name;
      var node := CreateNode(G.ColumnNode(columnId, name, cteId, true));
      graph := graph.(columnNodes := graph.columnNodes.Put(columnId, node));
      if item.alias == "" && item.expr.ColumnRef? && item.expr.table != "" {
        var sourceColumnId := item.expr.table + "_" + item.expr.column;
        if sourceColumnId !in graph.columnNodes.entries {
          var source := CreateNode(G.ColumnNode(sourceColumnId, item.expr.column, TableId(item.expr.table), false));
          graph := graph.(columnNodes := graph.columnNodes.Put(sourceColumnId, source));
        }
        CreateEdge(TableId(item.expr.table), TableId(cteName), ColumnMapping,
                   "source-" + sourceColumnId, "target-" + columnId, "");
      }
    }

    /** One CTE: its node (always new) indexed under its name, the items
        of its FROM clause indexed without any edge, then its columns; the
        only edges added are `column_mapping` edges into the CTE. */
    method ProcessCte(cte: Cte, names: NameSupply)
      requires Valid()
      modifies this, names
      ensures Valid()
      ensures G.LegacyGrows(old(graph), graph)
      ensures cte.name in graph.tableNodes.entries
      ensures CteDone(graph, cte)
      ensures G.MappingEdgesFrom(graph.edges, |old(graph.edges)|, cte.name)
      ensures cteAliases == old(cteAliases)
    {
      var cteId := TableId(cte.name);
      var node := CreateNode(G.LegacyNode(cteId, CteType, G.Text(cte.name), G.Undefined, G.Undefined, G.Undefined, true, false));
      graph := graph.(tableNodes := graph.tableNodes.Put(cte.name, node));
      ghost var g0 := graph;
      if cte.stmt.Some? && cte.stmt.value.from.FromItems? {
        AddCteSources(cte.stmt.value.from.items);
      }
      ghost var g1 := graph;
      if cte.stmt.Some? && cte.stmt.value.columns.Columns? {
        ProcessCteColumns(cte.stmt.value.columns.items, cteId, cte.name, names);
      }
      G.LegacyGrowsTransitive(old(graph), g0, g1);
      G.LegacyGrowsTransitive(old(graph), g1, graph);
    }

    /** The FROM items of a CTE body, each indexed under `as || table`; no edge. */
    method AddCteSources(items: seq<FromItem>)
      requires Valid()
      modifies this
      ensures Valid() && G.LegacyGrows(old(graph), graph) && cteAliases == old(cteAliases)
      ensures graph.edges == old(graph.edges) && graph.columnNodes == old(graph.columnNodes)
      ensures G.KeysIndexed(graph, items, |items|)
    {
      var n := 0;
      while n < |items|
        invariant 0 <= n <= |items|
        invariant Valid() && G.LegacyGrows(old(graph), graph) && cteAliases == old(cteAliases)
        invariant graph.edges == old(graph.edges) && graph.columnNodes == old(graph.columnNodes)
        invariant G.KeysIndexed(graph, items, n)
      {
        ghost var g1 := graph;
        AddCteSource(items[n]);
        G.KeysIndexedStep(g1, graph, items, n);
        G.LegacyGrowsTransitive(old(graph), g1, graph);
        n := n + 1;
      }
    }

    /** The projected items of a CTE body, in order: every one is done, the
        table index is untouched, and every new edge is a `column_mapping`
        edge into the CTE. */
    method ProcessCteColumns(items: seq<SelectItem>, cteId: string, cteName: string, names: NameSupply)
      requires Valid()
      modifies this, names
      ensures Valid() && G.LegacyGrows(old(graph), graph) && cteAliases == old(cteAliases)
      ensures graph.tableNodes == old(graph.tableNodes)
      ensures G.MappingEdgesFrom(graph.edges, |old(graph.edges)|, cteName)
      ensures forall i :: 0 <= i < |items| ==> CteColumnDone(graph, items[i], cteName)
    {
      var n := 0;
      while n < |items|
        invariant 0 <= n <= |items|
        invariant Valid() && cteAliases == old(cteAliases)
        invariant CteColumnsDoneFrom(old(graph), graph, items, n, cteName)
      {
        ghost var g1 := graph;
        var name := ProcessCteColumn(items[n], cteId, cteName, names);
        CteColumnsStep(old(graph), g1, items, n, cteId, cteName, name);
        n := n + 1;
      }
    }

    /** The CTE-alias pass over the main FROM clause. */
    method TrackCteAliases(ctes: seq<Cte>, items: seq<FromItem>)
      modifies this
      ensures cteAliases == CteAliasesOf(ctes, items) && graph == old(graph)
    {
      cteAliases := map[];
      var n := 0;
      while n < |items|
        invariant 0 <= n <= |items|
        invariant cteAliases == CteAliasesOf(ctes, items[..n]) && graph == old(graph)
      {
        assert items[..n + 1][..n] == items[..n];
        var j := Find(ctes, NamesTable(items[n]));
        if j >= 0 {
          cteAliases := cteAliases[G.KeyOf(items[n]).Render() := items[n].table];
        }
        n := n + 1;
      }
      assert items[..|items|] == items;
    }

    /** A main FROM item: created and indexed under `as || table` only when
        that key is not indexed yet. */
    method AddMainTable(item: FromItem)
      requires Valid()
      modifies this
      ensures Valid()
      ensures G.KeyOf(item).Render() in graph.tableNodes.entries
      ensures G.KeyOf(item).Render() in old(graph.tableNodes.entries) ==> graph == old(graph)
      ensures G.KeyOf(item).Render() !in old(graph.tableNodes.entries) ==>
        var node := G.FromTableNode(TableId(G.KeyOf(item).Render()), item);
        graph == old(graph).(nodes := old(graph.nodes) + [node], tableNodes := old(graph.tableNodes).Put(G.KeyOf(item).Render(), node))
      ensures cteAliases == old(cteAliases)
    {
      var key := G.KeyOf(item).Render();
      if key !in graph.tableNodes.entries {
        var node := CreateNode(G.FromTableNode(TableId(key), item));
        graph := graph.(tableNodes := graph.tableNodes.Put(key, node));
      }
    }

    /** A column reference inside a CASE: its column node, its `used_in_expr`
        edge and, for a CTE column that exists, a `cte_reference` edge. */
    method RefInCase(r: ColRef, resultColumnId: string)
      requires Valid()
      modifies this
      ensures Valid() && TraversalStep(old(graph), graph) && cteAliases == old(cteAliases)
      ensures CaseEdge(r, resultColumnId) in graph.edges
      ensures var cte := CteOf(cteAliases, r.table);
        cte.Some? && cte.value + "_" + r.column in graph.columnNodes.entries ==>
          NewEdge(cte.value + "_" + r.column, RefId(r), CteReference,
                  "source_handle", "target_handle", "referenced_in_expression") in graph.edges
    {
      var cteName := AddRefNode(r);
      ghost var g1 := graph;
      CreateEdge(RefId(r), resultColumnId, UsedInExpr, "source_handle", "target_handle", "used_in_case");
      TraversalStepTransitive(old(graph), g1, graph);
      ghost var g2 := graph;
      if cteName.Some? {
        var cteColumnId := cteName.value + "_" + r.column;
        LinkCteColumn(cteColumnId, cteColumnId, RefId(r), "source_handle", "target_handle", "referenced_in_expression");
        TraversalStepTransitive(old(graph), g2, graph);
      }
      G.GrowsKeepsEdge(g2, graph, CaseEdge(r, resultColumnId));
    }

    /** `extractColumnRefsFromExpr`'s `traverse`. */
    method TraverseCase(e: Expr, resultColumnId: string)
      requires Valid()
      modifies this
      ensures Valid() && TraversalStep(old(graph), graph) && cteAliases == old(cteAliases)
      ensures CaseLinked(graph, e, resultColumnId)
      decreases e
    {
      match e
      case ColumnRef(_, _, _) =>
        RefInCase(RefOf(e), resultColumnId);
      case BinaryExpr(_, l, r) =>
        if l.Some? {
          TraverseCase(l.value, resultColumnId);
        }
        ghost var g1 := graph;
        if r.Some? {
          TraverseCase(r.value, resultColumnId);
          TraversalStepTransitive(old(graph), g1, graph);
        }
        if l.Some? {
          CaseLinkedGrows(g1, graph, l.value, resultColumnId);
        }
      case Case(_, arms) =>
        var i := 0;
        while i < |arms|
          invariant 0 <= i <= |arms|
          invariant Valid() && TraversalStep(old(graph), graph) && cteAliases == old(cteAliases)
          invariant forall j :: 0 <= j < i ==> ArmLinked(graph, arms[j], resultColumnId)
        {
          ghost var g1 := graph;
          TraverseArm(arms[i], resultColumnId);
          forall j | 0 <= j < i ensures ArmLinked(graph, arms[j], resultColumnId) {
            ArmLinkedGrows(g1, graph, arms[j], resultColumnId);
          }
          TraversalStepTransitive(old(graph), g1, graph);
          i := i + 1;
        }
        forall r | r in CaseRefs(e) ensures CaseEdge(r, resultColumnId) in graph.edges {
          ArmsCaseRefsMember(arms, r);
        }
      case _ =>
    }

    /** One `{cond, result}` argument of a CASE. */
    method TraverseArm(arm: CaseArm, resultColumnId: string)
      requires Valid()
      modifies this
      ensures Valid() && TraversalStep(old(graph), graph) && cteAliases == old(cteAliases)
      ensures ArmLinked(graph, arm, resultColumnId)
      decreases arm
    {
      if arm.cond.Some? {
        TraverseCase(arm.cond.value, resultColumnId);
      }
      ghost var g1 := graph;
      if arm.result.Some? {
        TraverseCase(arm.result.value, resultColumnId);
        TraversalStepTransitive(old(graph), g1, graph);
      }
      if arm.cond.Some? {
        CaseLinkedGrows(g1, graph, arm.cond.value, resultColumnId);
      }
    }

    /** One projected item of the main query: its result column node, then
        for a column reference its source column node, the `used_in_select`
        edge and, for a CTE column that exists, a `cte_reference` edge; for a
        CASE, the traversal of its arms. */
    method ProcessResultColumn(item: SelectItem, names: NameSupply)
      requires Valid()
      modifies this, names
      ensures Valid() && TraversalStep(old(graph), graph) && cteAliases == old(cteAliases)
      ensures ColumnDone(graph, item)
    {
      var name;
      if item.alias != "" {
        name := item.alias;
      } else if item.expr.ColumnRef? {
        name := item.expr.column;
      } else {
        var suffix := names.Next();
        name := "expr_" + suffix;
      }
      var resultColumnId := "Result_" + name;
      var _ := CreateNode(ResultColumnNode(name));
      ghost var g1 := graph;
      assert ResultColumnNode(name) in g1.nodes;
      if item.expr.ColumnRef? {
        SelectColumn(RefOf(item.expr), resultColumnId);
        TraversalStepTransitive(old(graph), g1, graph);
      } else if item.expr.Case? {
        TraverseCase(item.expr, resultColumnId);
        TraversalStepTransitive(old(graph), g1, graph);
      }
      GrowsKeepsNode(g1, graph, ResultColumnNode(name));
      assert ColumnDoneAs(graph, item, name);
    }

    /** The source side of a projected column reference. */
    method SelectColumn(r: ColRef, resultColumnId: string)
      requires Valid()
      modifies this
      ensures Valid() && TraversalStep(old(graph), graph) && cteAliases == old(cteAliases)
      ensures SelectEdge(r, resultColumnId) in graph.edges
      ensures var cte := CteOf(cteAliases, r.table);
        cte.Some? && cte.value + "_" + r.column in graph.columnNodes.entries ==>
          NewEdge("table_" + cte.value, "table_" + r.table.Render(), CteReference,
                  "source-" + (cte.value + "_" + r.column), "target-" + RefId(r), "referenced_from_main_query") in graph.edges
    {
      var cteName := AddRefNode(r);
      ghost var g1 := graph;
      CreateEdge("table_" + r.table.Render(), "table_Result", ColumnMapping, "source-" + RefId(r), "target-" + resultColumnId, "used_in_select");
      TraversalStepTransitive(old(graph), g1, graph);
      ghost var g2 := graph;
      if cteName.Some? {
        var cteColumnId := cteName.value + "_" + r.column;
        LinkCteColumn(cteColumnId, "table_" + cteName.value, "table_" + r.table.Render(),
                      "source-" + cteColumnId, "target-" + RefId(r), "referenced_from_main_query");
        TraversalStepTransitive(old(graph), g2, graph);
        if cteColumnId in g2.columnNodes.entries {
          assert graph.edges[|g2.edges|] == NewEdge("table_" + cteName.value, "table_" + r.table.Render(), CteReference,
                                                    "source-" + cteColumnId, "target-" + RefId(r), "referenced_from_main_query");
        }
      }
      G.GrowsKeepsEdge(g2, graph, SelectEdge(r, resultColumnId));
    }

    /** A join equality: both column nodes, the `join` edge labelled with the
        formatted condition, and a `cte_reference` edge for each side that is
        a CTE column that exists. */
    method JoinPair(p: EqPair, joinLabel: string)
      requires Valid()
      modifies this
      ensures Valid() && TraversalStep(old(graph), graph) && cteAliases == old(cteAliases)
      ensures JoinEdge(p, joinLabel) in graph.edges
      ensures JoinSideLinked(graph, cteAliases, p.left) && JoinSideLinked(graph, cteAliases, p.right)
    {
      var leftCte := AddRefNode(p.left);
      ghost var g1 := graph;
      var rightCte := AddRefNode(p.right);
      TraversalStepTransitive(old(graph), g1, graph);
      ghost var g2 := graph;
      CreateEdge(RefId(p.left), RefId(p.right), Join, "source_handle", "target_handle", joinLabel);
      TraversalStepTransitive(old(graph), g2, graph);
      ghost var g3 := graph;
      LinkJoinSide(p.left, leftCte);
      ghost var g4 := graph;
      LinkJoinSide(p.right, rightCte);
      TraversalStepTransitive(g3, g4, graph);
      TraversalStepTransitive(old(graph), g3, graph);
      G.GrowsKeepsEdge(g3, graph, JoinEdge(p, joinLabel));
      JoinSideLinkedGrows(g4, graph, cteAliases, p.left);
    }

    /** One side of a join equality: a `cte_reference` edge from the CTE
        column, when the qualifier names a CTE and that column exists. */
    method LinkJoinSide(r: ColRef, cteName: Option<string>)
      requires Valid() && cteName == CteOf(cteAliases, r.table)
      modifies this
      ensures Valid() && TraversalStep(old(graph), graph) && cteAliases == old(cteAliases)
      ensures JoinSideLinked(graph, cteAliases, r)
    {
      if cteName.Some? && cteName.value != "" {
        var cteColumnId := cteName.value + "_" + r.column;
        LinkCteColumn(cteColumnId, cteColumnId, RefId(r), "source_handle", "target_handle", "referenced_in_join");
        if cteColumnId in old(graph.columnNodes.entries) {
          assert graph.edges[|old(graph.edges)|] == NewEdge(cteColumnId, RefId(r), CteReference, "source_handle", "target_handle", "referenced_in_join");
        }
      }
    }

    /** The inner `extractJoinColumns`: every equality between two column
        references reached through `AND`/`OR` gets its join edge. */
    method TraverseJoin(e: Expr, joinLabel: string)
      requires Valid()
      modifies this
      ensures Valid() && TraversalStep(old(graph), graph) && cteAliases == old(cteAliases)
      ensures forall p :: p in JoinPairs(e) ==> JoinEdge(p, joinLabel) in graph.edges
      decreases e
    {
      match e
      case BinaryExpr(op, l, r) =>
        if op == "=" {
          if l.Some? && r.Some? && l.value.ColumnRef? && r.value.ColumnRef? {
            JoinPair(EqPair(RefOf(l.value), RefOf(r.value)), joinLabel);
          }
        } else if op == "AND" || op == "OR" {
          if l.Some? {
            TraverseJoin(l.value, joinLabel);
          }
          ghost var g1 := graph;
          if r.Some? {
            TraverseJoin(r.value, joinLabel);
            TraversalStepTransitive(old(graph), g1, graph);
          }
          forall p | p in OptJoinPairs(l) ensures JoinEdge(p, joinLabel) in graph.edges {
            G.GrowsKeepsEdge(g1, graph, JoinEdge(p, joinLabel));
          }
        }
      case _ =>
    }

    /** The CTE block: every CTE is indexed under its name. */
    method ProcessCtes(ctes: seq<Cte>, names: NameSupply)
      requires Valid()
      modifies this, names
      ensures Valid()
      ensures G.LegacyGrows(old(graph), graph)
      ensures G.CtesIndexed(graph, ctes, |ctes|)
      ensures CtesDone(graph, ctes, |ctes|)
      ensures cteAliases == old(cteAliases)
    {
      var j := 0;
      while j < |ctes|
        invariant 0 <= j <= |ctes|
        invariant Valid() && G.LegacyGrows(old(graph), graph) && cteAliases == old(cteAliases)
        invariant G.CtesIndexed(graph, ctes, j)
        invariant CtesDone(graph, ctes, j)
      {
        ghost var g1 := graph;
        ProcessCte(ctes[j], names);
        G.CteStep(g1, graph, ctes, j);
        CtesDoneStep(g1, graph, ctes, j);
        G.LegacyGrowsTransitive(old(graph), g1, graph);
        j := j + 1;
      }
    }

    /** Everything before the column pass: the CTE block (whose alias pass
        over the main FROM clause runs only when there are CTEs), the main
        FROM items and the result table. */
    method IndexTables(ast: Stmt, names: NameSupply)
      requires Valid() && ast.from.FromItems?
      modifies this, names
      ensures Valid()
      ensures "Result" in graph.tableNodes.entries && graph.tableNodes.entries["Result"] == G.ResultNode()
      ensures G.CtesIndexed(graph, ast.ctes, |ast.ctes|)
      ensures G.KeysIndexed(graph, ast.from.items, |ast.from.items|)
      ensures CtesDone(graph, ast.ctes, |ast.ctes|)
    {
      ProcessCtes(ast.ctes, names);
      ghost var g0 := graph;
      if |ast.ctes| > 0 {
        TrackCteAliases(ast.ctes, ast.from.items);
      }
      AddMainTables(ast.from.items);
      ghost var g2 := graph;
      AddResultTable();
      G.LegacyGrowsTransitive(g0, g2, graph);
      CtesDoneGrows(g0, graph, ast.ctes);
      assert G.KeysIndexed(graph, ast.from.items, |ast.from.items|) by {
        assert g2.tableNodes.entries.Keys <= graph.tableNodes.entries.Keys;
      }
    }

    /** `tableNodes['Result'] = createNode('table_Result', 'table', { name: 'Result' })` */
    method AddResultTable()
      requires Valid()
      modifies this
      ensures Valid()
      ensures G.LegacyGrows(old(graph), graph)
      ensures graph.tableNodes == old(graph.tableNodes).Put("Result", G.ResultNode())
    {
      var _ := CreateNode(G.ResultNode());
      graph := graph.(tableNodes := graph.tableNodes.Put("Result", G.ResultNode()));
    }

    /** The main FROM pass: every item's `as || table` becomes a key. */
    method AddMainTables(items: seq<FromItem>)
      requires Valid()
      modifies this
      ensures Valid()
      ensures G.LegacyGrows(old(graph), graph) && graph.edges == old(graph.edges)
      ensures G.KeysIndexed(graph, items, |items|)
      ensures cteAliases == old(cteAliases)
    {
      var n := 0;
      while n < |items|
        invariant 0 <= n <= |items|
        invariant Valid() && G.LegacyGrows(old(graph), graph) && graph.edges == old(graph.edges)
        invariant G.KeysIndexed(graph, items, n) && cteAliases == old(cteAliases)
      {
        ghost var g1 := graph;
        AddMainTable(items[n]);
        G.LegacyGrowsTransitive(old(graph), g1, graph);
        n := n + 1;
      }
    }

    /** The column pass of the main query. */
    method ProcessResultColumns(items: seq<SelectItem>, names: NameSupply)
      requires Valid()
      modifies this, names
      ensures Valid() && TraversalStep(old(graph), graph) && cteAliases == old(cteAliases)
      ensures ColumnsDone(graph, items, |items|)
    {
      var n := 0;
      while n < |items|
        invariant 0 <= n <= |items|
        invariant Valid() && TraversalStep(old(graph), graph) && cteAliases == old(cteAliases)
        invariant ColumnsDone(graph, items, n)
      {
        ghost var g1 := graph;
        ProcessResultColumn(items[n], names);
        ColumnsDoneGrows(g1, graph, items, n);
        TraversalStepTransitive(old(graph), g1, graph);
        n := n + 1;
      }
    }

    /** The join pass: every FROM item after the first with a join type and
        an ON condition gets the join edges of its condition, labelled with
        the formatted condition. */
    method ProcessJoins(items: seq<FromItem>, json: Option<Expr> -> string)
      requires Valid()
      modifies this
      ensures Valid() && TraversalStep(old(graph), graph) && cteAliases == old(cteAliases)
      ensures JoinsLinked(graph, items, |items|, json)
    {
      var n := 0;
      while n < |items|
        invariant 0 <= n <= |items|
        invariant Valid() && TraversalStep(old(graph), graph) && cteAliases == old(cteAliases)
        invariant JoinsLinked(graph, items, n, json)
      {
        ghost var g1 := graph;
        ProcessJoin(items, n, json);
        TraversalStepTransitive(old(graph), g1, graph);
        n := n + 1;
      }
    }

    /** One FROM item of the join pass. */
    method ProcessJoin(items: seq<FromItem>, n: nat, json: Option<Expr> -> string)
      requires Valid() && n < |items| && JoinsLinked(graph, items, n, json)
      modifies this
      ensures Valid() && TraversalStep(old(graph), graph) && cteAliases == old(cteAliases)
      ensures JoinsLinked(graph, items, n + 1, json)
    {
      if n > 0 && items[n].join != "" && items[n].on.Some? {
        var joinLabel := FormatJoinCondition(items[n].join, items[n].on, json);
        TraverseJoin(items[n].on.value, joinLabel);
        JoinsLinkedGrows(old(graph), graph, items, n, json);
      }
    }
  }

  /** A side of a join equality whose qualifier names a CTE column that
      exists has its `cte_reference` edge from that column. */
  ghost predicate JoinSideLinked(g: G.LegacyGraph, cteAliases: map<string, string>, r: ColRef) {
    var cte := CteOf(cteAliases, r.table);
    cte.Some? && cte.value != "" && cte.value + "_" + r.column in g.columnNodes.entries ==>
      NewEdge(cte.value + "_" + r.column, RefId(r), CteReference, "source_handle", "target_handle", "referenced_in_join") in g.edges
  }

  lemma JoinSideLinkedGrows(g0: G.LegacyGraph, g1: G.LegacyGraph, cteAliases: map<string, string>, r: ColRef)
    requires TraversalStep(g0, g1) && JoinSideLinked(g0, cteAliases, r)
    ensures JoinSideLinked(g1, cteAliases, r)
  {
    var cte := CteOf(cteAliases, r.table);
    if cte.Some? && cte.value != "" && cte.value + "_" + r.column in g0.columnNodes.entries {
      G.GrowsKeepsEdge(g0, g1, NewEdge(cte.value + "_" + r.column, RefId(r), CteReference, "source_handle", "target_handle", "referenced_in_join"));
    }
  }

  /** The arms' references are linked. */
  ghost predicate ArmLinked(g: G.LegacyGraph, arm: CaseArm, resultColumnId: string) {
    forall r :: r in ArmCaseRefs(arm) ==> CaseEdge(r, resultColumnId) in g.edges
  }

  lemma ArmLinkedGrows(g0: G.LegacyGraph, g1: G.LegacyGraph, arm: CaseArm, resultColumnId: string)
    requires Extends(g0.edges, g1.edges) && ArmLinked(g0, arm, resultColumnId)
    ensures ArmLinked(g1, arm, resultColumnId)
  {
    forall r | r in ArmCaseRefs(arm) ensures CaseEdge(r, resultColumnId) in g1.edges {
      G.GrowsKeepsEdge(g0, g1, CaseEdge(r, resultColumnId));
    }
  }

  /** A step of the column and join phases: nodes and edges appended, the
      two indices untouched. */
  ghost predicate TraversalStep(g0: G.LegacyGraph, g1: G.LegacyGraph) {
    && Extends(g0.nodes, g1.nodes) && Extends(g0.edges, g1.edges)
    && g1.tableNodes == g0.tableNodes && g1.columnNodes == g0.columnNodes
  }

  lemma TraversalStepTransitive(g0: G.LegacyGraph, g1: G.LegacyGraph, g2: G.LegacyGraph)
    requires TraversalStep(g0, g1) && TraversalStep(g1, g2)
    ensures TraversalStep(g0, g2)
  {
    assert g2.nodes[..|g0.nodes|] == g2.nodes[..|g1.nodes|][..|g0.nodes|];
    assert g2.edges[..|g0.edges|] == g2.edges[..|g1.edges|][..|g0.edges|];
  }

  /** A CTE column as a function of the graph: the output column
      `<cte>_<name>`, then, for an unaliased qualified column reference, the
      source column if not indexed and the `column_mapping` edge. */
  function CteColumnAfter(g: G.LegacyGraph, item: SelectItem, cteId: string, cteName: string, name: string): G.LegacyGraph
    requires g.columnNodes.Valid()
  {
    var g1 := G.WithOutputColumn(g, cteName + "_" + name, name, cteId);
    if item.alias == "" && item.expr.ColumnRef? && item.expr.table != "" then
      G.WithSource(g1, item.expr.table, item.expr.column, cteName, cteName + "_" + name)
    else g1
  }

  lemma CteColumnGrows(g: G.LegacyGraph, item: SelectItem, cteId: string, cteName: string, name: string)
    requires G.Indexed(g) && AllShaped(g.edges)
    ensures G.Indexed(CteColumnAfter(g, item, cteId, cteName, name))
    ensures AllShaped(CteColumnAfter(g, item, cteId, cteName, name).edges)
    ensures G.LegacyGrows(g, CteColumnAfter(g, item, cteId, cteName, name))
    ensures cteName + "_" + name in CteColumnAfter(g, item, cteId, cteName, name).columnNodes.entries
  {
    var columnId := cteName + "_" + name;
    var g1 := G.WithOutputColumn(g, columnId, name, cteId);
    G.OutputColumnIndexed(g, columnId, name, cteId);
    assert g1.edges == g.edges;
    if item.alias == "" && item.expr.ColumnRef? && item.expr.table != "" {
      var g2 := G.WithSource(g1, item.expr.table, item.expr.column, cteName, columnId);
      G.SourceIndexed(g1, item.expr.table, item.expr.column, cteName, columnId);
      var e := G.MappingEdge(item.expr.table, item.expr.column, cteName, columnId);
      assert g2.edges == g.edges + [e];
      assert Shaped(e);
      G.LegacyGrowsTransitive(g, g1, g2);
    }
  }

  /** What one CTE column adds: the output column is indexed, the table
      index is untouched, the only new edge is the `column_mapping` edge of
      an unaliased qualified column reference. */
  lemma CteColumnEdges(g: G.LegacyGraph, item: SelectItem, cteId: string, cteName: string, name: string)
    requires G.Indexed(g)
    ensures var g' := CteColumnAfter(g, item, cteId, cteName, name);
      && g'.tableNodes == g.tableNodes
      && G.MappingEdgesFrom(g'.edges, |g.edges|, cteName)
      && CteColumnDoneAs(g', item, cteName, name)
  {
  }

  lemma MappingEdgesAppend(e0: seq<GraphEdge>, e1: seq<GraphEdge>, e2: seq<GraphEdge>, tableName: string)
    requires G.MappingEdgesFrom(e1, |e0|, tableName) && G.MappingEdgesFrom(e2, |e1|, tableName) && Extends(e1, e2)
    ensures G.MappingEdgesFrom(e2, |e0|, tableName)
  {
    assert forall j :: 0 <= j < |e1| ==> e2[j] == e1[j];
  }

  /** The first `n` projected items of a CTE body processed from `g0` to `g`. */
  ghost predicate CteColumnsDoneFrom(g0: G.LegacyGraph, g: G.LegacyGraph, items: seq<SelectItem>, n: nat, cteName: string) {
    && G.LegacyGrows(g0, g) && g.tableNodes == g0.tableNodes
    && G.MappingEdgesFrom(g.edges, |g0.edges|, cteName)
    && forall i :: 0 <= i < n && i < |items| ==> CteColumnDone(g, items[i], cteName)
  }

  lemma CteColumnsStep(g0: G.LegacyGraph, g1: G.LegacyGraph, items: seq<SelectItem>, n: nat, cteId: string, cteName: string, name: string)
    requires n < |items| && G.Indexed(g1) && AllShaped(g1.edges) && NamedAs(items[n], name)
    requires CteColumnsDoneFrom(g0, g1, items, n, cteName)
    ensures CteColumnsDoneFrom(g0, CteColumnAfter(g1, items[n], cteId, cteName, name), items, n + 1, cteName)
  {
    var g2 := CteColumnAfter(g1, items[n], cteId, cteName, name);
    CteColumnGrows(g1, items[n], cteId, cteName, name);
    CteColumnEdges(g1, items[n], cteId, cteName, name);
    MappingEdgesAppend(g0.edges, g1.edges, g2.edges, cteName);
    forall i | 0 <= i < n
      ensures CteColumnDone(g2, items[i], cteName)
    {
      CteColumnDoneGrows(g1, g2, items[i], cteName);
    }
    assert CteColumnDoneAs(g2, items[n], cteName, name);
    G.LegacyGrowsTransitive(g0, g1, g2);
  }

  /** What the CTE block guarantees for one projected item of a CTE body:
      its output column `<cte>_<name>` is indexed, and an unaliased
      qualified column reference has its `column_mapping` edge from the
      source column. */
  ghost predicate CteColumnDone(g: G.LegacyGraph, item: SelectItem, cteName: string) {
    exists name :: NamedAs(item, name) && CteColumnDoneAs(g, item, cteName, name)
  }

  ghost predicate CteColumnDoneAs(g: G.LegacyGraph, item: SelectItem, cteName: string, name: string) {
    && cteName + "_" + name in g.columnNodes.entries
    && (item.alias == "" && item.expr.ColumnRef? && item.expr.table != "" ==>
          G.MappingEdge(item.expr.table, item.expr.column, cteName, cteName + "_" + name) in g.edges)
  }

  /** One CTE is done: its node and its FROM items are indexed and every
      projected item of its body is done. */
  ghost predicate CteDone(g: G.LegacyGraph, cte: Cte) {
    && cte.name in g.tableNodes.entries
    && G.KeysIndexed(g, G.BodyFrom(cte.stmt), |G.BodyFrom(cte.stmt)|)
    && forall i :: 0 <= i < |G.BodyColumns(cte.stmt)| ==> CteColumnDone(g, G.BodyColumns(cte.stmt)[i], cte.name)
  }

  ghost predicate CtesDone(g: G.LegacyGraph, ctes: seq<Cte>, n: nat) {
    forall i :: 0 <= i < n && i < |ctes| ==> CteDone(g, ctes[i])
  }

  lemma CteColumnDoneGrows(g0: G.LegacyGraph, g1: G.LegacyGraph, item: SelectItem, cteName: string)
    requires G.LegacyGrows(g0, g1) && CteColumnDone(g0, item, cteName)
    ensures CteColumnDone(g1, item, cteName)
  {
    var name :| NamedAs(item, name) && CteColumnDoneAs(g0, item, cteName, name);
    if item.alias == "" && item.expr.ColumnRef? && item.expr.table != "" {
      G.GrowsKeepsEdge(g0, g1, G.MappingEdge(item.expr.table, item.expr.column, cteName, cteName + "_" + name));
    }
    assert CteColumnDoneAs(g1, item, cteName, name);
  }

  lemma CteDoneGrows(g0: G.LegacyGraph, g1: G.LegacyGraph, cte: Cte)
    requires G.LegacyGrows(g0, g1) && CteDone(g0, cte)
    ensures CteDone(g1, cte)
  {
    forall i | 0 <= i < |G.BodyColumns(cte.stmt)|
      ensures CteColumnDone(g1, G.BodyColumns(cte.stmt)[i], cte.name)
    {
      CteColumnDoneGrows(g0, g1, G.BodyColumns(cte.stmt)[i], cte.name);
    }
  }

  lemma CtesDoneGrows(g0: G.LegacyGraph, g1: G.LegacyGraph, ctes: seq<Cte>)
    requires G.LegacyGrows(g0, g1) && CtesDone(g0, ctes, |ctes|)
    ensures CtesDone(g1, ctes, |ctes|)
  {
    forall i | 0 <= i < |ctes|
      ensures CteDone(g1, ctes[i])
    {
      CteDoneGrows(g0, g1, ctes[i]);
    }
  }

  lemma CtesDoneStep(g0: G.LegacyGraph, g1: G.LegacyGraph, ctes: seq<Cte>, n: nat)
    requires n < |ctes| && G.LegacyGrows(g0, g1) && CtesDone(g0, ctes, n) && CteDone(g1, ctes[n])
    ensures CtesDone(g1, ctes, n + 1)
  {
    forall i | 0 <= i < n
      ensures CteDone(g1, ctes[i])
    {
      CteDoneGrows(g0, g1, ctes[i]);
    }
  }

  // ---------------------------------------------------------------------
  // `sqlAstToGraph`

  /** `sqlAstToGraph`, with `json` standing for `JSON.stringify` in the join
      labels. An array of statements, a statement without FROM or without a
      column list makes a `forEach` throw. Otherwise: the result table is the
      node `table_Result` under the key `Result`; every CTE and every main
      FROM item's `as || table` is a key of the table index; every projected
      item has its `Result_<name>` node and its edges; every equality of a
      join's ON condition has its labelled `join` edge; and every edge id
      names its handles and type. */
  method SqlAstToGraph(input: Input, json: Option<Expr> -> string) returns (r: Result<G.LegacyGraph>)
    ensures r.Failure? <==> input.Many? || input.stmt.from.NoFrom? || input.stmt.columns.NoColumns?
    ensures r.Success? ==> G.Indexed(r.value) && AllShaped(r.value.edges)
    ensures r.Success? ==>
      var ast := input.stmt;
      && "Result" in r.value.tableNodes.entries && r.value.tableNodes.entries["Result"] == G.ResultNode()
      && G.CtesIndexed(r.value, ast.ctes, |ast.ctes|)
      && G.KeysIndexed(r.value, FromOf(ast), |FromOf(ast)|)
      && ColumnsDone(r.value, ColumnsOf(ast), |ColumnsOf(ast)|)
      && JoinsLinked(r.value, FromOf(ast), |FromOf(ast)|, json)
      && CtesDone(r.value, ast.ctes, |ast.ctes|)
  {
    if input.Many? {
      return Failure("TypeError: cannot read properties of undefined (reading 'forEach')");
    }
    var ast := input.stmt;
    if ast.from.NoFrom? {
      return Failure("TypeError: cannot read properties of null (reading 'forEach')");
    }
    var session := new ParserSession();
    var names := new NameSupply();
    session.IndexTables(ast, names);
    if ast.columns.NoColumns? {
      return Failure("TypeError: cannot read properties of null (reading 'forEach')");
    }
    ghost var g0 := session.graph;
    session.ProcessResultColumns(ast.columns.items, names);
    ghost var g1 := session.graph;
    session.ProcessJoins(ast.from.items, json);
    ColumnsDoneGrows(g1, session.graph, ast.columns.items, |ast.columns.items|);
    TraversalStepTransitive(g0, g1, session.graph);
    CtesDoneGrows(g0, session.graph, ast.ctes);
    assert session.graph.tableNodes == g0.tableNodes;
    r := Success(session.graph);
  }

  /** `getFilteredEdges`: every edge, in order, reduced to the five fields
      the diagram reads; nothing is filtered out. */
  function GetFilteredEdges(g: G.LegacyGraph): (r: seq<FlowEdge>)
    ensures |r| == |g.edges|
    ensures forall i :: 0 <= i < |r| ==>
      r[i] == FlowEdge(g.edges[i].id, g.edges[i].source, g.edges[i].target,
                       HandleText(g.edges[i].sourceHandle), HandleText(g.edges[i].targetHandle))
  {
    seq(|g.edges|, i requires 0 <= i < |g.edges| =>
      FlowEdge(g.edges[i].id, g.edges[i].source, g.edges[i].target,
               HandleText(g.edges[i].sourceHandle), HandleText(g.edges[i].targetHandle)))
  }

  /** Keeping every edge passes on at least what the filtering version of
      the later builders passes on, and for a graph of this builder also
      the `join`, `cte_reference` and `used_in_expr` edges. */
  lemma UnfilteredKeepsDiagramEdges(g: G.LegacyGraph, k: int)
    requires 0 <= k < |Diagram.GetFilteredEdges(g.edges)|
    ensures Diagram.GetFilteredEdges(g.edges)[k] in GetFilteredEdges(g)
  {
    var ix := KeptIndices(g.edges, Diagram.DiagramEdge);
    var i := ix[k];
    assert GetFilteredEdges(g)[i] == Diagram.GetFilteredEdges(g.edges)[k];
  }
}

=== FILE: line_index.dfy ===
/** Offsets and (line, column) positions in the SQL text, as
    `computeLineStarts` and `toLineCol` (`src/parser/locResolver.ts`)
    convert between them. Lines and columns count from 1. */
module LineIndex {

  datatype TextPoint = TextPoint(line: int, column: int)

  /** The offset at which each line of `sql` starts: 0, then one past every
      line feed, in order. */
  function LineStarts(sql: string): (starts: seq<int>)
    ensures |starts| >= 1 && starts[0] == 0
  {
    if |sql| == 0 then [0]
    else LineStarts(sql[..|sql| - 1]) + (if sql[|sql| - 1] == '\n' then [|sql|] else [])
  }

  ghost predicate Increasing(s: seq<int>) {
    forall i, j :: 0 <= i < j < |s| ==> s[i] < s[j]
  }

  /** The line starts increase strictly, stay within the text, and are
      exactly 0 and the offsets just after a line feed. */
  lemma {:induction false} LineStartsShape(sql: string)
    ensures Increasing(LineStarts(sql)) && Sorted(LineStarts(sql))
    ensures forall k :: 0 <= k < |LineStarts(sql)| ==> 0 <= LineStarts(sql)[k] <= |sql|
    ensures forall p :: 1 <= p <= |sql| ==> (p in LineStarts(sql) <==> sql[p - 1] == '\n')
  {
    if |sql| > 0 {
      var pre := sql[..|sql| - 1];
      LineStartsShape(pre);
      assert forall k :: 0 <= k < |pre| ==> sql[k] == pre[k];
    }
  }

  /** `computeLineStarts`: one pass over the text. */
  method ComputeLineStarts(sql: string) returns (starts: seq<int>)
    ensures starts == LineStarts(sql)
  {
    starts := [0];
    var i := 0;
    while i < |sql|
      invariant 0 <= i <= |sql|
      invariant starts == LineStarts(sql[..i])
    {
      assert sql[..i + 1][..i] == sql[..i];
      if sql[i] == '\n' {
        starts := starts + [i + 1];
      }
      i := i + 1;
    }
    assert sql[..|sql|] == sql;
  }

  ghost predicate Sorted(s: seq<int>) {
    forall i, j :: 0 <= i < j < |s| ==> s[i] <= s[j]
  }

  /** `toLineCol`: a binary search for the last line start at or before
      `offset`. The column is counted from that line start, so the
      position always converts back to `offset`. */
  method ToLineCol(offset: int, starts: seq<int>) returns (p: TextPoint)
    requires |starts| >= 1 && Sorted(starts)
    ensures 1 <= p.line <= |starts|
    ensures starts[p.line - 1] + p.column - 1 == offset
    ensures starts[0] <= offset ==> starts[p.line - 1] <= offset
    ensures p.line < |starts| ==> offset < starts[p.line]
    ensures offset < starts[0] ==> p.line == 1
    ensures starts[0] <= offset ==> p.column >= 1
  {
    var lo, hi := 0, |starts| - 1;
    while lo <= hi
      invariant 0 <= lo <= hi + 1 <= |starts|
      invariant forall k :: 0 <= k < lo ==> starts[k] <= offset
      invariant forall k :: hi < k < |starts| ==> offset < starts[k]
      decreases hi - lo
    {
      var mid := (lo + hi) / 2;
      if starts[mid] <= offset {
        lo := mid + 1;
      } else {
        hi := mid - 1;
      }
    }
    var lineIdx := if hi < 0 then 0 else hi;
    p := TextPoint(lineIdx + 1, offset - starts[lineIdx] + 1);
  }
}

=== FILE: loc_alias.dfy ===
/** `extractAliasMap` (`src/parser/locResolver.ts`): the qualifier → table
    map the highlighter resolves column references with. The map is the
    result of a sequence of `map.set` calls; the model names that sequence
    (the write log) and proves which write decides each key. */
module LocAliases {
  import opened Wrappers
  import opened SqlAst

  /** One `map.set(key, value)`. */
  datatype AliasWrite = AliasWrite(key: string, value: string)

  ghost predicate Named(ws: seq<AliasWrite>) {
    forall i :: 0 <= i < |ws| ==> ws[i].key != "" && ws[i].value != ""
  }

  /** `visitSelect`: the writes for the FROM items of one statement, in order.
      An aliased subquery maps its alias to itself and is then visited; an
      aliased table maps the alias to the table; other items write nothing. */
  function SelectWrites(s: Stmt): (ws: seq<AliasWrite>)
    ensures Named(ws)
  {
    match s.from
    case NoFrom => []
    case FromItems(items) => ItemsWrites(items)
  }

  function ItemsWrites(items: seq<FromItem>): (ws: seq<AliasWrite>)
    ensures Named(ws)
  {
    if |items| == 0 then []
    else ItemsWrites(items[..|items| - 1]) + ItemWrites(items[|items| - 1])
  }

  function ItemWrites(item: FromItem): (ws: seq<AliasWrite>)
    ensures Named(ws)
    ensures item.alias == "" ==> ws == []
    ensures item.alias != "" && item.subquery.None? ==>
      ws == if item.table != "" then [AliasWrite(item.alias, item.table)] else []
    ensures item.alias != "" && item.subquery.Some? ==>
      ws == [AliasWrite(item.alias, item.alias)] + SelectWrites(item.subquery.value)
  {
    if item.subquery.Some? && item.alias != "" then
      [AliasWrite(item.alias, item.alias)] + SelectWrites(item.subquery.value)
    else if item.alias != "" && item.table != "" then [AliasWrite(item.alias, item.table)]
    else []
  }

  /** The writes for one CTE: its name to itself, then its body's FROM items. */
  function CteWrites(c: Cte): (ws: seq<AliasWrite>)
    ensures Named(ws)
  {
    (if c.name != "" then [AliasWrite(c.name, c.name)] else [])
    + (if c.stmt.Some? then SelectWrites(c.stmt.value) else [])
  }

  function CtesWrites(cs: seq<Cte>): (ws: seq<AliasWrite>)
    ensures Named(ws)
  {
    if |cs| == 0 then [] else CtesWrites(cs[..|cs| - 1]) + CteWrites(cs[|cs| - 1])
  }

  /** Every write `extractAliasMap` performs on the root statement: its FROM
      items first, then the CTE names and bodies. */
  function AliasWrites(root: Option<Stmt>): (ws: seq<AliasWrite>)
    ensures Named(ws)
  {
    if root.None? then [] else SelectWrites(root.value) + CtesWrites(root.value.ctes)
  }

  /** Performing the writes in order. */
  function Apply(m: map<string, string>, ws: seq<AliasWrite>): map<string, string> {
    if |ws| == 0 then m else Apply(m, ws[..|ws| - 1])[ws[|ws| - 1].key := ws[|ws| - 1].value]
  }

  /** The alias map of a statement. */
  function AliasMap(root: Option<Stmt>): map<string, string> {
    Apply(map[], AliasWrites(root))
  }

  ghost predicate NotWritten(k: string, ws: seq<AliasWrite>) {
    forall i :: 0 <= i < |ws| ==> ws[i].key != k
  }

  // ---------------------------------------------------------------------
  // The write log decides the map.

  lemma {:induction false} ApplyAppend(m: map<string, string>, a: seq<AliasWrite>, b: seq<AliasWrite>)
    ensures Apply(m, a + b) == Apply(Apply(m, a), b)
    decreases |b|
  {
    if |b| > 0 {
      assert (a + b)[..|a + b| - 1] == a + b[..|b| - 1];
      assert (a + b)[|a + b| - 1] == b[|b| - 1];
      ApplyAppend(m, a, b[..|b| - 1]);
    } else {
      assert a + b == a;
    }
  }

  /** A key no write touches keeps its presence and its value. */
  lemma {:induction false} ApplyUntouched(m: map<string, string>, ws: seq<AliasWrite>, k: string)
    requires NotWritten(k, ws)
    ensures k in Apply(m, ws) <==> k in m
    ensures k in m ==> Apply(m, ws)[k] == m[k]
  {
    if |ws| > 0 {
      ApplyUntouched(m, ws[..|ws| - 1], k);
    }
  }



  /** The keys of the map are exactly the written keys, and no value is empty. */
  lemma {:induction false} ApplyKeys(m: map<string, string>, ws: seq<AliasWrite>)
    requires forall k :: k in m ==> m[k] != ""
    requires Named(ws)
    ensures forall k :: k in Apply(m, ws) <==> k in m || exists i :: 0 <= i < |ws| && ws[i].key == k
    ensures forall k :: k in Apply(m, ws) ==> Apply(m, ws)[k] != ""
  {
    if |ws| > 0 {
      var p := ws[..|ws| - 1];
      assert Named(p);
      ApplyKeys(m, p);
      forall k | k in m || exists i :: 0 <= i < |ws| && ws[i].key == k
        ensures k in Apply(m, ws)
      {
        if k !in m {
          var i :| 0 <= i < |ws| && ws[i].key == k;
          if i < |p| { assert p[i].key == k; }
        }
      }
    }
  }

  /** The alias map holds exactly the keys some write sets, all with a
      non-empty value (so `aliasMap.get(t) || t` falls back only for an
      unknown qualifier). */
  lemma AliasMapKeys(root: Option<Stmt>)
    ensures forall k :: k in AliasMap(root) <==>
      exists i :: 0 <= i < |AliasWrites(root)| && AliasWrites(root)[i].key == k
    ensures forall k :: k in AliasMap(root) ==> AliasMap(root)[k] != ""
  {
    ApplyKeys(map[], AliasWrites(root));
  }

  // ---------------------------------------------------------------------
  // Splitting the log around one item or one CTE.

  lemma {:induction false} ItemsWritesAppend(a: seq<FromItem>, b: seq<FromItem>)
    ensures ItemsWrites(a + b) == ItemsWrites(a) + ItemsWrites(b)
    decreases |b|
  {
    if |b| > 0 {
      assert (a + b)[..|a + b| - 1] == a + b[..|b| - 1];
      assert (a + b)[|a + b| - 1] == b[|b| - 1];
      ItemsWritesAppend(a, b[..|b| - 1]);
    } else {
      assert a + b == a;
    }
  }



  lemma {:induction false} CtesWritesAppend(a: seq<Cte>, b: seq<Cte>)
    ensures CtesWrites(a + b) == CtesWrites(a) + CtesWrites(b)
    decreases |b|
  {
    if |b| > 0 {
      assert (a + b)[..|a + b| - 1] == a + b[..|b| - 1];
      assert (a + b)[|a + b| - 1] == b[|b| - 1];
      CtesWritesAppend(a, b[..|b| - 1]);
    } else {
      assert a + b == a;
    }
  }



  // ---------------------------------------------------------------------
  // What each kind of entry maps to.

  /** Writes that leave `k` alone do not change what the earlier writes
      decided for it. */
  lemma ApplyThenUntouched(m: map<string, string>, a: seq<AliasWrite>, b: seq<AliasWrite>, k: string)
    requires NotWritten(k, b)
    ensures k in Apply(m, a + b) <==> k in Apply(m, a)
    ensures k in Apply(m, a) ==> Apply(m, a + b)[k] == Apply(m, a)[k]
  {
    ApplyAppend(m, a, b);
    ApplyUntouched(Apply(m, a), b, k);
  }

  /** A single write sets its key. */
  lemma ApplyOne(m: map<string, string>, w: AliasWrite)
    ensures Apply(m, [w]) == m[w.key := w.value]
  {
    assert [w][..0] == [];
  }

  /** Splitting the item writes after item `i`. */
  lemma ItemsWritesThrough(items: seq<FromItem>, i: int)
    requires 0 <= i < |items|
    ensures ItemsWrites(items) == ItemsWrites(items[..i]) + ItemWrites(items[i]) + ItemsWrites(items[i + 1..])
    ensures ItemsWrites(items[..i + 1]) == ItemsWrites(items[..i]) + ItemWrites(items[i])
  {
    var front := items[..i + 1];
    assert items == front + items[i + 1..];
    ItemsWritesAppend(front, items[i + 1..]);
    assert front[..i] == items[..i];
  }

  /** A CTE name maps to itself, overriding anything the FROM items or
      earlier CTEs wrote, unless its own body or a later CTE rebinds it. */
  lemma CteNameMapsToItself(root: Stmt, j: int)
    requires 0 <= j < |root.ctes| && root.ctes[j].name != ""
    requires root.ctes[j].stmt.Some? ==> NotWritten(root.ctes[j].name, SelectWrites(root.ctes[j].stmt.value))
    requires NotWritten(root.ctes[j].name, CtesWrites(root.ctes[j + 1..]))
    ensures root.ctes[j].name in AliasMap(Some(root))
    ensures AliasMap(Some(root))[root.ctes[j].name] == root.ctes[j].name
  {
    var cs := root.ctes;
    var c := cs[j];
    var w := AliasWrite(c.name, c.name);
    var body := if c.stmt.Some? then SelectWrites(c.stmt.value) else [];
    var front := cs[..j + 1];
    assert cs == front + cs[j + 1..];
    CtesWritesAppend(front, cs[j + 1..]);
    assert front[..j] == cs[..j];
    assert CtesWrites(front) == CtesWrites(cs[..j]) + ([w] + body);
    var m1 := Apply(map[], SelectWrites(root));
    var m2 := Apply(m1, CtesWrites(cs[..j]));
    ApplyAppend(map[], SelectWrites(root), CtesWrites(cs));
    ApplyThenUntouched(m1, CtesWrites(front), CtesWrites(cs[j + 1..]), c.name);
    ApplyAppend(m1, CtesWrites(cs[..j]), [w] + body);
    ApplyThenUntouched(m2, [w], body, c.name);
    ApplyOne(m2, w);
  }

  /** The alias of a table in the root's FROM clause maps to that table,
      unless a later FROM item or a CTE rebinds it. */
  lemma TableAliasMapsToTable(root: Stmt, i: int)
    requires 0 <= i < |FromOf(root)|
    requires FromOf(root)[i].subquery.None? && FromOf(root)[i].alias != "" && FromOf(root)[i].table != ""
    requires NotWritten(FromOf(root)[i].alias, ItemsWrites(FromOf(root)[i + 1..]))
    requires NotWritten(FromOf(root)[i].alias, CtesWrites(root.ctes))
    ensures FromOf(root)[i].alias in AliasMap(Some(root))
    ensures AliasMap(Some(root))[FromOf(root)[i].alias] == FromOf(root)[i].table
  {
    var items := FromOf(root);
    var a := items[i].alias;
    var w := AliasWrite(a, items[i].table);
    ItemsWritesThrough(items, i);
    assert SelectWrites(root) == ItemsWrites(items[..i + 1]) + ItemsWrites(items[i + 1..]);
    ApplyThenUntouched(map[], SelectWrites(root), CtesWrites(root.ctes), a);
    ApplyThenUntouched(map[], ItemsWrites(items[..i + 1]), ItemsWrites(items[i + 1..]), a);
    ApplyAppend(map[], ItemsWrites(items[..i]), [w]);
    ApplyOne(Apply(map[], ItemsWrites(items[..i])), w);
  }

  /** The alias of a subquery in the root's FROM clause maps to itself,
      unless the subquery, a later FROM item or a CTE rebinds it. */
  lemma SubqueryAliasMapsToItself(root: Stmt, i: int)
    requires 0 <= i < |FromOf(root)|
    requires FromOf(root)[i].subquery.Some? && FromOf(root)[i].alias != ""
    requires NotWritten(FromOf(root)[i].alias, SelectWrites(FromOf(root)[i].subquery.value))
    requires NotWritten(FromOf(root)[i].alias, ItemsWrites(FromOf(root)[i + 1..]))
    requires NotWritten(FromOf(root)[i].alias, CtesWrites(root.ctes))
    ensures FromOf(root)[i].alias in AliasMap(Some(root))
    ensures AliasMap(Some(root))[FromOf(root)[i].alias] == FromOf(root)[i].alias
  {
    var items := FromOf(root);
    var a := items[i].alias;
    var w := AliasWrite(a, a);
    var sub := SelectWrites(items[i].subquery.value);
    ItemsWritesThrough(items, i);
    assert SelectWrites(root) == ItemsWrites(items[..i + 1]) + ItemsWrites(items[i + 1..]);
    ApplyThenUntouched(map[], SelectWrites(root), CtesWrites(root.ctes), a);
    ApplyThenUntouched(map[], ItemsWrites(items[..i + 1]), ItemsWrites(items[i + 1..]), a);
    ApplyAppend(map[], ItemsWrites(items[..i]), [w] + sub);
    ApplyThenUntouched(Apply(map[], ItemsWrites(items[..i])), [w], sub, a);
    ApplyOne(Apply(map[], ItemsWrites(items[..i])), w);
  }

  // ---------------------------------------------------------------------
  // The imperative walk.

  /** `visitSelect`: sets the entries for the FROM items of `s` in place,
      recursing into aliased subqueries. */
  method VisitSelect(s: Stmt, m: map<string, string>) returns (m': map<string, string>)
    ensures m' == Apply(m, SelectWrites(s))
    decreases s, 1
  {
    m' := m;
    if s.from.NoFrom? {
      return;
    }
    var items := s.from.items;
    var i := 0;
    while i < |items|
      invariant 0 <= i <= |items|
      invariant m' == Apply(m, ItemsWrites(items[..i]))
    {
      ItemsWritesStep(m, items, i);
      m' := VisitFromItem(s, i, m');
      i := i + 1;
    }
    assert items[..|items|] == items;
  }

  lemma ItemsWritesStep(m: map<string, string>, items: seq<FromItem>, i: int)
    requires 0 <= i < |items|
    ensures Apply(m, ItemsWrites(items[..i + 1])) == Apply(Apply(m, ItemsWrites(items[..i])), ItemWrites(items[i]))
  {
    assert items[..i + 1][..i] == items[..i];
    ApplyAppend(m, ItemsWrites(items[..i]), ItemWrites(items[i]));
  }

  /** One FROM item: an aliased subquery maps its alias to itself and is
      visited; an aliased table maps its alias to the table. */
  method VisitFromItem(s: Stmt, i: int, m: map<string, string>) returns (m': map<string, string>)
    requires s.from.FromItems? && 0 <= i < |s.from.items|
    ensures m' == Apply(m, ItemWrites(s.from.items[i]))
    decreases s, 0
  {
    var item := s.from.items[i];
    m' := m;
    if item.subquery.Some? && item.alias != "" {
      var w := AliasWrite(item.alias, item.alias);
      ApplyAppend(m, [w], SelectWrites(item.subquery.value));
      m' := m'[item.alias := item.alias];
      m' := VisitSelect(item.subquery.value, m');
    } else if item.alias != "" && item.table != "" {
      m' := m'[item.alias := item.table];
    }
  }

  /** `extractAliasMap`: the FROM items of the root, then each CTE's name
      and body. */
  method ExtractAliasMap(root: Option<Stmt>) returns (m: map<string, string>)
    ensures m == AliasMap(root)
  {
    m := map[];
    if root.None? {
      return;
    }
    m := VisitSelect(root.value, m);
    var ctes := root.value.ctes;
    assert SelectWrites(root.value) + CtesWrites(ctes[..0]) == SelectWrites(root.value);
    var j := 0;
    while j < |ctes|
      invariant 0 <= j <= |ctes|
      invariant m == Apply(map[], SelectWrites(root.value) + CtesWrites(ctes[..j]))
    {
      CtesWritesStep(SelectWrites(root.value), ctes, j);
      m := VisitCte(ctes[j], m);
      j := j + 1;
    }
    assert ctes[..|ctes|] == ctes;
  }

  lemma CtesWritesStep(head: seq<AliasWrite>, ctes: seq<Cte>, j: int)
    requires 0 <= j < |ctes|
    ensures Apply(map[], head + CtesWrites(ctes[..j + 1])) ==
      Apply(Apply(map[], head + CtesWrites(ctes[..j])), CteWrites(ctes[j]))
  {
    assert ctes[..j + 1][..j] == ctes[..j];
    assert head + CtesWrites(ctes[..j + 1]) == head + CtesWrites(ctes[..j]) + CteWrites(ctes[j]);
    ApplyAppend(map[], head + CtesWrites(ctes[..j]), CteWrites(ctes[j]));
  }

  /** One CTE of `extractAliasMap`: its name, then its body. */
  method VisitCte(c: Cte, m: map<string, string>) returns (m': map<string, string>)
    ensures m' == Apply(m, CteWrites(c))
  {
    var named := if c.name != "" then [AliasWrite(c.name, c.name)] else [];
    ApplyAppend(m, named, if c.stmt.Some? then SelectWrites(c.stmt.value) else []);
    m' := m;
    if c.name != "" {
      m' := m'[c.name := c.name];
    }
    if c.stmt.Some? {
      m' := VisitSelect(c.stmt.value, m');
    }
  }

  // ---------------------------------------------------------------------
  // `findDefaultFrom`

  /** The qualifier assumed for an unqualified column: the alias, else the
      table, of the only FROM item; "" (undefined) unless there is exactly one. */
  function FindDefaultFrom(root: Option<Stmt>): (r: string)
    ensures r != "" ==> root.Some? && |FromOf(root.value)| == 1
    ensures root.Some? && |FromOf(root.value)| == 1 ==>
      && (FromOf(root.value)[0].alias != "" ==> r == FromOf(root.value)[0].alias)
      && (FromOf(root.value)[0].alias == "" ==> r == FromOf(root.value)[0].table)
  {
    if root.None? || |FromOf(root.value)| != 1 then ""
    else if FromOf(root.value)[0].alias != "" then FromOf(root.value)[0].alias
    else FromOf(root.value)[0].table
  }
}

=== FILE: loc_resolver.dfy ===
/** `buildColumnHighlightMap` (`src/parser/locResolver.ts`): for each
    column id of the lineage graph, the source ranges to highlight. Located
    column references are highlighted at their own location; the others
    fall back to a textual search (a parameter here), and the output columns
    of the root, its CTEs and its FROM subqueries are highlighted at their
    projected items. */
module LocResolver {
  import opened Wrappers
  import opened Dicts
  import opened SqlAst
  import opened GraphTypes
  import opened LocTree
  import opened LocAliases
  import opened AstWalker

  /** The result record: column id → ranges, in insertion order. */
  type Highlights = Dict<seq<TextRange>>

  /** Two ranges are the same highlight when their offsets agree. */
  predicate SameSpan(a: TextRange, b: TextRange) {
    a.startOffset == b.startOffset && a.endOffset == b.endOffset
  }

  predicate HasSpan(rs: seq<TextRange>, r: TextRange) {
    exists x :: x in rs && SameSpan(x, r)
  }

  ghost predicate DistinctSpans(rs: seq<TextRange>) {
    forall i, j :: 0 <= i < j < |rs| ==> !SameSpan(rs[i], rs[j])
  }

  /** Every listed column has at least one range, and no two of its ranges
      share their offsets. */
  ghost predicate HighlightInv(d: Highlights) {
    d.Valid() && forall k :: k in d.entries ==> d.entries[k] != [] && DistinctSpans(d.entries[k])
  }

  /** Column `k` is highlighted at the span of `r`. */
  ghost predicate Covered(d: Highlights, k: string, r: TextRange) {
    k in d.entries && HasSpan(d.entries[k], r)
  }

  /** No highlight is ever lost. */
  ghost predicate Grows(d: Highlights, d': Highlights) {
    forall k, x :: Covered(d, k, x) ==> Covered(d', k, x)
  }

  /** Range `x` is listed under column `k`. */
  ghost predicate Listed(d: Highlights, k: string, x: TextRange) {
    k in d.entries && x in d.entries[k]
  }

  /** Every range listed in `d'` was listed in `d` or is one of `rs` under
      column `id`. */
  ghost predicate AddsOnly(d: Highlights, d': Highlights, id: string, rs: seq<TextRange>) {
    forall k, x :: Listed(d', k, x) ==> Listed(d, k, x) || (k == id && x in rs)
  }

  lemma AddsOnlyTrans(d0: Highlights, d1: Highlights, d2: Highlights, id: string, rs1: seq<TextRange>, rs2: seq<TextRange>)
    requires AddsOnly(d0, d1, id, rs1) && AddsOnly(d1, d2, id, rs2)
    ensures AddsOnly(d0, d2, id, rs1 + rs2)
  {
  }

  /** Only column `id` changed. */
  ghost predicate OnlyChanged(d: Highlights, d': Highlights, id: string) {
    forall k :: k != id ==> (k in d'.entries <==> k in d.entries) && (k in d.entries ==> d'.entries[k] == d.entries[k])
  }

  // ---------------------------------------------------------------------
  // `push`

  /** `push(id, r)`: nothing for a missing range; otherwise the range is
      added to the column's list unless a range with the same offsets is
      already there. */
  method Push(result: Highlights, id: string, r: Option<TextRange>) returns (result': Highlights)
    requires HighlightInv(result)
    ensures HighlightInv(result') && Grows(result, result') && OnlyChanged(result, result', id)
    ensures r.None? ==> result' == result
    ensures r.Some? ==> Covered(result', id, r.value)
    ensures AddsOnly(result, result', id, if r.Some? then [r.value] else [])
    ensures r.Some? && Covered(result, id, r.value) ==> result' == result
    ensures r.Some? && !Covered(result, id, r.value) ==>
      result' == result.Put(id, (if id in result.entries then result.entries[id] else []) + [r.value])
  {
    if r.None? {
      return result;
    }
    var list := if id in result.entries then result.entries[id] else [];
    if HasSpan(list, r.value) {
      return result;
    }
    result' := result.Put(id, list + [r.value]);
    assert r.value in list + [r.value] && SameSpan(r.value, r.value);
    forall k, x | Covered(result, k, x) ensures Covered(result', k, x) {
      if k == id {
        var y :| y in list && SameSpan(y, x);
        assert y in list + [r.value];
      }
    }
  }

  // ---------------------------------------------------------------------
  // Resolving a reference.

  /** The table a reference is attributed to: its qualifier through the
      alias map (`aliasMap.get(t) || t`), or the default FROM table when it
      has none. */
  function ResolveTable(aliasMap: map<string, string>, table: string, defaultFrom: string): (t: string)
    ensures table == "" ==> t == defaultFrom
    ensures table != "" ==> t != ""
    ensures table != "" && table in aliasMap && aliasMap[table] != "" ==> t == aliasMap[table]
    ensures table != "" && table !in aliasMap ==> t == table
  {
    if table != "" then (if table in aliasMap && aliasMap[table] != "" then aliasMap[table] else table)
    else defaultFrom
  }

  /** The graph's column id for a column of a table. */
  function ColumnId(table: string, column: string): string {
    table + "_" + column
  }

  /** The aliases that map to table `tbl`. */
  function AliasesOf(aliasMap: map<string, string>, tbl: string): set<string> {
    set a | a in aliasMap && aliasMap[a] == tbl
  }

  /** The reverse alias map, built one entry at a time in whatever order the
      entries come; the result does not depend on that order. */
  method ReverseAliases(aliasMap: map<string, string>) returns (rev: map<string, set<string>>)
    ensures forall tbl :: tbl in rev <==> exists a :: a in aliasMap && aliasMap[a] == tbl
    ensures forall tbl :: tbl in rev ==> rev[tbl] == AliasesOf(aliasMap, tbl)
  {
    rev := map[];
    var rest := aliasMap.Keys;
    while rest != {}
      invariant rest <= aliasMap.Keys
      invariant forall tbl :: tbl in rev <==> exists a :: a in aliasMap.Keys - rest && aliasMap[a] == tbl
      invariant forall tbl :: tbl in rev ==> rev[tbl] == set a | a in aliasMap.Keys - rest && aliasMap[a] == tbl
      decreases rest
    {
      var a :| a in rest;
      var tbl := aliasMap[a];
      var had := if tbl in rev then rev[tbl] else {};
      rev := rev[tbl := had + {a}];
      rest := rest - {a};
    }
  }

  /** The qualifiers the textual fallback accepts for table `t`: its aliases and its own name. */
  function Qualifiers(rev: map<string, set<string>>, t: string): (qs: set<string>)
    ensures t in qs
  {
    (if t in rev then rev[t] else {}) + {t}
  }

  /** What a reference contributes. A reference that resolves to a table is
      highlighted at its own range when the tree has locations and the
      reference has one, and otherwise at every range the textual search
      finds for its column under the table's qualifiers. */
  ghost predicate RefHighlighted(d: Highlights, ref: AstNode, aliasMap: map<string, string>, defaultFrom: string,
                                 hasLoc: bool, found: seq<TextRange>)
    requires ref.RefNode?
  {
    var t := ResolveTable(aliasMap, ref.table, defaultFrom);
    t != "" ==>
      if hasLoc && GetNodeRange(ref.loc).Some? then Covered(d, ColumnId(t, ref.column), GetNodeRange(ref.loc).value)
      else forall x :: x in found ==> Covered(d, ColumnId(t, ref.column), x)
  }

  /** The ranges the textual search would report for a reference. */
  function FallbackRanges(sql: string, regex: (string, set<string>, string) -> seq<TextRange>,
                          aliasMap: map<string, string>, ref: AstNode, defaultFrom: string): seq<TextRange>
    requires ref.RefNode?
  {
    var t := ResolveTable(aliasMap, ref.table, defaultFrom);
    regex(sql, AliasesOf(aliasMap, t) + {t}, ref.column)
  }

  /** The ranges a reference contributes under its column: its own range when
      the tree has locations and the reference has one, else the textual
      matches. */
  function RefRanges(sql: string, regex: (string, set<string>, string) -> seq<TextRange>,
                     aliasMap: map<string, string>, ref: AstNode, defaultFrom: string, hasLoc: bool): seq<TextRange>
    requires ref.RefNode?
  {
    if hasLoc && GetNodeRange(ref.loc).Some? then [GetNodeRange(ref.loc).value]
    else FallbackRanges(sql, regex, aliasMap, ref, defaultFrom)
  }

  /** Range `x` under column `k` is one that reference `ref` contributes. */
  ghost predicate RefSource(ref: AstNode, k: string, x: TextRange, sql: string,
                            regex: (string, set<string>, string) -> seq<TextRange>,
                            aliasMap: map<string, string>, defaultFrom: string, hasLoc: bool) {
    && ref.RefNode?
    && ResolveTable(aliasMap, ref.table, defaultFrom) != ""
    && k == ColumnId(ResolveTable(aliasMap, ref.table, defaultFrom), ref.column)
    && x in RefRanges(sql, regex, aliasMap, ref, defaultFrom, hasLoc)
  }

  /** Range `x` under column `k` is one that some reference of `refs` contributes. */
  ghost predicate RefSourced(refs: seq<AstNode>, k: string, x: TextRange, sql: string,
                             regex: (string, set<string>, string) -> seq<TextRange>,
                             aliasMap: map<string, string>, defaultFrom: string, hasLoc: bool) {
    exists j :: 0 <= j < |refs| && RefSource(refs[j], k, x, sql, regex, aliasMap, defaultFrom, hasLoc)
  }

  lemma RefHighlightedGrows(d: Highlights, d': Highlights, ref: AstNode, aliasMap: map<string, string>,
                            defaultFrom: string, hasLoc: bool, found: seq<TextRange>)
    requires ref.RefNode? && Grows(d, d')
    requires RefHighlighted(d, ref, aliasMap, defaultFrom, hasLoc, found)
    ensures RefHighlighted(d', ref, aliasMap, defaultFrom, hasLoc, found)
  {
  }

  /** Pushes every range of `rs` under column `id`. */
  method PushAll(result: Highlights, id: string, rs: seq<TextRange>) returns (result': Highlights)
    requires HighlightInv(result)
    ensures HighlightInv(result') && Grows(result, result') && OnlyChanged(result, result', id)
    ensures forall x :: x in rs ==> Covered(result', id, x)
    ensures AddsOnly(result, result', id, rs)
  {
    result' := result;
    for i := 0 to |rs|
      invariant HighlightInv(result') && Grows(result, result') && OnlyChanged(result, result', id)
      invariant forall x :: x in rs[..i] ==> Covered(result', id, x)
      invariant AddsOnly(result, result', id, rs[..i])
    {
      ghost var before := result';
      result' := Push(result', id, Some(rs[i]));
      AddsOnlyTrans(result, before, result', id, rs[..i], [rs[i]]);
      assert rs[..i + 1] == rs[..i] + [rs[i]];
    }
    assert rs[..|rs|] == rs;
  }

  /** One iteration of the loop over the column references. */
  method PushRef(sql: string, regex: (string, set<string>, string) -> seq<TextRange>, result: Highlights,
                 ref: AstNode, aliasMap: map<string, string>, rev: map<string, set<string>>,
                 defaultFrom: string, hasLoc: bool)
    returns (result': Highlights)
    requires ref.RefNode? && HighlightInv(result)
    requires forall tbl :: tbl in rev ==> rev[tbl] == AliasesOf(aliasMap, tbl)
    requires forall tbl :: tbl !in rev ==> AliasesOf(aliasMap, tbl) == {}
    ensures HighlightInv(result') && Grows(result, result')
    ensures RefHighlighted(result', ref, aliasMap, defaultFrom, hasLoc, FallbackRanges(sql, regex, aliasMap, ref, defaultFrom))
    ensures ResolveTable(aliasMap, ref.table, defaultFrom) == "" ==> result' == result
    ensures ResolveTable(aliasMap, ref.table, defaultFrom) != "" ==>
      AddsOnly(result, result', ColumnId(ResolveTable(aliasMap, ref.table, defaultFrom), ref.column),
               RefRanges(sql, regex, aliasMap, ref, defaultFrom, hasLoc))
  {
    var t := ResolveTable(aliasMap, ref.table, defaultFrom);
    if t == "" {
      return result;
    }
    var colId := ColumnId(t, ref.column);
    if hasLoc {
      var r := GetNodeRange(ref.loc);
      if r.Some? {
        result' := Push(result, colId, r);
        return;
      }
    }
    assert Qualifiers(rev, t) == AliasesOf(aliasMap, t) + {t};
    var ranges := regex(sql, Qualifiers(rev, t), ref.column);
    result' := PushAll(result, colId, ranges);
  }

  ghost predicate RefsHighlighted(d: Highlights, refs: seq<AstNode>, sql: string,
                                  regex: (string, set<string>, string) -> seq<TextRange>,
                                  aliasMap: map<string, string>, defaultFrom: string, hasLoc: bool)
    requires forall j :: 0 <= j < |refs| ==> refs[j].RefNode?
  {
    forall j :: 0 <= j < |refs| ==>
      RefHighlighted(d, refs[j], aliasMap, defaultFrom, hasLoc, FallbackRanges(sql, regex, aliasMap, refs[j], defaultFrom))
  }

  lemma RefsHighlightedGrows(d: Highlights, d': Highlights, refs: seq<AstNode>, sql: string,
                             regex: (string, set<string>, string) -> seq<TextRange>,
                             aliasMap: map<string, string>, defaultFrom: string, hasLoc: bool)
    requires forall j :: 0 <= j < |refs| ==> refs[j].RefNode?
    requires Grows(d, d') && RefsHighlighted(d, refs, sql, regex, aliasMap, defaultFrom, hasLoc)
    ensures RefsHighlighted(d', refs, sql, regex, aliasMap, defaultFrom, hasLoc)
  {
    forall j | 0 <= j < |refs|
      ensures RefHighlighted(d', refs[j], aliasMap, defaultFrom, hasLoc, FallbackRanges(sql, regex, aliasMap, refs[j], defaultFrom))
    {
      RefHighlightedGrows(d, d', refs[j], aliasMap, defaultFrom, hasLoc, FallbackRanges(sql, regex, aliasMap, refs[j], defaultFrom));
    }
  }

  /** The loop over the column references. */
  method HighlightRefs(sql: string, regex: (string, set<string>, string) -> seq<TextRange>, result: Highlights,
                       refs: seq<AstNode>, aliasMap: map<string, string>, defaultFrom: string, hasLoc: bool)
    returns (result': Highlights)
    requires HighlightInv(result)
    requires forall j :: 0 <= j < |refs| ==> refs[j].RefNode?
    ensures HighlightInv(result') && Grows(result, result')
    ensures RefsHighlighted(result', refs, sql, regex, aliasMap, defaultFrom, hasLoc)
    ensures forall k, x :: Listed(result', k, x) ==>
      Listed(result, k, x) || RefSourced(refs, k, x, sql, regex, aliasMap, defaultFrom, hasLoc)
  {
    var rev := ReverseAliases(aliasMap);
    result' := result;
    for i := 0 to |refs|
      invariant HighlightInv(result') && Grows(result, result')
      invariant RefsHighlighted(result', refs[..i], sql, regex, aliasMap, defaultFrom, hasLoc)
      invariant forall k, x :: Listed(result', k, x) ==>
        Listed(result, k, x) || exists j :: 0 <= j < i && RefSource(refs[j], k, x, sql, regex, aliasMap, defaultFrom, hasLoc)
    {
      ghost var before := result';
      result' := PushRef(sql, regex, result', refs[i], aliasMap, rev, defaultFrom, hasLoc);
      RefsHighlightedGrows(before, result', refs[..i], sql, regex, aliasMap, defaultFrom, hasLoc);
      assert refs[..i + 1] == refs[..i] + [refs[i]];
    }
    assert refs[..|refs|] == refs;
  }

  // ---------------------------------------------------------------------
  // `pushOutputColumns`

  /** The output name of a projected item: its alias, else the column it
      projects, else none. */
  function OutputName(col: SelectItem): (name: string)
    ensures col.alias != "" ==> name == col.alias
    ensures col.alias == "" && col.expr.ColumnRef? ==> name == col.expr.column
    ensures col.alias == "" && !col.expr.ColumnRef? ==> name == ""
  {
    if col.alias != "" then col.alias
    else if col.expr.ColumnRef? then col.expr.column
    else ""
  }

  /** The location of an expression node (only column references carry one here). */
  function ExprLoc(e: Expr): Option<Loc> {
    if e.ColumnRef? then e.loc else None
  }

  /** The range of a projected item: its own, else its expression's. */
  function OutputRange(col: SelectItem): (r: Option<TextRange>)
    ensures GetNodeRange(col.loc).Some? ==> r == GetNodeRange(col.loc)
    ensures GetNodeRange(col.loc).None? ==> r == GetNodeRange(ExprLoc(col.expr))
  {
    var r := GetNodeRange(col.loc);
    if r.Some? then r else GetNodeRange(ExprLoc(col.expr))
  }

  /** A projected item that is not `*`, has an output name and a range is
      highlighted under `<outputTable>_<name>`. */
  ghost predicate OutputHighlighted(d: Highlights, col: SelectItem, outputTable: string) {
    !col.expr.Star? && OutputName(col) != "" && OutputRange(col).Some? ==>
      Covered(d, ColumnId(outputTable, OutputName(col)), OutputRange(col).value)
  }

  /** Range `x` under column `k` is the highlight projected item `col` gives
      under `outputTable`. */
  ghost predicate OutputSource(col: SelectItem, outputTable: string, k: string, x: TextRange) {
    && !col.expr.Star? && OutputName(col) != "" && OutputRange(col).Some?
    && k == ColumnId(outputTable, OutputName(col)) && x == OutputRange(col).value
  }

  /** Range `x` under column `k` is the highlight some item of `cols` gives. */
  ghost predicate OutputsSource(cols: seq<SelectItem>, outputTable: string, k: string, x: TextRange) {
    exists i :: 0 <= i < |cols| && OutputSource(cols[i], outputTable, k, x)
  }

  /** ... some CTE with a name and a body gives under its name. */
  ghost predicate CteSource(ctes: seq<Cte>, k: string, x: TextRange) {
    exists j :: 0 <= j < |ctes| && ctes[j].name != "" && ctes[j].stmt.Some? &&
      OutputsSource(ColumnsOf(ctes[j].stmt.value), ctes[j].name, k, x)
  }

  /** ... some aliased FROM subquery gives under its alias. */
  ghost predicate SubquerySource(items: seq<FromItem>, k: string, x: TextRange) {
    exists i :: 0 <= i < |items| && items[i].subquery.Some? && items[i].alias != "" &&
      OutputsSource(ColumnsOf(items[i].subquery.value), items[i].alias, k, x)
  }

  /** ... the root, one of its CTEs or one of its FROM subqueries gives. */
  ghost predicate OutputSourced(root: Stmt, k: string, x: TextRange) {
    || OutputsSource(ColumnsOf(root), "Result", k, x)
    || CteSource(root.ctes, k, x)
    || SubquerySource(FromOf(root), k, x)
  }

  ghost predicate OutputsHighlighted(d: Highlights, cols: seq<SelectItem>, outputTable: string) {
    forall i :: 0 <= i < |cols| ==> OutputHighlighted(d, cols[i], outputTable)
  }

  lemma OutputsHighlightedGrows(d: Highlights, d': Highlights, cols: seq<SelectItem>, outputTable: string)
    requires Grows(d, d') && OutputsHighlighted(d, cols, outputTable)
    ensures OutputsHighlighted(d', cols, outputTable)
  {
    forall i | 0 <= i < |cols| ensures OutputHighlighted(d', cols[i], outputTable) {
      assert OutputHighlighted(d, cols[i], outputTable);
    }
  }

  /** `pushOutputColumns(selectNode, outputTable)`. */
  method PushOutputColumns(result: Highlights, s: Stmt, outputTable: string) returns (result': Highlights)
    requires HighlightInv(result)
    ensures HighlightInv(result') && Grows(result, result')
    ensures OutputsHighlighted(result', ColumnsOf(s), outputTable)
    ensures forall k, x :: Listed(result', k, x) ==> Listed(result, k, x) || OutputsSource(ColumnsOf(s), outputTable, k, x)
  {
    var cols := ColumnsOf(s);
    result' := result;
    for i := 0 to |cols|
      invariant HighlightInv(result') && Grows(result, result')
      invariant OutputsHighlighted(result', cols[..i], outputTable)
      invariant forall k, x :: Listed(result', k, x) ==>
        Listed(result, k, x) || exists j :: 0 <= j < i && OutputSource(cols[j], outputTable, k, x)
    {
      var col := cols[i];
      ghost var before := result';
      if !col.expr.Star? {
        var outName := OutputName(col);
        if outName != "" {
          var r := OutputRange(col);
          if r.Some? {
            result' := Push(result', ColumnId(outputTable, outName), r);
            OutputsHighlightedGrows(before, result', cols[..i], outputTable);
          }
        }
      }
      assert cols[..i + 1] == cols[..i] + [col];
    }
    assert cols[..|cols|] == cols;
  }

  /** The outputs of every CTE with a name and a body. */
  ghost predicate CteOutputsHighlighted(d: Highlights, ctes: seq<Cte>) {
    forall j :: 0 <= j < |ctes| && ctes[j].name != "" && ctes[j].stmt.Some? ==>
      OutputsHighlighted(d, ColumnsOf(ctes[j].stmt.value), ctes[j].name)
  }

  /** The outputs of every aliased FROM subquery. */
  ghost predicate SubqueryOutputsHighlighted(d: Highlights, items: seq<FromItem>) {
    forall i :: 0 <= i < |items| && items[i].subquery.Some? && items[i].alias != "" ==>
      OutputsHighlighted(d, ColumnsOf(items[i].subquery.value), items[i].alias)
  }

  /** The outputs of the root, its CTEs and its FROM subqueries. */
  ghost predicate AllOutputsHighlighted(d: Highlights, root: Stmt) {
    && OutputsHighlighted(d, ColumnsOf(root), "Result")
    && CteOutputsHighlighted(d, root.ctes)
    && SubqueryOutputsHighlighted(d, FromOf(root))
  }

  lemma CteOutputsGrow(d: Highlights, d': Highlights, ctes: seq<Cte>)
    requires Grows(d, d') && CteOutputsHighlighted(d, ctes)
    ensures CteOutputsHighlighted(d', ctes)
  {
    forall j | 0 <= j < |ctes| && ctes[j].name != "" && ctes[j].stmt.Some?
      ensures OutputsHighlighted(d', ColumnsOf(ctes[j].stmt.value), ctes[j].name)
    {
      OutputsHighlightedGrows(d, d', ColumnsOf(ctes[j].stmt.value), ctes[j].name);
    }
  }

  lemma SubqueryOutputsGrow(d: Highlights, d': Highlights, items: seq<FromItem>)
    requires Grows(d, d') && SubqueryOutputsHighlighted(d, items)
    ensures SubqueryOutputsHighlighted(d', items)
  {
    forall i | 0 <= i < |items| && items[i].subquery.Some? && items[i].alias != ""
      ensures OutputsHighlighted(d', ColumnsOf(items[i].subquery.value), items[i].alias)
    {
      OutputsHighlightedGrows(d, d', ColumnsOf(items[i].subquery.value), items[i].alias);
    }
  }

  /** The CTE loop of the output highlighting. */
  method HighlightCteOutputs(result: Highlights, ctes: seq<Cte>) returns (result': Highlights)
    requires HighlightInv(result)
    ensures HighlightInv(result') && Grows(result, result')
    ensures CteOutputsHighlighted(result', ctes)
    ensures forall k, x :: Listed(result', k, x) ==> Listed(result, k, x) || CteSource(ctes, k, x)
  {
    result' := result;
    for j := 0 to |ctes|
      invariant HighlightInv(result') && Grows(result, result')
      invariant CteOutputsHighlighted(result', ctes[..j])
      invariant forall k, x :: Listed(result', k, x) ==> Listed(result, k, x) || CteSource(ctes[..j], k, x)
    {
      var c := ctes[j];
      if c.name != "" && c.stmt.Some? {
        ghost var before := result';
        result' := PushOutputColumns(result', c.stmt.value, c.name);
        CteOutputsGrow(before, result', ctes[..j]);
      }
      assert ctes[..j + 1] == ctes[..j] + [c];
    }
    assert ctes[..|ctes|] == ctes;
  }

  /** The FROM-subquery loop of the output highlighting. */
  method HighlightSubqueryOutputs(result: Highlights, items: seq<FromItem>) returns (result': Highlights)
    requires HighlightInv(result)
    ensures HighlightInv(result') && Grows(result, result')
    ensures SubqueryOutputsHighlighted(result', items)
    ensures forall k, x :: Listed(result', k, x) ==> Listed(result, k, x) || SubquerySource(items, k, x)
  {
    result' := result;
    for i := 0 to |items|
      invariant HighlightInv(result') && Grows(result, result')
      invariant SubqueryOutputsHighlighted(result', items[..i])
      invariant forall k, x :: Listed(result', k, x) ==> Listed(result, k, x) || SubquerySource(items[..i], k, x)
    {
      var item := items[i];
      if item.subquery.Some? && item.alias != "" {
        ghost var before := result';
        result' := PushOutputColumns(result', item.subquery.value, item.alias);
        SubqueryOutputsGrow(before, result', items[..i]);
      }
      assert items[..i + 1] == items[..i] + [item];
    }
    assert items[..|items|] == items;
  }

  /** The three output passes: the root as `Result`, each CTE under its
      name, each aliased FROM subquery under its alias. */
  method HighlightOutputs(result: Highlights, root: Option<Stmt>) returns (result': Highlights)
    requires HighlightInv(result)
    ensures HighlightInv(result') && Grows(result, result')
    ensures root.Some? ==> AllOutputsHighlighted(result', root.value)
    ensures forall k, x :: Listed(result', k, x) ==> Listed(result, k, x) || (root.Some? && OutputSourced(root.value, k, x))
  {
    if root.None? {
      return result;
    }
    var s := root.value;
    var r1 := PushOutputColumns(result, s, "Result");
    var r2 := HighlightCteOutputs(r1, s.ctes);
    OutputsHighlightedGrows(r1, r2, ColumnsOf(s), "Result");
    result' := HighlightSubqueryOutputs(r2, FromOf(s));
    OutputsHighlightedGrows(r2, result', ColumnsOf(s), "Result");
    CteOutputsGrow(r2, result', s.ctes);
  }

  // ---------------------------------------------------------------------
  // The graph filter.

  /** Drops every column the graph does not have, in place; the other
      columns keep their ranges. */
  method KeepGraphColumns(result: Highlights, valid: set<string>) returns (out: Highlights)
    requires HighlightInv(result)
    ensures HighlightInv(out)
    ensures forall k :: k in out.entries <==> k in result.entries && k in valid
    ensures forall k :: k in out.entries ==> out.entries[k] == result.entries[k]
  {
    out := result;
    var ks := result.keys;
    ghost var done: set<string> := {};
    for i := 0 to |ks|
      invariant out.Valid()
      invariant done == set j | 0 <= j < i :: ks[j]
      invariant out.entries == map k | k in result.entries && (k in valid || k !in done) :: result.entries[k]
    {
      out := DropUnless(out, ks[i], valid);
      done := done + {ks[i]};
    }
    assert forall k :: k in result.entries ==> k in done by {
      forall k | k in result.entries ensures k in done {
        var j :| 0 <= j < |ks| && ks[j] == k;
      }
    }
  }

  /** `if (!valid.has(k)) delete result[k]` */
  method DropUnless(d: Highlights, k: string, valid: set<string>) returns (d': Highlights)
    requires d.Valid()
    ensures d'.Valid()
    ensures d'.entries == if k in valid then d.entries else d.entries - {k}
  {
    d' := d;
    if k !in valid {
      d' := d.Remove(k);
    }
  }

  /** A column the graph keeps is still highlighted after the filter. */
  ghost predicate Shown(d: Highlights, graph: Option<Graph>, k: string, r: TextRange) {
    (graph.None? || k in graph.value.columnNodes.entries) ==> Covered(d, k, r)
  }

  // ---------------------------------------------------------------------
  // `buildColumnHighlightMap`

  /** The statement whose locations are used: the input's root when it has
      any location, else the re-parsed root when re-parsing succeeded. */
  function HighlightRoot(input: Input, reparsed: Option<Input>): (root: Option<Stmt>)
    ensures HasAnyLoc(RootOf(input)) ==> root == RootOf(input)
    ensures !HasAnyLoc(RootOf(input)) && reparsed.None? ==> root == RootOf(input)
    ensures !HasAnyLoc(RootOf(input)) && reparsed.Some? ==> root == RootOf(reparsed.value)
  {
    var inputRoot := RootOf(input);
    if !HasAnyLoc(inputRoot) && reparsed.Some? then RootOf(reparsed.value) else inputRoot
  }

  /** The highlight map. The re-parse of the text with locations is the
      parameter `reparsed` (None when it throws) and the textual search is
      the parameter `regex`. The result keeps the invariant, lists only
      graph columns when a graph is given, and highlights every reference
      and every output column the graph keeps. */
  method BuildColumnHighlightMap(sql: string, input: Input, graph: Option<Graph>, reparsed: Option<Input>,
                                 regex: (string, set<string>, string) -> seq<TextRange>)
    returns (result: Highlights)
    ensures HighlightInv(result)
    ensures graph.Some? ==> forall k :: k in result.entries ==> k in graph.value.columnNodes.entries
    ensures var root := HighlightRoot(input, reparsed);
      var refs := CollectColumnRefs(RootNodes(root));
      exists built: Highlights {:trigger HighlightInv(built)} ::
        && HighlightInv(built)
        && RefsHighlighted(built, refs, sql, regex, AliasMap(root), FindDefaultFrom(root), HasAnyLoc(root))
        && (root.Some? ==> AllOutputsHighlighted(built, root.value))
        && (forall k, x :: Shown(built, None, k, x) ==> Shown(result, graph, k, x))
    ensures forall k, x :: Listed(result, k, x) ==> Sourced(HighlightRoot(input, reparsed), k, x, sql, regex)
  {
    var root := HighlightRoot(input, reparsed);
    var built := HighlightAll(sql, root, regex);
    result := built;
    if graph.Some? {
      result := KeepGraphColumns(built, graph.value.columnNodes.entries.Keys);
    }
    FilterShows(built, result, graph);
    ghost var refs := CollectColumnRefs(RootNodes(root));
    assert && HighlightInv(built) && RefsHighlighted(built, refs, sql, regex, AliasMap(root), FindDefaultFrom(root), HasAnyLoc(root))
           && (root.Some? ==> AllOutputsHighlighted(built, root.value))
           && (forall k, x :: Shown(built, None, k, x) ==> Shown(result, graph, k, x));
  }

  /** Everything before the graph filter. */
  method HighlightAll(sql: string, root: Option<Stmt>, regex: (string, set<string>, string) -> seq<TextRange>)
    returns (result: Highlights)
    ensures HighlightInv(result)
    ensures RefsHighlighted(result, CollectColumnRefs(RootNodes(root)), sql, regex, AliasMap(root), FindDefaultFrom(root), HasAnyLoc(root))
    ensures root.Some? ==> AllOutputsHighlighted(result, root.value)
    ensures forall k, x :: Listed(result, k, x) ==> Sourced(root, k, x, sql, regex)
  {
    var aliasMap := ExtractAliasMap(root);
    var defaultFrom := FindDefaultFrom(root);
    var refs := CollectColumnRefs(RootNodes(root));
    var hasLoc := HasAnyLoc(root);
    result := Empty();
    result := HighlightRefs(sql, regex, result, refs, aliasMap, defaultFrom, hasLoc);
    ghost var afterRefs := result;
    result := HighlightOutputs(result, root);
    RefsHighlightedGrows(afterRefs, result, refs, sql, regex, aliasMap, defaultFrom, hasLoc);
  }

  /** Range `x` under column `k` comes from a column reference of `root` that
      resolves, or from a projected item of the root, a CTE or a FROM subquery. */
  ghost predicate Sourced(root: Option<Stmt>, k: string, x: TextRange, sql: string,
                          regex: (string, set<string>, string) -> seq<TextRange>) {
    || RefSourced(CollectColumnRefs(RootNodes(root)), k, x, sql, regex, AliasMap(root), FindDefaultFrom(root), HasAnyLoc(root))
    || (root.Some? && OutputSourced(root.value, k, x))
  }

  /** The filter keeps every highlight of a column the graph has. */
  lemma FilterShows(built: Highlights, result: Highlights, graph: Option<Graph>)
    requires graph.None? ==> result == built
    requires graph.Some? ==> forall k :: k in result.entries <==> k in built.entries && k in graph.value.columnNodes.entries.Keys
    requires graph.Some? ==> forall k :: k in result.entries ==> result.entries[k] == built.entries[k]
    ensures forall k, x :: Shown(built, None, k, x) ==> Shown(result, graph, k, x)
  {
  }
}

=== FILE: loc_tree.dfy ===
/** The syntax-tree reading of `src/parser/locResolver.ts`: source ranges
    of located nodes (`getNodeRange`), the column references of a statement
    (`collectColumnRefs`) and whether any node carries a location
    (`hasAnyLoc`). */
module LocTree {
  import opened Wrappers
  import opened Filters
  import opened SqlAst
  import opened LineIndex

  /** A highlight: start and end positions, and the offsets when known. */
  datatype TextRange = TextRange(start: TextPoint, end: TextPoint, startOffset: Option<int>, endOffset: Option<int>)

  // ---------------------------------------------------------------------
  // `getNodeRange`

  /** The range of a node's location. Positions present in the location are
      kept; a missing line or column of the start is 1, a missing end line is
      the start line and a missing end column is one past the start column. */
  function GetNodeRange(loc: Option<Loc>): (r: Option<TextRange>)
    ensures r.Some? <==> loc.Some? && loc.value.start.Some? && loc.value.end.Some?
    ensures r.Some? ==>
      var s, e := loc.value.start.value, loc.value.end.value;
      && r.value.startOffset == s.offset && r.value.endOffset == e.offset
      && (s.line.Some? ==> r.value.start.line == s.line.value)
      && (s.line.None? ==> r.value.start.line == 1)
      && (s.column.Some? ==> r.value.start.column == s.column.value)
      && (s.column.None? ==> r.value.start.column == 1)
      && (e.line.Some? ==> r.value.end.line == e.line.value)
      && (e.line.None? ==> r.value.end.line == r.value.start.line)
      && (e.column.Some? ==> r.value.end.column == e.column.value)
      && (e.column.None? ==> r.value.end.column == r.value.start.column + 1)
  {
    if loc.None? || loc.value.start.None? || loc.value.end.None? then None
    else
      var s, e := loc.value.start.value, loc.value.end.value;
      var line := s.line.GetOr(1);
      var column := s.column.GetOr(1);
      Some(TextRange(TextPoint(line, column), TextPoint(e.line.GetOr(line), e.column.GetOr(column + 1)), s.offset, e.offset))
  }

  // ---------------------------------------------------------------------
  // The nodes of a statement.

  /** The nodes of the tree that can carry a location: statements, projected
      items and column references. */
  datatype AstNode =
    | StmtNode(loc: Option<Loc>)
    | ItemNode(loc: Option<Loc>)
    | RefNode(table: string, column: string, loc: Option<Loc>)

  /** Every node reachable from a statement: its CTE bodies, FROM subqueries
      and ON conditions, projected items, WHERE condition and the following
      set-operation branch, and every expression below them. */
  function StmtNodes(s: Stmt): (ns: seq<AstNode>)
    ensures |ns| >= 1 && ns[0] == StmtNode(s.loc)
  {
    [StmtNode(s.loc)]
    + CtesNodes(s.ctes)
    + (match s.from case NoFrom => [] case FromItems(items) => FromNodes(items))
    + (match s.columns case NoColumns => [] case Columns(items) => SelectNodes(items))
    + OptExprNodes(s.where)
    + (if s.next.Some? then StmtNodes(s.next.value) else [])
  }

  function CtesNodes(cs: seq<Cte>): seq<AstNode> {
    if |cs| == 0 then []
    else
      CtesNodes(cs[..|cs| - 1])
      + (if cs[|cs| - 1].stmt.Some? then StmtNodes(cs[|cs| - 1].stmt.value) else [])
  }

  function FromNodes(items: seq<FromItem>): seq<AstNode> {
    if |items| == 0 then []
    else
      var item := items[|items| - 1];
      FromNodes(items[..|items| - 1])
      + (if item.subquery.Some? then StmtNodes(item.subquery.value) else [])
      + OptExprNodes(item.on)
  }

  function SelectNodes(items: seq<SelectItem>): seq<AstNode> {
    if |items| == 0 then []
    else SelectNodes(items[..|items| - 1]) + SelectItemNodes(items[|items| - 1])
  }

  function SelectItemNodes(item: SelectItem): (ns: seq<AstNode>)
    ensures |ns| >= 1 && ns[0] == ItemNode(item.loc)
  {
    [ItemNode(item.loc)] + ExprNodes(item.expr)
  }

  function OptExprNodes(e: Option<Expr>): seq<AstNode> {
    if e.Some? then ExprNodes(e.value) else []
  }

  function ExprNodes(e: Expr): seq<AstNode> {
    match e
    case ColumnRef(table, column, loc) => [RefNode(table, column, loc)]
    case BinaryExpr(_, left, right) => OptExprNodes(left) + OptExprNodes(right)
    case FunctionCall(args) =>
      if args.None? then []
      else (match args.value case ArgList(values) => ExprsNodes(values) case ArgValue(value) => OptExprNodes(value))
    case AggrFunc(arg) => OptExprNodes(arg)
    case Case(subject, arms) => OptExprNodes(subject) + ArmsNodes(arms)
    case Star => []
    case Subquery(ast) => StmtNodes(ast)
    case SingleQuoteString(_) => []
    case OtherExpr(_, children) => ExprsNodes(children)
  }

  function ExprsNodes(es: seq<Expr>): seq<AstNode> {
    if |es| == 0 then [] else ExprsNodes(es[..|es| - 1]) + ExprNodes(es[|es| - 1])
  }

  function ArmsNodes(arms: seq<CaseArm>): seq<AstNode> {
    if |arms| == 0 then []
    else ArmsNodes(arms[..|arms| - 1]) + ArmNodes(arms[|arms| - 1])
  }

  function ArmNodes(arm: CaseArm): seq<AstNode> {
    OptExprNodes(arm.cond) + OptExprNodes(arm.result)
  }

  /** The nodes of the root, none when there is no root. */
  function RootNodes(root: Option<Stmt>): seq<AstNode> {
    if root.None? then [] else StmtNodes(root.value)
  }

  // ---------------------------------------------------------------------
  // `collectColumnRefs` and `hasAnyLoc`

  function IsRef(): AstNode -> bool {
    (n: AstNode) => n.RefNode?
  }

  /** The column references of the root: exactly its `column_ref` nodes. */
  function CollectColumnRefs(nodes: seq<AstNode>): (refs: seq<AstNode>)
    ensures var ix := KeptIndices(nodes, IsRef());
      |refs| == |ix| && forall k :: 0 <= k < |refs| ==> refs[k] == nodes[ix[k]]
    ensures forall k :: 0 <= k < |refs| ==> refs[k].RefNode?
  {
    if |nodes| == 0 then []
    else
      var last := nodes[|nodes| - 1];
      KeptIndicesStep(nodes[..|nodes| - 1], last, IsRef());
      assert nodes[..|nodes| - 1] + [last] == nodes;
      CollectColumnRefs(nodes[..|nodes| - 1]) + (if last.RefNode? then [last] else [])
  }

  /** `hasAnyLoc`: some node of the root carries a location. */
  function HasAnyLoc(root: Option<Stmt>): bool {
    exists n :: n in RootNodes(root) && n.loc.Some?
  }

  /** Every column reference of the tree is collected, and only those. */
  lemma ColumnRefsExact(nodes: seq<AstNode>, n: AstNode)
    ensures n in CollectColumnRefs(nodes) <==> n in nodes && n.RefNode?
  {
    var ix := KeptIndices(nodes, IsRef());
    var refs := CollectColumnRefs(nodes);
    if n in nodes && n.RefNode? {
      var i :| 0 <= i < |nodes| && nodes[i] == n;
      var k :| 0 <= k < |ix| && ix[k] == i;
      assert refs[k] == n;
    }
  }

  /** A located column reference means the tree has locations. */
  lemma LocatedRefMeansLoc(root: Option<Stmt>, n: AstNode)
    requires n in CollectColumnRefs(RootNodes(root)) && n.loc.Some?
    ensures HasAnyLoc(root)
  {
    ColumnRefsExact(RootNodes(root), n);
  }

  /** The nodes of each projected item are among the nodes of the list. */
  lemma {:induction false} SelectNodesHas(items: seq<SelectItem>, i: int)
    requires 0 <= i < |items|
    ensures forall n :: n in SelectItemNodes(items[i]) ==> n in SelectNodes(items)
  {
    if i < |items| - 1 {
      SelectNodesHas(items[..|items| - 1], i);
    }
  }

  /** A column projected directly by the root is one of its column references. */
  lemma ProjectedRefCollected(s: Stmt, i: int)
    requires 0 <= i < |ColumnsOf(s)| && ColumnsOf(s)[i].expr.ColumnRef?
    ensures var e := ColumnsOf(s)[i].expr;
      RefNode(e.table, e.column, e.loc) in CollectColumnRefs(RootNodes(Some(s)))
  {
    var e := ColumnsOf(s)[i].expr;
    SelectNodesHas(s.columns.items, i);
    assert RefNode(e.table, e.column, e.loc) in SelectItemNodes(ColumnsOf(s)[i]);
    ColumnRefsExact(StmtNodes(s), RefNode(e.table, e.column, e.loc));
  }

  /** The column references of a later set-operation branch are collected
      with the head's. */
  lemma NextRefsCollected(s: Stmt, n: AstNode)
    requires s.next.Some? && n in CollectColumnRefs(RootNodes(s.next))
    ensures n in CollectColumnRefs(RootNodes(Some(s)))
  {
    ColumnRefsExact(StmtNodes(s.next.value), n);
    ColumnRefsExact(StmtNodes(s), n);
  }
}

=== FILE: set_ops.dfy ===
/** `src/parser/setOps.ts`: flattening a `_next` chain of UNION / INTERSECT /
    EXCEPT parts into a list of parts and the chain's operator. */
module SetOps {
  import opened Wrappers
  import opened SqlAst

  /** Consecutive elements of a chain are linked by `_next`, and only the last
      element has no `_next`. */
  lemma {:induction false} ChainStep(s: Stmt, i: nat)
    requires i < |Chain(s)|
    ensures Chain(s)[i].next.Some? <==> i + 1 < |Chain(s)|
    ensures i + 1 < |Chain(s)| ==> Chain(s)[i + 1] == Chain(s)[i].next.value
  {
    if i > 0 {
      ChainStep(s.next.value, i - 1);
    } else if s.next.Some? {
      assert Chain(s.next.value)[0] == s.next.value;
    }
  }

  /** The operator `collectSetChain` reports: the head's successor's `set_op`,
      defaulting to `union`; none for a statement that is not a chain. */
  function ChainOp(root: Stmt): Option<string> {
    if root.next.None? then None
    else if root.next.value.setOp != "" then Some(root.next.value.setOp)
    else Some("union")
  }

  /** Walks the chain once, stripping `_next` off every part. The operator is
      fixed at the first link: a non-empty string, once set, is never replaced. */
  method CollectSetChain(root: Stmt) returns (op: Option<string>, parts: seq<Stmt>)
    ensures |parts| == |Chain(root)|
    ensures forall i :: 0 <= i < |parts| ==> parts[i] == StripNext(Chain(root)[i])
    ensures forall i :: 0 <= i < |parts| ==> parts[i].next.None?
    ensures op == ChainOp(root)
    ensures op.None? <==> |parts| == 1
  {
    var chain := Chain(root);
    parts := [];
    op := None;
    var cur := Some(root);
    ghost var i := 0;
    while cur.Some?
      invariant 0 <= i <= |chain|
      invariant cur.Some? <==> i < |chain|
      invariant i < |chain| ==> cur == Some(chain[i])
      invariant |parts| == i
      invariant forall k :: 0 <= k < i ==> parts[k] == StripNext(chain[k])
      invariant op == if i == 0 then None else ChainOp(root)
      decreases |chain| - i
    {
      var c := cur.value;
      ChainStep(root, i);
      parts := parts + [StripNext(c)];
      if c.next.Some? && op.None? {
        op := Some(if c.next.value.setOp != "" then c.next.value.setOp else "union");
      }
      cur := c.next;
      i := i + 1;
    }
  }
}

=== FILE: sql_ast.dfy ===
/** The parts of the `node-sql-parser` syntax tree that the lineage code reads.
    A field the parser leaves `null`/`undefined` is `None` when the code tests
    it as an object and "" when it is a name (the parser never produces an
    empty name). Where the code tests a name, "" is falsy like the absent
    value; where it pastes an absent name into a template string,
    JavaScript writes `undefined` and the model writes nothing. */
module SqlAst {
  import opened Wrappers

  /** `loc.start` / `loc.end`: every part is read with `??`, so each may be absent. */
  datatype Point = Point(line: Option<int>, column: Option<int>, offset: Option<int>)
  datatype Loc = Loc(start: Option<Point>, end: Option<Point>)

  /** A SELECT statement. `next` is the parser's `_next` link to the following
      branch of a UNION/INTERSECT/EXCEPT chain, whose `set_op` names the operator. */
  datatype Stmt = Select(
    ctes: seq<Cte>,
    from: FromClause,
    columns: ColumnList,
    where: Option<Expr>,
    next: Option<Stmt>,
    setOp: string,
    loc: Option<Loc>)

  /** `ast.from`: absent (`null`) or an array of items. */
  datatype FromClause = NoFrom | FromItems(items: seq<FromItem>)

  /** `ast.columns`: absent or an array of projected items. */
  datatype ColumnList = NoColumns | Columns(items: seq<SelectItem>)

  /** The FROM items, `[]` when there is no FROM clause. */
  function FromOf(s: Stmt): seq<FromItem> {
    if s.from.FromItems? then s.from.items else []
  }

  /** The projected items, `[]` when there are none. */
  function ColumnsOf(s: Stmt): seq<SelectItem> {
    if s.columns.Columns? then s.columns.items else []
  }

  /** `WITH name AS (stmt)`: `cte.name.value` and `cte.stmt.ast`. */
  datatype Cte = Cte(name: string, stmt: Option<Stmt>)

  /** A FROM item: a table (`table`, `db`, `as`) or an inline subquery (`expr.ast`),
      with the JOIN kind and ON condition the parser attaches to joined items. */
  datatype FromItem = FromItem(
    table: string,
    db: string,
    alias: string,
    subquery: Option<Stmt>,
    join: string,
    on: Option<Expr>)

  /** A projected item: `expr` and `as`. */
  datatype SelectItem = SelectItem(expr: Expr, alias: string, loc: Option<Loc>)

  datatype Expr =
    | ColumnRef(table: string, column: string, loc: Option<Loc>)
    | BinaryExpr(operator: string, left: Option<Expr>, right: Option<Expr>)
    | FunctionCall(args: Option<FuncArgs>)
    | AggrFunc(argExpr: Option<Expr>)
    | Case(subject: Option<Expr>, arms: seq<CaseArm>)
    | Star
    | Subquery(ast: Stmt)
    | SingleQuoteString(value: string)
    /** Any other expression node (numbers, unary and cast nodes, ...); its
        sub-expressions are reachable only by a walk over every field. */
    | OtherExpr(kind: string, children: seq<Expr>)

  /** `function.args.value`: either a list or a single expression. */
  datatype FuncArgs = ArgList(values: seq<Expr>) | ArgValue(value: Option<Expr>)

  /** One `WHEN cond THEN result` (or `ELSE result`) arm of a CASE. */
  datatype CaseArm = CaseArm(cond: Option<Expr>, result: Option<Expr>)

  /** What the parser hands over: one statement, or an array of them. */
  datatype Input = Single(stmt: Stmt) | Many(stmts: seq<Stmt>)

  // ---------------------------------------------------------------------
  // The `_next` chain of a set operation.

  /** The statements of a set-operation chain, head first, following `_next`. */
  function Chain(s: Stmt): (c: seq<Stmt>)
    ensures |c| >= 1 && c[0] == s
    ensures s.next.None? <==> |c| == 1
  {
    [s] + if s.next.Some? then Chain(s.next.value) else []
  }

  /** A statement with its `_next` link removed: `const { _next, ...rest } = cur`. */
  function StripNext(s: Stmt): Stmt {
    s.(next := None)
  }

  // ---------------------------------------------------------------------
  // A size measure: set-operation parts are not sub-terms of the head
  // (the head part is the head itself without `_next`), so the recursive
  // walk terminates by size rather than by structure. Only the nested
  // statements the walk descends into are counted.

  function SizeStmt(s: Stmt): nat
    decreases s, 1
  {
    1 + SizeCtes(s, 0) + SizeFrom(s, 0) + SizeItems(s, 0)
    + (if s.next.Some? then SizeStmt(s.next.value) else 0)
  }

  function SizeCtes(s: Stmt, i: nat): nat
    decreases s, 0, |s.ctes| - i
  {
    if i >= |s.ctes| then 0
    else (if s.ctes[i].stmt.Some? then SizeStmt(s.ctes[i].stmt.value) else 0) + SizeCtes(s, i + 1)
  }

  function SizeFrom(s: Stmt, i: nat): nat
    decreases s, 0, |FromOf(s)| - i
  {
    if s.from.NoFrom? || i >= |s.from.items| then 0
    else
      var here := if s.from.items[i].subquery.Some? then SizeStmt(s.from.items[i].subquery.value) else 0;
      here + SizeFrom(s, i + 1)
  }

  function SizeItems(s: Stmt, i: nat): nat
    decreases s, 0, |ColumnsOf(s)| - i
  {
    if s.columns.NoColumns? || i >= |s.columns.items| then 0
    else
      var here := if s.columns.items[i].expr.Subquery? then SizeStmt(s.columns.items[i].expr.ast) else 0;
      here + SizeItems(s, i + 1)
  }

  lemma {:induction false} SizeCteBound(s: Stmt, j: nat, i: nat)
    requires j <= i < |s.ctes| && s.ctes[i].stmt.Some?
    ensures SizeStmt(s.ctes[i].stmt.value) <= SizeCtes(s, j)
    ensures SizeStmt(s.ctes[i].stmt.value) < SizeStmt(s)
    decreases i - j
  {
    if j < i { SizeCteBound(s, j + 1, i); } else { assert SizeCtes(s, 0) >= SizeCtes(s, j) by { SizeCtesMono(s, 0, j); } }
  }

  lemma {:induction false} SizeCtesMono(s: Stmt, j: nat, k: nat)
    requires j <= k
    ensures SizeCtes(s, j) >= SizeCtes(s, k)
    decreases k - j
  {
    if j < k { SizeCtesMono(s, j + 1, k); }
  }

  lemma {:induction false} SizeFromBound(s: Stmt, j: nat, i: nat)
    requires j <= i < |FromOf(s)| && FromOf(s)[i].subquery.Some?
    ensures SizeStmt(FromOf(s)[i].subquery.value) <= SizeFrom(s, j)
    ensures SizeStmt(FromOf(s)[i].subquery.value) < SizeStmt(s)
    decreases i - j
  {
    if j < i { SizeFromBound(s, j + 1, i); } else { SizeFromMono(s, 0, j); }
  }

  lemma {:induction false} SizeFromMono(s: Stmt, j: nat, k: nat)
    requires j <= k
    ensures SizeFrom(s, j) >= SizeFrom(s, k)
    decreases k - j
  {
    if j < k { SizeFromMono(s, j + 1, k); }
  }

  lemma {:induction false} SizeItemBound(s: Stmt, j: nat, i: nat)
    requires j <= i < |ColumnsOf(s)| && ColumnsOf(s)[i].expr.Subquery?
    ensures SizeStmt(ColumnsOf(s)[i].expr.ast) <= SizeItems(s, j)
    ensures SizeStmt(ColumnsOf(s)[i].expr.ast) < SizeStmt(s)
    decreases i - j
  {
    if j < i { SizeItemBound(s, j + 1, i); } else { SizeItemsMono(s, 0, j); }
  }

  lemma {:induction false} SizeItemsMono(s: Stmt, j: nat, k: nat)
    requires j <= k
    ensures SizeItems(s, j) >= SizeItems(s, k)
    decreases k - j
  {
    if j < k { SizeItemsMono(s, j + 1, k); }
  }

  /** Removing the link makes a statement smaller and changes nothing else it counts. */
  lemma StripNextSize(s: Stmt)
    ensures SizeStmt(StripNext(s)) + (if s.next.Some? then SizeStmt(s.next.value) else 0) == SizeStmt(s)
  {
    var t := StripNext(s);
    assert forall i :: SizeCtes(t, i) == SizeCtes(s, i) by {
      forall i ensures SizeCtes(t, i) == SizeCtes(s, i) { SizeCtesSame(s, t, i); }
    }
    assert forall i :: SizeFrom(t, i) == SizeFrom(s, i) by {
      forall i ensures SizeFrom(t, i) == SizeFrom(s, i) { SizeFromSame(s, t, i); }
    }
    assert forall i :: SizeItems(t, i) == SizeItems(s, i) by {
      forall i ensures SizeItems(t, i) == SizeItems(s, i) { SizeItemsSame(s, t, i); }
    }
  }

  lemma {:induction false} SizeCtesSame(s: Stmt, t: Stmt, i: nat)
    requires t.ctes == s.ctes
    ensures SizeCtes(t, i) == SizeCtes(s, i)
    decreases |s.ctes| - i
  {
    if i < |s.ctes| { SizeCtesSame(s, t, i + 1); }
  }

  lemma {:induction false} SizeFromSame(s: Stmt, t: Stmt, i: nat)
    requires t.from == s.from
    ensures SizeFrom(t, i) == SizeFrom(s, i)
    decreases |FromOf(s)| - i
  {
    if s.from.FromItems? && i < |s.from.items| { SizeFromSame(s, t, i + 1); }
  }

  lemma {:induction false} SizeItemsSame(s: Stmt, t: Stmt, i: nat)
    requires t.columns == s.columns
    ensures SizeItems(t, i) == SizeItems(s, i)
    decreases |ColumnsOf(s)| - i
  {
    if s.columns.Columns? && i < |s.columns.items| { SizeItemsSame(s, t, i + 1); }
  }

  /** Every part of a chain, with its link removed, is no larger than the head,
      and strictly smaller whenever the head has a link. */
  lemma {:induction false} SizeChainBound(s: Stmt, i: nat)
    requires i < |Chain(s)|
    ensures SizeStmt(StripNext(Chain(s)[i])) <= SizeStmt(s)
    ensures s.next.Some? ==> SizeStmt(StripNext(Chain(s)[i])) < SizeStmt(s)
    decreases s
  {
    StripNextSize(s);
    if i > 0 {
      SizeChainBound(s.next.value, i - 1);
      StripNextSize(s.next.value);
    }
  }
}

=== FILE: stacking.dfy ===
/** The vertical placement inside one layer of
    `assignPositionsWithTopologicalSort` (`src/parser/graphGeneratorcopy.ts`):
    the layer's nodes sorted by descending column count, then stacked top to
    bottom with a fixed padding and centred on y = 0, except that a lone node
    sits at y = 0. */
module Stacking {
  import opened GraphTypes
  import opened Layering

  const HorizontalSpacing := 400
  const BaseNodeHeight := 50
  const HeightPerColumn := 30
  const VerticalPadding := 70

  function Cols(n: TableNode): nat {
    |n.data.columns|
  }

  /** `calculateNodeHeight`. */
  function NodeHeight(n: TableNode): int {
    BaseNodeHeight + Cols(n) * HeightPerColumn
  }

  ghost predicate DistinctIds(s: seq<TableNode>) {
    forall i, j :: 0 <= i < j < |s| ==> s[i].id != s[j].id
  }

  // ---------------------------------------------------------------------
  // `layerNodes.sort((a, b) => b.data.columns.length - a.data.columns.length)`:
  // a stable sort (as `Array.prototype.sort` is) by descending column count.

  /** Puts `n` in front of the first node with at most as many columns. */
  function Insert(n: TableNode, s: seq<TableNode>): seq<TableNode> {
    if |s| == 0 || Cols(n) >= Cols(s[0]) then [n] + s
    else [s[0]] + Insert(n, s[1..])
  }

  function SortDesc(s: seq<TableNode>): seq<TableNode> {
    if |s| == 0 then [] else Insert(s[0], SortDesc(s[1..]))
  }

  ghost predicate SortedDesc(s: seq<TableNode>) {
    forall i, j :: 0 <= i < j < |s| ==> Cols(s[i]) >= Cols(s[j])
  }

  /** The nodes of `s` with `c` columns, in order. */
  function WithCols(s: seq<TableNode>, c: nat): seq<TableNode> {
    if |s| == 0 then [] else (if Cols(s[0]) == c then [s[0]] else []) + WithCols(s[1..], c)
  }

  lemma {:induction false} InsertPerm(n: TableNode, s: seq<TableNode>)
    ensures multiset(Insert(n, s)) == multiset(s) + multiset{n}
    decreases |s|
  {
    if |s| > 0 && Cols(n) < Cols(s[0]) {
      InsertPerm(n, s[1..]);
      assert s == [s[0]] + s[1..];
    }
  }

  lemma {:induction false} InsertSorted(n: TableNode, s: seq<TableNode>)
    requires SortedDesc(s)
    ensures SortedDesc(Insert(n, s))
    decreases |s|
  {
    if |s| > 0 && Cols(n) < Cols(s[0]) {
      InsertSorted(n, s[1..]);
      InsertPerm(n, s[1..]);
      var r := Insert(n, s[1..]);
      forall k | 0 <= k < |r|
        ensures Cols(s[0]) >= Cols(r[k])
      {
        assert r[k] in multiset(r);
        if r[k] != n {
          assert r[k] in multiset(s[1..]);
          var m :| 0 <= m < |s[1..]| && s[1..][m] == r[k];
          assert s[m + 1] == r[k];
        }
      }
    }
  }

  lemma {:induction false} InsertWithCols(n: TableNode, s: seq<TableNode>, c: nat)
    ensures WithCols(Insert(n, s), c) == (if Cols(n) == c then [n] else []) + WithCols(s, c)
    decreases |s|
  {
    var pn: seq<TableNode> := if Cols(n) == c then [n] else [];
    if |s| == 0 || Cols(n) >= Cols(s[0]) {
      var t := [n] + s;
      assert t[0] == n && t[1..] == s;
      assert WithCols(t, c) == pn + WithCols(t[1..], c);
    } else {
      var r := Insert(n, s[1..]);
      var t := [s[0]] + r;
      var p0: seq<TableNode> := if Cols(s[0]) == c then [s[0]] else [];
      assert t[0] == s[0] && t[1..] == r;
      assert WithCols(t, c) == p0 + WithCols(r, c);
      InsertWithCols(n, s[1..], c);
      assert WithCols(s, c) == p0 + WithCols(s[1..], c);
      assert p0 == [] || pn == [];
      assert p0 + (pn + WithCols(s[1..], c)) == pn + (p0 + WithCols(s[1..], c));
    }
  }

  /** The sort puts more columns first. */
  lemma {:induction false} SortDescSorted(s: seq<TableNode>)
    ensures SortedDesc(SortDesc(s))
    decreases |s|
  {
    if |s| > 0 {
      SortDescSorted(s[1..]);
      InsertSorted(s[0], SortDesc(s[1..]));
    }
  }

  /** The sort neither loses nor adds a node. */
  lemma {:induction false} SortDescPerm(s: seq<TableNode>)
    ensures multiset(SortDesc(s)) == multiset(s)
    decreases |s|
  {
    if |s| > 0 {
      SortDescPerm(s[1..]);
      InsertPerm(s[0], SortDesc(s[1..]));
      assert s == [s[0]] + s[1..];
    }
  }

  /** The sort is stable: nodes with the same column count keep their order. */
  lemma {:induction false} SortDescStable(s: seq<TableNode>, c: nat)
    ensures WithCols(SortDesc(s), c) == WithCols(s, c)
    decreases |s|
  {
    if |s| > 0 {
      SortDescStable(s[1..], c);
      InsertWithCols(s[0], SortDesc(s[1..]), c);
    }
  }

  lemma IdsCons(n: TableNode, s: seq<TableNode>)
    ensures Ids([n] + s) == {n.id} + Ids(s)
  {
    var t := [n] + s;
    forall x | x in Ids(t)
      ensures x in {n.id} + Ids(s)
    {
      var i :| 0 <= i < |t| && t[i].id == x;
      if i > 0 {
        assert s[i - 1] == t[i];
      }
    }
    forall x | x in Ids(s)
      ensures x in Ids(t)
    {
      var i :| 0 <= i < |s| && s[i].id == x;
      assert t[i + 1] == s[i];
    }
    assert t[0] == n;
  }

  /** The tail of a list with distinct ids has distinct ids and lacks the
      head's id. */
  lemma DistinctTail(s: seq<TableNode>)
    requires |s| > 0 && DistinctIds(s)
    ensures DistinctIds(s[1..]) && s[0].id !in Ids(s[1..])
  {
    var t := s[1..];
    forall i, j | 0 <= i < j < |t|
      ensures t[i].id != t[j].id
    {
      assert t[i] == s[i + 1] && t[j] == s[j + 1];
    }
    forall k | 0 <= k < |t|
      ensures t[k].id != s[0].id
    {
      assert t[k] == s[k + 1];
    }
  }

  /** A node in front of a list with distinct ids, none of them its own. */
  lemma DistinctCons(n: TableNode, s: seq<TableNode>)
    requires DistinctIds(s) && n.id !in Ids(s)
    ensures DistinctIds([n] + s)
  {
    var t := [n] + s;
    forall i, j | 0 <= i < j < |t|
      ensures t[i].id != t[j].id
    {
      assert t[j] == s[j - 1];
      if i > 0 {
        assert t[i] == s[i - 1];
      }
    }
  }

  lemma {:induction false} InsertIds(n: TableNode, s: seq<TableNode>)
    ensures Ids(Insert(n, s)) == Ids(s) + {n.id}
    decreases |s|
  {
    if |s| == 0 || Cols(n) >= Cols(s[0]) {
      IdsCons(n, s);
    } else {
      InsertIds(n, s[1..]);
      IdsCons(s[0], Insert(n, s[1..]));
      IdsCons(s[0], s[1..]);
      assert [s[0]] + s[1..] == s;
    }
  }

  lemma {:induction false} InsertDistinct(n: TableNode, s: seq<TableNode>)
    requires DistinctIds(s) && n.id !in Ids(s)
    ensures DistinctIds(Insert(n, s))
    decreases |s|
  {
    if |s| == 0 || Cols(n) >= Cols(s[0]) {
      DistinctCons(n, s);
    } else {
      DistinctTail(s);
      IdsCons(s[0], s[1..]);
      assert [s[0]] + s[1..] == s;
      InsertDistinct(n, s[1..]);
      InsertIds(n, s[1..]);
      DistinctCons(s[0], Insert(n, s[1..]));
    }
  }

  /** Sorting keeps the ids. */
  lemma {:induction false} SortDescIds(s: seq<TableNode>)
    ensures Ids(SortDesc(s)) == Ids(s)
    decreases |s|
  {
    if |s| > 0 {
      SortDescIds(s[1..]);
      InsertIds(s[0], SortDesc(s[1..]));
      IdsCons(s[0], s[1..]);
      assert [s[0]] + s[1..] == s;
    }
  }

  /** Sorting keeps distinct ids distinct. */
  lemma {:induction false} SortDescDistinct(s: seq<TableNode>)
    requires DistinctIds(s)
    ensures DistinctIds(SortDesc(s))
    decreases |s|
  {
    if |s| > 0 {
      DistinctTail(s);
      SortDescDistinct(s[1..]);
      SortDescIds(s[1..]);
      InsertDistinct(s[0], SortDesc(s[1..]));
    }
  }

  // ---------------------------------------------------------------------
  // The stack of one layer.

  /** The height of the nodes of `s` with a padding after each. */
  function Span(s: seq<TableNode>): int {
    if |s| == 0 then 0 else NodeHeight(s[0]) + VerticalPadding + Span(s[1..])
  }

  /** `totalLayerHeight`: the nodes' heights with a padding between each two. */
  function TotalHeight(s: seq<TableNode>): int {
    if |s| == 0 then 0 else Span(s) - VerticalPadding
  }

  /** The tops of the nodes of `s` stacked down from `y`. */
  function Tops(s: seq<TableNode>, y: int): (ys: seq<int>)
    ensures |ys| == |s|
  {
    if |s| == 0 then [] else [y] + Tops(s[1..], y + NodeHeight(s[0]) + VerticalPadding)
  }

  /** The `y` of each node of a sorted layer: 0 for a lone node, otherwise
      the stack started at `-totalLayerHeight / 2`. */
  function StackYs(s: seq<TableNode>): (ys: seq<int>)
    ensures |ys| == |s|
  {
    if |s| == 1 then [0] else Tops(s, (-TotalHeight(s)) / 2)
  }

  lemma {:induction false} SpanConcat(a: seq<TableNode>, b: seq<TableNode>)
    ensures Span(a + b) == Span(a) + Span(b)
    decreases |a|
  {
    if |a| == 0 {
      assert a + b == b;
    } else {
      SpanConcat(a[1..], b);
      assert (a + b)[1..] == a[1..] + b;
    }
  }

  /** Every node height plus a padding is even, so the halving of
      `totalLayerHeight` is exact. */
  lemma {:induction false} SpanEven(s: seq<TableNode>)
    ensures Span(s) % 2 == 0
    decreases |s|
  {
    if |s| > 0 {
      SpanEven(s[1..]);
      assert NodeHeight(s[0]) + VerticalPadding == 2 * (60 + 15 * Cols(s[0]));
    }
  }

  lemma TotalHeightEven(s: seq<TableNode>)
    ensures TotalHeight(s) % 2 == 0
  {
    if |s| > 0 {
      SpanEven(s);
      var q := Span(s) / 2;
      assert Span(s) == 2 * q;
      assert TotalHeight(s) == 2 * (q - 35);
    }
  }

  /** The `k`-th top lies the span of the nodes above it below `y`. */
  lemma {:induction false} TopsAt(s: seq<TableNode>, y: int, k: int)
    requires 0 <= k < |s|
    ensures Tops(s, y)[k] == y + Span(s[..k])
    decreases k
  {
    if k > 0 {
      TopsAt(s[1..], y + NodeHeight(s[0]) + VerticalPadding, k - 1);
      assert s[..k][1..] == s[1..][..k - 1];
      assert s[..k][0] == s[0];
    }
  }

  /** Each node of a stack of two or more starts its height plus one
      padding below the one above it. */
  lemma StackGap(s: seq<TableNode>, k: int)
    requires |s| >= 2 && 0 <= k < |s| - 1
    ensures StackYs(s)[k + 1] == StackYs(s)[k] + NodeHeight(s[k]) + VerticalPadding
  {
    var y := (-TotalHeight(s)) / 2;
    TopsAt(s, y, k);
    TopsAt(s, y, k + 1);
    assert s[..k + 1] == s[..k] + [s[k]];
    SpanConcat(s[..k], [s[k]]);
    assert [s[k]][1..] == [];
  }

  /** Nodes of one layer never overlap: a later node starts at least the
      earlier one's height plus one padding further down. */
  lemma {:induction false} StackSeparated(s: seq<TableNode>, j: int, k: int)
    requires 0 <= j < k < |s|
    ensures StackYs(s)[k] >= StackYs(s)[j] + NodeHeight(s[j]) + VerticalPadding
    decreases k - j
  {
    StackGap(s, k - 1);
    if j < k - 1 {
      StackSeparated(s, j, k - 1);
    }
  }

  /** A stack of two or more is centred on y = 0: the first top is at
      `-totalLayerHeight / 2` and the last bottom at `totalLayerHeight / 2`. */
  lemma StackCentred(s: seq<TableNode>)
    requires |s| >= 2
    ensures StackYs(s)[0] == -(TotalHeight(s) / 2)
    ensures StackYs(s)[|s| - 1] + NodeHeight(s[|s| - 1]) == TotalHeight(s) / 2
  {
    var n := |s|;
    TotalHeightEven(s);
    var y := (-TotalHeight(s)) / 2;
    assert y == -(TotalHeight(s) / 2);
    TopsAt(s, y, 0);
    assert s[..0] == [];
    TopsAt(s, y, n - 1);
    assert s == s[..n - 1] + [s[n - 1]];
    SpanConcat(s[..n - 1], [s[n - 1]]);
    assert [s[n - 1]][1..] == [];
  }

  // ---------------------------------------------------------------------
  // The body of the `Object.entries(layerGroups).forEach` callback.

  /** One layer: sort it, record every node's height and the layer's total,
      then record every node's `y`. `heights` and `ys` are
      `layerNodeHeights` and `verticalPositions`, shared by all layers. */
  method StackLayer(group: seq<TableNode>, heights: map<string, int>, ys: map<string, int>)
    returns (heights': map<string, int>, ys': map<string, int>)
    ensures heights'.Keys == heights.Keys + Ids(group) && ys'.Keys == ys.Keys + Ids(group)
    ensures forall id :: id in ys && id !in Ids(group) ==> ys'[id] == ys[id]
    ensures DistinctIds(group) ==>
      var sorted := SortDesc(group);
      forall k :: 0 <= k < |sorted| ==> sorted[k].id in ys' && ys'[sorted[k].id] == StackYs(sorted)[k]
  {
    var layerNodes := SortDesc(group);
    SortDescIds(group);
    if DistinctIds(group) {
      SortDescDistinct(group);
    }
    var total;
    heights', total := MeasureLayer(layerNodes, heights);
    ys' := PlaceLayer(layerNodes, heights', total, ys);
  }

  /** The first `forEach`: each node's height recorded under its id, and
      the heights summed with a padding between each two. */
  method MeasureLayer(layerNodes: seq<TableNode>, heights: map<string, int>)
    returns (heights': map<string, int>, total: int)
    ensures heights'.Keys == heights.Keys + Ids(layerNodes)
    ensures DistinctIds(layerNodes) ==>
      forall k :: 0 <= k < |layerNodes| ==> heights'[layerNodes[k].id] == NodeHeight(layerNodes[k])
    ensures total == TotalHeight(layerNodes)
  {
    heights' := heights;
    total := 0;
    var i := 0;
    assert layerNodes[..0] == [];
    while i < |layerNodes|
      invariant 0 <= i <= |layerNodes|
      invariant Measured(layerNodes, i, heights, heights', total)
    {
      var node := layerNodes[i];
      MeasureStep(layerNodes, i, heights, heights', total);
      heights' := heights'[node.id := NodeHeight(node)];
      total := total + NodeHeight(node) + VerticalPadding;
      i := i + 1;
    }
    assert layerNodes[..i] == layerNodes;
    if |layerNodes| > 0 {
      total := total - VerticalPadding;
    }
  }

  /** The first `forEach` after `i` nodes. */
  ghost predicate Measured(s: seq<TableNode>, i: int, heights: map<string, int>, heights': map<string, int>, total: int)
    requires 0 <= i <= |s|
  {
    && heights'.Keys == heights.Keys + Ids(s[..i])
    && total == Span(s[..i])
    && (DistinctIds(s) ==> forall k :: 0 <= k < i ==> heights'[s[k].id] == NodeHeight(s[k]))
  }

  lemma MeasureStep(s: seq<TableNode>, i: int, heights: map<string, int>, heights': map<string, int>, total: int)
    requires 0 <= i < |s| && Measured(s, i, heights, heights', total)
    ensures Measured(s, i + 1, heights, heights'[s[i].id := NodeHeight(s[i])], total + NodeHeight(s[i]) + VerticalPadding)
  {
    IdsStep(s, i);
    SpanStep(s, i);
  }

  lemma SpanStep(s: seq<TableNode>, i: int)
    requires 0 <= i < |s|
    ensures Span(s[..i + 1]) == Span(s[..i]) + NodeHeight(s[i]) + VerticalPadding
  {
    assert s[..i + 1] == s[..i] + [s[i]];
    SpanConcat(s[..i], [s[i]]);
    assert [s[i]][1..] == [];
  }

  /** The lone-node case, or the second `forEach`. */
  method PlaceLayer(layerNodes: seq<TableNode>, heights: map<string, int>, total: int, ys: map<string, int>)
    returns (ys': map<string, int>)
    requires Ids(layerNodes) <= heights.Keys && total == TotalHeight(layerNodes)
    requires DistinctIds(layerNodes) ==>
      forall k :: 0 <= k < |layerNodes| ==> heights[layerNodes[k].id] == NodeHeight(layerNodes[k])
    ensures ys'.Keys == ys.Keys + Ids(layerNodes)
    ensures forall id :: id in ys && id !in Ids(layerNodes) ==> ys'[id] == ys[id]
    ensures DistinctIds(layerNodes) ==>
      forall k :: 0 <= k < |layerNodes| ==> ys'[layerNodes[k].id] == StackYs(layerNodes)[k]
  {
    if |layerNodes| == 1 {
      ys' := ys[layerNodes[0].id := 0];
      IdsStep(layerNodes, 0);
      assert layerNodes[..1] == layerNodes && layerNodes[..0] == [];
    } else {
      ys' := StackDown(layerNodes, heights, (-total) / 2, ys);
    }
  }

  /** The second `forEach`: each node's `y` recorded under its id, stacking
      down from `y0`. */
  method StackDown(layerNodes: seq<TableNode>, heights: map<string, int>, y0: int, ys: map<string, int>)
    returns (ys': map<string, int>)
    requires Ids(layerNodes) <= heights.Keys
    requires DistinctIds(layerNodes) ==>
      forall k :: 0 <= k < |layerNodes| ==> heights[layerNodes[k].id] == NodeHeight(layerNodes[k])
    ensures ys'.Keys == ys.Keys + Ids(layerNodes)
    ensures forall id :: id in ys && id !in Ids(layerNodes) ==> ys'[id] == ys[id]
    ensures DistinctIds(layerNodes) ==>
      forall k :: 0 <= k < |layerNodes| ==> ys'[layerNodes[k].id] == Tops(layerNodes, y0)[k]
  {
    var y := y0;
    ys' := ys;
    var j := 0;
    assert layerNodes[..0] == [];
    while j < |layerNodes|
      invariant 0 <= j <= |layerNodes|
      invariant Stacked(layerNodes, j, y0, y, ys, ys')
    {
      var id := layerNodes[j].id;
      StackStep(layerNodes, j, heights, y0, y, ys, ys');
      ys' := ys'[id := y];
      y := y + heights[id] + VerticalPadding;
      j := j + 1;
    }
    assert layerNodes[..j] == layerNodes;
    forall k | 0 <= k < |layerNodes|
      ensures Tops(layerNodes, y0)[k] == y0 + Span(layerNodes[..k])
    {
      TopsAt(layerNodes, y0, k);
    }
  }

  /** The second `forEach` after `j` nodes. */
  ghost predicate Stacked(s: seq<TableNode>, j: int, y0: int, y: int, ys: map<string, int>, ys': map<string, int>)
    requires 0 <= j <= |s|
  {
    && ys'.Keys == ys.Keys + Ids(s[..j])
    && (forall id :: id in ys && id !in Ids(s[..j]) ==> ys'[id] == ys[id])
    && (DistinctIds(s) ==> y == y0 + Span(s[..j]))
    && (DistinctIds(s) ==> forall k :: 0 <= k < j ==> ys'[s[k].id] == y0 + Span(s[..k]))
  }

  lemma StackStep(s: seq<TableNode>, j: int, heights: map<string, int>, y0: int, y: int,
                  ys: map<string, int>, ys': map<string, int>)
    requires 0 <= j < |s| && Ids(s) <= heights.Keys
    requires DistinctIds(s) ==> heights[s[j].id] == NodeHeight(s[j])
    requires Stacked(s, j, y0, y, ys, ys')
    ensures s[j].id in heights
    ensures Stacked(s, j + 1, y0, y + heights[s[j].id] + VerticalPadding, ys, ys'[s[j].id := y])
  {
    IdsStep(s, j);
    assert s[j].id in Ids(s);
    StackedKeysStep(s, j, y, ys, ys');
    if DistinctIds(s) {
      SpanStep(s, j);
      StackedDistinctStep(s, j, y0, y, ys');
    }
  }

  /** Recording the `j`th node's `y` adds its id and keeps every other
      earlier entry. */
  lemma StackedKeysStep(s: seq<TableNode>, j: int, y: int, ys: map<string, int>, ys': map<string, int>)
    requires 0 <= j < |s|
    requires Ids(s[..j + 1]) == Ids(s[..j]) + {s[j].id}
    requires ys'.Keys == ys.Keys + Ids(s[..j])
    requires forall id :: id in ys && id !in Ids(s[..j]) ==> ys'[id] == ys[id]
    ensures ys'[s[j].id := y].Keys == ys.Keys + Ids(s[..j + 1])
    ensures forall id :: id in ys && id !in Ids(s[..j + 1]) ==> ys'[s[j].id := y][id] == ys[id]
  {
  }

  /** With distinct ids, recording the `j`th node's `y` keeps every earlier
      node's. */
  lemma StackedDistinctStep(s: seq<TableNode>, j: int, y0: int, y: int, ys': map<string, int>)
    requires 0 <= j < |s| && DistinctIds(s)
    requires forall k :: 0 <= k < j ==> s[k].id in ys' && ys'[s[k].id] == y0 + Span(s[..k])
    requires y == y0 + Span(s[..j])
    ensures forall k :: 0 <= k < j + 1 ==> ys'[s[j].id := y][s[k].id] == y0 + Span(s[..k])
  {
  }
}

=== FILE: strings.dfy ===
/** String operations the TypeScript code relies on: prefix tests,
    `String.prototype.replace` with a string pattern (first occurrence only),
    `trim` and the ASCII part of `toLowerCase`. */
module Strings {

  predicate IsPrefix(p: string, s: string) {
    |p| <= |s| && s[..|p|] == p
  }

  /** Does `pat` occur in `s` at index `i`? */
  predicate OccursAt(s: string, pat: string, i: nat) {
    i + |pat| <= |s| && s[i..i + |pat|] == pat
  }

  /** Index of the first occurrence of `pat` in `s` at or after `from`, as `indexOf` finds it. */
  function IndexOfFrom(s: string, pat: string, from: nat): (r: int)
    requires from <= |s|
    decreases |s| - from
    ensures -1 <= r <= |s|
    ensures r >= 0 ==> from <= r && OccursAt(s, pat, r)
    ensures r >= 0 ==> forall j :: from <= j < r ==> !OccursAt(s, pat, j)
    ensures r == -1 ==> forall j :: from <= j <= |s| ==> !OccursAt(s, pat, j)
  {
    if OccursAt(s, pat, from) then from
    else if from == |s| then -1
    else IndexOfFrom(s, pat, from + 1)
  }

  /** `s.replace(pat, "")`: removes the first occurrence of `pat`, wherever it is. */
  function RemoveFirst(s: string, pat: string): (r: string)
  {
    var i := IndexOfFrom(s, pat, 0);
    if i < 0 then s else s[..i] + s[i + |pat|..]
  }

  /** Removing a pattern that the string starts with strips exactly that prefix. */
  lemma RemoveFirstOfPrefixed(pat: string, rest: string)
    ensures RemoveFirst(pat + rest, pat) == rest
  {
    assert OccursAt(pat + rest, pat, 0) by { assert (pat + rest)[..|pat|] == pat; }
    assert (pat + rest)[|pat|..] == rest;
  }

  /** The characters `String.prototype.trim` removes: the white space
      characters (tab, vertical tab, form feed, space, no-break space, the
      byte order mark and the Unicode space separators) and the line
      terminators. */
  predicate IsSpace(c: char) {
    || c == '\t' || c == '\n' || c == '\U{000B}' || c == '\U{000C}' || c == '\r' || c == ' '
    || c == '\U{00A0}' || c == '\U{1680}' || '\U{2000}' <= c <= '\U{200A}'
    || c == '\U{2028}' || c == '\U{2029}' || c == '\U{202F}' || c == '\U{205F}'
    || c == '\U{3000}' || c == '\U{FEFF}'
  }

  function TrimStart(s: string): (r: string)
    ensures |r| <= |s| && (r != [] ==> !IsSpace(r[0]))
    ensures r == s[|s| - |r|..]
  {
    if s != [] && IsSpace(s[0]) then TrimStart(s[1..]) else s
  }

  function TrimEnd(s: string): (r: string)
    ensures |r| <= |s| && (r != [] ==> !IsSpace(r[|r| - 1]))
    ensures r == s[..|r|]
  {
    if s != [] && IsSpace(s[|s| - 1]) then TrimEnd(s[..|s| - 1]) else s
  }

  function Trim(s: string): string {
    TrimEnd(TrimStart(s))
  }

  /** A string with no white space at either end is left as it is. */
  lemma TrimNone(s: string)
    requires s != [] && !IsSpace(s[0]) && !IsSpace(s[|s| - 1])
    ensures Trim(s) == s
  {
  }

  function LowerChar(c: char): char {
    if 'A' <= c <= 'Z' then (c as int + 32) as char else c
  }

  function Lower(s: string): (r: string)
    ensures |r| == |s| && forall i :: 0 <= i < |s| ==> r[i] == LowerChar(s[i])
  {
    seq(|s|, i requires 0 <= i < |s| => LowerChar(s[i]))
  }

  /** The decimal digits of `n`, as a template literal `${n}` writes them. */
  function NatToString(n: nat): (r: string)
    ensures |r| >= 1
    ensures forall i :: 0 <= i < |r| ==> '0' <= r[i] <= '9'
  {
    var d := ['0', '1', '2', '3', '4', '5', '6', '7', '8', '9'][n % 10];
    if n < 10 then [d] else NatToString(n / 10) + [d]
  }
}

=== FILE: wrappers.dfy ===
/** Optional values and results, used wherever the TypeScript code returns
    `undefined`/`null` or throws. */
module Wrappers {

  datatype Option<+T> = None | Some(value: T) {
    function GetOr(default: T): T {
      match this
      case Some(v) => v
      case None => default
    }
  }

  /** The outcome of an operation that may throw a TypeError in the source. */
  datatype Result<+T> = Success(value: T) | Failure(error: string)
}
